=== FILE: README.md ===
# solr_powered, modelled in Dafny

solr_powered is a Ruby on Rails plugin that keeps ActiveRecord models
indexed in a Solr server and searches them. A model class declares its
indexed fields with `solr_attr` and `solr_assoc`. The plugin then:

- builds a Solr document for each saved record;
- sends documents to Solr from the record's create, update and destroy
  callbacks, directly or batched inside `SolrPowered.transaction`;
- re-indexes records of other classes that observe the changed record
  through an association;
- answers searches written in LQL, a small query language of templates
  with `?` placeholders. The results come back as Solr documents, their
  ids, or the ActiveRecord objects in Solr's ranking order.

A controller mixin turns request parameters into LQL. A dismax query
builder turns request parameters into a Solr select hash.

The model follows the Ruby files of the core. Each file under
`lib/solr_powered/` is one Dafny module. `lib/solr_powered.rb` is split
into `Lql` (escape_lucene and lql), `Batch` (the indexing buffer and
transaction), `Registry` (the index, observer and model registries) and
`Find` (the search). `Values` holds the Ruby core behaviour they share.
Process-wide
state that the source updates in place becomes a class whose methods are
proved against functions of the old state:

- the batching buffer and flags (`Batch.Indexer`);
- the index, observer and model registries (`Registry.Registry`);
- the HTTP client (`Client.Client`);
- the per-class index configuration (`ClassMethods.IndexedType`);
- the dismax query builder (`DismaxQuery.DismaxQuery`);
- the result collection (`Collection.Collection`);
- the controller's facet state (`ControllerMethods.Controller`).

Code that only computes a value is modelled as functions and lemmas. The
LQL compiler, the document reader and `find`'s grouping and re-ranking
are examples.

Ruby values are the datatype `Values.Value`:

- nil, booleans, integers, strings, symbols, times, arrays and hashes;
- a Ruby Hash is an insertion-ordered sequence of pairs;
- `Values` also defines the Ruby core behaviour the plugin relies on:
  `Hash#[]`, `Hash#[]=`, `merge`, `delete`, `Array#uniq`, `join`,
  `split`, `to_s`, `to_i`, `blank?` and `Kernel#Array`.

Exceptions are `Result` values. Each carries the Ruby exception class
the source raises: ArgumentError, RuntimeError, TypeError, NoMethodError,
or SolrResponseError for the client.

Solr itself is a parameter. The server is a function from a request to a
response (status and body). The clients of the index are also
parameters: how a record reads a method, how a class name is looked up,
what `klass.find` returns, and how dates are parsed and formatted.

## Model

| member | source | states |
|---|---|---|
| Lql.EscapeLucene | lib/solr_powered.rb:213-225 | the escaped term is never shorter than the term |
| Lql.EscapeLuceneRoundTrip | lib/solr_powered.rb:213-225 | removing one backslash before each escaped unit gives back the original term, so escaping loses nothing |
| Lql.EscapeLuceneIdentity | lib/solr_powered.rb:223-225 | a term is left unchanged exactly when it has no special character and no && or double-bar operator |
| Lql.EscapeLuceneOperators | lib/solr_powered.rb:213-225 | && and the double bar take one backslash as a unit; a lone & or bar is untouched; a special character such as ? takes one backslash |
| Lql.EscapeLuceneUnits | lib/solr_powered.rb:213-225 | a special character on its own takes one backslash, any other character is kept, and && and the double bar each take one backslash in front of the pair |
| Lql.EscapeLuceneAppend | lib/solr_powered.rb:213-225 | escaping a concatenation is escaping each piece, when the first piece does not end in & or a bar; with EscapeLuceneLeadingOperator, every term escapes unit by unit from the left |
| Lql.EscapeLuceneLeadingOperator | lib/solr_powered.rb:213-225 | a term starting with && or the double bar takes one backslash before the pair and the rest escapes on its own; a lone leading & or bar, not followed by a second one, is kept and the rest escapes on its own |
| Lql.EscapeLuceneExample | lib/solr_powered.rb:213-222 | the documented example (1+1):2 escapes to \\(1\\+1\\)\\:2 |
| Lql.SubstituteTemplate | lib/solr_powered.rb:182-194 | for a template without %, each ? is replaced in order by the next argument and the inserted text is never rescanned; with fewer arguments than ?s the call raises ArgumentError |
| Lql.CompileHashIsArray | lib/solr_powered.rb:196-203 | a Hash query compiles exactly as the Array query made of its template and its values |
| Lql.CompileShapes | lib/solr_powered.rb:176-206 | a String query comes back verbatim; an empty Array raises NoMethodError; any type other than String, Array and Hash raises RuntimeError |
| Lql.ArgCases | lib/solr_powered.rb:182-194 | a nil or empty argument matches everything (*:*); an Array argument is wrapped in parentheses; a non-empty String argument is escaped as escape_lucene says |
| Lql.HashTemplateCons | lib/solr_powered.rb:196-203 | the template of a non-empty Hash is its first field:? clause, then AND and the template of the rest |
| Lql.ClauseFormat | lib/solr_powered.rb:196-203 | one field:? clause consumes exactly one argument and leaves the rest of the template to the remaining arguments |
| Lql.CompileHash | lib/solr_powered.rb:196-203 | a Hash query compiles to one field:value clause per key, in key order, joined by AND, each value compiled as an Array argument |
| Lql.CompileNilArgument | lib/solr_powered.rb:182-194 | a nil value in a one-clause Hash matches every value of that field |
| Client.EscapeIsOnePass | lib/solr_powered/client.rb:57-59 | escaping & after URI.escape gives the same text as one pass that also treats & as unsafe |
| Client.EscapeRoundTrip | lib/solr_powered/client.rb:57-59 | percent-decoding an escaped value gives the UTF-8 bytes of its to_s |
| Client.EscapeHasNoAmpersand | lib/solr_powered/client.rb:57-59 | no escaped value contains &, so a value can never split the query string |
| Client.HtmlEscape | lib/solr_powered/client.rb:68-70 | an escaped field value contains no <, > or double quote |
| Client.HtmlRoundTrip | lib/solr_powered/client.rb:68-70 | un-escaping the four entities gives back the original field text |
| Client.StripBadChars | lib/solr_powered/client.rb:16-17 | the stripped body holds no control character except CR, LF and tab, and is no longer than the original |
| Client.StripIdentity | lib/solr_powered/client.rb:16-17 | stripping changes a body exactly when it holds a bad character |
| Client.StripIdempotent | lib/solr_powered/client.rb:142 | stripping twice is stripping once |
| Client.HashQueryRoundTrip | lib/solr_powered/client.rb:31-42 | splitting a Hash query on & and = gives every key once per scalar value and once per Array element, in order, each with the UTF-8 bytes of the value's to_s |
| Client.AttributesSplit | lib/solr_powered/client.rb:111-126 | commit and optimize attributes can be read back, pair by pair, by splitting on spaces |
| Client.Wire | lib/solr_powered/client.rb:129-142 | an update request's body is free of bad characters; a select request goes as it is |
| Client.Check | lib/solr_powered/client.rb:155-160 | a response succeeds exactly when its status is 200, and then yields the body; any other status raises SolrResponseError |
| Client.IssuedAllOk | lib/solr_powered/client.rb:61-94 | when every response succeeds, all requests of a call are sent and no error results |
| Client.IssuedStopsAt | lib/solr_powered/client.rb:61-94 | the first failing request is the last one sent, and its error is what the call raises |
| Client.Port | lib/solr_powered/client.rb:21 | the port is the :port option when it is truthy, else 8982 (the corrected reading) |
| Client.PortOptionIgnored | lib/solr_powered/client.rb:21 | as written, a :port option of 8080 is ignored and the port stays 8982; the corrected Port gives 8080 |
| Client.PortOptionRead | lib/solr_powered/client.rb:21 | on any options hash, setting :port decides the corrected port, and the reading as written is unchanged by it |
| Client.ListXmlFlat | lib/solr_powered/client.rb:67-68 | an Array field gives one field element per element, as the flattened key/value pairs say |
| Client.EntriesXmlFlat | lib/solr_powered/client.rb:66-72 | a document body has one field element per scalar value and one per element of each Array value, in order, the same pairs a select query sends |
| Client.Client.constructor | lib/solr_powered/client.rb:19-26 | host defaults to localhost, port to Port(options), path to solr; auto_commit defaults to true and keeps a given false; nothing is sent |
| Client.Client.Send | lib/solr_powered/client.rb:129-194 | exactly one request is recorded as sent, with its body stripped for updates, and the result is Check of the server's response; only the sent requests change |
| Client.Client.DeleteRequests | lib/solr_powered/client.rb:81-88 | no request for no ids; otherwise one delete per id, in order, then one commit when auto_commit is on |
| Client.Client.Select | lib/solr_powered/client.rb:28-55 | a query that is not a Hash, String or nil raises ArgumentError and sends nothing; any other query sends one select request with its query string and returns the checked response; only the sent requests change |
| Client.Client.QueryParts | lib/solr_powered/client.rb:31-42 | the key=value parts built entry by entry are the parts of the flattened pairs |
| Client.Client.AppendListParams | lib/solr_powered/client.rb:34-37 | one key=value part is appended per element of an Array value |
| Client.Client.Add | lib/solr_powered/client.rb:61-79 | the requests sent are a prefix of one add body plus a commit when auto_commit is on (none for no documents), stopping at the first failure, whose error is returned; only the sent requests change |
| Client.Client.AddBody | lib/solr_powered/client.rb:63-75 | the body built document by document is the add element of every document's fields |
| Client.Client.DocFields | lib/solr_powered/client.rb:65-73 | the field lines of one document are those of its flattened pairs |
| Client.Client.AppendListFields | lib/solr_powered/client.rb:67-68 | one field element is appended per element of an Array value |
| Client.Client.Delete | lib/solr_powered/client.rb:81-88 | the requests sent are DeleteRequests up to and including the first failure, whose error is returned; only the sent requests change |
| Client.Client.DeleteAll | lib/solr_powered/client.rb:90-94 | one query delete (a nil query deletes *:*) and a commit when auto_commit is on, up to the first failure; only the sent requests change |
| Client.Client.Commit | lib/solr_powered/client.rb:111-114 | exactly one commit request with the given attributes is sent, and its checked status is returned; only the sent requests change |
| Client.Client.Optimize | lib/solr_powered/client.rb:124-127 | exactly one optimize request with the given attributes is sent, and its checked status is returned; only the sent requests change |
| Batch.StepGet | lib/solr_powered.rb:286-307 | staging a document sets its solr_id in the add buffer and clears it from the delete buffer; deleting does the reverse; every other id is untouched |
| Batch.StepKeeps | lib/solr_powered.rb:286-307 | one step keeps both buffers duplicate-free, keyed by id, and disjoint |
| Batch.ApplyKeeps | lib/solr_powered.rb:286-307 | any run of adds and deletes keeps the buffers well-formed and disjoint |
| Batch.ApplyAppend | lib/solr_powered.rb:286-307 | staging two runs one after the other is staging their concatenation |
| Batch.LastTouchWins | lib/solr_powered.rb:286-307 | what the buffers hold for an id is decided by the last add or delete of that id alone; an id never touched keeps what it had |
| Batch.Staging | lib/solr_powered.rb:288-292 | step i of the buffer loop stages document i under its solr_id |
| Batch.Unstaging | lib/solr_powered.rb:300-303 | step i of the buffer loop unstages id i |
| Batch.Raised | lib/solr_powered.rb:271-284 | a block raises exactly when one of its operations raises before the block stops, and the exception is the first such operation's |
| Batch.PerformBatching | lib/solr_powered.rb:286-307 | while batching, an add or delete only updates the buffer and makes no client call |
| Batch.RunBatching | lib/solr_powered.rb:271-284 | while batching, a whole block only stages its touches and reports the first exception |
| Batch.TransactionFlushes | lib/solr_powered.rb:271-284 | a transaction always ends with empty buffers, batching off and its flags kept; a raising block makes no client call and re-raises; otherwise one client add of the staged documents, then, unless that add raised, one delete of the staged ids, with the first client exception returned; no flushed document is also deleted |
| Batch.DirectAddRaises | lib/solr_powered.rb:286-296 | outside a transaction a client add that raises ends the block with that exception after that one call |
| Batch.FlushDisjoint | lib/solr_powered.rb:277-302 | no document flushed by add has its id among the ids flushed by delete |
| Batch.CallbacksSkipped | lib/solr_powered.rb:246-254 | with auto_index off, record callbacks inside the block neither call the client, stage anything nor raise, even when building their documents would have raised |
| Batch.Indexer.constructor | lib/solr_powered.rb:42-48 | not batching, empty buffers, auto_index and auto_commit on, no client calls |
| Batch.Indexer.Add | lib/solr_powered.rb:286-296 | the new state and exception are Added of the old state: staged while batching, one client add otherwise, whose exception is returned |
| Batch.Indexer.Delete | lib/solr_powered.rb:298-307 | the new state and exception are Deleted of the old state: staged while batching, one client delete otherwise, whose exception is returned |
| Batch.Indexer.StageAll | lib/solr_powered.rb:288-303 | the each loop leaves the buffer as Apply of all its touches, in order |
| Batch.Indexer.StageOne | lib/solr_powered.rb:289-302 | one buffer update, as Step says |
| Batch.Indexer.RunBlock | lib/solr_powered.rb:250-276 | running a block gives the state and exception Run describes, stopping at the first exception |
| Batch.Indexer.PerformOne | lib/solr_powered.rb:246-307 | one operation of a block changes the state as Perform says and returns its exception |
| Batch.Indexer.Transaction | lib/solr_powered.rb:271-284 | the new state and exception are those Transacted describes (see TransactionFlushes) |
| Batch.Indexer.FlushBuffer | lib/solr_powered.rb:277-278 | the flush at the end of a block that did not raise: one add call, then one delete call unless the add raised, as Flushed says; only the calls change |
| Batch.Indexer.DisableAutoIndex | lib/solr_powered.rb:246-254 | the block runs with auto_index off, and auto_index is restored whether or not it raised |
| Batch.Indexer.SetAutoCommit | lib/solr_powered.rb:256-259 | both the client's flag and the module's flag take the new value |
| Batch.Indexer.DisableAutoCommit | lib/solr_powered.rb:261-269 | the block runs with auto_commit off, and auto_commit is restored whether or not it raised |
| Registry.IndexDefaults | lib/solr_powered.rb:473-482 | the definition add_index starts from names each option once |
| Registry.IndexConfigGet | lib/solr_powered.rb:473-488 | a given option wins; every other option keeps its default |
| Registry.SameOptionsMeans | lib/solr_powered.rb:489-499 | two definitions agree, as Hash#== says, exactly when every key maps alike, whatever the insertion order |
| Registry.WithIndexRaises | lib/solr_powered.rb:489-499 | add_index raises RuntimeError exactly when the name is taken by a definition that maps some option differently |
| Registry.WithIndexStores | lib/solr_powered.rb:501 | when add_index does not raise, the name maps to the merged definition and nothing else in the registries changes |
| Registry.WithIndexIdempotent | lib/solr_powered.rb:466-503 | registering the same field with the same options twice leaves the second call a no-op |
| Registry.WithObserverOutcome | lib/solr_powered.rb:521-523 | the observer goes last in its class's list; every other class's list is unchanged |
| Registry.GatheredAppend | lib/solr_powered.rb:509-519 | a class's own observers come before those of its ancestors |
| Registry.GatheredHas | lib/solr_powered.rb:509-519 | an observer is found exactly when it is registered under some name of the class chain |
| Registry.RegisteredObserverFound | lib/solr_powered.rb:509-523 | once registered, an observer is found for every class whose chain names its observed class |
| Registry.WithModelOutcome | lib/solr_powered.rb:234-236 | the model list gains the name at the end unless it is present, adding it twice is adding it once, and the list stays duplicate-free |
| Registry.Registry.constructor | lib/solr_powered.rb:70-92 | the index, observer and model registries start empty |
| Registry.Registry.AddIndex | lib/solr_powered.rb:466-503 | the outcome and the new indexes are WithIndex of the old ones (see WithIndexRaises and WithIndexStores) |
| Registry.Registry.AddObserver | lib/solr_powered.rb:521-523 | the new observers are WithObserver of the old ones |
| Registry.Registry.ObserversFor | lib/solr_powered.rb:509-519 | the observers found walking the class chain in order are Gathered of the chain |
| Registry.Registry.AddIndexedModel | lib/solr_powered.rb:234-236 | the new model list is WithModel of the old one |
| ClassMethods.IndexOptionsShape | lib/solr_powered/class_methods.rb:357-376 | index_options returns exactly the six known keys in their order, the caller's value where one is given and the default otherwise |
| ClassMethods.MisspeltKeyIgnored | lib/solr_powered/class_methods.rb:266-273 | the :muti_valued key that solr_assoc writes is not one that index_options reads |
| ClassMethods.MethodOfPair | lib/solr_powered/class_methods.rb:314 | the method pair solr_assoc registers reads the association, then the remote method |
| ClassMethods.DocumentMethodOutcome | lib/solr_powered/class_methods.rb:391-407 | a field that is already configured raises ArgumentError; otherwise it is appended with its method and every existing field is kept |
| ClassMethods.WithWatchedOutcome | lib/solr_powered/class_methods.rb:411-414 | the watched list stays duplicate-free, gains exactly the given names and keeps its order |
| ClassMethods.WithEagerIsUniq | lib/solr_powered/class_methods.rb:440-445 | the eager-load list grows as Array#uniq after appending, so it stays duplicate-free |
| ClassMethods.WithCallbackOutcome | lib/solr_powered/class_methods.rb:451-466 | the callback goes in front of the callbacks the hook already holds (a single one read as a list), or alone when it holds none; every other option is unchanged |
| ClassMethods.AttrOptionsGet | lib/solr_powered/class_methods.rb:192 | multi_valued reads false and every other option reads as index_options gives it, over the same keys in the same order |
| ClassMethods.AttrArgumentErrors | lib/solr_powered/class_methods.rb:177-190 | solr_attr's argument checks raise ArgumentError before anything is registered |
| ClassMethods.AttrStepOk | lib/solr_powered/class_methods.rb:193-197 | one name that passes both registrations is configured with its attribute and indexed with the attribute options |
| ClassMethods.AttrFieldsOk | lib/solr_powered/class_methods.rb:193-197 | when the loop completes, the existing fields are kept and every name is a field read by its attribute and indexed with the attribute options |
| ClassMethods.AttrFieldsAppend | lib/solr_powered/class_methods.rb:193-197 | when the loop completes, the fields are the old ones followed by one entry per name, in the names' order, each the field name with its attribute |
| ClassMethods.AttrStepFields | lib/solr_powered/class_methods.rb:194-196 | one name that passes both registrations appends exactly its one field entry and keeps the registries valid |
| ClassMethods.AttrDefinedOk | lib/solr_powered/class_methods.rb:175-201 | when solr_attr completes, every name is a field read by that attribute and indexed with the attribute options, the class is powered and the names are watched |
| ClassMethods.AttrSingleValued | lib/solr_powered/class_methods.rb:192 | whatever the caller passed, an attribute index is single valued |
| ClassMethods.Downcase | lib/solr_powered/class_methods.rb:323-325 | the result has the same length and no ASCII capital; each capital becomes the small letter at the same place in the alphabet and every other character is kept |
| ClassMethods.DowncaseIdempotent | lib/solr_powered/class_methods.rb:323-325 | downcasing twice is downcasing once |
| ClassMethods.AssocRefused | lib/solr_powered/class_methods.rb:257-264 | an undefined association, or one of an unsupported kind, raises RuntimeError before anything changes |
| ClassMethods.AssocMultiValued | lib/solr_powered/class_methods.rb:266-310 | as written, an association index takes the caller's :multi_valued when given, else false whatever the association's kind, because the kind-based guess is stored under a misspelt key |
| ClassMethods.HasManyIndexedSingle | lib/solr_powered/class_methods.rb:266-273 | as written, a has_many association indexed without :multi_valued is single-valued |
| ClassMethods.AssocMultiValuedIntended | lib/solr_powered/class_methods.rb:266-273 | with the guess stored under :multi_valued, an association index takes the caller's value when given, else true for has_many and has_and_belongs_to_many and false for belongs_to and has_one |
| ClassMethods.IndexOptionsMultiValued | lib/solr_powered/class_methods.rb:357-376 | index_options keeps the caller's :multi_valued and defaults it to false, and repeats no key |
| ClassMethods.AssocObservedOk | lib/solr_powered/class_methods.rb:318-339 | the registered observer watches the given attributes or the remote method, and returns through the given or the guessed association |
| ClassMethods.AssocIndexedOk | lib/solr_powered/class_methods.rb:308-314 | registering an association's field stores its index under the field name and makes the field read the remote method through the association, leaving the observers alone |
| ClassMethods.AssocDefinedOk | lib/solr_powered/class_methods.rb:251-352 | when solr_assoc completes, the field reads the remote method through the association, the index holds the association's options, the observer is registered, the association is eager-loaded and the class is powered |
| ClassMethods.IndexedType.constructor | lib/solr_powered/class_methods.rb:38-43 | a class starts with no fields, nothing watched, no eager loads, not powered and no save conditions |
| ClassMethods.IndexedType.SolrSaveIf | lib/solr_powered/class_methods.rb:82-88 | the if-condition is set and nothing else changes |
| ClassMethods.IndexedType.SolrSaveUnless | lib/solr_powered/class_methods.rb:110-116 | the unless-condition is set and nothing else changes |
| ClassMethods.IndexedType.BuildIndexOptions | lib/solr_powered/class_methods.rb:357-376 | the options filled in one default at a time are those IndexOptions describes |
| ClassMethods.IndexedType.AddSolrDocumentMethod | lib/solr_powered/class_methods.rb:391-407 | the outcome and the new fields are those DocumentMethod describes |
| ClassMethods.IndexedType.AddSolrObservedAttributes | lib/solr_powered/class_methods.rb:411-414 | the watched list becomes WithWatched of the old one |
| ClassMethods.IndexedType.AddSolrEagerLoadedAssociation | lib/solr_powered/class_methods.rb:440-445 | the eager-load list becomes WithEager of the old one |
| ClassMethods.IndexedType.AddSolrObserverToAssociation | lib/solr_powered/class_methods.rb:416-436 | the observer is built for the association and registered, or the association's kind raises RuntimeError |
| ClassMethods.IndexedType.SolrAttr | lib/solr_powered/class_methods.rb:175-201 | the outcome and the new class and registry state are those AttrDefined describes |
| ClassMethods.IndexedType.AttrLoop | lib/solr_powered/class_methods.rb:193-197 | the per-name loop gives the state and outcome AttrFields describes, stopping at the first error |
| ClassMethods.IndexedType.AttrOne | lib/solr_powered/class_methods.rb:194-196 | one name: add_index, then add_solr_document_method, as AttrStep says |
| ClassMethods.IndexedType.SolrAssoc | lib/solr_powered/class_methods.rb:251-352 | the outcome and new state are those AssocDefined describes, and the association callbacks are added exactly for a supported association |
| ClassMethods.IndexedType.RegisterAssoc | lib/solr_powered/class_methods.rb:310-352 | solr_assoc from add_index onwards, as AssocRegistered says |
| ClassMethods.IndexedType.IndexAssoc | lib/solr_powered/class_methods.rb:310-314 | add_index then add_solr_document_method for the association field |
| ClassMethods.IndexedType.ObserveAssoc | lib/solr_powered/class_methods.rb:318-352 | solr_assoc from the observer onwards, as AssocObserved says |
| InstanceMethods.SolrId | lib/solr_powered/instance_methods.rb:12-14 | every solr_id starts with the record's class name followed by a dash, with the key after it |
| InstanceMethods.SaveableMeans | lib/solr_powered/instance_methods.rb:50-69 | a record is saveable exactly when its class is powered, its if-condition (when set) holds and its unless-condition (when set) does not |
| InstanceMethods.IndexValuesOne | lib/solr_powered/instance_methods.rb:101-110 | a one-element list of values is indexed exactly as its one value is |
| InstanceMethods.IndexValuesMeans | lib/solr_powered/instance_methods.rb:91-110 | every indexed value comes from one of the field's values; none is nil, empty or a time; every value that is neither blank nor a time is indexed, and false in particular is kept |
| InstanceMethods.FillGet | lib/solr_powered/instance_methods.rb:82-112 | after the loop a configured field holds its indexed values, and any other key keeps what it had |
| InstanceMethods.FieldValuesMeans | lib/solr_powered/instance_methods.rb:84-92 | a field's values raise exactly when the attribute's send raises, the method is an empty Array (TypeError), the association's send raises or some member's send raises, with the first such exception; otherwise an attribute gives its value (its members when an Array) and an association one value per member, in order |
| InstanceMethods.SendEachMeans | lib/solr_powered/instance_methods.rb:89 | sending the remote method to each member succeeds exactly when no member's send raises, giving one value per member in order; otherwise it raises the first member's exception |
| InstanceMethods.FillFails | lib/solr_powered/instance_methods.rb:82-112 | the loop fails exactly when some configured field's values raise, and then with the exception of the first such field |
| InstanceMethods.DocumentShape | lib/solr_powered/instance_methods.rb:75-114 | a built document holds solr_id, solr_type and one list per configured field, even an empty one |
| InstanceMethods.AssociationValues | lib/solr_powered/instance_methods.rb:84-89 | an association field whose association send returns nil is an empty list; one record gives its one value, or the exception its send raises |
| InstanceMethods.BuildDocument | lib/solr_powered/instance_methods.rb:75-114 | the document built field by field is the one SolrDocument describes, or the exception of the first field whose values raise |
| InstanceMethods.CollectIndexValues | lib/solr_powered/instance_methods.rb:101-110 | the inner loop gives exactly IndexValues of the field's values |
| InstanceMethods.SavedDocsFails | lib/solr_powered/instance_methods.rb:128-178 | collecting fails exactly when some saveable record's document cannot be built |
| InstanceMethods.SavedDocsMembers | lib/solr_powered/instance_methods.rb:128-178 | a document is collected exactly when some saveable record yields it |
| InstanceMethods.SaveableAmong | lib/solr_powered/instance_methods.rb:128-134 | the records kept are exactly the saveable ones among the referrers |
| InstanceMethods.SavedDocsInOrder | lib/solr_powered/instance_methods.rb:128-134 | the collected documents are those of the saveable records, one per record, in the records' order |
| InstanceMethods.ObserverDocsAppend | lib/solr_powered/instance_methods.rb:128-134 | collecting for two runs of observers is collecting for the first, then the second |
| InstanceMethods.FiringMeans | lib/solr_powered/instance_methods.rb:170-178 | on update, the reacting observers are those whose watched attributes include a changed one; when none fires, nothing is collected |
| InstanceMethods.SymbolsNeverFire | lib/solr_powered/instance_methods.rb:146-178 | observed attributes given as Symbols never match the changed names, which are Strings, so such an observer never reacts to an update |
| InstanceMethods.CollectSaved | lib/solr_powered/instance_methods.rb:128-134 | the saveable records' documents among the referrers, one record at a time, as SavedDocs says |
| InstanceMethods.CollectObserverDocs | lib/solr_powered/instance_methods.rb:128-202 | the observer loop gives exactly ObserverDocs: every observer after create and destroy, only the firing ones after update |
| InstanceMethods.SaveOutcome | lib/solr_powered/instance_methods.rb:30-41 | solr_save raises exactly when the class is unpowered (RuntimeError) or the record is saveable and its document cannot be built (that exception); the record's one document is added exactly when it is saveable and its document can be built; its solr_id is deleted exactly when its class is powered and it is not saveable |
| InstanceMethods.UpdateOutcome | lib/solr_powered/instance_methods.rb:141-184 | after an update, the record's id is deleted exactly when it is powered and not saveable; its document is re-added exactly when it is saveable and a watched attribute changed; the reacting observers' documents are always added |
| InstanceMethods.CreateOutcome | lib/solr_powered/instance_methods.rb:120-137 | create indexes exactly when the record's document (if it is saveable) and the observers' documents can be built; it then adds the record's document first, then the observers' documents, and deletes nothing; otherwise the callback raises the first exception |
| InstanceMethods.DestroyOutcome | lib/solr_powered/instance_methods.rb:192-212 | destroy raises exactly when an observer's documents cannot be collected, and otherwise re-adds those documents and deletes the record's solr_id exactly when its class is powered |
| InstanceMethods.NilReferrerRaises | lib/solr_powered/instance_methods.rb:84-134 | an observer whose return association send returns nil makes the callback raise NoMethodError, while the same nil association read as a document field gives an empty list |
| InstanceMethods.SolrSave | lib/solr_powered/instance_methods.rb:30-41 | the operation handed to the indexer is the one SaveOutcome describes |
| InstanceMethods.AutoSolrCreate | lib/solr_powered/instance_methods.rb:120-137 | the operation handed to the indexer is the create operation, which CreateOutcome describes |
| InstanceMethods.OwnDocuments | lib/solr_powered/instance_methods.rb:122-126 | the record's own part of the documents is its built document when it is wanted, the exception building it raised, or nothing |
| InstanceMethods.AutoSolrUpdate | lib/solr_powered/instance_methods.rb:141-184 | the operation handed to the indexer is the one UpdateOutcome describes |
| InstanceMethods.AutoSolrDestroy | lib/solr_powered/instance_methods.rb:192-212 | the operation handed to the indexer is the destroy operation, which DestroyOutcome describes |
| Document.First | lib/solr_powered/document.rb:88 | first exists exactly on lists, strings and hashes: a non-empty list gives its first element and a string at most its first character; on any other value the call raises |
| Document.PlainName | lib/solr_powered/document.rb:40 | a key without a trailing ? names itself |
| Document.QuestionMarkIgnored | lib/solr_powered/document.rb:40-44 | a boolean-style key with a trailing ? reads the same field as the key without it, and solr_id? reads the solr_id through the shortcut |
| Document.UnknownFieldsRaise | lib/solr_powered/document.rb:48-63 | every name other than solr_id goes to the registry: an unregistered name, id, klass_name, klass and score included, raises ArgumentError, and so does a field that is not stored |
| Document.MissingFieldDefault | lib/solr_powered/document.rb:80-86 | a stored field the document lacks reads as [] when multi-valued and as nil otherwise |
| Document.PresentFieldValue | lib/solr_powered/document.rb:88-96 | a stored field the document has reads as its whole list when multi-valued, else as its first element, turned into a time when that element matches the stamp pattern |
| Document.TimeRoundTrip | lib/solr_powered/document.rb:92-96 | a time indexed as its stamp text reads back as the same time from a single-valued date field |
| Document.SolrIdRoundTrip | lib/solr_powered/document.rb:7-28 | id and klass_name undo solr_id for a class name with no dash and a non-negative integer key |
| Collection.PagesFor | lib/solr_powered/collection.rb:32-35 | the page count is total divided by per_page, rounded up: (pages - 1) * per_page < total <= pages * per_page |
| Collection.PreviousOf | lib/solr_powered/collection.rb:24-26 | the previous page is one less, or nil on the first page |
| Collection.NextOf | lib/solr_powered/collection.rb:28-30 | the next page is one more, or nil on the last page |
| Collection.NextThenPrevious | lib/solr_powered/collection.rb:24-30 | stepping forward then back returns to the same page |
| Collection.OutOfBoundsMeans | lib/solr_powered/collection.rb:16-35 | a page is past the last page exactly when its offset is at or beyond the total number of entries |
| Collection.Collection.constructor | lib/solr_powered/collection.rb:9-14 | the collection keeps the documents, page, page size and total, and its page count follows the total |
| Collection.Collection.SetTotalEntries | lib/solr_powered/collection.rb:32-35 | setting the total also sets the page count as PagesFor says |
| Collection.Collection.OutOfBounds | lib/solr_powered/collection.rb:16-18 | the page is past the page count exactly when OutOfBoundsMeans says |
| Collection.Collection.Offset | lib/solr_powered/collection.rb:20-22 | the offset is (page - 1) * per_page |
| Collection.Collection.PreviousPage | lib/solr_powered/collection.rb:24-26 | the previous page, as PreviousOf says |
| Collection.Collection.NextPage | lib/solr_powered/collection.rb:28-30 | a next page exists exactly when the current page is before the page count, which is exactly when the entries go past the current page; it is the current page plus one |
| Find.FormatOf | lib/solr_powered.rb:315-330 | a format other than active_record, document, hash, ids or nil raises ArgumentError; the field list is solr_id,score exactly for active_record |
| Find.PositiveOption | lib/solr_powered.rb:356-369 | a blank option means the default; a given one is accepted only when its to_i is positive, else ArgumentError |
| Values.StrToIUnderscore | lib/solr_powered.rb:356-358 | to_i reads two runs of digits joined by one underscore as the digits run together, so "1_000" is 1000 |
| Values.StrToIExamples | lib/solr_powered.rb:356-358 | to_i gives 10 for "1_0", 1 for "1__0" (two underscores end the number) and -12 for "-0d12" (the decimal prefix is skipped) |
| Find.PositiveOptionMeans | lib/solr_powered.rb:356-369 | an integer option is accepted exactly when positive, a string exactly when its to_i is, and text that is not a number reads as 0 and raises |
| Find.FacetSelect | lib/solr_powered.rb:338-349 | the facet entries are added exactly when :facets is given, each key once |
| Find.FacetSelectFields | lib/solr_powered.rb:338-349 | with :facets given, faceting is on for exactly the given fields, with limit -1 and no missing or zero counts |
| Find.SearchParams | lib/solr_powered.rb:372-385 | the entries merged into the select hash are q, start, rows, sort, wt and fl, in that order, each once |
| Find.SelectForPaging | lib/solr_powered.rb:372-385 | the request asks for page-size rows starting at (page - 1) * page size |
| Find.SelectForQuery | lib/solr_powered.rb:378-385 | the request carries the compiled query, the caller's sort and the format's field list |
| Find.SelectForFacets | lib/solr_powered.rb:338-349 | the request asks for facets exactly when :facets is given |
| Find.SortedIds | lib/solr_powered.rb:405-416 | sorted_ids are the documents' solr_ids in ranking order |
| Find.GroupedUnique | lib/solr_powered.rb:413-419 | each class name appears once in ids_by_klass |
| Find.GroupedGet | lib/solr_powered.rb:413-419 | grouping loses and invents nothing: each class's group holds exactly the ids with that class name, in ranking order |
| Find.SolrIdParts | lib/solr_powered.rb:411-425 | for a class name with no dash and an integer key, the class name grouping reads from a solr_id is the record's class and the record id it gives back is the key's decimal text |
| Find.LoadedFails | lib/solr_powered.rb:422-429 | loading fails exactly when some class name cannot be resolved or some class's find raises |
| Find.IndexOf | lib/solr_powered.rb:436 | the position where an id first appears among the sorted ids, if it does |
| Find.SortByRankMeans | lib/solr_powered.rb:436 | the reordered records are the loaded records, each as often, ordered by the rank of their solr_ids |
| Find.Reordered | lib/solr_powered.rb:436 | the reorder raises ArgumentError exactly when some loaded records have a rank among the sorted ids and others have none; otherwise the records are sorted by rank and are the loaded records, each as often |
| Find.IdItems | lib/solr_powered.rb:397-402 | the ids format fails exactly when some document's solr_id is not a list, string or hash (so `first` raises; an empty list reads as nil), and otherwise gives one item per document, its solr_id's first element |
| Find.IdItemsIndexed | lib/solr_powered.rb:397-402 | for documents indexed by solr_powered, the ids format gives back every record's solr_id, in the documents' order |
| Find.SearchRejects | lib/solr_powered.rb:315-369 | an unknown format, or a page or page size that is given but not a positive integer, raises ArgumentError before anything is sent |
| Find.SearchFound | lib/solr_powered.rb:356-452 | a successful search reports a positive page and page size (1 and 10 when not given) and carries facet counts exactly when facets were asked for |
| Find.SearchPaging | lib/solr_powered.rb:356-447 | the page and page size reported are those the options give |
| Find.SearchParts | lib/solr_powered.rb:356-447 | a successful search reports the page and page size its options give and facet counts exactly when facets were asked for |
| Find.SearchPage | lib/solr_powered.rb:372-452 | once the format and paging are accepted, a successful search reports that page and page size and carries facet counts exactly when :facets is given |
| Find.RecordsRanked | lib/solr_powered.rb:405-436 | in the active_record format every item is a record, the records come in the search's ranking order, and they are the loaded records, each as often |
| Find.GroupIds | lib/solr_powered.rb:405-419 | the docs loop gives sorted_ids and ids_by_klass, or the exception a bad solr_id raises |
| Find.AddId | lib/solr_powered.rb:416-417 | ids_by_klass grown by one id is the grouping of the ids with that id appended |
| Find.LoadGroups | lib/solr_powered.rb:422-429 | one find per class, the records gathered in group order, as Loaded says |
| Find.Find | lib/solr_powered.rb:309-456 | the outcome is the one Search describes (see SearchRejects, SearchFound, RecordsRanked) |
| Find.RecordItems | lib/solr_powered.rb:405-436 | the active_record branch: group, load, reorder, as Records says |
| ControllerMethods.FieldEnd | lib/solr_powered/controller_methods.rb:47-49 | the lazy field group stops at the first dash that has text after it, else at the end |
| ControllerMethods.SplitKey | lib/solr_powered/controller_methods.rb:47-49 | a key has no match exactly when it is empty, so only the empty key has a nil field |
| ControllerMethods.SplitKeyMeans | lib/solr_powered/controller_methods.rb:47-49 | a key splits at its first dash that is neither its first nor its last character, and the parts joined by that dash give the key back |
| ControllerMethods.SplitKeyRoundTrip | lib/solr_powered/controller_methods.rb:47-49 | a field with no dash after its first character and a non-empty suffix come back apart |
| ControllerMethods.Converted | lib/solr_powered/controller_methods.rb:61-69 | a value for a field that is not a date is kept as it is; a date field's value becomes a date string (a time's stamp, anything else parsed), or the parse error |
| ControllerMethods.Bounds | lib/solr_powered/controller_methods.rb:91-95 | splitting a range on its comma always gives exactly two bounds, lower and upper |
| ControllerMethods.KindOf | lib/solr_powered/controller_methods.rb:72-108 | a suffix selects the raising case exactly when it is given and is none of min, max, range, begins-with and in |
| ControllerMethods.ClausesAppend | lib/solr_powered/controller_methods.rb:45-111 | the clauses of a hash are those of its first part followed by those of the rest |
| ControllerMethods.SkipsUnsearchable | lib/solr_powered/controller_methods.rb:51-56 | a key whose field is not searchable contributes nothing: the query is as if the key were absent |
| ControllerMethods.ClauseBalanced | lib/solr_powered/controller_methods.rb:74-104 | every clause shape has a ? for each of its arguments |
| ControllerMethods.JoinBalanced | lib/solr_powered/controller_methods.rb:113 | joining balanced clauses with AND gives a template with one ? per argument |
| ControllerMethods.TemplateBalanced | lib/solr_powered/controller_methods.rb:113-114 | the template has one ? per argument and no %, and *:* has neither |
| ControllerMethods.HashToLqlCompiles | lib/solr_powered/controller_methods.rb:113-114 | when no parameter key and not the operator contains ? or %, and every -in group text has one ? per value and no %, the final lql call never fails: hash_to_lql then raises exactly when building some clause raises (an unknown suffix or a date that cannot be parsed) |
| ControllerMethods.OneHole | lib/solr_powered.rb:182-194 | a template with one ? between plain text compiles to that text around the argument |
| ControllerMethods.Single | lib/solr_powered/controller_methods.rb:113-114 | a one-key hash compiles as its one clause would on its own |
| ControllerMethods.OneHoleClause | lib/solr_powered/controller_methods.rb:113-114 | a one-key hash whose clause has one ? between plain text compiles to that text around the value |
| ControllerMethods.DefaultFieldShape | lib/solr_powered/controller_methods.rb:74-77 | a plain key on the default search field gives the bare value |
| ControllerMethods.FieldShape | lib/solr_powered/controller_methods.rb:78-81 | a plain key on any other field gives field:value |
| ControllerMethods.MinShape | lib/solr_powered/controller_methods.rb:83-85 | -min gives the range from the value up |
| ControllerMethods.MaxShape | lib/solr_powered/controller_methods.rb:87-89 | -max gives the range up to the value |
| ControllerMethods.BeginsWithShape | lib/solr_powered/controller_methods.rb:97-99 | -begins-with gives a prefix match on the value |
| ControllerMethods.UnknownSuffixRaises | lib/solr_powered/controller_methods.rb:106-107 | a suffix outside the six known ones raises as soon as the key has a value to compile |
| ControllerMethods.EmptyMatchesAll | lib/solr_powered/controller_methods.rb:113-114 | with no clauses the query matches everything |
| ControllerMethods.AddValues | lib/solr_powered/controller_methods.rb:58-110 | the values loop of one key appends exactly that key's clause texts and arguments |
| ControllerMethods.AddEntry | lib/solr_powered/controller_methods.rb:45-111 | one pass of the each_pair loop appends a searchable key's clauses and nothing for any other key |
| ControllerMethods.CompileParams | lib/solr_powered/controller_methods.rb:38-116 | the loops give exactly the query HashToLql describes |
| ControllerMethods.SortFor | lib/solr_powered/controller_methods.rb:10-16 | the sort is the caller's, else the request's, else by score for a text search, else the caller's default |
| ControllerMethods.QueryFor | lib/solr_powered/controller_methods.rb:18-24 | the query is the caller's :query when given; with neither a query nor a parameter hash it matches everything |
| ControllerMethods.FindOptionsGet | lib/solr_powered/controller_methods.rb:26-34 | find gets the chosen sort, the request's page, 10 per page by default, and the facets as a list |
| ControllerMethods.SolrFindRequest | lib/solr_powered/controller_methods.rb:10-34 | the request sorts as SortFor says and always asks for facets, since an empty facet list is still a true value |
| ControllerMethods.SolrFindPageSize | lib/solr_powered/controller_methods.rb:32 | a successful search shows 10 results per page unless the caller gives a page size |
| ControllerMethods.Controller.Search | lib/solr_powered/controller_methods.rb:8-36 | the request parameters are unchanged; the facets become the requested list once the query is chosen, and stay as they were when choosing it raises; the outcome is the find SolrFind describes |
| DismaxQuery.NonBlank | lib/solr_powered/dismax_query.rb:170-172 | a member is kept exactly when it is not blank |
| DismaxQuery.NonBlankUnit | lib/solr_powered/dismax_query.rb:170-172 | a one-member array keeps its member exactly when it is not blank |
| DismaxQuery.NonBlankAppend | lib/solr_powered/dismax_query.rb:170-172 | deleting blanks from a concatenation deletes them from each part, so the kept members stay in order and keep their repeats |
| DismaxQuery.FilterEmptyClean | lib/solr_powered/dismax_query.rb:164-177 | after filtering no entry is blank |
| DismaxQuery.CleanFromUnchanged | lib/solr_powered/dismax_query.rb:164-177 | a hash with nothing blank is left as it is |
| DismaxQuery.FilterEmptyIdempotent | lib/solr_powered/dismax_query.rb:164-177 | filtering twice is filtering once |
| DismaxQuery.FilterEmptyGet | lib/solr_powered/dismax_query.rb:164-177 | a key survives filtering exactly when its filtered value is not blank, and then it holds that value |
| DismaxQuery.DeleteBlanks | lib/solr_powered/dismax_query.rb:170-172 | the loop deleting blank members gives NonBlank of the array |
| DismaxQuery.FilterEmptyParams | lib/solr_powered/dismax_query.rb:164-177 | filtering pass by pass gives FilterEmpty of the hash |
| DismaxQuery.MergeNonBlankGet | lib/solr_powered/dismax_query.rb:179-184 | a knob with a non-blank value is found with that value; any other key keeps what it had |
| DismaxQuery.PageOf | lib/solr_powered/dismax_query.rb:196-204 | a page parameter whose to_i is positive gives that page; a missing one, or one whose to_i is not positive, gives 1; a to_i that raises is returned |
| DismaxQuery.PerPageOf | lib/solr_powered/dismax_query.rb:206-214 | an allowed page size is kept; a missing or disallowed one gives the first allowed size, or nil when none is allowed; a to_i that raises is returned |
| DismaxQuery.Paging | lib/solr_powered/dismax_query.rb:194-217 | the page and page size are those PageOf and PerPageOf give; their exceptions come through, page first; a missing page size raises TypeError |
| DismaxQuery.SortName | lib/solr_powered/dismax_query.rb:224-231 | the sort name is the parameter when it names a sort, else the default |
| DismaxQuery.FilterFor | lib/solr_powered/dismax_query.rb:255-257 | an id field's value becomes its integer, or the error to_i raises; every value is then escaped after field:; a field not ending in id keeps its value as it is |
| DismaxQuery.FieldFiltersMeans | lib/solr_powered/dismax_query.rb:248-259 | a field gives one filter per value, each that value's own filter, or the first error |
| DismaxQuery.ParamFiltersIndexed | lib/solr_powered/dismax_query.rb:239-265 | every filter comes from a parameter that names a registered index and reads field:... |
| DismaxQuery.ParamFiltersAppend | lib/solr_powered/dismax_query.rb:239-265 | the filters of a hash are those of its first part followed by those of the rest |
| DismaxQuery.SkipsUnindexed | lib/solr_powered/dismax_query.rb:243-246 | a parameter naming no registered index is skipped: the filters are as if it were absent |
| DismaxQuery.PastPaging | lib/solr_powered/dismax_query.rb:222-278 | after the paging step only sort, fq and the four facet keys are written |
| DismaxQuery.BuildOk | lib/solr_powered/dismax_query.rb:146-162 | a successful build is the computed hash with the static entries merged over it |
| DismaxQuery.StaticWins | lib/solr_powered/dismax_query.rb:280-282 | the static entries set with []= override whatever the pipeline computed |
| DismaxQuery.BuildGet | lib/solr_powered/dismax_query.rb:280-282 | a key the static entries leave alone keeps its computed value |
| DismaxQuery.FacetsKeep | lib/solr_powered/dismax_query.rb:271-278 | the facet step leaves every key but its own four alone |
| DismaxQuery.ComputedPaging | lib/solr_powered/dismax_query.rb:216-217 | start is the first row of the page and rows is the page size |
| DismaxQuery.ComputedSort | lib/solr_powered/dismax_query.rb:233 | sort is the clause of the chosen sort name |
| DismaxQuery.ComputedFilters | lib/solr_powered/dismax_query.rb:267-269 | fq is the fixed filters followed by the parameter filters |
| DismaxQuery.FacetedGet | lib/solr_powered/dismax_query.rb:271-278 | non-blank facets set facet true, facet.field, facet.limit -1 and facet.mincount 1 |
| DismaxQuery.ComputedScoring | lib/solr_powered/dismax_query.rb:179-184 | a scoring parameter is present exactly when its setting is not blank, and then holds that setting |
| DismaxQuery.BuildPaging | lib/solr_powered/dismax_query.rb:194-217 | unless overridden, rows is an allowed size and start is the rows before a page from the first on |
| DismaxQuery.BuildSort | lib/solr_powered/dismax_query.rb:222-235 | unless overridden, sort holds the clause of the sort the request names, or of the default sort |
| DismaxQuery.BuildFilters | lib/solr_powered/dismax_query.rb:239-269 | unless overridden, fq is the fixed filters followed by one field:value filter per value of each parameter naming an index |
| DismaxQuery.BuildFacets | lib/solr_powered/dismax_query.rb:271-278 | unless overridden, non-blank facets switch faceting on with no limit and a minimum count of one |
| DismaxQuery.BuildScoring | lib/solr_powered/dismax_query.rb:179-184 | unless overridden, a scoring parameter is sent exactly when its setting is not blank, and with that setting |
| DismaxQuery.BuildCrumbs | lib/solr_powered/dismax_query.rb:186-259 | a search adds the crumb q when there is a query, then one field name per filter, each a registered index |
| DismaxQuery.BuildFails | lib/solr_powered/dismax_query.rb:146-162 | a search fails exactly when paging or a parameter filter raises, paging first |
| DismaxQuery.DismaxQuery.constructor | lib/solr_powered/dismax_query.rb:22-121 | dismax with mm 100%, ps 20, qs 100 and tie 0.1, the other knobs nil; no fixed filters; the relevancy sort as default; page sizes 10, 25 and 50; no facets, static entries or crumbs |
| DismaxQuery.DismaxQuery.SetStatic | lib/solr_powered/dismax_query.rb:123-129 | the value is stored under the key's text, so a symbol and its string read it back and every other key is unchanged |
| DismaxQuery.DismaxQuery.ApplyScoringModifiers | lib/solr_powered/dismax_query.rb:179-184 | every non-blank knob is merged into the select hash under its parameter |
| DismaxQuery.DismaxQuery.ApplySearchTerms | lib/solr_powered/dismax_query.rb:186-191 | q is copied and crumbed when given; otherwise nothing changes |
| DismaxQuery.DismaxQuery.ApplyPagingOptions | lib/solr_powered/dismax_query.rb:194-219 | start and rows of the requested page are set, or the Paging error is returned and nothing changes |
| DismaxQuery.DismaxQuery.ApplySortingOptions | lib/solr_powered/dismax_query.rb:222-235 | sort is set to the clause of the requested sort, or of the default |
| DismaxQuery.DismaxQuery.ParseParamFilters | lib/solr_powered/dismax_query.rb:239-265 | one field:value filter and one crumb per value of each parameter that names an index, or the first error |
| DismaxQuery.DismaxQuery.EntryFilterTexts | lib/solr_powered/dismax_query.rb:243-260 | one parameter adds the filter texts and crumbs of its values when it names an index, nothing otherwise, or stops at the first error |
| DismaxQuery.NextFilter | lib/solr_powered/dismax_query.rb:256-258 | one value's filter is for that field and continues the field's filters in order, or the error converting an id value raised |
| DismaxQuery.DismaxQuery.ApplyFilters | lib/solr_powered/dismax_query.rb:267-269 | fq is set to the fixed filters followed by the parameter filters |
| DismaxQuery.DismaxQuery.ApplySimpleFacets | lib/solr_powered/dismax_query.rb:271-278 | faceting is switched on for the facet fields when there are any |
| DismaxQuery.DismaxQuery.ApplySelect | lib/solr_powered/dismax_query.rb:280-282 | the static entries are merged over the select hash |
| DismaxQuery.DismaxQuery.PrepareSelect | lib/solr_powered/dismax_query.rb:146-155 | the parameters are filtered and kept, then scoring, search terms and paging applied, as Prepared says |
| DismaxQuery.DismaxQuery.FinishSelect | lib/solr_powered/dismax_query.rb:156-161 | sort, parameter filters, fq, facets and static entries applied, as Finished says |
| DismaxQuery.DismaxQuery.BuildSelect | lib/solr_powered/dismax_query.rb:146-162 | the select hash returned is the one Build describes, crumbs grow by the ones it names, and a raising step returns its exception |

## Left out

- HTTP transport, timeouts and logging (client.rb:129-194): a request goes to a server function; only the status check and the body are modelled.
- `responds?`, `Time.now` and anything read from the clock: not modelled; times are values.
- `Time.parse` and `strftime`: date parsing and formatting are parameters.
- The `eval` of the Ruby-format response (solr_powered.rb:387): the response is taken as an already parsed record.
- `constantize`, `klass.find` and `reflect_on_association`: parameters of the operations that use them.
- The ActiveRecord callback wiring (class_methods.rb:45-52, 460-464): the callbacks are operations handed to the indexer, not hooks on a record class.
- `solr_reindex` (class_methods.rb:130-173): batch re-indexing over the database is not modelled.
- `preload_models` and `add_model_path` (solr_powered.rb:111-137): they load files from disk.
- `solr_method` (class_methods.rb:218-242): not modelled; `solr_attr` and `solr_assoc` cover document fields.
- The text of the `-in` group in `hash_to_lql`: it comes from a parameter function, because it uses date and list formatting left out above.
- Collection.PagesFor: the source's float ceiling is replaced by integer ceiling division.
- Collection.Collection.constructor: requires a positive page size. With a page size of 0 the float division in the source gives Infinity or NaN, and `.ceil` on either raises FloatDomainError (collection.rb:34), so that error path is not modelled.
- The dismax tie breaker `0.1` is carried as the string "0.1", since floating point is not modelled.
- init.rb, the generator and transaction_wrapper.rb: outside the core.
- Thread safety of the class variables: there is no concurrency in the model.
- `URI.escape` and `ERB::Util.h`: modelled for UTF-8 text without Unicode normalisation.
- Ruby Hash order: insertion order, as `seq` of pairs.
- The `^`, `$` and newline behaviour of Ruby regular expressions: keys are assumed to be one line, and Document.IsoStamp requires the whole stored value to be a stamp, where Ruby's `^...$` would also accept a stamp on one line of a longer value.
- Client.Client.constructor: the port is read from `:port`, the corrected reading; the source reads `:post` (see Findings, where Client.PortAsWritten models the source as written).
- InstanceMethods.SolrId and InstanceMethods.SaveableMeans: reading the primary key and calling a save condition's method or block are taken never to raise. Only the sends solr_document makes and the observers' return-association sends can raise in the model.
- ClassMethods.AssocIndexedOk, ClassMethods.AssocDefinedOk and ClassMethods.IndexedType.IndexAssoc: the multi-valued guess is stored under `:multi_valued`, the corrected reading; the source writes `:muti_valued` (see Findings, where ClassMethods.AssocMultiValued models it as written).
- Values.ToS: `to_s` of nil, booleans, integers, strings and symbols is Ruby's; an Array renders as `[a, b]` with each member's own `to_s` and a Hash as `{k=>v}`, which is neither Ruby 1.8's concatenation nor Ruby 1.9's `inspect`; a Time renders as its stamp text rather than `Time#to_s`.
- Lql.Format: only the `%s` and `%%` directives of Ruby's `format` are modelled; any other directive raises ArgumentError in the model.
- ControllerMethods.HashToLqlCompiles: a parameter key or operator holding `?` or `%`, or an `-in` group whose text does not have one `?` per value or holds `%`, makes the template and its arguments disagree, so lql can raise ArgumentError after every clause was built, or put the arguments in the wrong places (for example the default search field `a?` with the key `a?-min` and the value `x`); the lemma states the no-failure property only without such text.
- Ruby version: hashes keep insertion order, as in Ruby 1.9 and later. The unescaped `[` inside escape_lucene's character class (solr_powered.rb:224) is read as a literal member of the class, as the comment above it lists; Ruby regular expression engines differ in how they read it.
- `sort_by` is not stable in Ruby; the model's insertion sort keeps equal ranks in load order.
- `find` mutates the caller's options hash (solr_powered.rb:348): the model passes options by value.
- `Time#to_i` and `Symbol#to_i`: not modelled; `to_i` is defined on strings, integers and nil only.
- The Collection accessors response, facets and crumbs: plain fields, not modelled as members.
- `DismaxQuery#find` (dismax_query.rb:131-136): it only calls `find` with the built hash, which Find models.
- The dismax `filter_query` setting is assumed to be an Array, and sort names are strings only.
- `HashWithIndifferentAccess`: symbol and string keys are the same text in the model.
- The `attr_accessor` setters (the client's host=, port= and path=, solr_powered.rb:154-170): plain field updates, not modelled as members.
- The dismax builder's params and select start as empty hashes instead of nil.
- The nine dismax knobs (`query_type` through `boost_functions`) are held as one ordered hash keyed by their parameter names.
- DismaxQuery.DismaxQuery.BuildSelect: when a step raises, only that the crumbs can only grow is stated, not their exact value.
- `Document#to_param`, `Document#klass` and the memoisation of `solr_type`: not modelled.

## Findings

| source | as written | input that shows it | evidently intended | confidence | as-written member | corrected member |
|---|---|---|---|---|---|---|
| lib/solr_powered/client.rb:21 | the port is read from options[:post], so a :port option is ignored | Client.new(port: 8080) connects on 8982 | read options[:port] | high, not executed | Client.PortOptionIgnored | Client.Port |
| lib/solr_powered/class_methods.rb:266-273 | the kind-based guess is stored under :muti_valued, which index_options never reads, so every association index is single-valued unless the caller says otherwise | solr_assoc :comments on a has_many association indexes comments as single-valued | store the guess under :multi_valued | high, not executed | ClassMethods.HasManyIndexedSingle | ClassMethods.AssocMultiValuedIntended |

=== FILE: batch.dfy ===
/**
 * The write path of SolrPowered (lib/solr_powered.rb): add and delete
 * either forward to the client at once or, inside a transaction, stage
 * documents and ids in two ordered hashes that are flushed when the block
 * finishes.  The auto_index and auto_commit switches are saved and
 * restored around a block.
 *
 * The client is represented by the calls made on it, in order; what the
 * client does with them is the Client module.
 */
module Batch {
  import opened Values

  /** A call SolrPowered makes on its client. */
  datatype Call =
    | AddCall(docs: seq<Entries>)     // client.add(*docs)
    | DeleteCall(ids: seq<Value>)     // client.delete(*ids)
    | AutoCommitCall(on: bool)        // client.auto_commit = on

  /** The solr_id a document is staged under. */
  function DocId(doc: Entries): Value {
    Lookup(doc, "solr_id")
  }

  /** @@add (documents keyed by solr_id) and @@remove (ids mapped to true). */
  datatype Buffer = Buffer(adds: seq<(Value, Entries)>, removes: seq<(Value, bool)>)

  const Empty := Buffer([], [])

  /** No id is both staged for adding and for removal; hashes have unique keys. */
  ghost predicate Disjoint(b: Buffer) {
    UniqueKeys(b.adds) && UniqueKeys(b.removes) &&
    forall k :: HasKey(b.adds, k) ==> !HasKey(b.removes, k)
  }

  /** Every staged document sits under its own solr_id. */
  predicate KeyedById(b: Buffer) {
    forall i :: 0 <= i < |b.adds| ==> b.adds[i].0 == DocId(b.adds[i].1)
  }

  /** One staging step: a document added, or an id deleted, while batching. */
  datatype Touch = Staged(doc: Entries) | Unstaged(id: Value)

  function TouchId(t: Touch): Value {
    match t
    case Staged(doc) => DocId(doc)
    case Unstaged(id) => id
  }

  lemma PutEntries<K(!new), V>(h: seq<(K, V)>, k: K, v: V)
    ensures forall e :: e in Put(h, k, v) ==> e in h || e == (k, v)
  {
    if h != [] && h[0].0 != k {
      PutEntries(h[1..], k, v);
    }
  }

  lemma RemoveEntries<K(!new), V>(h: seq<(K, V)>, k: K)
    ensures forall e :: e in Remove(h, k) ==> e in h
  {
    if h != [] {
      RemoveEntries(h[1..], k);
    }
  }

  /**
   * add while batching stores the document under its id and drops the id
   * from @@remove; delete does the reverse.
   */
  function Step(b: Buffer, t: Touch): Buffer {
    match t
    case Staged(doc) => Buffer(Put(b.adds, DocId(doc), doc), Remove(b.removes, DocId(doc)))
    case Unstaged(id) => Buffer(Remove(b.adds, id), Put(b.removes, id, true))
  }

  ghost predicate WellFormed(b: Buffer) {
    Disjoint(b) && KeyedById(b)
  }

  /** A step sets its own id as the source says and leaves every other id alone. */
  lemma StepGet(b: Buffer, t: Touch, k: Value)
    ensures k != TouchId(t) ==>
              Get(Step(b, t).adds, k) == Get(b.adds, k) && Get(Step(b, t).removes, k) == Get(b.removes, k)
    ensures k == TouchId(t) && t.Staged? ==>
              Get(Step(b, t).adds, k) == Some(t.doc) && !HasKey(Step(b, t).removes, k)
    ensures k == TouchId(t) && t.Unstaged? ==>
              !HasKey(Step(b, t).adds, k) && Get(Step(b, t).removes, k) == Some(true)
  {
    match t
    case Staged(doc) => PutGet(b.adds, DocId(doc), doc, k);
    case Unstaged(id) => PutGet(b.removes, id, true, k);
  }

  lemma StepKeeps(b: Buffer, t: Touch)
    requires WellFormed(b)
    ensures WellFormed(Step(b, t))
  {
    var r := Step(b, t);
    match t
    case Staged(doc) =>
      var id := DocId(doc);
      PutKeepsUnique(b.adds, id, doc);
      RemoveKeepsUnique(b.removes, id);
      PutEntries(b.adds, id, doc);
      forall k | HasKey(r.adds, k)
        ensures !HasKey(r.removes, k)
      {
        if k != id {
          assert HasKey(b.adds, k);
        }
      }
      forall i | 0 <= i < |r.adds|
        ensures r.adds[i].0 == DocId(r.adds[i].1)
      {
        assert r.adds[i] in b.adds || r.adds[i] == (id, doc);
      }
    case Unstaged(id) =>
      RemoveKeepsUnique(b.adds, id);
      PutKeepsUnique(b.removes, id, true);
      RemoveEntries(b.adds, id);
      forall k | HasKey(r.adds, k)
        ensures !HasKey(r.removes, k)
      {
        assert HasKey(b.adds, k);
      }
      forall i | 0 <= i < |r.adds|
        ensures r.adds[i].0 == DocId(r.adds[i].1)
      {
        assert r.adds[i] in b.adds;
      }
  }

  /** The buffer after a sequence of staging steps, applied in order. */
  function Apply(b: Buffer, ts: seq<Touch>): Buffer {
    if ts == [] then b else Step(Apply(b, ts[..|ts| - 1]), ts[|ts| - 1])
  }

  /** Staging keeps the buffer disjoint and keyed by id. */
  lemma {:induction false} ApplyKeeps(b: Buffer, ts: seq<Touch>)
    requires WellFormed(b)
    ensures WellFormed(Apply(b, ts))
  {
    if ts != [] {
      ApplyKeeps(b, ts[..|ts| - 1]);
      StepKeeps(Apply(b, ts[..|ts| - 1]), ts[|ts| - 1]);
    }
  }

  lemma ApplySnoc(b: Buffer, ts: seq<Touch>, t: Touch)
    ensures Apply(b, ts + [t]) == Step(Apply(b, ts), t)
  {
    assert (ts + [t])[..|ts|] == ts;
  }

  lemma ApplyPrefix(b: Buffer, ts: seq<Touch>, i: nat)
    requires i < |ts|
    ensures Apply(b, ts[..i + 1]) == Step(Apply(b, ts[..i]), ts[i])
  {
    assert ts[..i + 1] == ts[..i] + [ts[i]];
    ApplySnoc(b, ts[..i], ts[i]);
  }

  lemma {:induction false} ApplyAppend(b: Buffer, xs: seq<Touch>, ys: seq<Touch>)
    ensures Apply(b, xs + ys) == Apply(Apply(b, xs), ys)
    decreases |ys|
  {
    if ys == [] {
      assert xs + ys == xs;
    } else {
      var init := ys[..|ys| - 1];
      var last := ys[|ys| - 1];
      assert ys == init + [last];
      assert xs + ys == (xs + init) + [last];
      ApplySnoc(b, xs + init, last);
      ApplyAppend(b, xs, init);
      ApplySnoc(Apply(b, xs), init, last);
    }
  }

  /** The last step in ts that concerns id k, if any. */
  function LastTouch(ts: seq<Touch>, k: Value): (r: Option<Touch>)
    ensures r.Some? ==> r.value in ts && TouchId(r.value) == k
  {
    if ts == [] then None
    else if TouchId(ts[|ts| - 1]) == k then Some(ts[|ts| - 1])
    else LastTouch(ts[..|ts| - 1], k)
  }

  /**
   * Last write wins: what the buffer holds for an id is decided by the last
   * add or delete of that id alone; an id never touched keeps what it had.
   */
  lemma {:induction false} LastTouchWins(b: Buffer, ts: seq<Touch>, k: Value)
    ensures LastTouch(ts, k).None? ==>
              Get(Apply(b, ts).adds, k) == Get(b.adds, k) && Get(Apply(b, ts).removes, k) == Get(b.removes, k)
    ensures LastTouch(ts, k).Some? && LastTouch(ts, k).value.Staged? ==>
              Get(Apply(b, ts).adds, k) == Some(LastTouch(ts, k).value.doc) && !HasKey(Apply(b, ts).removes, k)
    ensures LastTouch(ts, k).Some? && LastTouch(ts, k).value.Unstaged? ==>
              !HasKey(Apply(b, ts).adds, k) && HasKey(Apply(b, ts).removes, k)
  {
    if ts != [] {
      LastTouchWins(b, ts[..|ts| - 1], k);
      StepGet(Apply(b, ts[..|ts| - 1]), ts[|ts| - 1], k);
    }
  }

  /** add's each loop while batching: the i-th step stages the i-th document under its solr_id. */
  function Staging(docs: seq<Entries>): (ts: seq<Touch>)
    ensures |ts| == |docs|
    ensures forall i :: 0 <= i < |docs| ==> ts[i].Staged? && ts[i].doc == docs[i] && TouchId(ts[i]) == DocId(docs[i])
  {
    seq(|docs|, i requires 0 <= i < |docs| => Staged(docs[i]))
  }

  /** delete's each loop while batching: the i-th step unstages the i-th id. */
  function Unstaging(ids: seq<Value>): (ts: seq<Touch>)
    ensures |ts| == |ids|
    ensures forall i :: 0 <= i < |ids| ==> ts[i].Unstaged? && TouchId(ts[i]) == ids[i]
  {
    seq(|ids|, i requires 0 <= i < |ids| => Unstaged(ids[i]))
  }

  // ---------------------------------------------------------------------
  // The module's state and its operations
  // ---------------------------------------------------------------------

  datatype State = State(batching: bool, buffer: Buffer, autoIndex: bool, autoCommit: bool, calls: seq<Call>)

  /**
   * Whether a client call raises is up to Solr: the client raises
   * SolrResponseError on an error status. It is given as a function of
   * every call made so far, ending with the call in question.
   */
  type Answer = seq<Call> -> Option<Error>

  /** One call made on the client, and the exception it raised, if any. */
  function Called(s: State, c: Call, answer: Answer): (State, Option<Error>) {
    var calls := s.calls + [c];
    (s.(calls := calls), answer(calls))
  }

  /** SolrPowered.add(*docs). */
  function Added(s: State, docs: seq<Entries>, answer: Answer): (State, Option<Error>) {
    if s.batching then (s.(buffer := Apply(s.buffer, Staging(docs))), None)
    else Called(s, AddCall(docs), answer)
  }

  /** SolrPowered.delete(*ids). */
  function Deleted(s: State, ids: seq<Value>, answer: Answer): (State, Option<Error>) {
    if s.batching then (s.(buffer := Apply(s.buffer, Unstaging(ids))), None)
    else Called(s, DeleteCall(ids), answer)
  }

  /**
   * What a block does: explicit adds and deletes, a record callback (it
   * runs only while auto_index is on, and then either adds documents and
   * may delete one id, or raises), or an exception of the block's own.
   */
  datatype Op =
    | AddOp(docs: seq<Entries>)
    | DeleteOp(ids: seq<Value>)
    | Indexing(docs: seq<Entries>, own: Option<Value>)
    | Failed(error: Error)
    | Raise(error: Error)

  /** A record callback, guarded by auto_index. */
  predicate IsCallback(op: Op) {
    op.Indexing? || op.Failed?
  }

  /** One step of a block: the new state, and the exception that ends the block, if any. */
  function Perform(s: State, op: Op, answer: Answer): (State, Option<Error>) {
    match op
    case AddOp(docs) => Added(s, docs, answer)
    case DeleteOp(ids) => Deleted(s, ids, answer)
    case Indexing(docs, own) =>
      if !s.autoIndex then (s, None)
      else
        var (t, err) := Added(s, docs, answer);
        if err.Some? || own.None? then (t, err) else Deleted(t, [own.value], answer)
    case Failed(e) => if s.autoIndex then (s, Some(e)) else (s, None)
    case Raise(e) => (s, Some(e))
  }

  /** Runs a block up to its first exception, which ends it. */
  function Run(s: State, ops: seq<Op>, answer: Answer): (State, Option<Error>)
    decreases |ops|
  {
    if ops == [] then (s, None)
    else
      var (t, err) := Perform(s, ops[0], answer);
      if err.Some? then (t, err) else Run(t, ops[1..], answer)
  }

  /** The client calls of a transaction whose block completed and whose flush raised nothing. */
  function Flush(b: Buffer): seq<Call> {
    [AddCall(Vals(b.adds)), DeleteCall(Keys(b.removes))]
  }

  /** The flush: one add of the staged documents, then, unless it raised, one delete of the staged ids. */
  function Flushed(s: State, b: Buffer, answer: Answer): (State, Option<Error>) {
    var (t, err) := Called(s, AddCall(Vals(b.adds)), answer);
    if err.Some? then (t, err) else Called(t, DeleteCall(Keys(b.removes)), answer)
  }

  /** SolrPowered.transaction. */
  function Transacted(s: State, ops: seq<Op>, answer: Answer): (State, Option<Error>) {
    var (t, err) := Run(s.(batching := true, buffer := Empty), ops, answer);
    var (u, err') := if err.None? then Flushed(t, t.buffer, answer) else (t, err);
    (u.(batching := false, buffer := Empty), err')
  }

  /** SolrPowered.disable_auto_index. */
  function WithoutAutoIndex(s: State, ops: seq<Op>, answer: Answer): (State, Option<Error>) {
    var (t, err) := Run(s.(autoIndex := false), ops, answer);
    (t.(autoIndex := s.autoIndex), err)
  }

  /** SolrPowered.auto_commit=. */
  function AutoCommitSet(s: State, on: bool): State {
    s.(autoCommit := on, calls := s.calls + [AutoCommitCall(on)])
  }

  /** SolrPowered.disable_auto_commit. */
  function WithoutAutoCommit(s: State, ops: seq<Op>, answer: Answer): (State, Option<Error>) {
    var (t, err) := Run(AutoCommitSet(s, false), ops, answer);
    (AutoCommitSet(t, s.autoCommit), err)
  }

  /**
   * Outside a transaction an add goes straight to the client: when the
   * client raises, the exception ends the block and nothing after the add
   * runs.
   */
  lemma DirectAddRaises(s: State, docs: seq<Entries>, rest: seq<Op>, answer: Answer)
    requires !s.batching && answer(s.calls + [AddCall(docs)]).Some?
    ensures Run(s, [AddOp(docs)] + rest, answer) == (s.(calls := s.calls + [AddCall(docs)]), answer(s.calls + [AddCall(docs)]))
  {
    assert ([AddOp(docs)] + rest)[0] == AddOp(docs);
  }

  // ---------------------------------------------------------------------
  // Properties of a block run while batching
  // ---------------------------------------------------------------------

  /** The steps that end a block: its own exceptions, and a raising callback while auto_index is on. */
  predicate Stops(op: Op, autoIndex: bool) {
    op.Raise? || (op.Failed? && autoIndex)
  }

  /** The staging steps of one step of a block. */
  function OpTouches(op: Op, autoIndex: bool): seq<Touch> {
    match op
    case AddOp(docs) => Staging(docs)
    case DeleteOp(ids) => Unstaging(ids)
    case Indexing(docs, own) =>
      if !autoIndex then []
      else Staging(docs) + (if own.Some? then Unstaging([own.value]) else [])
    case Failed(_) => []
    case Raise(_) => []
  }

  /** The staging steps of a block, up to its first exception. */
  function Touches(ops: seq<Op>, autoIndex: bool): seq<Touch> {
    if ops == [] || Stops(ops[0], autoIndex) then []
    else OpTouches(ops[0], autoIndex) + Touches(ops[1..], autoIndex)
  }

  /** The exception that ends a block, if any: the first step that stops it. */
  function Raised(ops: seq<Op>, autoIndex: bool): (r: Option<Error>)
    ensures r.Some? <==> exists i :: 0 <= i < |ops| && Stops(ops[i], autoIndex)
    ensures r.Some? ==> exists i :: 0 <= i < |ops| && Stops(ops[i], autoIndex) && r.value == ops[i].error
  {
    if ops == [] then None
    else if Stops(ops[0], autoIndex) then Some(ops[0].error)
    else
      var r := Raised(ops[1..], autoIndex);
      assert forall i :: 1 <= i < |ops| ==> ops[i] == ops[1..][i - 1];
      r
  }

  lemma PerformBatching(s: State, op: Op, answer: Answer)
    requires s.batching
    ensures Perform(s, op, answer) ==
              (s.(buffer := Apply(s.buffer, OpTouches(op, s.autoIndex))), if Stops(op, s.autoIndex) then Some(op.error) else None)
  {
    match op
    case Indexing(docs, own) =>
      if !s.autoIndex {
        assert OpTouches(op, s.autoIndex) == [];
      } else if own.Some? {
        var t := Added(s, docs, answer).0;
        assert t == s.(buffer := Apply(s.buffer, Staging(docs)));
        ApplyAppend(s.buffer, Staging(docs), Unstaging([own.value]));
        assert Perform(s, op, answer) == Deleted(t, [own.value], answer);
      } else {
        assert OpTouches(op, s.autoIndex) == Staging(docs) + [];
        assert Staging(docs) + [] == Staging(docs);
      }
    case _ =>
  }

  /** While batching, a block only stages; it makes no client call. */
  lemma {:induction false} RunBatching(s: State, ops: seq<Op>, answer: Answer)
    requires s.batching
    ensures Run(s, ops, answer) == (s.(buffer := Apply(s.buffer, Touches(ops, s.autoIndex))), Raised(ops, s.autoIndex))
    decreases |ops|
  {
    if ops != [] {
      PerformBatching(s, ops[0], answer);
      if !Stops(ops[0], s.autoIndex) {
        RunBatching(Perform(s, ops[0], answer).0, ops[1..], answer);
        ApplyAppend(s.buffer, OpTouches(ops[0], s.autoIndex), Touches(ops[1..], s.autoIndex));
      }
    }
  }

  /**
   * A transaction clears the buffer and turns batching off on every exit.
   * Its only client calls come after a block that completed: one add of
   * the staged documents and, unless that add raised, one delete of the
   * staged ids; the first exception among the block, the add and the
   * delete is the transaction's. The documents are keyed by their own ids
   * and none of them is also deleted.
   */
  lemma TransactionFlushes(s: State, ops: seq<Op>, answer: Answer)
    ensures var (t, err) := Transacted(s, ops, answer);
            var b := Apply(Empty, Touches(ops, s.autoIndex));
            var addRaised := answer(s.calls + [AddCall(Vals(b.adds))]);
            && t.batching == false && t.buffer == Empty
            && t.autoIndex == s.autoIndex && t.autoCommit == s.autoCommit
            && (Raised(ops, s.autoIndex).Some? ==> err == Raised(ops, s.autoIndex) && t.calls == s.calls)
            && (Raised(ops, s.autoIndex).None? && addRaised.Some? ==>
                  err == addRaised && t.calls == s.calls + [AddCall(Vals(b.adds))])
            && (Raised(ops, s.autoIndex).None? && addRaised.None? ==>
                  err == answer(s.calls + Flush(b)) && t.calls == s.calls + Flush(b))
            && WellFormed(b)
            && forall d :: d in Vals(b.adds) ==> !HasKey(b.removes, DocId(d))
  {
    var s0 := s.(batching := true, buffer := Empty);
    RunBatching(s0, ops, answer);
    var b := Apply(Empty, Touches(ops, s.autoIndex));
    assert s.calls + [AddCall(Vals(b.adds))] + [DeleteCall(Keys(b.removes))] == s.calls + Flush(b);
    ApplyKeeps(Empty, Touches(ops, s.autoIndex));
    FlushDisjoint(b);
  }

  /** No document flushed by add is also flushed by delete. */
  lemma FlushDisjoint(b: Buffer)
    requires WellFormed(b)
    ensures forall d :: d in Vals(b.adds) ==> !HasKey(b.removes, DocId(d))
  {
    forall d | d in Vals(b.adds)
      ensures !HasKey(b.removes, DocId(d))
    {
      var i :| 0 <= i < |b.adds| && Vals(b.adds)[i] == d;
      assert b.adds[i].1 == d && b.adds[i].0 == DocId(d);
      assert Keys(b.adds)[i] == DocId(d);
      assert HasKey(b.adds, DocId(d));
    }
  }

  /**
   * With auto_index off, record callbacks inside the block do not run:
   * they neither index nor raise, and the state is as before.
   */
  lemma {:induction false} CallbacksSkipped(s: State, ops: seq<Op>, answer: Answer)
    requires forall i :: 0 <= i < |ops| ==> IsCallback(ops[i])
    ensures WithoutAutoIndex(s, ops, answer) == (s, None)
  {
    var s0 := s.(autoIndex := false);
    var k := 0;
    while k < |ops|
      invariant 0 <= k <= |ops|
      invariant Run(s0, ops, answer) == Run(s0, ops[k..], answer)
    {
      assert ops[k..][0] == ops[k] && ops[k..][1..] == ops[k + 1..];
      k := k + 1;
    }
  }

  // ---------------------------------------------------------------------
  // The module-level variables
  // ---------------------------------------------------------------------

  class Indexer {
    var batching: bool
    var adds: seq<(Value, Entries)>
    var removes: seq<(Value, bool)>
    var autoIndex: bool
    var autoCommit: bool
    /** Every call made on the client so far. */
    var calls: seq<Call>

    function Snapshot(): State
      reads this
    {
      State(batching, Buffer(adds, removes), autoIndex, autoCommit, calls)
    }

    /** The buffer is disjoint and keyed by id, and empty outside a transaction. */
    ghost predicate Valid()
      reads this
    {
      WellFormed(Buffer(adds, removes)) &&
      (!batching ==> adds == [] && removes == [])
    }

    /** The initial values: not batching, auto_index and auto_commit on. */
    constructor ()
      ensures Valid()
      ensures Snapshot() == State(false, Empty, true, true, [])
    {
      batching := false;
      adds := [];
      removes := [];
      autoIndex := true;
      autoCommit := true;
      calls := [];
    }

    method Add(docs: seq<Entries>, answer: Answer) returns (err: Option<Error>)
      requires Valid()
      modifies this
      ensures Valid()
      ensures (Snapshot(), err) == Added(old(Snapshot()), docs, answer)
    {
      ghost var s0 := Snapshot();
      if batching {
        var b := StageAll(Buffer(adds, removes), Staging(docs));
        ApplyKeeps(s0.buffer, Staging(docs));
        adds, removes := b.adds, b.removes;
        err := None;
        assert Snapshot() == s0.(buffer := b);
      } else {
        calls := calls + [AddCall(docs)];
        err := answer(calls);
        assert Snapshot() == s0.(calls := calls);
      }
    }

    method Delete(ids: seq<Value>, answer: Answer) returns (err: Option<Error>)
      requires Valid()
      modifies this
      ensures Valid()
      ensures (Snapshot(), err) == Deleted(old(Snapshot()), ids, answer)
    {
      ghost var s0 := Snapshot();
      if batching {
        var b := StageAll(Buffer(adds, removes), Unstaging(ids));
        ApplyKeeps(s0.buffer, Unstaging(ids));
        adds, removes := b.adds, b.removes;
        err := None;
        assert Snapshot() == s0.(buffer := b);
      } else {
        calls := calls + [DeleteCall(ids)];
        err := answer(calls);
        assert Snapshot() == s0.(calls := calls);
      }
    }

    /** The each-loop of add and delete while batching, one step per element. */
    static method StageAll(b0: Buffer, ts: seq<Touch>) returns (b: Buffer)
      ensures b == Apply(b0, ts)
    {
      b := b0;
      var i := 0;
      while i < |ts|
        invariant 0 <= i <= |ts|
        invariant b == Apply(b0, ts[..i])
      {
        b := StageOne(b, ts[i]);
        ApplyPrefix(b0, ts, i);
        i := i + 1;
      }
      TakeAll(ts);
    }

    /** One buffer update: a staged document replaces any queued delete of its id, and vice versa. */
    static method StageOne(b: Buffer, t: Touch) returns (r: Buffer)
      ensures r == Step(b, t)
    {
      match t {
        case Staged(doc) =>
          var id := DocId(doc);
          r := Buffer(Put(b.adds, id, doc), Remove(b.removes, id));
        case Unstaged(id) =>
          r := Buffer(Remove(b.adds, id), Put(b.removes, id, true));
      }
    }

    /** Runs the steps of a block, stopping at the first exception. */
    method RunBlock(ops: seq<Op>, answer: Answer) returns (err: Option<Error>)
      requires Valid()
      modifies this
      ensures Valid()
      ensures (Snapshot(), err) == Run(old(Snapshot()), ops, answer)
    {
      var i := 0;
      while i < |ops|
        invariant 0 <= i <= |ops|
        invariant Valid()
        invariant Run(old(Snapshot()), ops, answer) == Run(Snapshot(), ops[i..], answer)
      {
        assert ops[i..][0] == ops[i] && ops[i..][1..] == ops[i + 1..];
        err := PerformOne(ops[i], answer);
        if err.Some? {
          return;
        }
        i := i + 1;
      }
      return None;
    }

    /** One step of a block; a callback runs only while auto_index is on. */
    method PerformOne(op: Op, answer: Answer) returns (err: Option<Error>)
      requires Valid()
      modifies this
      ensures Valid()
      ensures (Snapshot(), err) == Perform(old(Snapshot()), op, answer)
    {
      match op {
        case Raise(e) =>
          err := Some(e);
        case Failed(e) =>
          err := if autoIndex then Some(e) else None;
        case AddOp(docs) =>
          err := Add(docs, answer);
        case DeleteOp(ids) =>
          err := Delete(ids, answer);
        case Indexing(docs, own) =>
          err := None;
          if autoIndex {
            err := Add(docs, answer);
            if err.None? && own.Some? {
              err := Delete([own.value], answer);
            }
          }
      }
    }

    method Transaction(ops: seq<Op>, answer: Answer) returns (err: Option<Error>)
      requires Valid()
      modifies this
      ensures Valid()
      ensures (Snapshot(), err) == Transacted(old(Snapshot()), ops, answer)
    {
      adds := [];
      removes := [];
      batching := true;
      err := RunBlock(ops, answer);
      if err.None? {
        err := FlushBuffer(answer);
      }
      adds := [];
      removes := [];
      batching := false;
    }

    /** The end of a transaction that did not raise: one add, then one delete unless the add raised. */
    method FlushBuffer(answer: Answer) returns (err: Option<Error>)
      modifies this`calls
      ensures (Snapshot(), err) == Flushed(old(Snapshot()), old(Snapshot()).buffer, answer)
    {
      calls := calls + [AddCall(Vals(adds))];
      err := answer(calls);
      if err.None? {
        calls := calls + [DeleteCall(Keys(removes))];
        err := answer(calls);
      }
    }

    method DisableAutoIndex(ops: seq<Op>, answer: Answer) returns (err: Option<Error>)
      requires Valid()
      modifies this
      ensures Valid()
      ensures (Snapshot(), err) == WithoutAutoIndex(old(Snapshot()), ops, answer)
    {
      var orig := autoIndex;
      autoIndex := false;
      err := RunBlock(ops, answer);
      autoIndex := orig;
    }

    method SetAutoCommit(on: bool)
      requires Valid()
      modifies this
      ensures Valid()
      ensures Snapshot() == AutoCommitSet(old(Snapshot()), on)
    {
      calls := calls + [AutoCommitCall(on)];
      autoCommit := on;
    }

    method DisableAutoCommit(ops: seq<Op>, answer: Answer) returns (err: Option<Error>)
      requires Valid()
      modifies this
      ensures Valid()
      ensures (Snapshot(), err) == WithoutAutoCommit(old(Snapshot()), ops, answer)
    {
      var orig := autoCommit;
      SetAutoCommit(false);
      err := RunBlock(ops, answer);
      SetAutoCommit(orig);
    }
  }
}

=== FILE: class_methods.dfy ===
/**
 * The class-level configuration an indexed model class builds up
 * (lib/solr_powered/class_methods.rb): its document fields, watched
 * attributes, eager-loaded associations, powered flag and save
 * conditions, and the field and observer definitions it writes into the
 * plugin-wide registries.
 */
module ClassMethods {
  import opened Values
  import opened Registry

  /** How a document field gets its values: a method on the record, or an association then a method. */
  datatype FieldMethod = Attribute(name: string) | Chain(names: seq<string>)

  /** A save condition: the stored method argument (nil when unset), or a block. */
  datatype Condition = Stored(v: Value) | Block(id: string)

  /** The class_inheritable_accessor settings of one model class. */
  datatype TypeConfig = TypeConfig(
    name: string,                              // the class name, also its solr_type
    primaryKey: string,
    fields: seq<(string, FieldMethod)>,        // solr_document_fields
    watched: seq<string>,                      // solr_watched_attributes
    eagerLoaded: seq<string>,                  // solr_eager_loaded_associations
    powered: bool,                             // solr_powered
    saveIf: Condition,                         // solr_save_if_condition
    saveUnless: Condition)                     // solr_save_unless_condition

  /** The settings a class has when it is extended: nothing configured. */
  function Initial(name: string, primaryKey: string): TypeConfig {
    TypeConfig(name, primaryKey, [], [], [], false, Stored(Nil), Stored(Nil))
  }

  /** A class's settings together with the registries, after a configuration call. */
  datatype Outcome = Outcome(config: TypeConfig, tables: Tables, err: Option<Error>)

  /** The parts of a reflected association the configuration reads. */
  datatype Reflection = Reflection(name: string, macro: string, className: string, options: Entries)

  // ---------------------------------------------------------------------
  // solr_save_if / solr_save_unless
  // ---------------------------------------------------------------------

  /** The stored condition: the block when one is given, else the method argument. */
  function ConditionOf(meth: Value, block: Option<string>): Condition {
    if block.Some? then Block(block.value) else Stored(meth)
  }

  // ---------------------------------------------------------------------
  // index_options
  // ---------------------------------------------------------------------

  /** The six options index_options knows, with their defaults, in order. */
  const OptionDefaults: Entries :=
    [("type", Str("string")), ("indexed", Bool(true)), ("stored", Bool(false)),
     ("multi_valued", Bool(false)), ("required", Bool(false)), ("copy_to", Nil)]

  /** An option's entry: the caller's value when the key is present, else the default. */
  function Chosen(options: Entries, d: (string, Value)): (string, Value) {
    (d.0, if HasKey(options, d.0) then Lookup(options, d.0) else d.1)
  }

  function Picked(options: Entries): Entries {
    seq(|OptionDefaults|, i requires 0 <= i < |OptionDefaults| => Chosen(options, OptionDefaults[i]))
  }

  /** The i-th option's key is not among the earlier ones, and its entry extends the prefix. */
  lemma PickedStep(options: Entries, i: nat)
    requires i < |OptionDefaults|
    ensures !HasKey(Picked(options)[..i], OptionDefaults[i].0)
    ensures Picked(options)[..i + 1] == Picked(options)[..i] + [Chosen(options, OptionDefaults[i])]
  {
    var p := Picked(options)[..i];
    assert Keys(Picked(options)) == ["type", "indexed", "stored", "multi_valued", "required", "copy_to"];
    forall j | 0 <= j < i
      ensures Keys(p)[j] != OptionDefaults[i].0
    {
      assert Keys(p)[j] == Keys(Picked(options))[j];
    }
  }

  /** index_options: the six options, then :type turned into a string. */
  function IndexOptions(options: Entries): Entries {
    var picked := Picked(options);
    Put(picked, "type", Str(ToS(Lookup(picked, "type"))))
  }

  /**
   * index_options returns exactly the six known keys in their order, a
   * caller's value where one is given and the default otherwise, with
   * the type as its to_s; any other option is dropped.
   */
  lemma IndexOptionsShape(options: Entries)
    ensures Keys(IndexOptions(options)) == Keys(OptionDefaults)
    ensures UniqueKeys(IndexOptions(options))
    ensures forall i :: 0 <= i < |OptionDefaults| ==>
              var k := OptionDefaults[i].0;
              var v := if HasKey(options, k) then Lookup(options, k) else OptionDefaults[i].1;
              IndexOptions(options)[i] == (k, if i == 0 then Str(ToS(v)) else v)
  {
    OptionKeysDistinct();
    var picked := Picked(options);
    assert Keys(picked) == Keys(OptionDefaults) == ["type", "indexed", "stored", "multi_valued", "required", "copy_to"];
    assert picked == [picked[0]] + picked[1..];
    KeysCons(picked);
    var r := IndexOptions(options);
    assert r == [("type", Str(ToS(picked[0].1)))] + picked[1..];
    KeysCons(r);
  }

  /** The six option names are distinct (all but indexed and copy_to differ in length). */
  lemma OptionKeysDistinct()
    ensures UniqueKeys(OptionDefaults)
  {
    var ks := Keys(OptionDefaults);
    assert ks == ["type", "indexed", "stored", "multi_valued", "required", "copy_to"];
    assert |ks[0]| == 4 && |ks[1]| == 7 && |ks[2]| == 6 && |ks[3]| == 12 && |ks[4]| == 8 && |ks[5]| == 7;
    assert ks[1][0] != ks[5][0];
  }

  /** The :muti_valued key solr_assoc writes is not one index_options reads. */
  lemma MisspeltKeyIgnored(options: Entries, v: Value)
    ensures IndexOptions(Put(options, "muti_valued", v)) == IndexOptions(options)
  {
    var o := Put(options, "muti_valued", v);
    forall i | 0 <= i < |OptionDefaults|
      ensures Chosen(o, OptionDefaults[i]) == Chosen(options, OptionDefaults[i])
    {
      NotMisspelt(i);
      PutGet(options, "muti_valued", v, OptionDefaults[i].0);
    }
    assert Picked(o) == Picked(options);
  }

  /** No known option is spelt :muti_valued. */
  lemma NotMisspelt(i: nat)
    requires i < |OptionDefaults|
    ensures OptionDefaults[i].0 != "muti_valued"
  {
    var ks := Keys(OptionDefaults);
    assert ks == ["type", "indexed", "stored", "multi_valued", "required", "copy_to"];
    assert |ks[0]| == 4 && |ks[1]| == 7 && |ks[2]| == 6 && |ks[3]| == 12 && |ks[4]| == 8 && |ks[5]| == 7;
    assert OptionDefaults[i].0 == ks[i];
  }

  // ---------------------------------------------------------------------
  // add_solr_document_method
  // ---------------------------------------------------------------------

  /** A method argument as stored: an Array becomes the list of its members' to_s. */
  function MethodOf(meth: Value): FieldMethod {
    if meth.List? then Chain(seq(|meth.items|, i requires 0 <= i < |meth.items| => ToS(meth.items[i])))
    else Attribute(ToS(meth))
  }

  /** The pair solr_assoc passes reads the association, then the remote method. */
  lemma MethodOfPair(association: string, remote: Value)
    ensures MethodOf(List([Str(association), remote])) == Chain([association, ToS(remote)])
  {
    var items := [Str(association), remote];
    var s := seq(|items|, i requires 0 <= i < |items| => ToS(items[i]));
    assert s[0] == association && s[1] == ToS(remote);
    assert s == [association, ToS(remote)];
  }

  /** add_solr_document_method: a field name may be configured once per class. */
  function DocumentMethod(fields: seq<(string, FieldMethod)>, field: Value, meth: Value)
    : Result<seq<(string, FieldMethod)>>
  {
    var f := ToS(field);
    if HasKey(fields, f) then Err(ArgumentError) else Ok(Put(fields, f, MethodOf(meth)))
  }

  /**
   * A field already configured raises ArgumentError; otherwise the field
   * is appended with its method and every existing field is kept.
   */
  lemma DocumentMethodOutcome(fields: seq<(string, FieldMethod)>, field: Value, meth: Value)
    requires UniqueKeys(fields)
    ensures DocumentMethod(fields, field, meth).Err? <==> HasKey(fields, ToS(field))
    ensures DocumentMethod(fields, field, meth).Err? ==> DocumentMethod(fields, field, meth).error == ArgumentError
    ensures DocumentMethod(fields, field, meth).Ok? ==>
              && DocumentMethod(fields, field, meth).value == fields + [(ToS(field), MethodOf(meth))]
              && UniqueKeys(DocumentMethod(fields, field, meth).value)
  {
    if !HasKey(fields, ToS(field)) {
      PutAbsent(fields, ToS(field), MethodOf(meth));
      PutKeepsUnique(fields, ToS(field), MethodOf(meth));
    }
  }

  // ---------------------------------------------------------------------
  // add_solr_observed_attributes / add_solr_eager_loaded_association
  // ---------------------------------------------------------------------

  function Names(vs: seq<Value>): (ns: seq<string>)
    ensures |ns| == |vs| && forall i :: 0 <= i < |vs| ==> ns[i] == ToS(vs[i])
  {
    seq(|vs|, i requires 0 <= i < |vs| => ToS(vs[i]))
  }

  /** solr_watched_attributes += names.collect(&:to_s); uniq! */
  function WithWatched(c: TypeConfig, names: seq<Value>): (r: TypeConfig)
    ensures r == c.(watched := r.watched)
  {
    c.(watched := Dedup(c.watched + Names(names)))
  }

  /** The watched list stays duplicate-free, gains exactly the given names, and keeps its order. */
  lemma WithWatchedOutcome(c: TypeConfig, names: seq<Value>)
    requires NoDup(c.watched)
    ensures NoDup(WithWatched(c, names).watched)
    ensures forall a :: a in WithWatched(c, names).watched <==>
              a in c.watched || exists i :: 0 <= i < |names| && a == ToS(names[i])
    ensures |WithWatched(c, names).watched| >= |c.watched| && WithWatched(c, names).watched[..|c.watched|] == c.watched
    ensures WithWatched(WithWatched(c, names), names) == WithWatched(c, names)
  {
    var ns := Names(names);
    var w := Dedup(c.watched + ns);
    DedupOfNoDup(c.watched);
    DedupAppend(c.watched, ns);
    DedupPrefix(c.watched, ns);
    forall a
      ensures a in w <==> a in c.watched || exists i :: 0 <= i < |names| && a == ToS(names[i])
    {
      assert a in c.watched + ns <==> a in c.watched || a in ns;
      if a in ns {
        var i :| 0 <= i < |ns| && ns[i] == a;
        assert a == ToS(names[i]);
      }
    }
    DedupAppend(w, ns);
    assert Dedup(w + ns) == Dedup(Dedup(w) + ns);
    DedupOfNoDup(w);
    DedupAbsorbs(w, ns);
  }

  /** Dedup of a duplicate-free list followed by more names keeps the list as its prefix. */
  lemma {:induction false} DedupPrefix(s: seq<string>, t: seq<string>)
    requires NoDup(s)
    ensures |Dedup(s + t)| >= |s| && Dedup(s + t)[..|s|] == s
    decreases |t|
  {
    if t == [] {
      assert s + t == s;
      DedupOfNoDup(s);
    } else {
      var t' := t[..|t| - 1];
      assert (s + t)[..|s + t| - 1] == s + t';
      DedupPrefix(s, t');
    }
  }

  /** Names already all present leave a duplicate-free list unchanged. */
  lemma {:induction false} DedupAbsorbs(w: seq<string>, t: seq<string>)
    requires NoDup(w) && forall x :: x in t ==> x in w
    ensures Dedup(w + t) == w
    decreases |t|
  {
    if t == [] {
      assert w + t == w;
      DedupOfNoDup(w);
    } else {
      var t' := t[..|t| - 1];
      assert (w + t)[..|w + t| - 1] == w + t';
      assert t[|t| - 1] in t;
      DedupAbsorbs(w, t');
    }
  }

  /** add_solr_eager_loaded_association: append the name unless it is already listed. */
  function WithEager(c: TypeConfig, name: Value): (r: TypeConfig)
    ensures r == c.(eagerLoaded := r.eagerLoaded) && ToS(name) in r.eagerLoaded
  {
    var n := ToS(name);
    if n in c.eagerLoaded then c else c.(eagerLoaded := c.eagerLoaded + [n])
  }

  /** The eager-load list grows exactly like Array#uniq after appending, so it stays duplicate-free. */
  lemma WithEagerIsUniq(c: TypeConfig, name: Value)
    requires NoDup(c.eagerLoaded)
    ensures WithEager(c, name).eagerLoaded == Dedup(c.eagerLoaded + [ToS(name)])
    ensures NoDup(WithEager(c, name).eagerLoaded)
  {
    var s := c.eagerLoaded + [ToS(name)];
    assert s[..|s| - 1] == c.eagerLoaded;
    DedupOfNoDup(c.eagerLoaded);
  }

  // ---------------------------------------------------------------------
  // add_solr_observer_to_association / add_association_callback
  // ---------------------------------------------------------------------

  /** The observer registered for an association, or the error for one that cannot be observed. */
  function ObserverFor(klass: string, r: Reflection, attributes: Value, ret: Value): Result<Observer> {
    if Truthy(Lookup(r.options, "polymorphic")) || Truthy(Lookup(r.options, "as")) then Err(RuntimeError)
    else if Truthy(Lookup(r.options, "through")) then Err(RuntimeError)
    else Ok(Observer(klass, r.name, r.className, ArrayOf(attributes), ret))
  }

  /** add_association_callback, the list part: the new callback goes in front of any existing ones. */
  function WithCallback(options: Entries, hook: string, callback: Value): Entries {
    var existing := Lookup(options, hook);
    Put(options, hook, List([callback] + if Truthy(existing) then ArrayOf(existing) else []))
  }

  lemma WithCallbackOutcome(options: Entries, hook: string, callback: Value, k: string)
    ensures Get(WithCallback(options, hook, callback), k) ==
              if k != hook then Get(options, k)
              else if Truthy(Lookup(options, hook)) then Some(List([callback] + ArrayOf(Lookup(options, hook))))
              else Some(List([callback]))
  {
    var existing := Lookup(options, hook);
    assert [callback] + [] == [callback];
    PutGet(options, hook, List([callback] + if Truthy(existing) then ArrayOf(existing) else []), k);
  }

  // ---------------------------------------------------------------------
  // solr_attr
  // ---------------------------------------------------------------------

  /** The index field a name is registered under: options[:as] || name. */
  function FieldName(options: Entries, name: Value): Value {
    if Truthy(Lookup(options, "as")) then Lookup(options, "as") else name
  }

  /** One name of solr_attr: register the field, then the document method. */
  function AttrStep(c: TypeConfig, t: Tables, name: Value, options: Entries, opts: Entries): Outcome {
    var key := FieldName(options, name);
    match WithIndex(t, key, opts)
    case Err(e) => Outcome(c, t, Some(e))
    case Ok(t1) =>
      match DocumentMethod(c.fields, key, name)
      case Err(e) => Outcome(c, t1, Some(e))
      case Ok(f) => Outcome(c.(fields := f), t1, None)
  }

  /** The per-name loop of solr_attr, up to the first exception. */
  function AttrFields(c: TypeConfig, t: Tables, names: seq<Value>, options: Entries, opts: Entries): Outcome
    decreases |names|
  {
    if names == [] then Outcome(c, t, None)
    else
      var o := AttrStep(c, t, names[0], options, opts);
      if o.err.Some? then o else AttrFields(o.config, o.tables, names[1..], options, opts)
  }

  /** The field entries solr_attr appends: each name's field (its :as when given) read by that name. */
  function AttrEntries(options: Entries, names: seq<Value>): seq<(string, FieldMethod)> {
    seq(|names|, i requires 0 <= i < |names| => (ToS(FieldName(options, names[i])), MethodOf(names[i])))
  }

  /** The index options solr_attr registers: multi_valued is always false. */
  function AttrOptions(options: Entries): (r: Entries)
    ensures UniqueKeys(r)
  {
    IndexOptionsShape(options);
    PutKeepsUnique(IndexOptions(options), "multi_valued", Bool(false));
    Put(IndexOptions(options), "multi_valued", Bool(false))
  }

  /** solr_attr */
  function AttrDefined(c: TypeConfig, t: Tables, names: seq<Value>, options: Entries): Outcome {
    if HasKey(options, "multi_valued") then Outcome(c, t, Some(ArgumentError))
    else if names == [] then Outcome(c, t, Some(ArgumentError))
    else if |names| > 1 && HasKey(options, "as") then Outcome(c, t, Some(ArgumentError))
    else
      var o := AttrFields(c, t, names, options, AttrOptions(options));
      if o.err.Some? then o
      else Outcome(WithWatched(o.config, names).(powered := true), o.tables, None)
  }

  /** The argument checks of solr_attr raise ArgumentError before anything is registered. */
  lemma AttrArgumentErrors(c: TypeConfig, t: Tables, names: seq<Value>, options: Entries)
    requires HasKey(options, "multi_valued") || names == [] || (|names| > 1 && HasKey(options, "as"))
    ensures AttrDefined(c, t, names, options) == Outcome(c, t, Some(ArgumentError))
  {
  }

  /** What a completed per-name loop guarantees about every name it went through. */
  ghost predicate AttrsRegistered(o: Outcome, c: TypeConfig, t: Tables, names: seq<Value>, options: Entries, opts: Entries) {
    && Valid(o.tables) && UniqueKeys(o.config.fields)
    && o.config == c.(fields := o.config.fields)
    && o.tables.observers == t.observers && o.tables.models == t.models
    && Kept(c.fields, o.config.fields) && KeptIndexes(t.indexes, o.tables.indexes, opts)
    && forall i :: 0 <= i < |names| ==> Registered(o, options, opts, names[i])
  }

  /** The name's field reads that method, and its index holds the merged options. */
  ghost predicate Registered(o: Outcome, options: Entries, opts: Entries, name: Value) {
    var f := ToS(FieldName(options, name));
    Get(o.config.fields, f) == Some(MethodOf(name)) && Get(o.tables.indexes, f) == Some(IndexConfig(f, opts))
  }

  /** Every field configured before is still configured the same way. */
  ghost predicate Kept(before: seq<(string, FieldMethod)>, after: seq<(string, FieldMethod)>) {
    forall k :: HasKey(before, k) ==> Get(after, k) == Get(before, k)
  }

  /** Every index holding these options before still holds them. */
  ghost predicate KeptIndexes(before: seq<(string, Entries)>, after: seq<(string, Entries)>, opts: Entries) {
    forall k :: Get(before, k) == Some(IndexConfig(k, opts)) ==> Get(after, k) == Some(IndexConfig(k, opts))
  }

  /** One name of solr_attr that goes through both registrations. */
  lemma AttrStepOk(c: TypeConfig, t: Tables, name: Value, options: Entries, opts: Entries)
    requires Valid(t) && UniqueKeys(c.fields) && UniqueKeys(opts)
    requires AttrStep(c, t, name, options, opts).err.None?
    ensures var o := AttrStep(c, t, name, options, opts);
            && Valid(o.tables) && UniqueKeys(o.config.fields)
            && o.config == c.(fields := o.config.fields)
            && o.tables.observers == t.observers && o.tables.models == t.models
            && Kept(c.fields, o.config.fields) && KeptIndexes(t.indexes, o.tables.indexes, opts)
            && Registered(o, options, opts, name)
  {
    var key := FieldName(options, name);
    var f := ToS(key);
    WithIndexStores(t, key, opts);
    DocumentMethodOutcome(c.fields, key, name);
    var fs := DocumentMethod(c.fields, key, name).value;
    PutGet(c.fields, f, MethodOf(name), f);
    forall k | HasKey(c.fields, k)
      ensures Get(fs, k) == Get(c.fields, k)
    {
      PutGet(c.fields, f, MethodOf(name), k);
    }
  }

  lemma {:induction false} AttrFieldsOk(c: TypeConfig, t: Tables, names: seq<Value>, options: Entries, opts: Entries)
    requires Valid(t) && UniqueKeys(c.fields) && UniqueKeys(opts)
    requires AttrFields(c, t, names, options, opts).err.None?
    ensures AttrsRegistered(AttrFields(c, t, names, options, opts), c, t, names, options, opts)
    decreases |names|
  {
    if names != [] {
      AttrStepOk(c, t, names[0], options, opts);
      var o1 := AttrStep(c, t, names[0], options, opts);
      AttrFieldsOk(o1.config, o1.tables, names[1..], options, opts);
      var o := AttrFields(o1.config, o1.tables, names[1..], options, opts);
      assert AttrFields(c, t, names, options, opts) == o;
      assert Registered(o, options, opts, names[0]);
      forall i | 0 < i < |names|
        ensures Registered(o, options, opts, names[i])
      {
        assert names[i] == names[1..][i - 1];
      }
    }
  }

  /** When the loop completes, the fields are the old ones followed by one entry per name, in order. */
  lemma {:induction false} AttrFieldsAppend(c: TypeConfig, t: Tables, names: seq<Value>, options: Entries, opts: Entries)
    requires Valid(t) && UniqueKeys(c.fields) && UniqueKeys(opts)
    requires AttrFields(c, t, names, options, opts).err.None?
    ensures AttrFields(c, t, names, options, opts).config.fields == c.fields + AttrEntries(options, names)
    decreases |names|
  {
    if names == [] {
      assert c.fields + [] == c.fields;
    } else {
      AttrStepFields(c, t, names[0], options, opts);
      var o1 := AttrStep(c, t, names[0], options, opts);
      assert AttrFields(c, t, names, options, opts) == AttrFields(o1.config, o1.tables, names[1..], options, opts);
      AttrFieldsAppend(o1.config, o1.tables, names[1..], options, opts);
      EntriesCons(c.fields, options, names);
    }
  }

  /** One name that passes both registrations appends its one field entry. */
  lemma AttrStepFields(c: TypeConfig, t: Tables, name: Value, options: Entries, opts: Entries)
    requires Valid(t) && UniqueKeys(c.fields) && UniqueKeys(opts)
    requires AttrStep(c, t, name, options, opts).err.None?
    ensures var o := AttrStep(c, t, name, options, opts);
            && Valid(o.tables) && UniqueKeys(o.config.fields)
            && o.config.fields == c.fields + [(ToS(FieldName(options, name)), MethodOf(name))]
  {
    var key := FieldName(options, name);
    WithIndexStores(t, key, opts);
    DocumentMethodOutcome(c.fields, key, name);
  }

  lemma EntriesCons(fields: seq<(string, FieldMethod)>, options: Entries, names: seq<Value>)
    requires names != []
    ensures fields + [(ToS(FieldName(options, names[0])), MethodOf(names[0]))] + AttrEntries(options, names[1..])
            == fields + AttrEntries(options, names)
  {
    var e0 := (ToS(FieldName(options, names[0])), MethodOf(names[0]));
    assert AttrEntries(options, names) == [e0] + AttrEntries(options, names[1..]);
    AppendAssoc(fields, [e0], AttrEntries(options, names[1..]));
  }

  /**
   * When solr_attr completes, every name is a document field read by
   * that attribute and registered with the attribute options, the class
   * is powered and the names are watched.
   */
  lemma AttrDefinedOk(c: TypeConfig, t: Tables, names: seq<Value>, options: Entries)
    requires Valid(t) && UniqueKeys(c.fields) && NoDup(c.watched)
    requires AttrDefined(c, t, names, options).err.None?
    ensures var o := AttrDefined(c, t, names, options);
            && o.config.powered && Valid(o.tables)
            && (forall i :: 0 <= i < |names| ==> ToS(names[i]) in o.config.watched)
            && forall i :: 0 <= i < |names| ==>
                 var f := ToS(FieldName(options, names[i]));
                 Get(o.config.fields, f) == Some(MethodOf(names[i])) &&
                 Get(o.tables.indexes, f) == Some(IndexConfig(f, AttrOptions(options)))
  {
    var opts := AttrOptions(options);
    AttrFieldsOk(c, t, names, options, opts);
    var o := AttrFields(c, t, names, options, opts);
    WithWatchedOutcome(o.config, names);
    var o' := AttrDefined(c, t, names, options);
    assert o'.config.fields == o.config.fields && o'.tables == o.tables;
    forall i | 0 <= i < |names|
      ensures Registered(o', options, opts, names[i])
    {
      assert Registered(o, options, opts, names[i]);
    }
  }

  /**
   * solr_attr's options are index_options with multi_valued forced to
   * false: every other option is the one index_options gives.
   */
  lemma AttrOptionsGet(options: Entries, k: string)
    ensures Get(AttrOptions(options), k) == if k == "multi_valued" then Some(Bool(false)) else Get(IndexOptions(options), k)
    ensures Keys(AttrOptions(options)) == Keys(IndexOptions(options))
  {
    PutGet(IndexOptions(options), "multi_valued", Bool(false), k);
    IndexOptionsShape(options);
    assert Keys(OptionDefaults)[3] == "multi_valued";
  }

  /** Whatever the caller passed, an attribute index is single valued. */
  lemma AttrSingleValued(f: string, options: Entries)
    ensures Get(IndexConfig(f, AttrOptions(options)), "multi_valued") == Some(Bool(false))
  {
    IndexConfigGet(f, AttrOptions(options), "multi_valued");
    PutGet(IndexOptions(options), "multi_valued", Bool(false), "multi_valued");
  }

  // ---------------------------------------------------------------------
  // solr_assoc
  // ---------------------------------------------------------------------

  const Supported := ["has_many", "has_one", "belongs_to", "has_and_belongs_to_many"]

  /** String#downcase on ASCII letters. */
  function Downcase(s: string): (r: string)
    ensures |r| == |s|
    ensures forall i :: 0 <= i < |r| ==> !('A' <= r[i] <= 'Z')
    ensures forall i :: 0 <= i < |s| && !('A' <= s[i] <= 'Z') ==> r[i] == s[i]
    ensures forall i :: 0 <= i < |s| && 'A' <= s[i] <= 'Z' ==>
              'a' <= r[i] <= 'z' && r[i] as int - 'a' as int == s[i] as int - 'A' as int
  {
    seq(|s|, i requires 0 <= i < |s| => if 'A' <= s[i] <= 'Z' then (s[i] as int + 32) as char else s[i])
  }

  /** Downcasing twice is downcasing once. */
  lemma DowncaseIdempotent(s: string)
    ensures Downcase(Downcase(s)) == Downcase(s)
  {
  }

  /**
   * The return association guessed when none is given: the downcased
   * class name for has_one and has_many, the underscored plural (given
   * as plural) for belongs_to and has_and_belongs_to_many.
   */
  function DefaultReturn(klass: string, macro: string, plural: string -> string): Value {
    if macro == "has_one" || macro == "has_many" then Sym(Downcase(klass)) else Sym(plural(klass))
  }

  /** The association's options after the callbacks solr_assoc installs on it. */
  function AssocHooks(r: Reflection): Entries {
    var o1 := if Lookup(r.options, "dependent") == Sym("delete_all")
              then WithCallback(r.options, "after_remove", Sym("solr_dependent_remove"))
              else r.options;
    if r.macro == "has_and_belongs_to_many"
    then WithCallback(WithCallback(o1, "after_add", Sym("solr_habtm_add")), "after_remove", Sym("solr_habtm_remove"))
    else o1
  }

  /** The options solr_assoc passes on, as written: the multi_valued guess goes under the misspelt :muti_valued. */
  function AssocOptions(options: Entries, macro: string): Entries {
    if HasKey(options, "multi_valued") then options
    else Put(options, "muti_valued", Bool(macro == "has_many" || macro == "has_and_belongs_to_many"))
  }

  /** The guess solr_assoc makes: an Array of records is multi-valued, a single record is not. */
  predicate ManyValued(macro: string) {
    macro == "has_many" || macro == "has_and_belongs_to_many"
  }

  /** The options solr_assoc evidently means to pass on: the guess stored under :multi_valued. */
  function IntendedAssocOptions(options: Entries, macro: string): Entries {
    if HasKey(options, "multi_valued") then options
    else Put(options, "multi_valued", Bool(ManyValued(macro)))
  }

  /**
   * solr_assoc's registration of the field: add_index, then
   * add_solr_document_method; the multi-valued guess goes under the
   * corrected :multi_valued key.
   */
  function AssocIndexed(c: TypeConfig, t: Tables, key: Value, remote: Value, options: Entries, r: Reflection): Outcome {
    match WithIndex(t, key, IndexOptions(IntendedAssocOptions(options, r.macro)))
    case Err(e) => Outcome(c, t, Some(e))
    case Ok(t1) =>
      match DocumentMethod(c.fields, key, List([Str(r.name), remote]))
      case Err(e) => Outcome(c, t1, Some(e))
      case Ok(fields) => Outcome(c.(fields := fields), t1, None)
  }

  /** solr_assoc, from the registration of the field onwards. */
  function AssocRegistered(c: TypeConfig, t: Tables, key: Value, remote: Value, options: Entries,
                           r: Reflection, plural: string -> string): Outcome
  {
    var o := AssocIndexed(c, t, key, remote, options, r);
    if o.err.Some? then o else AssocObserved(o.config, o.tables, remote, options, r, plural)
  }

  /** solr_assoc, from the observer onwards: the observer, the watched attributes, eager loading. */
  function AssocObserved(c: TypeConfig, t: Tables, remote: Value, options: Entries,
                         r: Reflection, plural: string -> string): Outcome
  {
    var observed := if Truthy(Lookup(options, "association_attributes"))
                    then Lookup(options, "association_attributes") else List([remote]);
    var ret := if HasKey(options, "return_association") then Lookup(options, "return_association")
               else DefaultReturn(c.name, r.macro, plural);
    match ObserverFor(c.name, r, observed, ret)
    case Err(e) => Outcome(c, t, Some(e))
    case Ok(ob) =>
      var attrs := Lookup(options, "attributes");
      var c1 := if Truthy(attrs) then WithWatched(c, ArrayOf(attrs)) else c;
      Outcome(WithEager(c1, Str(r.name)).(powered := true), WithObserver(t, ob), None)
  }

  /** solr_assoc: the reflection is None when the class has no such association. */
  function AssocDefined(c: TypeConfig, t: Tables, assocName: Value, remote: Value, options: Entries,
                        refl: Option<Reflection>, plural: string -> string): Outcome
  {
    var key := if Truthy(Lookup(options, "as")) then Lookup(options, "as") else Str(ToS(assocName));
    match refl
    case None => Outcome(c, t, Some(RuntimeError))
    case Some(r) =>
      if r.macro !in Supported then Outcome(c, t, Some(RuntimeError))
      else AssocRegistered(c, t, key, remote, options, r, plural)
  }

  /** An undefined association, or one of an unsupported kind, raises before anything changes. */
  lemma AssocRefused(c: TypeConfig, t: Tables, assocName: Value, remote: Value, options: Entries,
                     refl: Option<Reflection>, plural: string -> string)
    requires refl.None? || refl.value.macro !in Supported
    ensures AssocDefined(c, t, assocName, remote, options, refl, plural) == Outcome(c, t, Some(RuntimeError))
  {
  }

  /**
   * The :multi_valued an association index gets: the caller's value when
   * given, else false whatever the association's kind, since the guess
   * solr_assoc makes is stored under :muti_valued, a key index_options
   * does not read.
   */
  lemma AssocMultiValued(f: string, options: Entries, macro: string)
    ensures Get(IndexConfig(f, IndexOptions(AssocOptions(options, macro))), "multi_valued") ==
              Some(if HasKey(options, "multi_valued") then Lookup(options, "multi_valued") else Bool(false))
  {
    var opts := IndexOptions(AssocOptions(options, macro));
    if !HasKey(options, "multi_valued") {
      MisspeltKeyIgnored(options, Bool(macro == "has_many" || macro == "has_and_belongs_to_many"));
    }
    assert opts == IndexOptions(options);
    IndexOptionsMultiValued(options);
    IndexConfigGet(f, opts, "multi_valued");
  }

  /**
   * The evidently intended :multi_valued of an association index: the
   * caller's value when given, else true for has_many and
   * has_and_belongs_to_many and false for belongs_to and has_one.
   */
  lemma AssocMultiValuedIntended(f: string, options: Entries, macro: string)
    ensures Get(IndexConfig(f, IndexOptions(IntendedAssocOptions(options, macro))), "multi_valued") ==
              Some(if HasKey(options, "multi_valued") then Lookup(options, "multi_valued")
                   else Bool(macro == "has_many" || macro == "has_and_belongs_to_many"))
    ensures !HasKey(options, "multi_valued") && (macro == "belongs_to" || macro == "has_one") ==>
              Get(IndexConfig(f, IndexOptions(IntendedAssocOptions(options, macro))), "multi_valued") == Some(Bool(false))
  {
    var o := IntendedAssocOptions(options, macro);
    if !HasKey(options, "multi_valued") {
      PutGet(options, "multi_valued", Bool(ManyValued(macro)), "multi_valued");
    }
    IndexOptionsMultiValued(o);
    IndexConfigGet(f, IndexOptions(o), "multi_valued");
  }

  /** A has_many association indexed as written, with no :multi_valued given, is single-valued. */
  lemma HasManyIndexedSingle(f: string)
    ensures Get(IndexConfig(f, IndexOptions(AssocOptions([], "has_many"))), "multi_valued") == Some(Bool(false))
  {
    AssocMultiValued(f, [], "has_many");
  }

  /** index_options gives :multi_valued the caller's value, false by default. */
  lemma IndexOptionsMultiValued(options: Entries)
    ensures UniqueKeys(IndexOptions(options))
    ensures Get(IndexOptions(options), "multi_valued") ==
              Some(if HasKey(options, "multi_valued") then Lookup(options, "multi_valued") else Bool(false))
  {
    IndexOptionsShape(options);
    assert OptionDefaults[3].0 == "multi_valued";
    GetAt(IndexOptions(options), 3);
  }

  /**
   * Once the observer is registered: the observer watches the given
   * attributes or [remote_method] and returns through the given or
   * guessed association, the association is eager loaded, the class is
   * powered, and the fields and indexes are as they were.
   */
  lemma AssocObservedOk(c: TypeConfig, t: Tables, remote: Value, options: Entries,
                        r: Reflection, plural: string -> string)
    requires Valid(t)
    requires AssocObserved(c, t, remote, options, r, plural).err.None?
    ensures var o := AssocObserved(c, t, remote, options, r, plural);
            var ret := if HasKey(options, "return_association") then Lookup(options, "return_association")
                       else DefaultReturn(c.name, r.macro, plural);
            var attrs := if Truthy(Lookup(options, "association_attributes"))
                         then ArrayOf(Lookup(options, "association_attributes")) else [remote];
            && o.config.fields == c.fields && o.tables.indexes == t.indexes
            && ObserversOf(o.tables.observers, r.className) ==
                 ObserversOf(t.observers, r.className) + [Observer(c.name, r.name, r.className, attrs, ret)]
            && r.name in o.config.eagerLoaded
            && o.config.powered
  {
    var observed := if Truthy(Lookup(options, "association_attributes"))
                    then Lookup(options, "association_attributes") else List([remote]);
    var ret := if HasKey(options, "return_association") then Lookup(options, "return_association")
               else DefaultReturn(c.name, r.macro, plural);
    AssocObservedParts(c, t, remote, options, r, plural);
    var ob := ObserverFor(c.name, r, observed, ret).value;
    assert ob == Observer(c.name, r.name, r.className, ArrayOf(observed), ret);
    assert ArrayOf(observed) == if Truthy(Lookup(options, "association_attributes"))
                               then ArrayOf(Lookup(options, "association_attributes")) else [remote];
    assert ToS(Str(r.name)) == r.name;
    WithObserverOutcome(t, ob, r.className);
  }

  /** What registering the observer changes, before the observer itself is unpacked. */
  lemma AssocObservedParts(c: TypeConfig, t: Tables, remote: Value, options: Entries,
                           r: Reflection, plural: string -> string)
    requires AssocObserved(c, t, remote, options, r, plural).err.None?
    ensures var o := AssocObserved(c, t, remote, options, r, plural);
            var observed := if Truthy(Lookup(options, "association_attributes"))
                            then Lookup(options, "association_attributes") else List([remote]);
            var ret := if HasKey(options, "return_association") then Lookup(options, "return_association")
                       else DefaultReturn(c.name, r.macro, plural);
            && ObserverFor(c.name, r, observed, ret).Ok?
            && o.tables == WithObserver(t, ObserverFor(c.name, r, observed, ret).value)
            && o.config.fields == c.fields
            && ToS(Str(r.name)) in o.config.eagerLoaded
            && o.config.powered
  {
    var attrs := Lookup(options, "attributes");
    var c1 := if Truthy(attrs) then WithWatched(c, ArrayOf(attrs)) else c;
    assert c1.fields == c.fields;
  }

  /**
   * When solr_assoc completes: the field reads the remote method through
   * the association, the index holds the association's index options,
   * the observer watches the given attributes or [remote_method] and
   * returns through the given or guessed association, the association is
   * eager loaded and the class is powered.
   */
  lemma AssocDefinedOk(c: TypeConfig, t: Tables, assocName: Value, remote: Value, options: Entries,
                       r: Reflection, plural: string -> string)
    requires Valid(t) && UniqueKeys(c.fields)
    requires AssocDefined(c, t, assocName, remote, options, Some(r), plural).err.None?
    ensures var o := AssocDefined(c, t, assocName, remote, options, Some(r), plural);
            var f := if Truthy(Lookup(options, "as")) then ToS(Lookup(options, "as")) else ToS(assocName);
            var ret := if HasKey(options, "return_association") then Lookup(options, "return_association")
                       else DefaultReturn(c.name, r.macro, plural);
            var attrs := if Truthy(Lookup(options, "association_attributes"))
                         then ArrayOf(Lookup(options, "association_attributes")) else [remote];
            && r.macro in Supported
            && Get(o.config.fields, f) == Some(Chain([r.name, ToS(remote)]))
            && Get(o.tables.indexes, f) == Some(IndexConfig(f, IndexOptions(IntendedAssocOptions(options, r.macro))))
            && ObserversOf(o.tables.observers, r.className) ==
                 ObserversOf(t.observers, r.className) + [Observer(c.name, r.name, r.className, attrs, ret)]
            && r.name in o.config.eagerLoaded
            && o.config.powered
  {
    var key := if Truthy(Lookup(options, "as")) then Lookup(options, "as") else Str(ToS(assocName));
    assert AssocDefined(c, t, assocName, remote, options, Some(r), plural) ==
           AssocRegistered(c, t, key, remote, options, r, plural);
    assert ToS(key) == if Truthy(Lookup(options, "as")) then ToS(Lookup(options, "as")) else ToS(assocName);
    AssocIndexedOk(c, t, key, remote, options, r);
    var o1 := AssocIndexed(c, t, key, remote, options, r);
    assert AssocRegistered(c, t, key, remote, options, r, plural) == AssocObserved(o1.config, o1.tables, remote, options, r, plural);
    AssocObservedOk(o1.config, o1.tables, remote, options, r, plural);
  }

  /** The registration of an association's field stores its index and its method and nothing else. */
  lemma AssocIndexedOk(c: TypeConfig, t: Tables, key: Value, remote: Value, options: Entries, r: Reflection)
    requires Valid(t) && UniqueKeys(c.fields)
    requires AssocIndexed(c, t, key, remote, options, r).err.None?
    ensures var o := AssocIndexed(c, t, key, remote, options, r);
            var f := ToS(key);
            && o.config == c.(fields := o.config.fields)
            && Get(o.config.fields, f) == Some(Chain([r.name, ToS(remote)]))
            && Get(o.tables.indexes, f) == Some(IndexConfig(f, IndexOptions(IntendedAssocOptions(options, r.macro))))
            && o.tables.observers == t.observers
            && Valid(o.tables)
  {
    var f := ToS(key);
    var opts := IndexOptions(IntendedAssocOptions(options, r.macro));
    IndexOptionsShape(IntendedAssocOptions(options, r.macro));
    WithIndexStores(t, key, opts);
    var meth := List([Str(r.name), remote]);
    DocumentMethodOutcome(c.fields, key, meth);
    MethodOfPair(r.name, remote);
    PutGet(c.fields, f, MethodOf(meth), f);
  }

  // ---------------------------------------------------------------------
  // The model class
  // ---------------------------------------------------------------------

  /** A model class extended with SolrPowered::ClassMethods. */
  class IndexedType {
    const name: string
    const primaryKey: string
    var fields: seq<(string, FieldMethod)>
    var watched: seq<string>
    var eagerLoaded: seq<string>
    var powered: bool
    var saveIf: Condition
    var saveUnless: Condition

    function Config(): TypeConfig
      reads this
    {
      TypeConfig(name, primaryKey, fields, watched, eagerLoaded, powered, saveIf, saveUnless)
    }

    /** ClassMethods.extended: no fields, nothing watched, not powered, no conditions. */
    constructor (name: string, primaryKey: string)
      ensures Config() == Initial(name, primaryKey)
    {
      this.name := name;
      this.primaryKey := primaryKey;
      fields := [];
      watched := [];
      eagerLoaded := [];
      powered := false;
      saveIf := Stored(Nil);
      saveUnless := Stored(Nil);
    }

    method SolrSaveIf(meth: Value, block: Option<string>)
      modifies this
      ensures Config() == old(Config()).(saveIf := ConditionOf(meth, block))
    {
      if block.Some? {
        saveIf := Block(block.value);
      } else {
        saveIf := Stored(meth);
      }
    }

    method SolrSaveUnless(meth: Value, block: Option<string>)
      modifies this
      ensures Config() == old(Config()).(saveUnless := ConditionOf(meth, block))
    {
      if block.Some? {
        saveUnless := Block(block.value);
      } else {
        saveUnless := Stored(meth);
      }
    }

    /** index_options, filled in one default at a time. */
    static method BuildIndexOptions(options: Entries) returns (r: Entries)
      ensures r == IndexOptions(options)
    {
      r := [];
      var i := 0;
      while i < |OptionDefaults|
        invariant 0 <= i <= |OptionDefaults|
        invariant r == Picked(options)[..i]
      {
        var k := OptionDefaults[i].0;
        var v := if HasKey(options, k) then Lookup(options, k) else OptionDefaults[i].1;
        PickedStep(options, i);
        PutAbsent(r, k, v);
        r := Put(r, k, v);
        i := i + 1;
      }
      TakeAll(Picked(options));
      r := Put(r, "type", Str(ToS(Lookup(r, "type"))));
    }

    /** add_solr_document_method */
    method AddSolrDocumentMethod(field: Value, meth: Value) returns (err: Option<Error>)
      modifies this
      ensures match DocumentMethod(old(fields), field, meth)
              case Ok(f) => Config() == old(Config()).(fields := f) && err == None
              case Err(e) => Config() == old(Config()) && err == Some(e)
    {
      var f := ToS(field);
      if HasKey(fields, f) {
        return Some(ArgumentError);
      }
      var m;
      if meth.List? {
        m := Chain(seq(|meth.items|, i requires 0 <= i < |meth.items| => ToS(meth.items[i])));
      } else {
        m := Attribute(ToS(meth));
      }
      fields := Put(fields, f, m);
      return None;
    }

    /** add_solr_observed_attributes */
    method AddSolrObservedAttributes(names: seq<Value>)
      modifies this
      ensures Config() == WithWatched(old(Config()), names)
    {
      var ns := [];
      var i := 0;
      while i < |names|
        invariant 0 <= i <= |names|
        invariant ns == Names(names[..i])
      {
        ns := ns + [ToS(names[i])];
        i := i + 1;
      }
      assert names[..i] == names;
      watched := Dedup(watched + ns);
    }

    /** add_solr_eager_loaded_association */
    method AddSolrEagerLoadedAssociation(association: Value)
      modifies this
      ensures Config() == WithEager(old(Config()), association)
    {
      var n := ToS(association);
      if n !in eagerLoaded {
        eagerLoaded := eagerLoaded + [n];
      }
    }

    /** add_solr_observer_to_association */
    method AddSolrObserverToAssociation(r: Reflection, attributes: Value, ret: Value, reg: Registry)
      returns (err: Option<Error>)
      modifies reg
      ensures match ObserverFor(name, r, attributes, ret)
              case Ok(ob) => reg.Snapshot() == WithObserver(old(reg.Snapshot()), ob) && err == None
              case Err(e) => reg.Snapshot() == old(reg.Snapshot()) && err == Some(e)
    {
      if Truthy(Lookup(r.options, "polymorphic")) || Truthy(Lookup(r.options, "as")) {
        return Some(RuntimeError);
      }
      if Truthy(Lookup(r.options, "through")) {
        return Some(RuntimeError);
      }
      reg.AddObserver(Observer(name, r.name, r.className, ArrayOf(attributes), ret));
      return None;
    }

    /** solr_attr */
    method SolrAttr(names: seq<Value>, options: Entries, reg: Registry) returns (err: Option<Error>)
      modifies this, reg
      ensures Outcome(Config(), reg.Snapshot(), err) == AttrDefined(old(Config()), old(reg.Snapshot()), names, options)
    {
      if HasKey(options, "multi_valued") || names == [] || (|names| > 1 && HasKey(options, "as")) {
        return Some(ArgumentError);
      }
      var opts := BuildIndexOptions(options);
      opts := Put(opts, "multi_valued", Bool(false));
      err := AttrLoop(names, options, opts, reg);
      if err.Some? {
        return;
      }
      powered := true;
      AddSolrObservedAttributes(names);
    }

    /** The per-name loop of solr_attr. */
    method AttrLoop(names: seq<Value>, options: Entries, opts: Entries, reg: Registry) returns (err: Option<Error>)
      modifies this, reg
      ensures Outcome(Config(), reg.Snapshot(), err) == AttrFields(old(Config()), old(reg.Snapshot()), names, options, opts)
    {
      ghost var whole := AttrFields(Config(), reg.Snapshot(), names, options, opts);
      assert names[0..] == names;
      err := None;
      var i := 0;
      while i < |names|
        invariant 0 <= i <= |names|
        invariant whole == AttrFields(Config(), reg.Snapshot(), names[i..], options, opts)
        invariant Config() == old(Config()).(fields := fields)
        invariant err == None
      {
        DropOne(names, i);
        err := AttrOne(names[i], options, opts, reg);
        if err.Some? {
          return;
        }
        i := i + 1;
      }
    }

    /** One name of solr_attr: add_index, then add_solr_document_method. */
    method AttrOne(name: Value, options: Entries, opts: Entries, reg: Registry) returns (err: Option<Error>)
      modifies this, reg
      ensures Outcome(Config(), reg.Snapshot(), err) == AttrStep(old(Config()), old(reg.Snapshot()), name, options, opts)
      ensures Config() == old(Config()).(fields := fields)
    {
      var key := FieldName(options, name);
      err := reg.AddIndex(key, opts);
      if err.Some? {
        return;
      }
      err := AddSolrDocumentMethod(key, name);
    }

    /**
     * solr_assoc.  refl is the reflected association (None when the class
     * has none by that name) and plural stands for underscore.pluralize;
     * hooks is the association's options after the callbacks installed on it.
     */
    method SolrAssoc(assocName: Value, remote: Value, options: Entries, refl: Option<Reflection>,
                     plural: string -> string, reg: Registry)
      returns (err: Option<Error>, hooks: Option<Entries>)
      modifies this, reg
      ensures Outcome(Config(), reg.Snapshot(), err) ==
                AssocDefined(old(Config()), old(reg.Snapshot()), assocName, remote, options, refl, plural)
      ensures hooks == if refl.Some? && refl.value.macro in Supported then Some(AssocHooks(refl.value)) else None
    {
      var key := if Truthy(Lookup(options, "as")) then Lookup(options, "as") else Str(ToS(assocName));
      if refl.None? {
        return Some(RuntimeError), None;
      }
      var r := refl.value;
      if r.macro !in Supported {
        return Some(RuntimeError), None;
      }
      var assocOptions := r.options;
      if Lookup(assocOptions, "dependent") == Sym("delete_all") {
        assocOptions := WithCallback(assocOptions, "after_remove", Sym("solr_dependent_remove"));
      }
      if r.macro == "has_and_belongs_to_many" {
        assocOptions := WithCallback(assocOptions, "after_add", Sym("solr_habtm_add"));
        assocOptions := WithCallback(assocOptions, "after_remove", Sym("solr_habtm_remove"));
      }
      assert assocOptions == AssocHooks(r);
      hooks := Some(assocOptions);
      assert AssocDefined(Config(), reg.Snapshot(), assocName, remote, options, refl, plural)
          == AssocRegistered(Config(), reg.Snapshot(), key, remote, options, r, plural);
      err := RegisterAssoc(key, remote, options, r, plural, reg);
    }

    /** solr_assoc from add_index onwards. */
    method RegisterAssoc(key: Value, remote: Value, options: Entries, r: Reflection,
                         plural: string -> string, reg: Registry)
      returns (err: Option<Error>)
      modifies this, reg
      ensures Outcome(Config(), reg.Snapshot(), err) ==
                AssocRegistered(old(Config()), old(reg.Snapshot()), key, remote, options, r, plural)
    {
      err := IndexAssoc(key, remote, options, r, reg);
      if err.Some? {
        return;
      }
      err := ObserveAssoc(remote, options, r, plural, reg);
    }

    /** solr_assoc's add_index and add_solr_document_method. */
    method IndexAssoc(key: Value, remote: Value, options: Entries, r: Reflection, reg: Registry)
      returns (err: Option<Error>)
      modifies this, reg
      ensures Outcome(Config(), reg.Snapshot(), err) == AssocIndexed(old(Config()), old(reg.Snapshot()), key, remote, options, r)
    {
      var opts := options;
      if !HasKey(options, "multi_valued") {
        opts := Put(opts, "multi_valued", Bool(r.macro == "has_many" || r.macro == "has_and_belongs_to_many"));
      }
      assert opts == IntendedAssocOptions(options, r.macro);
      ghost var c0 := Config();
      ghost var t0 := reg.Snapshot();
      var indexOpts := BuildIndexOptions(opts);
      err := reg.AddIndex(key, indexOpts);
      if err.Some? {
        assert AssocIndexed(c0, t0, key, remote, options, r) == Outcome(c0, t0, err);
        return;
      }
      ghost var t1 := reg.Snapshot();
      assert t1 == WithIndex(t0, key, indexOpts).value;
      err := AddSolrDocumentMethod(key, List([Str(r.name), remote]));
      assert Outcome(Config(), t1, err) == AssocIndexed(c0, t0, key, remote, options, r);
    }

    /** solr_assoc from the association observer onwards. */
    method ObserveAssoc(remote: Value, options: Entries, r: Reflection, plural: string -> string, reg: Registry)
      returns (err: Option<Error>)
      modifies this, reg
      ensures Outcome(Config(), reg.Snapshot(), err) ==
                AssocObserved(old(Config()), old(reg.Snapshot()), remote, options, r, plural)
    {
      var observed := if Truthy(Lookup(options, "association_attributes"))
                      then Lookup(options, "association_attributes") else List([remote]);
      var ret := if HasKey(options, "return_association") then Lookup(options, "return_association")
                 else DefaultReturn(name, r.macro, plural);
      ghost var c0 := Config();
      ghost var t0 := reg.Snapshot();
      ghost var spec := AssocObserved(c0, t0, remote, options, r, plural);
      err := AddSolrObserverToAssociation(r, observed, ret, reg);
      if err.Some? {
        assert spec == Outcome(c0, t0, err);
        return;
      }
      ghost var ob := ObserverFor(name, r, observed, ret).value;
      assert reg.Snapshot() == WithObserver(t0, ob);
      var attrs := Lookup(options, "attributes");
      if Truthy(attrs) {
        AddSolrObservedAttributes(ArrayOf(attrs));
      }
      ghost var c1 := Config();
      assert c1 == if Truthy(attrs) then WithWatched(c0, ArrayOf(attrs)) else c0;
      AddSolrEagerLoadedAssociation(Str(r.name));
      ghost var c2 := Config();
      powered := true;
      assert spec == Outcome(c2.(powered := true), WithObserver(t0, ob), None);
    }
  }
}

=== FILE: client.dfy ===
/**
 * The wire encodings of SolrPowered::Client (lib/solr_powered/client.rb):
 * select query strings, the XML bodies of add, delete, delete_all, commit
 * and optimize, the control-character stripping applied to update bodies
 * and the status check on every response.  The HTTP exchange itself is a
 * function from request to response given to the client when it is made.
 */
module Client {
  import opened Values

  // ---------------------------------------------------------------------
  // URI.escape(URI.escape(v.to_s), '&')
  // ---------------------------------------------------------------------

  type byte = b: int | 0 <= b < 256

  /** Characters URI.escape leaves alone by default. */
  predicate UriSafe(c: char) {
    ('a' <= c <= 'z') || ('A' <= c <= 'Z') || ('0' <= c <= '9') || c in "-_.!~*'();/?:@&=+$,[]"
  }

  /** The UTF-8 bytes of one character. */
  function Utf8(c: char): (r: seq<byte>)
    ensures 1 <= |r| <= 4
    ensures (c as int < 0x80) == (|r| == 1)
    ensures |r| == 1 ==> r[0] == c as int
  {
    var n := c as int;
    if n < 0x80 then [n]
    else if n < 0x800 then [0xC0 + n / 64, 0x80 + n % 64]
    else if n < 0x10000 then [0xE0 + n / 4096, 0x80 + (n / 64) % 64, 0x80 + n % 64]
    else [0xF0 + n / 262144, 0x80 + (n / 4096) % 64, 0x80 + (n / 64) % 64, 0x80 + n % 64]
  }

  function Utf8String(s: string): seq<byte> {
    if s == [] then [] else Utf8(s[0]) + Utf8String(s[1..])
  }

  function HexDigit(d: int): (c: char)
    requires 0 <= d < 16
  {
    if d < 10 then ('0' as int + d) as char else ('A' as int + d - 10) as char
  }

  predicate IsHex(c: char) {
    ('0' <= c <= '9') || ('A' <= c <= 'F') || ('a' <= c <= 'f')
  }

  function HexValue(c: char): (d: int)
    requires IsHex(c)
    ensures 0 <= d < 16
  {
    if '0' <= c <= '9' then c as int - '0' as int
    else if 'A' <= c <= 'F' then c as int - 'A' as int + 10
    else c as int - 'a' as int + 10
  }

  /** Each byte as %XX with upper-case hex digits. */
  function Percent(bytes: seq<byte>): (r: string)
    ensures |r| == 3 * |bytes|
  {
    if bytes == [] then ""
    else ['%', HexDigit(bytes[0] / 16), HexDigit(bytes[0] % 16)] + Percent(bytes[1..])
  }

  /** URI.escape(s): unsafe characters become the %XX of their UTF-8 bytes. */
  function UriEscape(s: string): string {
    if s == [] then ""
    else (if UriSafe(s[0]) then [s[0]] else Percent(Utf8(s[0]))) + UriEscape(s[1..])
  }

  /** URI.escape(s, '&'): only '&' is encoded. */
  function EscapeAmpersand(s: string): string {
    if s == [] then ""
    else (if s[0] == '&' then "%26" else [s[0]]) + EscapeAmpersand(s[1..])
  }

  /** Client#escape. */
  function Escape(v: Value): string {
    EscapeAmpersand(UriEscape(ToS(v)))
  }

  /** The two passes of Client#escape as one pass over the characters. */
  function EscapeChar(c: char): string {
    if UriSafe(c) && c != '&' then [c] else Percent(Utf8(c))
  }

  function EscapeChars(s: string): string {
    if s == [] then "" else EscapeChar(s[0]) + EscapeChars(s[1..])
  }

  lemma {:induction false} EscapeAmpersandAppend(a: string, b: string)
    ensures EscapeAmpersand(a + b) == EscapeAmpersand(a) + EscapeAmpersand(b)
  {
    if a == [] {
      assert a + b == b;
    } else {
      assert (a + b)[0] == a[0] && (a + b)[1..] == a[1..] + b;
      EscapeAmpersandAppend(a[1..], b);
    }
  }

  lemma {:induction false} PercentChars(bytes: seq<byte>)
    ensures forall i :: 0 <= i < |Percent(bytes)| ==> Percent(bytes)[i] == '%' || IsHex(Percent(bytes)[i])
  {
    if bytes != [] {
      PercentChars(bytes[1..]);
      HexPair(bytes[0]);
    }
  }

  lemma {:induction false} EscapeAmpersandPercent(bytes: seq<byte>)
    ensures EscapeAmpersand(Percent(bytes)) == Percent(bytes)
  {
    PercentChars(bytes);
    var p := Percent(bytes);
    if p != [] {
      assert p[0] != '&';
      EscapeAmpersandPercentTail(p[1..]);
      assert [p[0]] + p[1..] == p;
    }
  }

  lemma {:induction false} EscapeAmpersandPercentTail(p: string)
    requires forall i :: 0 <= i < |p| ==> p[i] == '%' || IsHex(p[i])
    ensures EscapeAmpersand(p) == p
  {
    if p != [] {
      EscapeAmpersandPercentTail(p[1..]);
      assert [p[0]] + p[1..] == p;
    }
  }

  lemma EscapeCharOnePass(c: char)
    ensures EscapeAmpersand(if UriSafe(c) then [c] else Percent(Utf8(c))) == EscapeChar(c)
  {
    if UriSafe(c) {
      assert [c][1..] == [];
      if c == '&' {
        assert Utf8('&') == [38];
        assert Percent([38]) == "%26";
      }
    } else {
      EscapeAmpersandPercent(Utf8(c));
    }
  }

  /** Escaping '&' after URI.escape is the same as treating '&' as unsafe in one pass. */
  lemma {:induction false} EscapeIsOnePass(s: string)
    ensures EscapeAmpersand(UriEscape(s)) == EscapeChars(s)
  {
    if s != [] {
      var head := if UriSafe(s[0]) then [s[0]] else Percent(Utf8(s[0]));
      assert UriEscape(s) == head + UriEscape(s[1..]);
      EscapeAmpersandAppend(head, UriEscape(s[1..]));
      EscapeIsOnePass(s[1..]);
      EscapeCharOnePass(s[0]);
    }
  }

  /** URI.unescape down to bytes: %XX is one byte, any other character its UTF-8 bytes. */
  function UriUnescape(r: string): seq<byte> {
    if r == [] then []
    else if |r| >= 3 && r[0] == '%' && IsHex(r[1]) && IsHex(r[2]) then
      [HexValue(r[1]) * 16 + HexValue(r[2])] + UriUnescape(r[3..])
    else Utf8(r[0]) + UriUnescape(r[1..])
  }

  lemma HexDigitValue(d: int)
    requires 0 <= d < 16
    ensures IsHex(HexDigit(d)) && HexValue(HexDigit(d)) == d
  {
  }

  lemma HexPair(b: byte)
    ensures IsHex(HexDigit(b / 16)) && IsHex(HexDigit(b % 16))
    ensures HexValue(HexDigit(b / 16)) * 16 + HexValue(HexDigit(b % 16)) == b
  {
    HexDigitValue(b / 16);
    HexDigitValue(b % 16);
  }

  lemma UnescapeTriple(b: byte, rest: string)
    ensures UriUnescape(['%', HexDigit(b / 16), HexDigit(b % 16)] + rest) == [b] + UriUnescape(rest)
  {
    HexPair(b);
    var r := ['%', HexDigit(b / 16), HexDigit(b % 16)] + rest;
    assert r[0] == '%' && r[1] == HexDigit(b / 16) && r[2] == HexDigit(b % 16);
    assert r[3..] == rest;
  }

  lemma {:induction false} UnescapePercent(bytes: seq<byte>, rest: string)
    ensures UriUnescape(Percent(bytes) + rest) == bytes + UriUnescape(rest)
  {
    if bytes == [] {
      assert Percent(bytes) + rest == rest;
    } else {
      var b := bytes[0];
      var t := ['%', HexDigit(b / 16), HexDigit(b % 16)];
      var tail := Percent(bytes[1..]) + rest;
      calc {
        UriUnescape(Percent(bytes) + rest);
        { assert Percent(bytes) == t + Percent(bytes[1..]);
          AppendAssoc(t, Percent(bytes[1..]), rest); }
        UriUnescape(t + tail);
        { UnescapeTriple(b, tail); }
        [b] + UriUnescape(tail);
        { UnescapePercent(bytes[1..], rest); }
        [b] + (bytes[1..] + UriUnescape(rest));
        { ConsAssoc(b, bytes[1..], UriUnescape(rest));
          assert [b] + bytes[1..] == bytes; }
        bytes + UriUnescape(rest);
      }
    }
  }

  lemma ConsAssoc(b: byte, bs: seq<byte>, rest: seq<byte>)
    ensures [b] + (bs + rest) == ([b] + bs) + rest
  {
  }

  /** The escaped text decodes to the UTF-8 bytes of the original text. */
  lemma {:induction false} EscapeRoundTrip(s: string)
    ensures UriUnescape(EscapeChars(s)) == Utf8String(s)
  {
    if s != [] {
      EscapeRoundTrip(s[1..]);
      var c := s[0];
      if UriSafe(c) && c != '&' {
        assert c != '%';
        assert ([c] + EscapeChars(s[1..]))[1..] == EscapeChars(s[1..]);
      } else {
        UnescapePercent(Utf8(c), EscapeChars(s[1..]));
      }
    }
  }

  /** A character an escaped value may hold: a safe one other than '&', or '%'. */
  predicate EscapedChar(c: char) {
    (UriSafe(c) && c != '&') || c == '%'
  }

  predicate AllEscaped(r: string) {
    forall i :: 0 <= i < |r| ==> EscapedChar(r[i])
  }

  lemma AllEscapedConcat(h: string, t: string)
    requires AllEscaped(h) && AllEscaped(t)
    ensures AllEscaped(h + t)
  {
    forall i | 0 <= i < |h + t|
      ensures EscapedChar((h + t)[i])
    {
      if i >= |h| {
        assert (h + t)[i] == t[i - |h|];
      }
    }
  }

  lemma EscapeCharChars(c: char)
    ensures AllEscaped(EscapeChar(c))
  {
    if !(UriSafe(c) && c != '&') {
      PercentChars(Utf8(c));
    }
  }

  /** No escaped value contains '&', so it cannot split a query string. */
  lemma {:induction false} EscapeHasNoAmpersand(s: string)
    ensures AllEscaped(EscapeChars(s))
    ensures '&' !in EscapeChars(s)
  {
    if s != [] {
      EscapeHasNoAmpersand(s[1..]);
      EscapeCharChars(s[0]);
      AllEscapedConcat(EscapeChar(s[0]), EscapeChars(s[1..]));
    }
    assert !EscapedChar('&');
  }

  // ---------------------------------------------------------------------
  // ERB::Util.h
  // ---------------------------------------------------------------------

  function HtmlEscapeChar(c: char): string {
    if c == '&' then "&amp;"
    else if c == '<' then "&lt;"
    else if c == '>' then "&gt;"
    else if c == '"' then "&quot;"
    else [c]
  }

  /** ERB::Util.h: the four XML metacharacters become entities. */
  function HtmlEscape(s: string): (r: string)
    ensures '<' !in r && '>' !in r && '"' !in r
  {
    if s == [] then "" else HtmlEscapeChar(s[0]) + HtmlEscape(s[1..])
  }

  function HtmlUnescape(r: string): string {
    if r == [] then ""
    else if r[0] != '&' then [r[0]] + HtmlUnescape(r[1..])
    else if |r| >= 5 && r[..5] == "&amp;" then "&" + HtmlUnescape(r[5..])
    else if |r| >= 4 && r[..4] == "&lt;" then "<" + HtmlUnescape(r[4..])
    else if |r| >= 4 && r[..4] == "&gt;" then ">" + HtmlUnescape(r[4..])
    else if |r| >= 6 && r[..6] == "&quot;" then "\"" + HtmlUnescape(r[6..])
    else [r[0]] + HtmlUnescape(r[1..])
  }

  lemma HtmlUnescapeAmp(rest: string)
    ensures HtmlUnescape("&amp;" + rest) == "&" + HtmlUnescape(rest)
  {
    var r := "&amp;" + rest;
    assert r[0] == '&' && r[..5] == "&amp;" && r[5..] == rest;
  }

  lemma HtmlUnescapeLt(rest: string)
    ensures HtmlUnescape("&lt;" + rest) == "<" + HtmlUnescape(rest)
  {
    var r := "&lt;" + rest;
    assert r[0] == '&' && r[1] == 'l';
    assert |r| >= 5 ==> r[..5][1] == 'l';
    assert r[..4] == "&lt;" && r[4..] == rest;
  }

  lemma HtmlUnescapeGt(rest: string)
    ensures HtmlUnescape("&gt;" + rest) == ">" + HtmlUnescape(rest)
  {
    var r := "&gt;" + rest;
    assert r[0] == '&' && r[1] == 'g';
    assert |r| >= 5 ==> r[..5][1] == 'g';
    assert r[..4][1] == 'g';
    assert r[..4] == "&gt;" && r[4..] == rest;
  }

  lemma HtmlUnescapeQuot(rest: string)
    ensures HtmlUnescape("&quot;" + rest) == "\"" + HtmlUnescape(rest)
  {
    var r := "&quot;" + rest;
    assert r[0] == '&' && r[1] == 'q';
    assert r[..5][1] == 'q' && r[..4][1] == 'q';
    assert r[..6] == "&quot;" && r[6..] == rest;
  }

  lemma HtmlUnescapeChar(c: char, rest: string)
    ensures HtmlUnescape(HtmlEscapeChar(c) + rest) == [c] + HtmlUnescape(rest)
  {
    if c == '&' {
      HtmlUnescapeAmp(rest);
    } else if c == '<' {
      HtmlUnescapeLt(rest);
    } else if c == '>' {
      HtmlUnescapeGt(rest);
    } else if c == '"' {
      HtmlUnescapeQuot(rest);
    } else {
      assert ([c] + rest)[0] == c && ([c] + rest)[1..] == rest;
    }
  }

  /** Escaped field values read back as the original text. */
  lemma {:induction false} HtmlRoundTrip(s: string)
    ensures HtmlUnescape(HtmlEscape(s)) == s
  {
    if s != [] {
      HtmlRoundTrip(s[1..]);
      HtmlUnescapeChar(s[0], HtmlEscape(s[1..]));
      assert [s[0]] + s[1..] == s;
    }
  }

  // ---------------------------------------------------------------------
  // BAD_CHARS
  // ---------------------------------------------------------------------

  /** 0x00-0x1F and 0x7F, except carriage return, line feed and tab. */
  predicate BadChar(c: char) {
    (c as int <= 0x1F && c != '\r' && c != '\n' && c != '\t') || c as int == 0x7F
  }

  predicate Clean(s: string) {
    forall i :: 0 <= i < |s| ==> !BadChar(s[i])
  }

  /** msg.gsub(BAD_REGEX, ''). */
  function StripBadChars(s: string): (r: string)
    ensures Clean(r)
    ensures |r| <= |s|
  {
    if s == [] then ""
    else if BadChar(s[0]) then StripBadChars(s[1..])
    else [s[0]] + StripBadChars(s[1..])
  }

  /** Stripping changes a body exactly when it holds a bad character. */
  lemma {:induction false} StripIdentity(s: string)
    ensures StripBadChars(s) == s <==> Clean(s)
  {
    if s != [] {
      StripIdentity(s[1..]);
      if BadChar(s[0]) {
        assert |StripBadChars(s)| < |s|;
      } else {
        assert [s[0]] + s[1..] == s;
        if Clean(s) {
          assert Clean(s[1..]);
        }
      }
    }
  }

  lemma StripIdempotent(s: string)
    ensures StripBadChars(StripBadChars(s)) == StripBadChars(s)
  {
    StripIdentity(StripBadChars(s));
  }

  // ---------------------------------------------------------------------
  // Bodies and query strings
  // ---------------------------------------------------------------------

  /** The key/value pairs of a Hash, one per element for Array values. */
  function EntryPairs(k: string, v: Value): (r: seq<(string, Value)>)
    ensures v.List? ==> |r| == |v.items|
    ensures !v.List? ==> r == [(k, v)]
  {
    if v.List? then seq(|v.items|, j requires 0 <= j < |v.items| => (k, v.items[j])) else [(k, v)]
  }

  function ParamPairs(entries: Entries): seq<(string, Value)> {
    if entries == [] then []
    else ParamPairs(entries[..|entries| - 1]) + EntryPairs(entries[|entries| - 1].0, entries[|entries| - 1].1)
  }

  function Param(p: (string, Value)): string {
    p.0 + "=" + Escape(p.1)
  }

  function Params(pairs: seq<(string, Value)>): (r: seq<string>)
    ensures |r| == |pairs|
  {
    seq(|pairs|, i requires 0 <= i < |pairs| => Param(pairs[i]))
  }

  /** The query string select sends for a Hash, a String or nil. */
  function QueryString(query: Value): Result<string> {
    match query
    case Hash(entries) => Ok(Join("&", Params(ParamPairs(entries))))
    case Str(s) => Ok("q=" + Escape(query))
    case Nil => Ok("q=*:*")
    case _ => Err(ArgumentError)
  }

  /** Splits one parameter at its first '='. */
  function SplitParam(p: string): (string, string) {
    if p == [] then ("", "")
    else if p[0] == '=' then ("", p[1..])
    else var (k, v) := SplitParam(p[1..]); ([p[0]] + k, v)
  }

  lemma {:induction false} SplitParamAt(k: string, v: string)
    requires '=' !in k
    ensures SplitParam(k + "=" + v) == (k, v)
  {
    if k == [] {
      assert k + "=" + v == ['='] + v;
    } else {
      assert (k + "=" + v)[1..] == k[1..] + "=" + v;
      SplitParamAt(k[1..], v);
      assert [k[0]] + k[1..] == k;
    }
  }

  /** How the search server reads a query string: pairs of key and decoded value bytes. */
  function ParseQuery(q: string): seq<(string, seq<byte>)> {
    var fields := Fields(q, '&');
    seq(|fields|, i requires 0 <= i < |fields| => (SplitParam(fields[i]).0, UriUnescape(SplitParam(fields[i]).1)))
  }

  predicate PlainKey(k: string) {
    '&' !in k && '=' !in k
  }

  /**
   * Reading a Hash query string back gives every key once per scalar value
   * and once per element of an Array value, in order, each with the bytes
   * of the value's to_s.
   */
  lemma HashQueryRoundTrip(entries: Entries)
    requires forall i :: 0 <= i < |entries| ==> PlainKey(entries[i].0)
    requires ParamPairs(entries) != []
    ensures QueryString(Hash(entries)).Ok?
    ensures var pairs := ParamPairs(entries);
            var parsed := ParseQuery(QueryString(Hash(entries)).value);
            |parsed| == |pairs| &&
            forall i :: 0 <= i < |pairs| ==> parsed[i] == (pairs[i].0, Utf8String(ToS(pairs[i].1)))
  {
    var pairs := ParamPairs(entries);
    var ps := Params(pairs);
    ParamPairsKeys(entries);
    forall i | 0 <= i < |ps|
      ensures '&' !in ps[i]
    {
      EscapeIsOnePass(ToS(pairs[i].1));
      EscapeHasNoAmpersand(ToS(pairs[i].1));
    }
    FieldsOfJoin(ps, '&');
    forall i | 0 <= i < |pairs|
      ensures SplitParam(ps[i]) == (pairs[i].0, Escape(pairs[i].1))
      ensures UriUnescape(Escape(pairs[i].1)) == Utf8String(ToS(pairs[i].1))
    {
      SplitParamAt(pairs[i].0, Escape(pairs[i].1));
      EscapeIsOnePass(ToS(pairs[i].1));
      EscapeRoundTrip(ToS(pairs[i].1));
    }
  }

  lemma {:induction false} ParamPairsKeys(entries: Entries)
    requires forall i :: 0 <= i < |entries| ==> PlainKey(entries[i].0)
    ensures forall i :: 0 <= i < |ParamPairs(entries)| ==> PlainKey(ParamPairs(entries)[i].0)
  {
    if entries != [] {
      var init := entries[..|entries| - 1];
      var last := entries[|entries| - 1];
      ParamPairsKeys(init);
      var tail := EntryPairs(last.0, last.1);
      assert forall i :: 0 <= i < |tail| ==> tail[i].0 == last.0;
      assert ParamPairs(entries) == ParamPairs(init) + tail;
    }
  }

  /** One <field> element. */
  function FieldXml(k: string, v: Value): string {
    "        <field name=\"" + k + "\">" + HtmlEscape(ToS(v)) + "</field>\n"
  }

  function PairXml(p: (string, Value)): string {
    FieldXml(p.0, p.1)
  }

  /** The <field> elements of key/value pairs, in order. */
  function FieldsXml(pairs: seq<(string, Value)>): string {
    ConcatMap(PairXml, pairs)
  }

  /** The <field> elements of an Array value, one per element. */
  function ListXml(k: string, items: seq<Value>): string {
    ConcatMap(v => FieldXml(k, v), items)
  }

  function EntryXml(e: (string, Value)): string {
    if e.1.List? then ListXml(e.0, e.1.items) else FieldXml(e.0, e.1)
  }

  /** The <field> elements of a document, entry by entry. */
  function EntriesXml(doc: Entries): string {
    ConcatMap(EntryXml, doc)
  }

  function DocXml(doc: Entries): string {
    "      <doc>\n" + EntriesXml(doc) + "      </doc>\n"
  }

  function DocsXml(docs: seq<Entries>): string {
    ConcatMap(DocXml, docs)
  }

  /** The body of one add request carrying every document. */
  function AddXml(docs: seq<Entries>): string {
    "\n    <add>\n" + DocsXml(docs) + "    </add>"
  }

  function DeleteXml(id: Value): string {
    "<delete><id>" + ToS(id) + "</id></delete>"
  }

  function DeleteQueryXml(query: Value): string {
    "<delete><query>" + (if query.Nil? then "*:*" else ToS(query)) + "</query></delete>"
  }

  /** k="v" pairs joined by single spaces. */
  function Attributes(options: seq<(string, string)>): string {
    Join(" ", seq(|options|, i requires 0 <= i < |options| => options[i].0 + "=\"" + options[i].1 + "\""))
  }

  function CommitXml(options: seq<(string, string)>): string {
    "\n    <commit " + Attributes(options) + "/>"
  }

  function OptimizeXml(options: seq<(string, string)>): string {
    "\n    <optimize " + Attributes(options) + "/>"
  }

  /** Commit and optimize options can be read back by splitting on spaces. */
  lemma AttributesSplit(options: seq<(string, string)>)
    requires options != []
    requires forall i :: 0 <= i < |options| ==> ' ' !in options[i].0 && ' ' !in options[i].1
    ensures var parts := Fields(Attributes(options), ' ');
            |parts| == |options| &&
            forall i :: 0 <= i < |options| ==> parts[i] == options[i].0 + "=\"" + options[i].1 + "\""
  {
    var ps := seq(|options|, i requires 0 <= i < |options| => options[i].0 + "=\"" + options[i].1 + "\"");
    forall i | 0 <= i < |ps|
      ensures ' ' !in ps[i]
    {
      assert ps[i] == options[i].0 + "=\"" + options[i].1 + "\"";
    }
    FieldsOfJoin(ps, ' ');
  }

  // ---------------------------------------------------------------------
  // Requests and responses
  // ---------------------------------------------------------------------

  datatype Action = SelectAction | UpdateAction

  /** A request as it goes on the wire. */
  datatype Request = Request(action: Action, msg: string)

  datatype Response = Response(status: string, body: string)

  /** Update bodies are stripped of bad characters; select strings go as they are. */
  function Wire(action: Action, msg: string): (r: Request)
    ensures r.action == UpdateAction ==> Clean(r.msg)
  {
    Request(action, if action == UpdateAction then StripBadChars(msg) else msg)
  }

  /** The text after the first "<pre>" that has something before the end of its line. */
  function PreDetail(body: string): string {
    if |body| >= 6 && body[..5] == "<pre>" && body[5] != '\n' then RestOfLine(body[5..])
    else if body == [] then ""
    else PreDetail(body[1..])
  }

  function RestOfLine(s: string): (r: string)
    ensures '\n' !in r
  {
    if s == [] || s[0] == '\n' then "" else [s[0]] + RestOfLine(s[1..])
  }

  /** Any status other than "200" raises SolrResponseError. */
  function Check(resp: Response): (r: Result<string>)
    ensures r.Ok? <==> resp.status == "200"
    ensures r.Ok? ==> r.value == resp.body
  {
    if resp.status == "200" then Ok(resp.body)
    else Err(SolrResponseError(resp.status + ": " + PreDetail(resp.body)))
  }

  /** The requests that reach the server: up to and including the first refused one. */
  function Issued(server: Request -> Response, reqs: seq<Request>): seq<Request> {
    if reqs == [] then []
    else if Check(server(reqs[0])).Err? then [reqs[0]]
    else [reqs[0]] + Issued(server, reqs[1..])
  }

  /** The error of the first refused request, if any. */
  function Failure(server: Request -> Response, reqs: seq<Request>): Option<Error> {
    if reqs == [] then None
    else if Check(server(reqs[0])).Err? then Some(Check(server(reqs[0])).error)
    else Failure(server, reqs[1..])
  }

  lemma {:induction false} IssuedAllOk(server: Request -> Response, reqs: seq<Request>)
    requires forall j :: 0 <= j < |reqs| ==> Check(server(reqs[j])).Ok?
    ensures Issued(server, reqs) == reqs && Failure(server, reqs) == None
  {
    if reqs != [] {
      IssuedAllOk(server, reqs[1..]);
    }
  }

  /** Issued and Failure, unfolded once. */
  lemma IssuedCons(server: Request -> Response, req: Request, rest: seq<Request>)
    ensures Issued(server, [req] + rest) ==
              if Check(server(req)).Err? then [req] else [req] + Issued(server, rest)
    ensures Failure(server, [req] + rest) ==
              if Check(server(req)).Err? then Some(Check(server(req)).error) else Failure(server, rest)
  {
    assert ([req] + rest)[0] == req && ([req] + rest)[1..] == rest;
  }

  lemma {:induction false} IssuedStopsAt(server: Request -> Response, reqs: seq<Request>, i: nat)
    requires i < |reqs| && Check(server(reqs[i])).Err?
    requires forall j :: 0 <= j < i ==> Check(server(reqs[j])).Ok?
    ensures Issued(server, reqs) == reqs[..i + 1]
    ensures Failure(server, reqs) == Some(Check(server(reqs[i])).error)
  {
    if i > 0 {
      IssuedStopsAt(server, reqs[1..], i - 1);
      assert reqs[1..][..i] == reqs[1..i + 1];
      assert reqs[..i + 1] == [reqs[0]] + reqs[1..i + 1];
    }
  }

  /** An Err result as a failure. */
  function ErrorOf(r: Result<string>): Option<Error> {
    if r.Err? then Some(r.error) else None
  }

  /** The port option as read: the key looked up is :post. */
  function PortAsWritten(options: Entries): Value {
    var v := Lookup(options, "post");
    if Truthy(v) then v else Int(8982)
  }

  /** The port option as intended: the :port key. */
  function Port(options: Entries): (p: Value)
    ensures Truthy(Lookup(options, "port")) ==> p == Lookup(options, "port")
    ensures !Truthy(Lookup(options, "port")) ==> p == Int(8982)
  {
    var v := Lookup(options, "port");
    if Truthy(v) then v else Int(8982)
  }

  /** A :port option is ignored by the constructor as written. */
  lemma PortOptionIgnored()
    ensures PortAsWritten([("port", Int(8080))]) == Int(8982)
    ensures Port([("port", Int(8080))]) == Int(8080)
  {
  }

  /**
   * Setting :port on any options hash decides the corrected port, while
   * the reading as written does not see it at all.
   */
  lemma PortOptionRead(options: Entries, n: int)
    ensures Port(Put(options, "port", Int(n))) == Int(n)
    ensures PortAsWritten(Put(options, "port", Int(n))) == PortAsWritten(options)
  {
    PutGet(options, "port", Int(n), "port");
    PutGet(options, "port", Int(n), "post");
  }

  lemma ListXmlFlat(k: string, items: seq<Value>)
    ensures ListXml(k, items) == FieldsXml(EntryPairs(k, List(items)))
  {
    var pairs := EntryPairs(k, List(items));
    ConcatMapPointwise(v => FieldXml(k, v), items, PairXml, pairs);
  }

  /**
   * A document's body has one <field> element per scalar value and one per
   * element of each Array value, in order: the same pairs a select query
   * string carries.
   */
  lemma {:induction false} EntriesXmlFlat(doc: Entries)
    ensures EntriesXml(doc) == FieldsXml(ParamPairs(doc))
  {
    if doc != [] {
      var init := doc[..|doc| - 1];
      var last := doc[|doc| - 1];
      assert doc == init + [last];
      EntriesXmlFlat(init);
      ConcatMapSnoc(EntryXml, init, last);
      ConcatMapAppend(PairXml, ParamPairs(init), EntryPairs(last.0, last.1));
      if last.1.List? {
        ListXmlFlat(last.0, last.1.items);
        assert last.1 == List(last.1.items);
      } else {
        ConcatMapSnoc(PairXml, [], (last.0, last.1));
        assert [] + [(last.0, last.1)] == [(last.0, last.1)];
      }
    }
  }

  lemma ParamsAppend(a: seq<(string, Value)>, b: seq<(string, Value)>)
    ensures Params(a + b) == Params(a) + Params(b)
  {
  }

  lemma ParamsStep(entries: Entries, i: nat, before: seq<string>, after: seq<string>)
    requires i < |entries| && before == Params(ParamPairs(entries[..i]))
    requires after == before + Params(EntryPairs(entries[i].0, entries[i].1))
    ensures after == Params(ParamPairs(entries[..i + 1]))
  {
    assert entries[..i + 1][..i] == entries[..i];
    ParamsAppend(ParamPairs(entries[..i]), EntryPairs(entries[i].0, entries[i].1));
  }

  lemma ListParamsStep(key: string, items: seq<Value>, j: nat)
    requires j < |items|
    ensures Params(EntryPairs(key, List(items))[..j + 1])
            == Params(EntryPairs(key, List(items))[..j]) + [key + "=" + Escape(items[j])]
  {
    var pairs := EntryPairs(key, List(items));
    assert pairs[..j + 1] == pairs[..j] + [(key, items[j])];
    ParamsAppend(pairs[..j], [(key, items[j])]);
  }

  /** Sending request i either stops the run there or leaves the rest to run. */
  lemma IssuedStep(server: Request -> Response, reqs: seq<Request>, i: nat)
    requires i < |reqs|
    requires Issued(server, reqs) == reqs[..i] + Issued(server, reqs[i..])
    ensures Check(server(reqs[i])).Err? ==>
              Issued(server, reqs) == reqs[..i + 1] &&
              Failure(server, reqs[i..]) == Some(Check(server(reqs[i])).error)
    ensures Check(server(reqs[i])).Ok? ==>
              Issued(server, reqs) == reqs[..i + 1] + Issued(server, reqs[i + 1..]) &&
              Failure(server, reqs[i..]) == Failure(server, reqs[i + 1..])
  {
    IssuedFrom(server, reqs, i);
    if Check(server(reqs[i])).Err? {
      SplitStep(reqs, i, []);
    } else {
      SplitStep(reqs, i, Issued(server, reqs[i + 1..]));
    }
  }

  lemma SplitStep<T>(s: seq<T>, i: nat, tail: seq<T>)
    requires i < |s|
    ensures s[..i] + ([s[i]] + tail) == s[..i + 1] + tail
    ensures tail == [] ==> s[..i] + [s[i]] == s[..i + 1]
  {
    assert s[..i + 1] == s[..i] + [s[i]];
  }

  lemma IssuedFrom(server: Request -> Response, reqs: seq<Request>, i: nat)
    requires i < |reqs|
    ensures Issued(server, reqs[i..]) ==
              if Check(server(reqs[i])).Err? then [reqs[i]] else [reqs[i]] + Issued(server, reqs[i + 1..])
    ensures Failure(server, reqs[i..]) ==
              if Check(server(reqs[i])).Err? then Some(Check(server(reqs[i])).error)
              else Failure(server, reqs[i + 1..])
  {
    var rest := reqs[i..];
    assert rest[0] == reqs[i] && rest[1..] == reqs[i + 1..];
  }

  lemma SnocPrefix<T>(a: seq<T>, s: seq<T>, i: nat)
    requires i < |s|
    ensures (a + s[..i]) + [s[i]] == a + s[..i + 1]
  {
    assert s[..i + 1] == s[..i] + [s[i]];
  }

  class Client {
    var host: Value
    var port: Value
    var path: Value
    var autoCommit: bool
    /** The search server's answer to each request. */
    const server: Request -> Response
    /** Every request sent so far, in order. */
    var sent: seq<Request>

    /** No update body on the wire carries a bad character. */
    predicate Valid()
      reads this
    {
      forall i :: 0 <= i < |sent| ==> sent[i].action == UpdateAction ==> Clean(sent[i].msg)
    }

    /** Client.new: host, port and path default; auto_commit defaults to on. */
    constructor (options: Entries, server: Request -> Response)
      ensures Valid() && sent == [] && this.server == server
      ensures host == (if Truthy(Lookup(options, "host")) then Lookup(options, "host") else Str("localhost"))
      ensures port == Port(options)
      ensures path == (if Truthy(Lookup(options, "path")) then Lookup(options, "path") else Str("solr"))
      ensures autoCommit == (!HasKey(options, "auto_commit") || Truthy(Lookup(options, "auto_commit")))
    {
      var h := Lookup(options, "host");
      var p := Lookup(options, "path");
      host := if Truthy(h) then h else Str("localhost");
      port := Port(options);
      path := if Truthy(p) then p else Str("solr");
      autoCommit := !HasKey(options, "auto_commit") || Truthy(Lookup(options, "auto_commit"));
      this.server := server;
      sent := [];
    }

    /** Client#request: sends one request and checks its status. */
    method Send(action: Action, msg: string) returns (r: Result<string>)
      requires Valid()
      modifies this`sent
      ensures Valid()
      ensures sent == old(sent) + [Wire(action, msg)]
      ensures r == Check(server(Wire(action, msg)))
      ensures autoCommit == old(autoCommit)
    {
      var req := Wire(action, msg);
      sent := sent + [req];
      r := Check(server(req));
    }

    /** The requests add issues: one add body, then a commit when auto_commit is on. */
    function AddRequests(docs: seq<Entries>): seq<Request>
      reads this
    {
      if docs == [] then []
      else [Wire(UpdateAction, AddXml(docs))] + (if autoCommit then [Wire(UpdateAction, CommitXml([]))] else [])
    }

    function DeleteRequests(ids: seq<Value>): (reqs: seq<Request>)
      reads this
      ensures ids == [] ==> reqs == []
      ensures ids != [] ==> |reqs| == |ids| + (if autoCommit then 1 else 0)
      ensures forall i :: 0 <= i < |ids| ==> reqs[i] == Wire(UpdateAction, DeleteXml(ids[i]))
      ensures ids != [] && autoCommit ==> reqs[|ids|] == Wire(UpdateAction, CommitXml([]))
    {
      if ids == [] then []
      else seq(|ids|, i requires 0 <= i < |ids| => Wire(UpdateAction, DeleteXml(ids[i])))
           + (if autoCommit then [Wire(UpdateAction, CommitXml([]))] else [])
    }

    /** Client#select. */
    method Select(query: Value) returns (r: Result<string>)
      requires Valid()
      modifies this`sent
      ensures Valid()
      ensures QueryString(query).Err? ==> r == QueryString(query) && sent == old(sent)
      ensures QueryString(query).Ok? ==>
                sent == old(sent) + [Wire(SelectAction, QueryString(query).value)] &&
                r == Check(server(Wire(SelectAction, QueryString(query).value)))
    {
      var q: string;
      match query {
        case Hash(entries) =>
          var parts := QueryParts(entries);
          q := Join("&", parts);
        case Str(s) =>
          q := "q=" + Escape(query);
        case Nil =>
          q := "q=*:*";
        case _ =>
          return Err(ArgumentError);
      }
      r := Send(SelectAction, q);
    }

    /** The key=value parts of a Hash query, built entry by entry. */
    static method QueryParts(entries: Entries) returns (parts: seq<string>)
      ensures parts == Params(ParamPairs(entries))
    {
      parts := [];
      var i := 0;
      assert entries[..0] == [];
      while i < |entries|
        invariant 0 <= i <= |entries|
        invariant parts == Params(ParamPairs(entries[..i]))
      {
        var key := entries[i].0;
        var value := entries[i].1;
        ghost var before := parts;
        if value.List? {
          parts := AppendListParams(parts, key, value.items);
        } else {
          parts := parts + [key + "=" + Escape(value)];
          assert [key + "=" + Escape(value)] == Params([(key, value)]);
        }
        ParamsStep(entries, i, before, parts);
        i := i + 1;
      }
      assert entries[..i] == entries;
    }

    /** Appends one key=value part per element of an Array value. */
    static method AppendListParams(parts0: seq<string>, key: string, items: seq<Value>) returns (parts: seq<string>)
      ensures parts == parts0 + Params(EntryPairs(key, List(items)))
    {
      parts := parts0;
      var j := 0;
      while j < |items|
        invariant 0 <= j <= |items|
        invariant parts == parts0 + Params(EntryPairs(key, List(items))[..j])
      {
        ListParamsStep(key, items, j);
        parts := parts + [key + "=" + Escape(items[j])];
        j := j + 1;
      }
      assert EntryPairs(key, List(items))[..j] == EntryPairs(key, List(items));
    }

    /** Client#add: nothing for no documents, else one add body and at most one commit. */
    method Add(docs: seq<Entries>) returns (err: Option<Error>)
      requires Valid()
      modifies this`sent
      ensures Valid()
      ensures sent == old(sent) + Issued(server, old(AddRequests(docs)))
      ensures err == Failure(server, old(AddRequests(docs)))
    {
      if docs == [] {
        return None;
      }
      var reqs := AddRequests(docs);
      var xml := AddBody(docs);
      ghost var s0 := sent;
      ghost var w1 := Wire(UpdateAction, xml);
      ghost var tail := if autoCommit then [Wire(UpdateAction, CommitXml([]))] else [];
      assert reqs == [w1] + tail;
      IssuedCons(server, w1, tail);
      var r := Send(UpdateAction, xml);
      if r.Err? {
        return Some(r.error);
      }
      if autoCommit {
        ghost var w2 := tail[0];
        assert tail == [w2] + [];
        IssuedCons(server, w2, []);
        err := Commit([]);
        AppendAssoc(s0, [w1], [w2]);
        return;
      }
      assert [w1] + tail == [w1];
      return None;
    }

    /** The add body, built document by document. */
    static method AddBody(docs: seq<Entries>) returns (xml: string)
      ensures xml == AddXml(docs)
    {
      xml := "\n    <add>\n";
      var i := 0;
      assert docs[..0] == [];
      while i < |docs|
        invariant 0 <= i <= |docs|
        invariant xml == "\n    <add>\n" + DocsXml(docs[..i])
      {
        var fields := DocFields(docs[i]);
        var doc := "      <doc>\n" + fields + "      </doc>\n";
        ConcatMapPrefix(DocXml, docs, i);
        AppendAssoc("\n    <add>\n", DocsXml(docs[..i]), doc);
        xml := xml + doc;
        i := i + 1;
      }
      TakeAll(docs);
      AppendAssoc("\n    <add>\n", DocsXml(docs), "    </add>");
      xml := xml + "    </add>";
    }

    /** The <field> lines of one document, built value by value. */
    static method DocFields(doc: Entries) returns (xml: string)
      ensures xml == EntriesXml(doc)
    {
      xml := "";
      var i := 0;
      assert doc[..0] == [];
      while i < |doc|
        invariant 0 <= i <= |doc|
        invariant xml == EntriesXml(doc[..i])
      {
        var k := doc[i].0;
        var v := doc[i].1;
        if v.List? {
          xml := AppendListFields(xml, k, v.items);
        } else {
          xml := xml + FieldXml(k, v);
        }
        assert xml == EntriesXml(doc[..i]) + EntryXml(doc[i]);
        ConcatMapPrefix(EntryXml, doc, i);
        i := i + 1;
      }
      TakeAll(doc);
    }

    /** Appends one <field> element per element of an Array value. */
    static method AppendListFields(xml0: string, k: string, items: seq<Value>) returns (xml: string)
      ensures xml == xml0 + ListXml(k, items)
    {
      xml := xml0;
      var j := 0;
      assert items[..0] == [];
      assert xml == xml0 + ListXml(k, items[..0]);
      while j < |items|
        invariant 0 <= j <= |items|
        invariant xml == xml0 + ListXml(k, items[..j])
      {
        ConcatMapPrefix(v => FieldXml(k, v), items, j);
        AppendAssoc(xml0, ListXml(k, items[..j]), FieldXml(k, items[j]));
        xml := xml + FieldXml(k, items[j]);
        j := j + 1;
      }
      TakeAll(items);
    }

    /** Client#delete: one request per id, then at most one commit. */
    method Delete(ids: seq<Value>) returns (err: Option<Error>)
      requires Valid()
      modifies this`sent
      ensures Valid()
      ensures sent == old(sent) + Issued(server, old(DeleteRequests(ids)))
      ensures err == Failure(server, old(DeleteRequests(ids)))
    {
      if ids == [] {
        return None;
      }
      var reqs := DeleteRequests(ids);
      var i := 0;
      while i < |ids|
        invariant 0 <= i <= |ids|
        invariant Valid() && autoCommit == old(autoCommit)
        invariant sent == old(sent) + reqs[..i]
        invariant Issued(server, reqs) == reqs[..i] + Issued(server, reqs[i..])
        invariant Failure(server, reqs) == Failure(server, reqs[i..])
      {
        var r := Send(UpdateAction, DeleteXml(ids[i]));
        SnocPrefix(old(sent), reqs, i);
        IssuedStep(server, reqs, i);
        if r.Err? {
          return Some(r.error);
        }
        i := i + 1;
      }
      if autoCommit {
        var c := Commit([]);
        SnocPrefix(old(sent), reqs, i);
        IssuedStep(server, reqs, i);
        assert reqs[i + 1..] == [];
        return c;
      }
      assert reqs[..i] == reqs && reqs[i..] == [];
      return None;
    }

    /** Client#delete_all: a query delete (nil means every document), then at most one commit. */
    method DeleteAll(query: Value) returns (err: Option<Error>)
      requires Valid()
      modifies this`sent
      ensures Valid()
      ensures var reqs := [Wire(UpdateAction, DeleteQueryXml(query))]
                          + (if old(autoCommit) then [Wire(UpdateAction, CommitXml([]))] else []);
              sent == old(sent) + Issued(server, reqs) && err == Failure(server, reqs)
    {
      var reqs := [Wire(UpdateAction, DeleteQueryXml(query))]
                  + (if autoCommit then [Wire(UpdateAction, CommitXml([]))] else []);
      ghost var tail := if autoCommit then [Wire(UpdateAction, CommitXml([]))] else [];
      IssuedCons(server, Wire(UpdateAction, DeleteQueryXml(query)), tail);
      var r := Send(UpdateAction, DeleteQueryXml(query));
      if r.Err? {
        return Some(r.error);
      }
      if autoCommit {
        IssuedCons(server, tail[0], []);
        err := Commit([]);
        return;
      }
      return None;
    }

    /** Client#commit. */
    method Commit(options: seq<(string, string)>) returns (err: Option<Error>)
      requires Valid()
      modifies this`sent
      ensures Valid()
      ensures sent == old(sent) + [Wire(UpdateAction, CommitXml(options))]
      ensures err == ErrorOf(Check(server(Wire(UpdateAction, CommitXml(options)))))
      ensures autoCommit == old(autoCommit)
    {
      var r := Send(UpdateAction, CommitXml(options));
      err := ErrorOf(r);
    }

    /** Client#optimize. */
    method Optimize(options: seq<(string, string)>) returns (err: Option<Error>)
      requires Valid()
      modifies this`sent
      ensures Valid()
      ensures sent == old(sent) + [Wire(UpdateAction, OptimizeXml(options))]
      ensures err == ErrorOf(Check(server(Wire(UpdateAction, OptimizeXml(options)))))
    {
      var r := Send(UpdateAction, OptimizeXml(options));
      err := ErrorOf(r);
    }
  }
}

=== FILE: collection.dfy ===
/**
 * SolrPowered::Collection (lib/solr_powered/collection.rb): one page of
 * search results with the paging arithmetic will_paginate expects.
 */
module Collection {
  import opened Values

  /**
   * total_pages: total_entries / per_page rounded up.  Dafny's division
   * rounds towards negative infinity for a positive divisor, so negating
   * twice rounds up.
   */
  function PagesFor(total: int, perPage: int): (pages: int)
    requires perPage > 0
    ensures (pages - 1) * perPage < total <= pages * perPage
  {
    -((-total) / perPage)
  }

  /** previous_page for a page number. */
  function PreviousOf(page: int): (r: Option<int>)
    ensures r.Some? <==> page > 1
    ensures r.Some? ==> r.value + 1 == page
  {
    if page > 1 then Some(page - 1) else None
  }

  /** next_page for a page number and a page count. */
  function NextOf(page: int, pages: int): (r: Option<int>)
    ensures r.Some? <==> page < pages
    ensures r.Some? ==> r.value == page + 1
  {
    if page < pages then Some(page + 1) else None
  }

  /** Stepping forward then back returns to the same page, from the first page on. */
  lemma NextThenPrevious(page: int, pages: int)
    requires page >= 1 && NextOf(page, pages).Some?
    ensures PreviousOf(NextOf(page, pages).value) == Some(page)
  {
  }

  /**
   * A page is past the last page exactly when its offset is at or beyond
   * the total number of entries; so the first page of an empty result
   * is already out of bounds.
   */
  lemma {:induction false} OutOfBoundsMeans(page: int, perPage: int, total: int)
    requires perPage > 0
    ensures page > PagesFor(total, perPage) <==> (page - 1) * perPage >= total
  {
    var pages := PagesFor(total, perPage);
    if page > pages {
      MulMono(pages, page - 1, perPage);
    } else {
      MulMono(page - 1, pages - 1, perPage);
    }
  }

  lemma MulMono(a: int, b: int, c: int)
    requires a <= b && c > 0
    ensures a * c <= b * c
  {
  }

  /** A page of results: the documents it holds and its place among all pages. */
  class Collection<T> {
    var items: seq<T>
    var currentPage: int
    var perPage: int
    var totalEntries: int
    var totalPages: int

    /** The page count always follows the entry count. */
    ghost predicate Valid()
      reads this
    {
      perPage > 0 && totalPages == PagesFor(totalEntries, perPage)
    }

    /** new(documents, current_page, per_page, total_entries) */
    constructor (documents: seq<T>, page: int, per: int, total: int)
      requires per > 0
      ensures Valid()
      ensures items == documents && currentPage == page && perPage == per && totalEntries == total
    {
      items := documents;
      currentPage := page;
      perPage := per;
      totalEntries := total;
      totalPages := PagesFor(total, per);
    }

    /** total_entries= */
    method SetTotalEntries(number: int)
      requires Valid()
      modifies this
      ensures Valid()
      ensures totalEntries == number
      ensures items == old(items) && currentPage == old(currentPage) && perPage == old(perPage)
    {
      totalEntries := number;
      totalPages := PagesFor(number, perPage);
    }

    /** out_of_bounds? */
    function OutOfBounds(): (r: bool)
      reads this
      requires Valid()
      ensures r <==> (currentPage - 1) * perPage >= totalEntries
    {
      OutOfBoundsMeans(currentPage, perPage, totalEntries);
      currentPage > totalPages
    }

    /** offset */
    function Offset(): (r: int)
      reads this
      requires Valid()
      ensures currentPage >= 1 ==> r >= 0
      ensures r < totalEntries <==> currentPage <= totalPages
    {
      OutOfBoundsMeans(currentPage, perPage, totalEntries);
      (currentPage - 1) * perPage
    }

    /** previous_page */
    function PreviousPage(): (r: Option<int>)
      reads this
      ensures r.Some? <==> currentPage > 1
      ensures r.Some? ==> r.value + 1 == currentPage
    {
      PreviousOf(currentPage)
    }

    /** next_page */
    function NextPage(): (r: Option<int>)
      reads this
      requires Valid()
      ensures r.Some? <==> currentPage < totalPages
      ensures r.Some? ==> r.value == currentPage + 1
      ensures r.Some? <==> currentPage * perPage < totalEntries
    {
      OutOfBoundsMeans(currentPage + 1, perPage, totalEntries);
      if currentPage < totalPages then Some(currentPage + 1) else None
    }
  }
}

=== FILE: controller_methods.dfy ===
/**
 * SolrPowered::ControllerMethods (lib/solr_powered/controller_methods.rb):
 * solr_find picks the sort and the query for SolrPowered.find from the
 * caller's options and the request parameters; hash_to_lql compiles a
 * parameter hash whose keys may carry a suffix (-min, -max, -range,
 * -begins-with, -in) into a query.
 *
 * The registry, the default search field and the default operator are
 * an environment; parsing a date (Time.parse and strftime) and the text
 * of an -in group are functions of it.
 */
module ControllerMethods {
  import opened Values
  import Lql
  import Find
  import InstanceMethods

  /** What hash_to_lql reads besides the hash. */
  datatype Env = Env(
    indexes: seq<(string, Entries)>,
    defaultField: string,
    operator: string,
    parseDate: Value -> Result<string>,
    inGroup: (string, Value) -> Result<string>)

  /** A key matched by /^(.+?)(-(.+))?$/: the field and the optional suffix. */
  datatype Key = Key(field: string, suffix: Option<string>)

  /** The suffixes hash_to_lql knows, and any other. */
  datatype Suffix = Plain | Min | Max | Range | BeginsWith | In | Unknown(name: string)

  /** One query clause and the arguments its placeholders take. */
  datatype Clause = Clause(text: string, args: seq<Value>)

  // ---------------------------------------------------------------------
  // Keys
  // ---------------------------------------------------------------------

  /** Where the lazy field group stops: the first dash from i on that has text after it, else the end. */
  function FieldEnd(k: string, i: nat): (e: nat)
    requires 1 <= i <= |k|
    ensures i <= e <= |k|
    ensures e < |k| ==> k[e] == '-' && e + 1 < |k|
    ensures forall j :: i <= j < e ==> !(k[j] == '-' && j + 1 < |k|)
    decreases |k| - i
  {
    if i == |k| || (k[i] == '-' && i + 1 < |k|) then i else FieldEnd(k, i + 1)
  }

  /** The match of a key, none for the empty key (whose field is nil and so never searchable). */
  function SplitKey(k: string): (r: Option<Key>)
    ensures r.None? <==> k == []
  {
    if k == [] then None
    else
      var e := FieldEnd(k, 1);
      Some(if e == |k| then Key(k, None) else Key(k[..e], Some(k[e + 1..])))
  }

  /** The text a key is made of. */
  function KeyText(key: Key): string {
    match key.suffix
    case None => key.field
    case Some(s) => key.field + "-" + s
  }

  /**
   * A key splits at its first dash that is neither its first nor its
   * last character; the parts put back together give the key.
   */
  lemma SplitKeyMeans(k: string)
    requires k != []
    ensures var key := SplitKey(k).value;
            && key.field != [] && KeyText(key) == k
            && (key.suffix.Some? ==> key.suffix.value != [] && '-' !in key.field[1..])
            && (key.suffix.None? ==> forall j :: 1 <= j < |k| - 1 ==> k[j] != '-')
  {
    var e := FieldEnd(k, 1);
    if e < |k| {
      var key := SplitKey(k).value;
      assert key.field + "-" + key.suffix.value == k[..e] + [k[e]] + k[e + 1..];
      assert k[..e] + [k[e]] + k[e + 1..] == k;
      assert forall j :: 0 <= j < |key.field[1..]| ==> key.field[1..][j] == k[j + 1];
    }
  }

  /** A field with no dash after its first character and a non-empty suffix come back apart. */
  lemma SplitKeyRoundTrip(field: string, suffix: string)
    requires field != [] && '-' !in field[1..] && suffix != []
    ensures SplitKey(field + "-" + suffix) == Some(Key(field, Some(suffix)))
  {
    var k := field + "-" + suffix;
    forall j | 1 <= j < |field|
      ensures k[j] != '-'
    {
      assert k[j] == field[1..][j - 1];
    }
    var e := FieldEnd(k, 1);
    if e < |field| {
      assert false;
    }
    assert k[|field|] == '-';
    assert k[..|field|] == field && k[|field| + 1..] == suffix;
  }

  // ---------------------------------------------------------------------
  // Clauses
  // ---------------------------------------------------------------------

  /** A searchable field: a registered index, solr_id, solr_type or the default search field. */
  predicate Searchable(field: string, env: Env) {
    HasKey(env.indexes, field) || field in ["solr_id", "solr_type", env.defaultField]
  }

  /** The field is a registered index of type date. */
  predicate IsDate(field: string, env: Env) {
    match Get(env.indexes, field)
    case Some(cfg) => ToS(Lookup(cfg, "type")) == "date"
    case None => false
  }

  /** A value for a date field: a time gives its stamp, anything else is parsed. */
  function Converted(field: string, v: Value, env: Env): (r: Result<Value>)
    ensures !IsDate(field, env) ==> r == Ok(v)
    ensures r.Ok? && IsDate(field, env) ==> r.value.Str?
  {
    if !IsDate(field, env) then Ok(v)
    else if v.Time? then Ok(Str(v.iso))
    else match env.parseDate(v)
      case Err(e) => Err(e)
      case Ok(s) => Ok(Str(s))
  }

  /** String#split(',') into the two bounds of a range, nil where a bound is missing. */
  function Bounds(s: string): (r: seq<Value>)
    ensures |r| == 2
  {
    var p := Split(s, ',');
    [if |p| > 0 then Str(p[0]) else Nil, if |p| > 1 then Str(p[1]) else Nil]
  }

  /** The case a suffix selects. */
  function KindOf(suffix: Option<string>): (r: Suffix)
    ensures r.Unknown? <==> suffix.Some? && suffix.value !in ["min", "max", "range", "begins-with", "in"]
  {
    match suffix
    case None => Plain
    case Some(s) =>
      if s == "min" then Min
      else if s == "max" then Max
      else if s == "range" then Range
      else if s == "begins-with" then BeginsWith
      else if s == "in" then In
      else Unknown(s)
  }

  /** The clause one (converted) value gives for a key's suffix. */
  function ClauseFor(key: Key, v: Value, values: Value, env: Env): Result<Clause> {
    var f := key.field;
    match KindOf(key.suffix)
    case Plain => Ok(Clause(if f == env.defaultField then "?" else f + ":?", [v]))
    case Min => Ok(Clause(f + ":[? TO *]", [v]))
    case Max => Ok(Clause(f + ":[* TO ?]", [v]))
    case Range => if v.Str? then Ok(Clause(f + ":[? TO ?]", Bounds(v.s))) else Err(NoMethodError)
    case BeginsWith => Ok(Clause(f + ":?*", [v]))
    case In =>
      (match env.inGroup(f, values)
       case Err(e) => Err(e)
       case Ok(g) => if values.List? then Ok(Clause(g, values.items)) else Err(TypeError))
    case Unknown(_) => Err(RuntimeError)
  }

  /** The clauses of one key's values, in order. */
  function ValueClauses(key: Key, vs: seq<Value>, values: Value, env: Env): Result<seq<Clause>> {
    if vs == [] then Ok([])
    else
      match Converted(key.field, vs[0], env)
      case Err(e) => Err(e)
      case Ok(v) =>
        match ClauseFor(key, v, values, env)
        case Err(e) => Err(e)
        case Ok(c) => Then([c], ValueClauses(key, vs[1..], values, env))
  }

  /** The clauses of one entry of the hash: none when its field is not searchable. */
  function EntryClauses(entry: (string, Value), env: Env): Result<seq<Clause>> {
    match SplitKey(entry.0)
    case None => Ok([])
    case Some(key) =>
      if !Searchable(key.field, env) then Ok([])
      else ValueClauses(key, ArrayOf(entry.1), entry.1, env)
  }

  /** The clauses of the whole hash, entry after entry. */
  function Clauses(entries: Entries, env: Env): Result<seq<Clause>> {
    if entries == [] then Ok([])
    else
      match EntryClauses(entries[0], env)
      case Err(e) => Err(e)
      case Ok(cs) => Then(cs, Clauses(entries[1..], env))
  }

  function Texts(cs: seq<Clause>): (r: seq<string>)
    ensures |r| == |cs| && forall i :: 0 <= i < |cs| ==> r[i] == cs[i].text
  {
    seq(|cs|, i requires 0 <= i < |cs| => cs[i].text)
  }

  /** The arguments of the clauses, in order. */
  function ArgsOf(cs: seq<Clause>): seq<Value> {
    if cs == [] then [] else cs[0].args + ArgsOf(cs[1..])
  }

  /** The query text before compilation: the clauses joined by the operator, or *:* when blank. */
  function Template(cs: seq<Clause>, env: Env): string {
    var q := Join(" " + env.operator + " ", Texts(cs));
    if AllSpace(q) then "*:*" else q
  }

  /** hash_to_lql */
  function HashToLql(h: Value, env: Env): Result<string> {
    if !h.Hash? then Err(NoMethodError)
    else
      match Clauses(h.entries, env)
      case Err(e) => Err(e)
      case Ok(cs) => Lql.Compile(List([Str(Template(cs, env))] + ArgsOf(cs)))
  }

  // ---------------------------------------------------------------------
  // Properties of hash_to_lql
  // ---------------------------------------------------------------------

  lemma {:induction false} ArgsOfAppend(a: seq<Clause>, b: seq<Clause>)
    ensures ArgsOf(a + b) == ArgsOf(a) + ArgsOf(b)
  {
    if a == [] {
      assert a + b == b;
    } else {
      assert (a + b)[1..] == a[1..] + b;
      ArgsOfAppend(a[1..], b);
    }
  }

  /** The clauses of a hash are those of its first part followed by those of the rest. */
  lemma {:induction false} ClausesAppend(a: Entries, b: Entries, env: Env)
    ensures Clauses(a + b, env) == match Clauses(a, env)
                                   case Err(e) => Err(e)
                                   case Ok(x) => Then(x, Clauses(b, env))
  {
    if a == [] {
      assert a + b == b;
      ThenEmpty(Clauses(b, env));
    } else {
      assert (a + b)[0] == a[0] && (a + b)[1..] == a[1..] + b;
      ClausesAppend(a[1..], b, env);
      match EntryClauses(a[0], env)
      case Err(e) =>
      case Ok(cs) =>
        match Clauses(a[1..], env)
        case Err(e) =>
        case Ok(x) => ThenThen(cs, x, Clauses(b, env));
    }
  }

  /** A key whose field is not searchable contributes nothing: the query is as if it were absent. */
  lemma SkipsUnsearchable(a: Entries, k: string, v: Value, b: Entries, env: Env)
    requires k == [] || !Searchable(SplitKey(k).value.field, env)
    ensures HashToLql(Hash(a + [(k, v)] + b), env) == HashToLql(Hash(a + b), env)
  {
    ClausesAppend(a, [(k, v)] + b, env);
    ClausesAppend([(k, v)], b, env);
    ClausesAppend(a, b, env);
    assert a + [(k, v)] + b == a + ([(k, v)] + b);
    assert Clauses([(k, v)], env) == Ok([]) by {
      assert [(k, v)][1..] == [];
      assert EntryClauses((k, v), env) == Ok([]);
      var none: seq<Clause> := [];
      assert none + none == none;
    }
    ThenEmpty(Clauses(b, env));
  }

  /** A placeholder count: the '?'s of a text. */
  function Marks(t: string): nat {
    multiset(t)['?']
  }

  /** A template's placeholders are its '?'s. */
  lemma {:induction false} PlaceholdersAreMarks(t: string)
    ensures Lql.Placeholders(t) == Marks(t)
  {
    if t != [] {
      PlaceholdersAreMarks(t[1..]);
      assert t == [t[0]] + t[1..];
    }
  }

  /** A clause is balanced when it has a placeholder for each argument and no '%'. */
  predicate Balanced(c: Clause) {
    Marks(c.text) == |c.args| && '%' !in c.text
  }

  /** Every -in group has one placeholder per value and no '%'. */
  ghost predicate GroupsBalanced(env: Env) {
    forall f, vs :: env.inGroup(f, vs).Ok? && vs.List? ==>
      Marks(env.inGroup(f, vs).value) == |vs.items| && '%' !in env.inGroup(f, vs).value
  }

  /** Keys and an operator that cannot be mistaken for template syntax, and balanced -in groups. */
  ghost predicate PlainEnv(entries: Entries, env: Env) {
    && (forall i :: 0 <= i < |entries| ==> '?' !in entries[i].0 && '%' !in entries[i].0)
    && '?' !in env.operator && '%' !in env.operator
    && GroupsBalanced(env)
  }

  /** A plain field followed by a tail has the tail's placeholders. */
  lemma FieldThen(f: string, tail: string)
    requires '?' !in f && '%' !in f && '%' !in tail
    ensures Marks(f + tail) == Marks(tail) && '%' !in f + tail
  {
    assert multiset(f + tail) == multiset(f) + multiset(tail);
  }

  /** The placeholders of the plain and prefix clause shapes. */
  lemma PlainMarks()
    ensures Marks("?") == 1 && Marks(":?") == 1 && Marks(":?*") == 1
    ensures '%' !in ":?" && '%' !in ":?*"
  {
  }

  /** No range shape holds a '%'. */
  lemma RangesClean()
    ensures '%' !in ":[? TO *]" && '%' !in ":[* TO ?]" && '%' !in ":[? TO ?]"
  {
  }

  /** The placeholders of the range shape open at the top. */
  lemma MinMarks()
    ensures Marks(":[? TO *]") == 1
  {
  }

  /** The placeholders of the range shape open at the bottom. */
  lemma MaxMarks()
    ensures Marks(":[* TO ?]") == 1
  {
  }

  /** The placeholders of the closed range shape. */
  lemma RangeMarks()
    ensures Marks(":[? TO ?]") == 2
  {
  }

  /** Every clause has a placeholder for each of its arguments. */
  lemma ClauseBalanced(key: Key, v: Value, values: Value, env: Env)
    requires '?' !in key.field && '%' !in key.field
    requires GroupsBalanced(env)
    requires ClauseFor(key, v, values, env).Ok?
    ensures Balanced(ClauseFor(key, v, values, env).value)
  {
    var f := key.field;
    var c := ClauseFor(key, v, values, env).value;
    match KindOf(key.suffix)
    case Plain =>
      PlainMarks();
      if f != env.defaultField {
        FieldThen(f, ":?");
        assert c == Clause(f + ":?", [v]);
      } else {
        assert c == Clause("?", [v]);
      }
    case Min =>
      MinMarks();
      RangesClean();
      FieldThen(f, ":[? TO *]");
      assert c == Clause(f + ":[? TO *]", [v]);
    case Max =>
      MaxMarks();
      RangesClean();
      FieldThen(f, ":[* TO ?]");
      assert c == Clause(f + ":[* TO ?]", [v]);
    case Range =>
      RangeMarks();
      RangesClean();
      FieldThen(f, ":[? TO ?]");
      assert c == Clause(f + ":[? TO ?]", Bounds(v.s));
    case BeginsWith =>
      PlainMarks();
      FieldThen(f, ":?*");
      assert c == Clause(f + ":?*", [v]);
    case In =>
      var g := env.inGroup(f, values);
      assert g.Ok? && values.List? && c == Clause(g.value, values.items);
    case Unknown(_) =>
  }

  /** Every clause of a key's values is balanced. */
  lemma {:induction false} ValueClausesBalanced(key: Key, vs: seq<Value>, values: Value, env: Env)
    requires '?' !in key.field && '%' !in key.field
    requires GroupsBalanced(env)
    requires ValueClauses(key, vs, values, env).Ok?
    ensures forall c :: c in ValueClauses(key, vs, values, env).value ==> Balanced(c)
  {
    if vs != [] {
      var v := Converted(key.field, vs[0], env).value;
      ClauseBalanced(key, v, values, env);
      ValueClausesBalanced(key, vs[1..], values, env);
    }
  }

  /** A key without '?' or '%' has a field without them. */
  lemma FieldPlain(k: string)
    requires k != [] && '?' !in k && '%' !in k
    ensures '?' !in SplitKey(k).value.field && '%' !in SplitKey(k).value.field
  {
    SplitKeyMeans(k);
    var key := SplitKey(k).value;
    assert key.field <= k;
  }

  /** Every clause of a plain hash is balanced. */
  lemma {:induction false} ClausesBalanced(entries: Entries, env: Env)
    requires PlainEnv(entries, env)
    requires Clauses(entries, env).Ok?
    ensures forall c :: c in Clauses(entries, env).value ==> Balanced(c)
  {
    if entries != [] {
      var (k, v) := entries[0];
      assert PlainEnv(entries[1..], env) by {
        forall i | 0 <= i < |entries[1..]| ensures '?' !in entries[1..][i].0 && '%' !in entries[1..][i].0 {
          assert entries[1..][i] == entries[i + 1];
        }
      }
      ClausesBalanced(entries[1..], env);
      if k != [] && Searchable(SplitKey(k).value.field, env) {
        FieldPlain(k);
        ValueClausesBalanced(SplitKey(k).value, ArrayOf(v), v, env);
      }
    }
  }

  /** Joining balanced clauses with a plain separator gives a template with one placeholder per argument. */
  lemma {:induction false} JoinBalanced(sep: string, cs: seq<Clause>)
    requires '?' !in sep && '%' !in sep
    requires forall c :: c in cs ==> Balanced(c)
    ensures Marks(Join(sep, Texts(cs))) == |ArgsOf(cs)|
    ensures '%' !in Join(sep, Texts(cs))
  {
    if cs == [] {
    } else if |cs| == 1 {
      assert cs[0] in cs;
      assert cs[1..] == [];
      assert ArgsOf(cs) == cs[0].args + [];
    } else {
      assert cs[0] in cs;
      assert Texts(cs)[1..] == Texts(cs[1..]);
      JoinBalanced(sep, cs[1..]);
      var j := Join(sep, Texts(cs));
      assert j == cs[0].text + sep + Join(sep, Texts(cs[1..]));
      assert multiset(sep)['?'] == 0;
    }
  }

  /** *:* has no placeholder and no '%'. */
  lemma MatchAllMarks()
    ensures Marks("*:*") == 0 && '%' !in "*:*"
  {
    assert '?' !in "*:*";
  }

  /** The template of balanced clauses has a placeholder per argument and no '%'; *:* has neither. */
  lemma TemplateBalanced(cs: seq<Clause>, env: Env)
    requires '?' !in env.operator && '%' !in env.operator
    requires forall c :: c in cs ==> Balanced(c)
    ensures Marks(Template(cs, env)) == |ArgsOf(cs)| && '%' !in Template(cs, env)
  {
    var sep := " " + env.operator + " ";
    var q := Join(sep, Texts(cs));
    JoinBalanced(sep, cs);
    if AllSpace(q) {
      MatchAllMarks();
    }
  }

  /**
   * When no key and not the operator holds ? or %, and every -in group text
   * has one ? per value and no %, the query hash_to_lql builds has exactly as many
   * placeholders as arguments, so its final lql call never fails:
   * hash_to_lql then raises only while building the clauses.
   */
  lemma HashToLqlCompiles(entries: Entries, env: Env)
    requires PlainEnv(entries, env)
    ensures HashToLql(Hash(entries), env).Err? <==> Clauses(entries, env).Err?
  {
    if Clauses(entries, env).Ok? {
      var cs := Clauses(entries, env).value;
      ClausesBalanced(entries, env);
      TemplateBalanced(cs, env);
      var t := Template(cs, env);
      PlaceholdersAreMarks(t);
      var parts := [Str(t)] + ArgsOf(cs);
      assert parts[1..] == ArgsOf(cs);
      Lql.SubstituteTemplate(t, Lql.Args(ArgsOf(cs)));
    }
  }

  /** A template with one placeholder between plain text compiles to that text around the argument. */
  lemma OneHole(p: string, tail: string, x: Value)
    requires '?' !in p && '%' !in p && '?' !in tail && '%' !in tail
    ensures Lql.Compile(List([Str(p + "?" + tail), x])) == Ok(p + Lql.Arg(x) + tail)
  {
    var t := p + "?" + tail;
    assert t == p + ['?'] + tail;
    assert '%' !in t;
    FieldsJoin(p, tail, '?');
    FieldsNoSep(tail, '?');
    assert [Str(t), x][1..] == [x];
    Lql.SubstituteTemplate(t, Lql.Args([x]));
  }

  /** A one-key hash compiles as its one clause would on its own. */
  lemma Single(k: string, v: Value, env: Env)
    requires k != []
    requires var key := SplitKey(k).value; Searchable(key.field, env) && !IsDate(key.field, env)
    requires ArrayOf(v) == [v]
    requires var c := ClauseFor(SplitKey(k).value, v, v, env); c.Ok? && '?' in c.value.text
    ensures var c := ClauseFor(SplitKey(k).value, v, v, env).value;
            HashToLql(Hash([(k, v)]), env) == Lql.Compile(List([Str(c.text)] + c.args))
  {
    var key := SplitKey(k).value;
    var c := ClauseFor(key, v, v, env).value;
    assert [v][1..] == [];
    assert [c] + [] == [c];
    assert ValueClauses(key, [v], v, env) == Ok([c]);
    assert EntryClauses((k, v), env) == Ok([c]);
    assert [(k, v)][1..] == [];
    assert Clauses([(k, v)], env) == Ok([c]);
    assert ArgsOf([c]) == c.args + [];
    assert c.args + [] == c.args;
    assert '?' in c.text;
    var i :| 0 <= i < |c.text| && c.text[i] == '?';
    assert !IsSpace(c.text[i]);
    assert Texts([c]) == [c.text];
    assert Template([c], env) == c.text;
    assert [Str(Template([c], env))] + ArgsOf([c]) == [Str(c.text)] + c.args;
  }

  /** A one-key hash whose clause has one placeholder between plain text compiles to that text around the value. */
  lemma OneHoleClause(k: string, v: Value, env: Env, p: string, tail: string)
    requires k != []
    requires var key := SplitKey(k).value; Searchable(key.field, env) && !IsDate(key.field, env)
    requires !v.List? && !v.Nil? && !v.Hash?
    requires '?' !in p && '%' !in p && '?' !in tail && '%' !in tail
    requires ClauseFor(SplitKey(k).value, v, v, env) == Ok(Clause(p + "?" + tail, [v]))
    ensures HashToLql(Hash([(k, v)]), env) == Ok(p + Lql.Arg(v) + tail)
  {
    var t := p + "?" + tail;
    assert t[|p|] == '?';
    assert ArrayOf(v) == [v];
    Single(k, v, env);
    assert [Str(t)] + [v] == [Str(t), v];
    OneHole(p, tail, v);
  }

  /** A plain key on the default search field gives the bare value. */
  lemma DefaultFieldShape(k: string, v: Value, env: Env)
    requires k != [] && '?' !in k && '%' !in k
    requires var key := SplitKey(k).value;
             Searchable(key.field, env) && !IsDate(key.field, env) && key.suffix.None? && key.field == env.defaultField
    requires !v.List? && !v.Nil? && !v.Hash?
    ensures HashToLql(Hash([(k, v)]), env) == Ok(Lql.Arg(v))
  {
    assert "" + "?" + "" == "?";
    OneHoleClause(k, v, env, "", "");
    assert "" + Lql.Arg(v) + "" == Lql.Arg(v);
  }

  /** A plain key on any other field gives field:value. */
  lemma FieldShape(k: string, v: Value, env: Env)
    requires k != [] && '?' !in k && '%' !in k
    requires var key := SplitKey(k).value;
             Searchable(key.field, env) && !IsDate(key.field, env) && key.suffix.None? && key.field != env.defaultField
    requires !v.List? && !v.Nil? && !v.Hash?
    ensures var f := SplitKey(k).value.field; HashToLql(Hash([(k, v)]), env) == Ok(f + ":" + Lql.Arg(v))
  {
    var f := SplitKey(k).value.field;
    FieldPlain(k);
    assert f + ":?" == f + ":" + "?" + "";
    OneHoleClause(k, v, env, f + ":", "");
    assert f + ":" + Lql.Arg(v) + "" == f + ":" + Lql.Arg(v);
  }

  /** -min gives the range from the value up. */
  lemma MinShape(k: string, v: Value, env: Env)
    requires k != [] && '?' !in k && '%' !in k
    requires var key := SplitKey(k).value;
             Searchable(key.field, env) && !IsDate(key.field, env) && key.suffix == Some("min")
    requires !v.List? && !v.Nil? && !v.Hash?
    ensures var f := SplitKey(k).value.field; HashToLql(Hash([(k, v)]), env) == Ok(f + ":[" + Lql.Arg(v) + " TO *]")
  {
    var f := SplitKey(k).value.field;
    FieldPlain(k);
    assert f + ":[? TO *]" == f + ":[" + "?" + " TO *]";
    OneHoleClause(k, v, env, f + ":[", " TO *]");
  }

  /** -max gives the range up to the value. */
  lemma MaxShape(k: string, v: Value, env: Env)
    requires k != [] && '?' !in k && '%' !in k
    requires var key := SplitKey(k).value;
             Searchable(key.field, env) && !IsDate(key.field, env) && key.suffix == Some("max")
    requires !v.List? && !v.Nil? && !v.Hash?
    ensures var f := SplitKey(k).value.field; HashToLql(Hash([(k, v)]), env) == Ok(f + ":[* TO " + Lql.Arg(v) + "]")
  {
    var f := SplitKey(k).value.field;
    FieldPlain(k);
    assert f + ":[* TO ?]" == f + ":[* TO " + "?" + "]";
    OneHoleClause(k, v, env, f + ":[* TO ", "]");
  }

  /** -begins-with gives a prefix match on the value. */
  lemma BeginsWithShape(k: string, v: Value, env: Env)
    requires k != [] && '?' !in k && '%' !in k
    requires var key := SplitKey(k).value;
             Searchable(key.field, env) && !IsDate(key.field, env) && key.suffix == Some("begins-with")
    requires !v.List? && !v.Nil? && !v.Hash?
    ensures var f := SplitKey(k).value.field; HashToLql(Hash([(k, v)]), env) == Ok(f + ":" + Lql.Arg(v) + "*")
  {
    var f := SplitKey(k).value.field;
    FieldPlain(k);
    assert f + ":?*" == f + ":" + "?" + "*";
    OneHoleClause(k, v, env, f + ":", "*");
  }

  /** A suffix outside the six known ones raises as soon as the key has a value to compile. */
  lemma UnknownSuffixRaises(k: string, v: Value, env: Env)
    requires k != []
    requires var key := SplitKey(k).value;
             && Searchable(key.field, env) && !IsDate(key.field, env) && ArrayOf(v) != []
             && key.suffix.Some? && key.suffix.value !in ["min", "max", "range", "begins-with", "in"]
    ensures HashToLql(Hash([(k, v)]), env) == Err(RuntimeError)
  {
    assert [(k, v)][1..] == [];
  }

  /** With no clauses the query matches everything. */
  lemma EmptyMatchesAll(entries: Entries, env: Env)
    requires Clauses(entries, env) == Ok([])
    ensures HashToLql(Hash(entries), env) == Ok("*:*")
  {
    assert Template([], env) == "*:*";
    FieldsNoSep("*:*", '?');
    assert [Str("*:*")][1..] == [];
    Lql.SubstituteTemplate("*:*", []);
  }

  // ---------------------------------------------------------------------
  // The loops of hash_to_lql
  // ---------------------------------------------------------------------

  /** The texts and arguments of two runs of clauses are those of the first followed by those of the second. */
  lemma TextsArgsAppend(a: seq<Clause>, b: seq<Clause>)
    ensures Texts(a + b) == Texts(a) + Texts(b)
    ensures ArgsOf(a + b) == ArgsOf(a) + ArgsOf(b)
  {
    ArgsOfAppend(a, b);
  }

  /** One clause more at the end of a run. */
  lemma TextsArgsSnoc(acc: seq<Clause>, c: Clause)
    ensures Texts(acc + [c]) == Texts(acc) + [c.text]
    ensures ArgsOf(acc + [c]) == ArgsOf(acc) + c.args
  {
    TextsArgsAppend(acc, [c]);
    assert ArgsOf([c]) == c.args + [];
  }

  /** One value more of a key: its clause gathered, or the exception converting or building it raises. */
  lemma ValueClausesStep(key: Key, vs: seq<Value>, values: Value, env: Env, acc: seq<Clause>, j: nat)
    requires j < |vs|
    ensures var v := Converted(key.field, vs[j], env);
            var rest := Then(acc, ValueClauses(key, vs[j..], values, env));
            && (v.Err? ==> rest == Err(v.error))
            && (v.Ok? && ClauseFor(key, v.value, values, env).Err? ==>
                  rest == Err(ClauseFor(key, v.value, values, env).error))
            && (v.Ok? && ClauseFor(key, v.value, values, env).Ok? ==>
                  rest == Then(acc + [ClauseFor(key, v.value, values, env).value], ValueClauses(key, vs[j + 1..], values, env)))
  {
    DropOne(vs, j);
    var v := Converted(key.field, vs[j], env);
    if v.Ok? && ClauseFor(key, v.value, values, env).Ok? {
      ThenThen(acc, [ClauseFor(key, v.value, values, env).value], ValueClauses(key, vs[j + 1..], values, env));
    }
  }

  /** The body of the values loop: the clause of value j, converted for a date field and shaped by the suffix. */
  method NextClause(key: Key, vs: seq<Value>, values: Value, env: Env, ghost acc: seq<Clause>, j: nat)
    returns (r: Result<Clause>)
    requires j < |vs|
    ensures r.Err? ==> Then(acc, ValueClauses(key, vs[j..], values, env)) == Err(r.error)
    ensures r.Ok? ==> Then(acc, ValueClauses(key, vs[j..], values, env))
                      == Then(acc + [r.value], ValueClauses(key, vs[j + 1..], values, env))
  {
    ValueClausesStep(key, vs, values, env, acc, j);
    var v := Converted(key.field, vs[j], env);
    if v.Err? {
      return Err(v.error);
    }
    r := ClauseFor(key, v.value, values, env);
  }

  /** The Array(values).each loop of one key, appending to query and args. */
  method AddValues(key: Key, values: Value, env: Env, query: seq<string>, args: seq<Value>)
    returns (r: Result<(seq<string>, seq<Value>)>)
    ensures r == match ValueClauses(key, ArrayOf(values), values, env)
                 case Err(e) => Err(e)
                 case Ok(cs) => Ok((query + Texts(cs), args + ArgsOf(cs)))
  {
    var vs := ArrayOf(values);
    var q := query;
    var a := args;
    ghost var acc: seq<Clause> := [];
    assert vs[0..] == vs;
    ThenEmpty(ValueClauses(key, vs, values, env));
    for j := 0 to |vs|
      invariant ValueClauses(key, vs, values, env) == Then(acc, ValueClauses(key, vs[j..], values, env))
      invariant q == query + Texts(acc) && a == args + ArgsOf(acc)
    {
      var c := NextClause(key, vs, values, env, acc, j);
      if c.Err? {
        return Err(c.error);
      }
      TextsArgsSnoc(acc, c.value);
      AppendAssoc(query, Texts(acc), [c.value.text]);
      AppendAssoc(args, ArgsOf(acc), c.value.args);
      acc := acc + [c.value];
      q := q + [c.value.text];
      a := a + c.value.args;
    }
    assert vs[|vs|..] == [];
    assert acc + [] == acc;
    r := Ok((q, a));
  }

  /** One pass of the hash.each_pair loop: a searchable key's clauses appended to query and args. */
  method AddEntry(entry: (string, Value), env: Env, query: seq<string>, args: seq<Value>)
    returns (r: Result<(seq<string>, seq<Value>)>)
    ensures r == match EntryClauses(entry, env)
                 case Err(e) => Err(e)
                 case Ok(cs) => Ok((query + Texts(cs), args + ArgsOf(cs)))
  {
    var (k, values) := entry;
    var key := SplitKey(k);
    if key.Some? && Searchable(key.value.field, env) {
      r := AddValues(key.value, values, env, query, args);
    } else {
      assert Texts([]) == [] && ArgsOf([]) == [];
      assert query + [] == query && args + [] == args;
      r := Ok((query, args));
    }
  }

  /** hash_to_lql, with its loops. */
  method CompileParams(h: Value, env: Env) returns (r: Result<string>)
    ensures r == HashToLql(h, env)
  {
    if !h.Hash? {
      return Err(NoMethodError);
    }
    var entries := h.entries;
    var query: seq<string> := [];
    var args: seq<Value> := [];
    ghost var done: seq<Clause> := [];
    var i := 0;
    assert entries[0..] == entries;
    ThenEmpty(Clauses(entries, env));
    while i < |entries|
      invariant 0 <= i <= |entries|
      invariant Clauses(entries, env) == Then(done, Clauses(entries[i..], env))
      invariant query == Texts(done) && args == ArgsOf(done)
    {
      DropOne(entries, i);
      var added := AddEntry(entries[i], env, query, args);
      if added.Err? {
        return Err(added.error);
      }
      ghost var cs := EntryClauses(entries[i], env).value;
      ThenThen(done, cs, Clauses(entries[i + 1..], env));
      TextsArgsAppend(done, cs);
      done := done + cs;
      query, args := added.value.0, added.value.1;
      i := i + 1;
    }
    assert done + [] == done;
    assert Clauses(entries, env) == Ok(done);
    var q := Join(" " + env.operator + " ", query);
    r := Lql.Compile(List([Str(if AllSpace(q) then "*:*" else q)] + args));
  }

  // ---------------------------------------------------------------------
  // solr_find
  // ---------------------------------------------------------------------

  /** The sort: the caller's, else the request's, else by score for a text search, else the caller's default. */
  function SortFor(options: Entries, params: Entries): (r: Value)
    ensures HasKey(options, "sort") ==> r == Lookup(options, "sort")
    ensures !HasKey(options, "sort") && HasKey(params, "sort") ==> r == Lookup(params, "sort")
    ensures !HasKey(options, "sort") && !HasKey(params, "sort") ==>
              r == (if HasKey(params, "q") then Str("score desc") else Lookup(options, "default_sort"))
  {
    if HasKey(options, "sort") then Lookup(options, "sort")
    else if HasKey(params, "sort") then Lookup(params, "sort")
    else if HasKey(params, "q") then Str("score desc")
    else Lookup(options, "default_sort")
  }

  /** The query: the caller's, else the caller's parameter hash compiled, else everything. */
  function QueryFor(options: Entries, env: Env): (r: Result<Value>)
    ensures HasKey(options, "query") ==> r == Ok(Lookup(options, "query"))
    ensures !HasKey(options, "query") && !HasKey(options, "params") ==> r == Ok(Str("*:*"))
  {
    if HasKey(options, "query") then Ok(Lookup(options, "query"))
    else if HasKey(options, "params") then
      match HashToLql(Lookup(options, "params"), env)
      case Err(e) => Err(e)
      case Ok(q) => Ok(Str(q))
    else Ok(Str("*:*"))
  }

  /** The options solr_find passes to SolrPowered.find. */
  function FindOptions(options: Entries, params: Entries): Entries {
    var perPage := Lookup(options, "per_page");
    [("find", Lookup(options, "find")), ("sort", SortFor(options, params)), ("page", Lookup(params, "page")),
     ("per_page", if Truthy(perPage) then perPage else Int(10)), ("facets", List(ArrayOf(Lookup(options, "facets"))))]
  }

  /** solr_find */
  function SolrFind(options: Entries, params: Entries, env: Env, w: InstanceMethods.World, load: Find.Loader,
                    solr: Entries -> Result<Find.Response>): Result<Find.Found>
  {
    match QueryFor(options, env)
    case Err(e) => Err(e)
    case Ok(query) => Find.Search(query, FindOptions(options, params), w, load, solr)
  }

  /** What solr_find hands to find: the chosen sort, the request's page, 10 per page by default, the facets as a list. */
  lemma FindOptionsGet(options: Entries, params: Entries)
    ensures var o := FindOptions(options, params);
            && Lookup(o, "sort") == SortFor(options, params)
            && Lookup(o, "page") == Lookup(params, "page")
            && Lookup(o, "per_page") == (if Truthy(Lookup(options, "per_page")) then Lookup(options, "per_page") else Int(10))
            && Lookup(o, "facets") == List(ArrayOf(Lookup(options, "facets")))
  {
    var o := FindOptions(options, params);
    assert Keys(o) == ["find", "sort", "page", "per_page", "facets"];
    GetAt(o, 1);
    GetAt(o, 2);
    GetAt(o, 3);
    GetAt(o, 4);
  }

  /**
   * The request solr_find sends sorts as SortFor says, and always asks
   * for facets: an empty facet list is still a true value.
   */
  lemma SolrFindRequest(options: Entries, params: Entries, q: string, page: int, perPage: int, fl: string)
    ensures var s := Find.SelectFor(FindOptions(options, params), q, page, perPage, fl);
            && Get(s, "sort") == Some(SortFor(options, params))
            && Get(s, "facet") == Some(Bool(true))
  {
    var o := FindOptions(options, params);
    FindOptionsGet(options, params);
    Find.SelectForQuery(o, q, page, perPage, fl);
    Find.SelectForFacets(o, q, page, perPage, fl);
  }

  /** A successful solr_find shows 10 results per page unless the caller gives a page size. */
  lemma SolrFindPageSize(options: Entries, params: Entries, env: Env, w: InstanceMethods.World, load: Find.Loader,
                         solr: Entries -> Result<Find.Response>)
    requires SolrFind(options, params, env, w, load, solr).Ok?
    requires !Truthy(Lookup(options, "per_page"))
    ensures SolrFind(options, params, env, w, load, solr).value.perPage == 10
  {
    var o := FindOptions(options, params);
    var q := QueryFor(options, env).value;
    assert SolrFind(options, params, env, w, load, solr) == Find.Search(q, o, w, load, solr);
    FindOptionsGet(options, params);
    Find.PositiveOptionMeans(Int(10), 10);
    Find.SearchPaging(q, o, w, load, solr);
  }

  /** A controller: the request parameters and the facets of its last search. */
  class Controller {
    var params: Entries
    var facets: Value

    constructor (requestParams: Entries)
      ensures params == requestParams && facets == Nil
    {
      params := requestParams;
      facets := Nil;
    }

    /** solr_find: @facets is set once the query is chosen, before the search runs. */
    method Search(options: Entries, env: Env, w: InstanceMethods.World, load: Find.Loader,
                  solr: Entries -> Result<Find.Response>) returns (r: Result<Find.Found>)
      modifies this
      ensures params == old(params)
      ensures facets == if QueryFor(options, env).Err? then old(facets) else List(ArrayOf(Lookup(options, "facets")))
      ensures r == SolrFind(options, params, env, w, load, solr)
    {
      var sort := SortFor(options, params);
      var query: Value;
      if HasKey(options, "query") {
        query := Lookup(options, "query");
      } else if HasKey(options, "params") {
        var q := CompileParams(Lookup(options, "params"), env);
        if q.Err? {
          return Err(q.error);
        }
        query := Str(q.value);
      } else {
        query := Str("*:*");
      }
      facets := List(ArrayOf(Lookup(options, "facets")));
      var perPage := Lookup(options, "per_page");
      var findOptions := [("find", Lookup(options, "find")), ("sort", sort), ("page", Lookup(params, "page")),
                          ("per_page", if Truthy(perPage) then perPage else Int(10)), ("facets", facets)];
      r := Find.Find(query, findOptions, w, load, solr);
    }
  }
}

=== FILE: dismax_query.dfy ===
/**
 * SolrPowered::DismaxQuery (lib/solr_powered/dismax_query.rb): a search
 * object that turns a request's parameters into a dismax select hash in
 * a fixed pipeline: blank parameters stripped, scoring knobs, the query
 * text, paging, sort, one filter per value of an indexed parameter,
 * facets, and the static entries set with []= merged last.  Crumbs (the
 * names of the parameters used) pile up across searches.
 *
 * The index registry is a parameter; Time.parse followed by strftime is
 * a function of it that may fail.
 */
module DismaxQuery {
  import opened Values
  import Lql

  // ---------------------------------------------------------------------
  // filter_empty_params
  // ---------------------------------------------------------------------

  /** An array with its blank members deleted. */
  function NonBlank(items: seq<Value>): (r: seq<Value>)
    ensures forall x :: x in r <==> x in items && !Blank(x)
  {
    if items == [] then []
    else (if Blank(items[0]) then [] else [items[0]]) + NonBlank(items[1..])
  }

  /** A one-member array keeps its member exactly when it is not blank. */
  lemma NonBlankUnit(x: Value)
    ensures NonBlank([x]) == if Blank(x) then [] else [x]
  {
    assert [x][1..] == [];
  }

  /** Deleting blanks works piece by piece, so the kept members stay in order and keep their repeats. */
  lemma {:induction false} NonBlankAppend(a: seq<Value>, b: seq<Value>)
    ensures NonBlank(a + b) == NonBlank(a) + NonBlank(b)
    decreases |a|
  {
    if a == [] {
      assert a + b == b;
    } else {
      assert (a + b)[0] == a[0];
      assert (a + b)[1..] == a[1..] + b;
      NonBlankAppend(a[1..], b);
    }
  }

  /** What filter_empty_params makes of entry i of a hash, and of the entries after it. */
  function FilterFrom(h: Entries, i: nat): Entries
    requires i <= |h|
    decreases Hash(h), |h| - i
  {
    if i == |h| then []
    else
      var v := h[i].1;
      assert h[i] in h;
      var w := match v
               case Hash(e) => Hash(FilterFrom(e, 0))
               case List(items) => List(NonBlank(items))
               case _ => v;
      (if Blank(w) then [] else [(h[i].0, w)]) + FilterFrom(h, i + 1)
  }

  /**
   * filter_empty_params: each hash value filtered in turn, blank members
   * deleted from each array value, and every key whose value ends up
   * blank deleted.
   */
  function FilterEmpty(h: Entries): Entries {
    FilterFrom(h, 0)
  }

  /** What filtering makes of one value. */
  function Stripped(v: Value): Value {
    match v
    case Hash(e) => Hash(FilterEmpty(e))
    case List(items) => List(NonBlank(items))
    case _ => v
  }

  /** One step of the filter: entry i filtered, in front of the entries after it. */
  lemma FilterFromStep(h: Entries, i: nat)
    requires i < |h|
    ensures FilterFrom(h, i) == (if Blank(Stripped(h[i].1)) then [] else [(h[i].0, Stripped(h[i].1))]) + FilterFrom(h, i + 1)
  {
  }

  /** Entry i and the entries after it: nothing blank, at any depth of nested hashes, nor inside an array. */
  predicate CleanFrom(h: Entries, i: nat)
    requires i <= |h|
    decreases Hash(h), |h| - i
  {
    i == |h| ||
    (var v := h[i].1;
     assert h[i] in h;
     && !Blank(v)
     && (v.List? ==> forall x :: x in v.items ==> !Blank(x))
     && (v.Hash? ==> CleanFrom(v.entries, 0))
     && CleanFrom(h, i + 1))
  }

  /** Nothing blank left anywhere in the hash. */
  predicate Clean(h: Entries) {
    CleanFrom(h, 0)
  }

  lemma {:induction false} FilterFromClean(h: Entries, i: nat)
    requires i <= |h|
    ensures Clean(FilterFrom(h, i))
    decreases Hash(h), |h| - i
  {
    if i < |h| {
      var v := h[i].1;
      assert h[i] in h;
      if v.Hash? {
        FilterFromClean(v.entries, 0);
      }
      FilterFromClean(h, i + 1);
      FilterFromStep(h, i);
      var w := Stripped(v);
      if !Blank(w) {
        CleanCons(h[i].0, w, FilterFrom(h, i + 1));
      } else {
        assert [] + FilterFrom(h, i + 1) == FilterFrom(h, i + 1);
      }
    }
  }

  /** A clean hash with one more clean entry in front is clean. */
  lemma CleanCons(k: string, w: Value, rest: Entries)
    requires !Blank(w) && (w.List? ==> forall x :: x in w.items ==> !Blank(x)) && (w.Hash? ==> Clean(w.entries))
    requires Clean(rest)
    ensures Clean([(k, w)] + rest)
  {
    var r := [(k, w)] + rest;
    assert r[0] == (k, w);
    CleanShift(r, 1, rest);
  }

  /** Being clean from i on only depends on the entries from i on. */
  lemma {:induction false} CleanShift(h: Entries, i: nat, t: Entries)
    requires i <= |h| && h[i..] == t
    ensures CleanFrom(h, i) == CleanFrom(t, 0)
    decreases |h| - i
  {
    if i < |h| {
      assert h[i] == t[0];
      assert h[i + 1..] == t[1..];
      CleanShift(h, i + 1, t[1..]);
      CleanShift(t, 1, t[1..]);
    }
  }

  /** Filtering leaves nothing blank. */
  lemma FilterEmptyClean(h: Entries)
    ensures Clean(FilterEmpty(h))
  {
    FilterFromClean(h, 0);
  }

  /** A clean hash is left as it is. */
  lemma {:induction false} CleanFromUnchanged(h: Entries, i: nat)
    requires i <= |h| && CleanFrom(h, i)
    ensures FilterFrom(h, i) == h[i..]
    decreases Hash(h), |h| - i
  {
    if i < |h| {
      var v := h[i].1;
      assert h[i] in h;
      if v.Hash? {
        CleanFromUnchanged(v.entries, 0);
        assert v.entries[0..] == v.entries;
      }
      if v.List? {
        NonBlankAll(v.items);
      }
      CleanFromUnchanged(h, i + 1);
      assert h[i..] == [(h[i].0, v)] + h[i + 1..];
    }
  }

  lemma {:induction false} NonBlankAll(items: seq<Value>)
    requires forall x :: x in items ==> !Blank(x)
    ensures NonBlank(items) == items
  {
    if items != [] {
      assert items[0] in items;
      NonBlankAll(items[1..]);
      assert items == [items[0]] + items[1..];
    }
  }

  /** Filtering twice is filtering once. */
  lemma FilterEmptyIdempotent(h: Entries)
    ensures FilterEmpty(FilterEmpty(h)) == FilterEmpty(h)
  {
    var r := FilterEmpty(h);
    FilterFromClean(h, 0);
    CleanFromUnchanged(r, 0);
    assert r[0..] == r;
  }

  /** No entry from i on has key k: filtering from i on gives no entry k. */
  lemma {:induction false} FilterFromAbsent(h: Entries, i: nat, k: string)
    requires i <= |h|
    requires forall j :: i <= j < |h| ==> h[j].0 != k
    ensures !HasKey(FilterFrom(h, i), k)
    decreases |h| - i
  {
    if i < |h| {
      FilterFromAbsent(h, i + 1, k);
      FilterFromStep(h, i);
      var r := FilterFrom(h, i);
      var w := Stripped(h[i].1);
      if !Blank(w) {
        KeysCons(r);
        assert r[1..] == FilterFrom(h, i + 1);
      } else {
        assert r == FilterFrom(h, i + 1);
      }
    }
  }

  /** With distinct keys, entry j's key survives filtering exactly when its filtered value is not blank. */
  lemma {:induction false} FilterFromGet(h: Entries, i: nat, j: nat)
    requires UniqueKeys(h) && i <= j < |h|
    ensures Get(FilterFrom(h, i), h[j].0) == if Blank(Stripped(h[j].1)) then None else Some(Stripped(h[j].1))
    decreases |h| - i
  {
    var k := h[j].0;
    var r := FilterFrom(h, i);
    var w := Stripped(h[i].1);
    if i < j {
      FilterFromGet(h, i + 1, j);
      assert Keys(h)[i] != Keys(h)[j];
    } else {
      forall m | i + 1 <= m < |h|
        ensures h[m].0 != k
      {
        assert Keys(h)[m] != Keys(h)[j];
      }
      FilterFromAbsent(h, i + 1, k);
    }
    FilterFromStep(h, i);
    if !Blank(w) {
      KeysCons(r);
      assert r[1..] == FilterFrom(h, i + 1);
    } else {
      assert r == FilterFrom(h, i + 1);
    }
  }

  /**
   * In a hash with distinct keys, a key survives filtering exactly when
   * its filtered value is not blank, and then it holds that value.
   */
  lemma FilterEmptyGet(h: Entries, k: string)
    requires UniqueKeys(h)
    ensures Get(FilterEmpty(h), k) == match Get(h, k)
                                      case None => None
                                      case Some(v) => if Blank(Stripped(v)) then None else Some(Stripped(v))
  {
    if HasKey(h, k) {
      var j :| 0 <= j < |Keys(h)| && Keys(h)[j] == k;
      GetAt(h, j);
      FilterFromGet(h, 0, j);
    } else {
      forall m | 0 <= m < |h|
        ensures h[m].0 != k
      {
        assert Keys(h)[m] == h[m].0;
      }
      FilterFromAbsent(h, 0, k);
    }
  }

  /** One step of deleting blanks: member i kept or not, in front of the members after it. */
  lemma NonBlankStep(values: seq<Value>, i: nat)
    requires i < |values|
    ensures NonBlank(values[i..]) == (if Blank(values[i]) then [] else [values[i]]) + NonBlank(values[i + 1..])
  {
    DropOne(values, i);
  }

  /** values.dup.each { |value| values.delete(value) if value.blank? } */
  method DeleteBlanks(values: seq<Value>) returns (r: seq<Value>)
    ensures r == NonBlank(values)
  {
    r := [];
    assert values[0..] == values;
    for i := 0 to |values|
      invariant NonBlank(values) == r + NonBlank(values[i..])
    {
      NonBlankStep(values, i);
      if !Blank(values[i]) {
        r := r + [values[i]];
      } else {
        assert [] + NonBlank(values[i + 1..]) == NonBlank(values[i + 1..]);
      }
    }
    assert r + [] == r;
  }

  /** filter_empty_params, pass by pass over the hash. */
  method FilterEmptyParams(h: Entries) returns (r: Entries)
    ensures r == FilterEmpty(h)
    decreases Hash(h)
  {
    r := [];
    for i := 0 to |h|
      invariant FilterEmpty(h) == r + FilterFrom(h, i)
    {
      var (key, values) := h[i];
      assert h[i] in h;
      var kept := values;
      if values.Hash? {
        var inner := FilterEmptyParams(values.entries);
        kept := Hash(inner);
      } else if values.List? {
        var items := DeleteBlanks(values.items);
        kept := List(items);
      }
      assert kept == Stripped(h[i].1);
      FilterFromStep(h, i);
      if !Blank(kept) {
        AppendAssoc(r, [(key, kept)], FilterFrom(h, i + 1));
        r := r + [(key, kept)];
      } else {
        assert [] + FilterFrom(h, i + 1) == FilterFrom(h, i + 1);
      }
    }
    assert r + [] == r;
  }

  // ---------------------------------------------------------------------
  // The settings and the scoring knobs
  // ---------------------------------------------------------------------

  /** The select parameters the scoring knobs go to (SCORE_MODIFIERS, in its order). */
  const ScoreModifierParams: seq<string> := ["qt", "qf", "mm", "pf", "ps", "qs", "tie", "bq", "bf"]

  /** The scoring parameters are distinct. */
  lemma ScoreModifierParamsDistinct()
    ensures NoDup(ScoreModifierParams)
  {
  }

  /** What a search reads from its query object besides the parameters and the static entries. */
  datatype Settings = Settings(
    knobs: Entries,             // scoring parameter to its configured value
    filterQuery: seq<Value>,
    sorts: Entries,             // sort name to sort clause
    defaultSort: string,
    perPages: seq<int>,
    simpleFacets: Value)

  /** The entries whose values are not blank, in order. */
  function NonBlankEntries(h: Entries): Entries
    decreases |h|
  {
    if h == [] then []
    else NonBlankEntries(h[..|h| - 1]) + (if Blank(h[|h| - 1].1) then [] else [h[|h| - 1]])
  }

  /**
   * Storing the non-blank knobs over a hash: a knob with a non-blank
   * value is found with that value, any other key keeps what it had.
   */
  lemma {:induction false} MergeNonBlankGet(a: Entries, h: Entries, k: string)
    requires UniqueKeys(h)
    ensures Get(Merge(a, NonBlankEntries(h)), k) == match Get(h, k)
                                                     case Some(v) => if Blank(v) then Get(a, k) else Some(v)
                                                     case None => Get(a, k)
    decreases |h|
  {
    if h != [] {
      var init := h[..|h| - 1];
      var x := h[|h| - 1];
      UniqueInit(h);
      assert h == init + [x];
      MergeNonBlankGet(a, init, k);
      GetAppend(init, x, k);
      var nb := NonBlankEntries(init);
      if !Blank(x.1) {
        assert (nb + [x])[..|nb + [x]| - 1] == nb;
        PutGet(Merge(a, nb), x.0, x.1, k);
      } else {
        assert nb + [] == nb;
      }
    }
  }

  // ---------------------------------------------------------------------
  // Paging and sort
  // ---------------------------------------------------------------------

  /** The page: the parameter's to_i when given, 1 when it is missing or not positive. */
  function PageOf(p: Entries): (r: Result<int>)
    ensures r.Ok? ==> r.value >= 1
    ensures r.Err? <==> Truthy(Lookup(p, "page")) && ToI(Lookup(p, "page")).Err?
    ensures !Truthy(Lookup(p, "page")) ==> r == Ok(1)
    ensures forall n :: Truthy(Lookup(p, "page")) && ToI(Lookup(p, "page")) == Ok(n) && n > 0 ==> r == Ok(n)
    ensures forall n :: Truthy(Lookup(p, "page")) && ToI(Lookup(p, "page")) == Ok(n) && n <= 0 ==> r == Ok(1)
  {
    var page := Lookup(p, "page");
    if !Truthy(page) then Ok(1)
    else
      match ToI(page)
      case Err(e) => Err(e)
      case Ok(n) => Ok(if n > 0 then n else 1)
  }

  /**
   * The page size: the parameter's to_i when it is an allowed size,
   * otherwise the first allowed size, which is nil when none is allowed.
   */
  function PerPageOf(p: Entries, perPages: seq<int>): (r: Result<Option<int>>)
    ensures r.Err? <==> Truthy(Lookup(p, "per_page")) && ToI(Lookup(p, "per_page")).Err?
    ensures r.Ok? ==> (r.value.Some? <==> perPages != []) && (r.value.Some? ==> r.value.value in perPages)
    ensures forall n :: Truthy(Lookup(p, "per_page")) && ToI(Lookup(p, "per_page")) == Ok(n) && n in perPages ==> r == Ok(Some(n))
    ensures r.Ok? && perPages != [] && r.value.value != perPages[0] ==> Truthy(Lookup(p, "per_page"))
    ensures !Truthy(Lookup(p, "per_page")) ==> r == Ok(if perPages == [] then None else Some(perPages[0]))
    ensures forall n :: Truthy(Lookup(p, "per_page")) && ToI(Lookup(p, "per_page")) == Ok(n) && n !in perPages ==>
                          r == Ok(if perPages == [] then None else Some(perPages[0]))
  {
    var first := if perPages == [] then None else Some(perPages[0]);
    var per := Lookup(p, "per_page");
    if !Truthy(per) then Ok(first)
    else
      match ToI(per)
      case Err(e) => Err(e)
      case Ok(n) => Ok(if n in perPages then Some(n) else first)
  }

  /** apply_paging_options' page and page size; multiplying by a missing size raises TypeError. */
  function Paging(p: Entries, perPages: seq<int>): (r: Result<(int, int)>)
    ensures r.Ok? ==> r.value.0 >= 1 && r.value.1 in perPages
    ensures r.Ok? <==> PageOf(p).Ok? && PerPageOf(p, perPages).Ok? && perPages != []
    ensures PageOf(p).Ok? && PerPageOf(p, perPages).Ok? && perPages == [] ==> r == Err(TypeError)
    ensures r.Ok? ==> r.value == (PageOf(p).value, PerPageOf(p, perPages).value.value)
    ensures PageOf(p).Err? ==> r == Err(PageOf(p).error)
    ensures PageOf(p).Ok? && PerPageOf(p, perPages).Err? ==> r == Err(PerPageOf(p, perPages).error)
  {
    match PageOf(p)
    case Err(e) => Err(e)
    case Ok(page) =>
      match PerPageOf(p, perPages)
      case Err(e) => Err(e)
      case Ok(per) => if per.None? then Err(TypeError) else Ok((page, per.value))
  }

  /** The sort name: the parameter when it names a sort, else the default. */
  function SortName(p: Entries, sorts: Entries, defaultSort: string): (name: string)
    ensures name == defaultSort || HasKey(sorts, name)
    ensures Lookup(p, "sort").Str? && HasKey(sorts, Lookup(p, "sort").s) ==> name == Lookup(p, "sort").s
    ensures !(Lookup(p, "sort").Str? && HasKey(sorts, Lookup(p, "sort").s)) ==> name == defaultSort
  {
    var sort := Lookup(p, "sort");
    if sort.Str? && HasKey(sorts, sort.s) then sort.s else defaultSort
  }

  // ---------------------------------------------------------------------
  // parse_param_filters
  // ---------------------------------------------------------------------

  /** One filter: the field it came from and its fq clause. */
  datatype Filter = Filter(field: string, text: string)

  /** field =~ /id$/ */
  predicate EndsWithId(field: string) {
    |field| >= 2 && field[|field| - 2..] == "id"
  }

  /** The registered index of that name has type date. */
  predicate IsDateIndex(indexes: seq<(string, Entries)>, field: string) {
    match Get(indexes, field)
    case Some(cfg) => ToS(Lookup(cfg, "type")) == "date"
    case None => false
  }

  /** Array(values).collect { |value| Time.parse(value.to_s).strftime(...) } */
  function Dated(vs: seq<Value>, formatDate: string -> Result<string>): Result<seq<Value>> {
    if vs == [] then Ok([])
    else
      match formatDate(ToS(vs[0]))
      case Err(e) => Err(e)
      case Ok(t) => Then([Str(t)], Dated(vs[1..], formatDate))
  }

  /** The filter one value gives: an id field's value as an integer, then escaped after field:. */
  function FilterFor(field: string, v: Value): (r: Result<Filter>)
    ensures r.Ok? ==> r.value.field == field && field + ":" <= r.value.text
    ensures r.Err? <==> EndsWithId(field) && ToI(v).Err?
    ensures r.Err? ==> r.error == ToI(v).error
    ensures r.Ok? && EndsWithId(field) ==> r.value.text == field + ":" + Lql.EscapeLucene(ToS(Int(ToI(v).value)))
    ensures !EndsWithId(field) ==> r == Ok(Filter(field, field + ":" + Lql.EscapeLucene(ToS(v))))
  {
    var value := if EndsWithId(field) then (match ToI(v) case Err(e) => Err(e) case Ok(n) => Ok(Int(n))) else Ok(v);
    match value
    case Err(e) => Err(e)
    case Ok(x) =>
      Ok(Filter(field, field + ":" + Lql.EscapeLucene(ToS(x))))
  }

  /** The filters of one field's values, in order. */
  function FieldFilters(field: string, vs: seq<Value>): Result<seq<Filter>> {
    if vs == [] then Ok([])
    else
      match FilterFor(field, vs[0])
      case Err(e) => Err(e)
      case Ok(f) => Then([f], FieldFilters(field, vs[1..]))
  }

  /** The filters of one parameter: none unless it names a registered index. */
  function EntryFilters(entry: (string, Value), indexes: seq<(string, Entries)>,
                        formatDate: string -> Result<string>): Result<seq<Filter>> {
    var (field, values) := entry;
    if !HasKey(indexes, field) then Ok([])
    else if IsDateIndex(indexes, field) then
      match Dated(ArrayOf(values), formatDate)
      case Err(e) => Err(e)
      case Ok(dates) => FieldFilters(field, dates)
    else FieldFilters(field, ArrayOf(values))
  }

  /** parse_param_filters: the filters of every parameter, in order. */
  function ParamFilters(p: Entries, indexes: seq<(string, Entries)>,
                        formatDate: string -> Result<string>): Result<seq<Filter>> {
    if p == [] then Ok([])
    else
      match EntryFilters(p[0], indexes, formatDate)
      case Err(e) => Err(e)
      case Ok(fs) => Then(fs, ParamFilters(p[1..], indexes, formatDate))
  }

  /** A field's filters: one per value, each the value's own filter; an id field raises on a value without to_i. */
  lemma {:induction false} FieldFiltersMeans(field: string, vs: seq<Value>)
    ensures FieldFilters(field, vs).Err? <==> exists i :: 0 <= i < |vs| && FilterFor(field, vs[i]).Err?
    ensures FieldFilters(field, vs).Ok? ==>
              |FieldFilters(field, vs).value| == |vs| &&
              forall i :: 0 <= i < |vs| ==> FieldFilters(field, vs).value[i] == FilterFor(field, vs[i]).value
  {
    if vs != [] {
      FieldFiltersMeans(field, vs[1..]);
      assert forall i :: 1 <= i < |vs| ==> vs[1..][i - 1] == vs[i];
      if FilterFor(field, vs[0]).Ok? && FieldFilters(field, vs[1..]).Err? {
        var j :| 0 <= j < |vs[1..]| && FilterFor(field, vs[1..][j]).Err?;
        assert FilterFor(field, vs[j + 1]).Err?;
      }
    }
  }

  /** Every filter comes from a parameter that names a registered index, and reads field:... */
  lemma {:induction false} ParamFiltersIndexed(p: Entries, indexes: seq<(string, Entries)>,
                                                formatDate: string -> Result<string>)
    requires ParamFilters(p, indexes, formatDate).Ok?
    ensures forall f :: f in ParamFilters(p, indexes, formatDate).value ==>
              HasKey(indexes, f.field) && HasKey(p, f.field) && f.field + ":" <= f.text
  {
    if p != [] {
      KeysCons(p);
      ParamFiltersIndexed(p[1..], indexes, formatDate);
      var (field, values) := p[0];
      var fs := EntryFilters(p[0], indexes, formatDate).value;
      if HasKey(indexes, field) {
        var vs := if IsDateIndex(indexes, field) then Dated(ArrayOf(values), formatDate).value else ArrayOf(values);
        assert FieldFilters(field, vs) == Ok(fs);
        FieldFiltersMeans(field, vs);
        forall f | f in fs
          ensures f.field == field && field + ":" <= f.text
        {
          var i :| 0 <= i < |fs| && fs[i] == f;
          assert f == FilterFor(field, vs[i]).value;
        }
      }
    }
  }

  /** The filters of a hash are those of its first part followed by those of the rest. */
  lemma {:induction false} ParamFiltersAppend(a: Entries, b: Entries, indexes: seq<(string, Entries)>,
                                               formatDate: string -> Result<string>)
    ensures ParamFilters(a + b, indexes, formatDate) == match ParamFilters(a, indexes, formatDate)
                                                        case Err(e) => Err(e)
                                                        case Ok(x) => Then(x, ParamFilters(b, indexes, formatDate))
  {
    if a == [] {
      assert a + b == b;
      ThenEmpty(ParamFilters(b, indexes, formatDate));
    } else {
      assert (a + b)[0] == a[0] && (a + b)[1..] == a[1..] + b;
      ParamFiltersAppend(a[1..], b, indexes, formatDate);
      match EntryFilters(a[0], indexes, formatDate)
      case Err(e) =>
      case Ok(fs) =>
        match ParamFilters(a[1..], indexes, formatDate)
        case Err(e) =>
        case Ok(x) => ThenThen(fs, x, ParamFilters(b, indexes, formatDate));
    }
  }

  /** A parameter that names no registered index is skipped: the filters are as if it were absent. */
  lemma SkipsUnindexed(a: Entries, k: string, v: Value, b: Entries, indexes: seq<(string, Entries)>,
                       formatDate: string -> Result<string>)
    requires !HasKey(indexes, k)
    ensures ParamFilters(a + [(k, v)] + b, indexes, formatDate) == ParamFilters(a + b, indexes, formatDate)
  {
    ParamFiltersAppend(a, [(k, v)] + b, indexes, formatDate);
    ParamFiltersAppend(a, b, indexes, formatDate);
    assert a + [(k, v)] + b == a + ([(k, v)] + b);
    assert ([(k, v)] + b)[1..] == b;
    assert EntryFilters((k, v), indexes, formatDate) == Ok([]);
    ThenEmpty(ParamFilters(b, indexes, formatDate));
  }

  function TextsOf(fs: seq<Filter>): (r: seq<string>)
    ensures |r| == |fs| && forall i :: 0 <= i < |fs| ==> r[i] == fs[i].text
  {
    seq(|fs|, i requires 0 <= i < |fs| => fs[i].text)
  }

  function FieldsOf(fs: seq<Filter>): (r: seq<string>)
    ensures |r| == |fs| && forall i :: 0 <= i < |fs| ==> r[i] == fs[i].field
  {
    seq(|fs|, i requires 0 <= i < |fs| => fs[i].field)
  }

  function Strs(ts: seq<string>): (r: seq<Value>)
    ensures |r| == |ts| && forall i :: 0 <= i < |ts| ==> r[i] == Str(ts[i])
  {
    seq(|ts|, i requires 0 <= i < |ts| => Str(ts[i]))
  }

  // ---------------------------------------------------------------------
  // build_select
  // ---------------------------------------------------------------------

  /** apply_search_terms: q copied when given. */
  function Searched(sel: Entries, p: Entries): Entries {
    var q := Lookup(p, "q");
    if Truthy(q) then Put(sel, "q", q) else sel
  }

  /** The crumb apply_search_terms leaves. */
  function SearchCrumbs(p: Entries): seq<string> {
    if Truthy(Lookup(p, "q")) then ["q"] else []
  }

  /** The offset of a page's first row: the rows of the pages before it. */
  function StartRow(page: int, perPage: int): int {
    (page - 1) * perPage
  }

  /** start and rows. */
  function Paged(sel: Entries, page: int, perPage: int): Entries {
    Put(Put(sel, "start", Int(StartRow(page, perPage))), "rows", Int(perPage))
  }

  /** The sort clause the chosen sort name stands for (nil when the default names none). */
  function Sorted(sel: Entries, p: Entries, s: Settings): Entries {
    Put(sel, "sort", Lookup(s.sorts, SortName(p, s.sorts, s.defaultSort)))
  }

  /** fq: the fixed filters followed by the parameter filters. */
  function Filtered(sel: Entries, filterQuery: seq<Value>, texts: seq<string>): Entries {
    Put(sel, "fq", List(filterQuery + Strs(texts)))
  }

  /** The facet settings, when there are facets to count. */
  function Faceted(sel: Entries, facets: Value): Entries {
    if Blank(facets) then sel
    else Put(Put(Put(Put(sel, "facet", Bool(true)), "facet.field", facets), "facet.limit", Int(-1)), "facet.mincount", Int(1))
  }

  /** The select hash before the static entries are merged over it. */
  function Computed(s: Settings, p: Entries, paging: (int, int), texts: seq<string>): Entries {
    var scored := Merge([], NonBlankEntries(s.knobs));
    var sorted := Sorted(Paged(Searched(scored, p), paging.0, paging.1), p, s);
    Faceted(Filtered(sorted, s.filterQuery, texts), s.simpleFacets)
  }

  /**
   * build_select: the select hash and the crumbs it adds, or the
   * exception that stops it.
   */
  function Build(s: Settings, statics: Entries, searchParams: Entries, indexes: seq<(string, Entries)>,
                 formatDate: string -> Result<string>): Result<(Entries, seq<string>)> {
    var p := FilterEmpty(searchParams);
    match Prepared(s, p)
    case Err(e) => Err(e)
    case Ok(sel) =>
      match Finished(s, statics, p, sel, indexes, formatDate)
      case Err(e) => Err(e)
      case Ok(done) => Ok((done.0, SearchCrumbs(p) + done.1))
  }

  /** The steps up to paging, over an empty select hash: the hash so far, or the exception paging raises. */
  function Prepared(s: Settings, p: Entries): Result<Entries> {
    match Paging(p, s.perPages)
    case Err(e) => Err(e)
    case Ok(paging) => Ok(Paged(Searched(Merge([], NonBlankEntries(s.knobs)), p), paging.0, paging.1))
  }

  /**
   * The steps after paging, over the select hash so far: the finished
   * hash and the crumbs of the parameter filters, or the exception a
   * filter raises.
   */
  function Finished(s: Settings, statics: Entries, p: Entries, sel: Entries, indexes: seq<(string, Entries)>,
                    formatDate: string -> Result<string>): Result<(Entries, seq<string>)> {
    match ParamFilters(p, indexes, formatDate)
    case Err(e) => Err(e)
    case Ok(fs) => Ok((Merge(Faceted(Filtered(Sorted(sel, p, s), s.filterQuery, TextsOf(fs)), s.simpleFacets), statics), FieldsOf(fs)))
  }

  /** Settings whose knobs are the nine scoring parameters. */
  predicate Knobbed(s: Settings) {
    Keys(s.knobs) == ScoreModifierParams
  }

  /** The keys the steps after the scoring knobs write. */
  predicate LaterKey(k: string) {
    k in ["q", "start", "rows", "sort", "fq", "facet", "facet.field", "facet.limit", "facet.mincount"]
  }

  /** Past the paging step, only sort, fq and the facet keys are written. */
  lemma PastPaging(sel: Entries, p: Entries, s: Settings, texts: seq<string>, k: string)
    requires k !in ["sort", "fq", "facet", "facet.field", "facet.limit", "facet.mincount"]
    ensures Get(Faceted(Filtered(Sorted(sel, p, s), s.filterQuery, texts), s.simpleFacets), k) == Get(sel, k)
  {
    var sorted := Sorted(sel, p, s);
    var filtered := Filtered(sorted, s.filterQuery, texts);
    PutGet(sel, "sort", Lookup(s.sorts, SortName(p, s.sorts, s.defaultSort)), k);
    PutGet(sorted, "fq", List(s.filterQuery + Strs(texts)), k);
    if !Blank(s.simpleFacets) {
      var f1 := Put(filtered, "facet", Bool(true));
      var f2 := Put(f1, "facet.field", s.simpleFacets);
      var f3 := Put(f2, "facet.limit", Int(-1));
      PutGet(filtered, "facet", Bool(true), k);
      PutGet(f1, "facet.field", s.simpleFacets, k);
      PutGet(f2, "facet.limit", Int(-1), k);
      PutGet(f3, "facet.mincount", Int(1), k);
    }
  }

  /** A successful build is the computed hash with the static entries merged over it. */
  lemma BuildOk(s: Settings, statics: Entries, searchParams: Entries, indexes: seq<(string, Entries)>,
                formatDate: string -> Result<string>)
    requires Build(s, statics, searchParams, indexes, formatDate).Ok?
    ensures var p := FilterEmpty(searchParams);
            && Paging(p, s.perPages).Ok? && ParamFilters(p, indexes, formatDate).Ok?
            && Build(s, statics, searchParams, indexes, formatDate).value.0 ==
                 Merge(Computed(s, p, Paging(p, s.perPages).value, TextsOf(ParamFilters(p, indexes, formatDate).value)), statics)
  {
    var p := FilterEmpty(searchParams);
    assert Prepared(s, p).Ok?;
    assert Finished(s, statics, p, Prepared(s, p).value, indexes, formatDate).Ok?;
  }

  /** The static entries set with []= override whatever the pipeline computed. */
  lemma StaticWins(s: Settings, statics: Entries, searchParams: Entries, indexes: seq<(string, Entries)>,
                   formatDate: string -> Result<string>, k: string)
    requires UniqueKeys(statics) && HasKey(statics, k)
    requires Build(s, statics, searchParams, indexes, formatDate).Ok?
    ensures Get(Build(s, statics, searchParams, indexes, formatDate).value.0, k) == Get(statics, k)
  {
    var p := FilterEmpty(searchParams);
    BuildOk(s, statics, searchParams, indexes, formatDate);
    MergeGet(Computed(s, p, Paging(p, s.perPages).value, TextsOf(ParamFilters(p, indexes, formatDate).value)), statics, k);
  }

  /** A key the static entries leave alone keeps its computed value. */
  lemma BuildGet(s: Settings, statics: Entries, searchParams: Entries, indexes: seq<(string, Entries)>,
                 formatDate: string -> Result<string>, k: string)
    requires UniqueKeys(statics) && !HasKey(statics, k)
    requires Build(s, statics, searchParams, indexes, formatDate).Ok?
    ensures var p := FilterEmpty(searchParams);
            Get(Build(s, statics, searchParams, indexes, formatDate).value.0, k) ==
              Get(Computed(s, p, Paging(p, s.perPages).value, TextsOf(ParamFilters(p, indexes, formatDate).value)), k)
  {
    var p := FilterEmpty(searchParams);
    BuildOk(s, statics, searchParams, indexes, formatDate);
    MergeGet(Computed(s, p, Paging(p, s.perPages).value, TextsOf(ParamFilters(p, indexes, formatDate).value)), statics, k);
  }

  /** The facet step leaves every key but its own four alone. */
  lemma FacetsKeep(sel: Entries, facets: Value, k: string)
    requires k !in ["facet", "facet.field", "facet.limit", "facet.mincount"]
    ensures Get(Faceted(sel, facets), k) == Get(sel, k)
  {
    if !Blank(facets) {
      var f1 := Put(sel, "facet", Bool(true));
      var f2 := Put(f1, "facet.field", facets);
      var f3 := Put(f2, "facet.limit", Int(-1));
      PutGet(sel, "facet", Bool(true), k);
      PutGet(f1, "facet.field", facets, k);
      PutGet(f2, "facet.limit", Int(-1), k);
      PutGet(f3, "facet.mincount", Int(1), k);
    }
  }

  /** Neither paging key is written after the paging step. */
  lemma PagingKeysLast()
    ensures "start" !in ["sort", "fq", "facet", "facet.field", "facet.limit", "facet.mincount"]
    ensures "rows" !in ["sort", "fq", "facet", "facet.field", "facet.limit", "facet.mincount"]
  {
    assert "rows"[0] == 'r' && "sort"[0] == 's';
  }

  /** The computed start and rows are the paging's. */
  lemma ComputedPaging(s: Settings, p: Entries, paging: (int, int), texts: seq<string>)
    ensures Get(Computed(s, p, paging, texts), "start") == Some(Int(StartRow(paging.0, paging.1)))
    ensures Get(Computed(s, p, paging, texts), "rows") == Some(Int(paging.1))
  {
    var searched := Searched(Merge([], NonBlankEntries(s.knobs)), p);
    var paged := Paged(searched, paging.0, paging.1);
    PagingKeysLast();
    PastPaging(paged, p, s, texts, "start");
    PastPaging(paged, p, s, texts, "rows");
    var started := Put(searched, "start", Int(StartRow(paging.0, paging.1)));
    PutGet(searched, "start", Int(StartRow(paging.0, paging.1)), "start");
    PutGet(started, "rows", Int(paging.1), "start");
    PutGet(started, "rows", Int(paging.1), "rows");
  }

  /** Whatever the hash before the sort step, the steps from sort on leave the chosen sort clause under sort. */
  lemma SortedLast(sel: Entries, p: Entries, s: Settings, texts: seq<string>)
    ensures Get(Faceted(Filtered(Sorted(sel, p, s), s.filterQuery, texts), s.simpleFacets), "sort")
            == Some(Lookup(s.sorts, SortName(p, s.sorts, s.defaultSort)))
  {
    SortNotLater();
    FilteredKeeps(Sorted(sel, p, s), s.filterQuery, texts, s.simpleFacets, "sort");
  }

  /** "sort" is none of the keys written after it. */
  lemma SortNotLater()
    ensures "sort" != "fq" && "sort" !in ["facet", "facet.field", "facet.limit", "facet.mincount"]
  {
    assert "sort"[0] == 's';
  }

  /** The fq and facet entries leave every other key alone. */
  lemma FilteredKeeps(h: Entries, filterQuery: seq<Value>, texts: seq<string>, facets: Value, k: string)
    requires k != "fq" && k !in ["facet", "facet.field", "facet.limit", "facet.mincount"]
    ensures Get(Faceted(Filtered(h, filterQuery, texts), facets), k) == Get(h, k)
  {
    PutGet(h, "fq", List(filterQuery + Strs(texts)), k);
    FacetsKeep(Filtered(h, filterQuery, texts), facets, k);
  }

  /** Whatever the hash before the fq step, the steps from fq on leave the filters under fq. */
  lemma FilteredLast(sel: Entries, filterQuery: seq<Value>, texts: seq<string>, facets: Value)
    ensures Get(Faceted(Filtered(sel, filterQuery, texts), facets), "fq") == Some(List(filterQuery + Strs(texts)))
  {
    FacetsKeep(Filtered(sel, filterQuery, texts), facets, "fq");
  }

  /** The computed sort is the clause of the chosen sort name. */
  lemma ComputedSort(s: Settings, p: Entries, paging: (int, int), texts: seq<string>)
    ensures Get(Computed(s, p, paging, texts), "sort") == Some(Lookup(s.sorts, SortName(p, s.sorts, s.defaultSort)))
  {
    var paged := Paged(Searched(Merge([], NonBlankEntries(s.knobs)), p), paging.0, paging.1);
    SortedLast(paged, p, s, texts);
  }

  /** The computed fq is the fixed filters followed by the parameter filters. */
  lemma ComputedFilters(s: Settings, p: Entries, paging: (int, int), texts: seq<string>)
    ensures Get(Computed(s, p, paging, texts), "fq") == Some(List(s.filterQuery + Strs(texts)))
  {
    var paged := Paged(Searched(Merge([], NonBlankEntries(s.knobs)), p), paging.0, paging.1);
    FilteredLast(Sorted(paged, p, s), s.filterQuery, texts, s.simpleFacets);
  }

  /** The four facet keys, when there are facets. */
  lemma FacetedGet(sel: Entries, facets: Value)
    requires !Blank(facets)
    ensures var r := Faceted(sel, facets);
            && Get(r, "facet") == Some(Bool(true)) && Get(r, "facet.field") == Some(facets)
            && Get(r, "facet.limit") == Some(Int(-1)) && Get(r, "facet.mincount") == Some(Int(1))
  {
    var f1 := Put(sel, "facet", Bool(true));
    var f2 := Put(f1, "facet.field", facets);
    var f3 := Put(f2, "facet.limit", Int(-1));
    PutGet(f3, "facet.mincount", Int(1), "facet.limit");
    PutGet(f3, "facet.mincount", Int(1), "facet.field");
    PutGet(f2, "facet.limit", Int(-1), "facet.field");
    PutGet(f3, "facet.mincount", Int(1), "facet");
    PutGet(f2, "facet.limit", Int(-1), "facet");
    PutGet(f1, "facet.field", facets, "facet");
  }

  /** No scoring parameter is written by a later step. */
  lemma KnobNotLater(i: nat)
    requires i < |ScoreModifierParams|
    ensures !LaterKey(ScoreModifierParams[i])
  {
    var k := ScoreModifierParams[i];
    assert |k| >= 2 && k[0] in "qmptb";
  }

  /** The computed scoring parameters: those with non-blank settings. */
  lemma ComputedScoring(s: Settings, p: Entries, paging: (int, int), texts: seq<string>, i: nat)
    requires Knobbed(s) && i < |ScoreModifierParams|
    ensures var v := s.knobs[i].1;
            Get(Computed(s, p, paging, texts), ScoreModifierParams[i]) == if Blank(v) then None else Some(v)
  {
    var k := ScoreModifierParams[i];
    KnobNotLater(i);
    var scored := Merge([], NonBlankEntries(s.knobs));
    var searched := Searched(scored, p);
    PastPaging(Paged(searched, paging.0, paging.1), p, s, texts, k);
    PutGet(searched, "start", Int(StartRow(paging.0, paging.1)), k);
    PutGet(Put(searched, "start", Int(StartRow(paging.0, paging.1))), "rows", Int(paging.1), k);
    if Truthy(Lookup(p, "q")) {
      PutGet(scored, "q", Lookup(p, "q"), k);
    }
    ScoreModifierParamsDistinct();
    assert Keys(s.knobs)[i] == k;
    GetAt(s.knobs, i);
    MergeNonBlankGet([], s.knobs, k);
  }

  /**
   * Unless overridden, start and rows give a page of an allowed size
   * from the first page on: rows is an allowed size and start is the
   * rows of the pages before.
   */
  lemma BuildPaging(s: Settings, statics: Entries, searchParams: Entries, indexes: seq<(string, Entries)>,
                    formatDate: string -> Result<string>)
    requires UniqueKeys(statics) && !HasKey(statics, "start") && !HasKey(statics, "rows")
    requires Build(s, statics, searchParams, indexes, formatDate).Ok?
    ensures var sel := Build(s, statics, searchParams, indexes, formatDate).value.0;
            var paging := Paging(FilterEmpty(searchParams), s.perPages);
            && paging.Ok? && paging.value.0 >= 1 && paging.value.1 in s.perPages
            && Get(sel, "start") == Some(Int(StartRow(paging.value.0, paging.value.1)))
            && Get(sel, "rows") == Some(Int(paging.value.1))
  {
    var p := FilterEmpty(searchParams);
    BuildGet(s, statics, searchParams, indexes, formatDate, "start");
    BuildGet(s, statics, searchParams, indexes, formatDate, "rows");
    ComputedPaging(s, p, Paging(p, s.perPages).value, TextsOf(ParamFilters(p, indexes, formatDate).value));
  }

  /** Unless overridden, sort holds the clause of the sort the request names, or of the default sort. */
  lemma BuildSort(s: Settings, statics: Entries, searchParams: Entries, indexes: seq<(string, Entries)>,
                  formatDate: string -> Result<string>)
    requires UniqueKeys(statics) && !HasKey(statics, "sort")
    requires Build(s, statics, searchParams, indexes, formatDate).Ok?
    ensures var p := FilterEmpty(searchParams);
            Get(Build(s, statics, searchParams, indexes, formatDate).value.0, "sort") ==
              Some(Lookup(s.sorts, SortName(p, s.sorts, s.defaultSort)))
  {
    var p := FilterEmpty(searchParams);
    BuildGet(s, statics, searchParams, indexes, formatDate, "sort");
    ComputedSort(s, p, Paging(p, s.perPages).value, TextsOf(ParamFilters(p, indexes, formatDate).value));
  }

  /**
   * Unless overridden, fq is the fixed filter list followed by one
   * field:value filter per value of each parameter naming an index.
   */
  lemma BuildFilters(s: Settings, statics: Entries, searchParams: Entries, indexes: seq<(string, Entries)>,
                     formatDate: string -> Result<string>)
    requires UniqueKeys(statics) && !HasKey(statics, "fq")
    requires Build(s, statics, searchParams, indexes, formatDate).Ok?
    ensures var fs := ParamFilters(FilterEmpty(searchParams), indexes, formatDate).value;
            Get(Build(s, statics, searchParams, indexes, formatDate).value.0, "fq") == Some(List(s.filterQuery + Strs(TextsOf(fs))))
  {
    var p := FilterEmpty(searchParams);
    BuildGet(s, statics, searchParams, indexes, formatDate, "fq");
    ComputedFilters(s, p, Paging(p, s.perPages).value, TextsOf(ParamFilters(p, indexes, formatDate).value));
  }

  /** Unless overridden, non-blank facets switch faceting on with no limit and a minimum count of one. */
  lemma BuildFacets(s: Settings, statics: Entries, searchParams: Entries, indexes: seq<(string, Entries)>,
                    formatDate: string -> Result<string>)
    requires UniqueKeys(statics) && !Blank(s.simpleFacets)
    requires !HasKey(statics, "facet") && !HasKey(statics, "facet.field")
    requires !HasKey(statics, "facet.limit") && !HasKey(statics, "facet.mincount")
    requires Build(s, statics, searchParams, indexes, formatDate).Ok?
    ensures var sel := Build(s, statics, searchParams, indexes, formatDate).value.0;
            && Get(sel, "facet") == Some(Bool(true)) && Get(sel, "facet.field") == Some(s.simpleFacets)
            && Get(sel, "facet.limit") == Some(Int(-1)) && Get(sel, "facet.mincount") == Some(Int(1))
  {
    var p := FilterEmpty(searchParams);
    var paging := Paging(p, s.perPages).value;
    var texts := TextsOf(ParamFilters(p, indexes, formatDate).value);
    BuildGet(s, statics, searchParams, indexes, formatDate, "facet");
    BuildGet(s, statics, searchParams, indexes, formatDate, "facet.field");
    BuildGet(s, statics, searchParams, indexes, formatDate, "facet.limit");
    BuildGet(s, statics, searchParams, indexes, formatDate, "facet.mincount");
    var paged := Paged(Searched(Merge([], NonBlankEntries(s.knobs)), p), paging.0, paging.1);
    FacetedGet(Filtered(Sorted(paged, p, s), s.filterQuery, texts), s.simpleFacets);
  }

  /**
   * Unless overridden, a scoring parameter is sent exactly when its
   * setting is not blank, and then with that setting.
   */
  lemma BuildScoring(s: Settings, statics: Entries, searchParams: Entries, indexes: seq<(string, Entries)>,
                     formatDate: string -> Result<string>, i: nat)
    requires Knobbed(s) && i < |ScoreModifierParams|
    requires UniqueKeys(statics) && !HasKey(statics, ScoreModifierParams[i])
    requires Build(s, statics, searchParams, indexes, formatDate).Ok?
    ensures var v := s.knobs[i].1;
            Get(Build(s, statics, searchParams, indexes, formatDate).value.0, ScoreModifierParams[i]) ==
              if Blank(v) then None else Some(v)
  {
    var p := FilterEmpty(searchParams);
    BuildGet(s, statics, searchParams, indexes, formatDate, ScoreModifierParams[i]);
    ComputedScoring(s, p, Paging(p, s.perPages).value, TextsOf(ParamFilters(p, indexes, formatDate).value), i);
  }

  /** The crumbs a search adds: q when there is a query, then one field name per filter, each a registered index. */
  lemma BuildCrumbs(s: Settings, statics: Entries, searchParams: Entries, indexes: seq<(string, Entries)>,
                    formatDate: string -> Result<string>)
    requires Build(s, statics, searchParams, indexes, formatDate).Ok?
    ensures var p := FilterEmpty(searchParams);
            var added := Build(s, statics, searchParams, indexes, formatDate).value.1;
            && |added| == |SearchCrumbs(p)| + |ParamFilters(p, indexes, formatDate).value|
            && forall c :: c in added ==> c == "q" || HasKey(indexes, c)
  {
    var p := FilterEmpty(searchParams);
    BuildAdded(s, statics, searchParams, indexes, formatDate);
    ParamFiltersIndexed(p, indexes, formatDate);
    CrumbsIndexed(p, ParamFilters(p, indexes, formatDate).value, indexes);
  }

  /** The query's crumb and the fields of filters on registered indexes: q or an index each. */
  lemma CrumbsIndexed(p: Entries, fs: seq<Filter>, indexes: seq<(string, Entries)>)
    requires forall f :: f in fs ==> HasKey(indexes, f.field)
    ensures var added := SearchCrumbs(p) + FieldsOf(fs);
            && |added| == |SearchCrumbs(p)| + |fs|
            && forall c :: c in added ==> c == "q" || HasKey(indexes, c)
  {
    forall c | c in FieldsOf(fs)
      ensures HasKey(indexes, c)
    {
      var i :| 0 <= i < |fs| && FieldsOf(fs)[i] == c;
      assert fs[i] in fs;
    }
  }

  /** The crumbs of a search that succeeds: those of the query, then the filters' fields. */
  lemma BuildAdded(s: Settings, statics: Entries, searchParams: Entries, indexes: seq<(string, Entries)>,
                   formatDate: string -> Result<string>)
    requires Build(s, statics, searchParams, indexes, formatDate).Ok?
    ensures var p := FilterEmpty(searchParams);
            && ParamFilters(p, indexes, formatDate).Ok?
            && Build(s, statics, searchParams, indexes, formatDate).value.1 ==
                 SearchCrumbs(p) + FieldsOf(ParamFilters(p, indexes, formatDate).value)
  {
  }

  /** A search fails exactly when paging or a parameter filter raises, paging first. */
  lemma BuildFails(s: Settings, statics: Entries, searchParams: Entries, indexes: seq<(string, Entries)>,
                   formatDate: string -> Result<string>)
    ensures var p := FilterEmpty(searchParams);
            var b := Build(s, statics, searchParams, indexes, formatDate);
            && (b.Err? <==> Paging(p, s.perPages).Err? || ParamFilters(p, indexes, formatDate).Err?)
            && (Paging(p, s.perPages).Err? ==> b == Err(Paging(p, s.perPages).error))
            && (s.perPages == [] && PageOf(p).Ok? && PerPageOf(p, s.perPages).Ok? ==> b == Err(TypeError))
  {
  }

  // ---------------------------------------------------------------------
  // Steps of the imperative pipeline
  // ---------------------------------------------------------------------

  /** One knob more: stored when not blank. */
  lemma NonBlankEntriesStep(a: Entries, h: Entries, i: nat)
    requires i < |h|
    ensures Merge(a, NonBlankEntries(h[..i + 1])) ==
              if Blank(h[i].1) then Merge(a, NonBlankEntries(h[..i])) else Put(Merge(a, NonBlankEntries(h[..i])), h[i].0, h[i].1)
  {
    assert h[..i + 1][..i] == h[..i];
    var nb := NonBlankEntries(h[..i]);
    if Blank(h[i].1) {
      assert nb + [] == nb;
    } else {
      assert (nb + [h[i]])[..|nb|] == nb;
    }
  }

  /** One parameter more: its filters, then those of the parameters after it. */
  lemma ParamFiltersStep(p: Entries, i: nat, indexes: seq<(string, Entries)>, formatDate: string -> Result<string>)
    requires i < |p|
    ensures ParamFilters(p[i..], indexes, formatDate) ==
              match EntryFilters(p[i], indexes, formatDate)
              case Err(e) => Err(e)
              case Ok(fs) => Then(fs, ParamFilters(p[i + 1..], indexes, formatDate))
  {
    assert p[i..][1..] == p[i + 1..];
  }

  /** One value more: its filter, then those of the values after it. */
  lemma FieldFiltersStep(field: string, vs: seq<Value>, j: nat)
    requires j < |vs|
    ensures FieldFilters(field, vs[j..]) ==
              match FilterFor(field, vs[j])
              case Err(e) => Err(e)
              case Ok(f) => Then([f], FieldFilters(field, vs[j + 1..]))
  {
    assert vs[j..][1..] == vs[j + 1..];
  }

  /**
   * One value's filter, as the loop of parse_param_filters builds it: an
   * id field's value converted to an integer, then escaped after field:.
   */
  method NextFilter(field: string, vs: seq<Value>, ghost added: seq<Filter>, j: nat) returns (r: Result<Filter>)
    requires j < |vs|
    ensures r.Err? ==> Then(added, FieldFilters(field, vs[j..])) == Err(r.error)
    ensures r.Ok? ==> r.value.field == field
    ensures r.Ok? ==> Then(added, FieldFilters(field, vs[j..])) == Then(added + [r.value], FieldFilters(field, vs[j + 1..]))
  {
    FieldFiltersStep(field, vs, j);
    var value := vs[j];
    if EndsWithId(field) {
      match ToI(value)
      case Err(e) =>
        return Err(e);
      case Ok(n) =>
        value := Int(n);
    }
    r := Ok(Filter(field, field + ":" + Lql.EscapeLucene(ToS(value))));
    ThenThen(added, [r.value], FieldFilters(field, vs[j + 1..]));
  }

  /** One filter more: its text and field name appended to those gathered so far. */
  lemma GatherStep(done: seq<Filter>, added: seq<Filter>, f: Filter, texts: seq<string>, crumbs0: seq<string>, crumbs: seq<string>)
    requires texts == TextsOf(done + added) && crumbs == crumbs0 + FieldsOf(done + added)
    ensures texts + [f.text] == TextsOf(done + (added + [f]))
    ensures crumbs + [f.field] == crumbs0 + FieldsOf(done + (added + [f]))
  {
    assert done + (added + [f]) == done + added + [f];
    FiltersAppend(done + added, [f]);
  }

  /** Texts and field names of filters gathered in two parts. */
  lemma FiltersAppend(a: seq<Filter>, b: seq<Filter>)
    ensures TextsOf(a + b) == TextsOf(a) + TextsOf(b)
    ensures FieldsOf(a + b) == FieldsOf(a) + FieldsOf(b)
  {
  }

  // ---------------------------------------------------------------------
  // The query object
  // ---------------------------------------------------------------------

  /**
   * A dismax search object: the scoring knobs and other settings (all
   * writable), the static entries set with []=, the crumbs gathered so
   * far, and the parameters and select hash of the last search.
   */
  class DismaxQuery {
    var knobs: Entries          // query_type, query_fields, ... boost_functions, under their parameters
    var filterQuery: seq<Value>
    var sorts: Entries
    var defaultSort: string
    var perPages: seq<int>
    var simpleFacets: Value
    var staticSelect: Entries
    var crumbs: seq<string>
    var params: Entries
    var select: Entries

    /** The knobs are the nine scoring parameters, in order, and the static entries have distinct keys. */
    ghost predicate Valid()
      reads this`knobs, this`staticSelect
    {
      Keys(knobs) == ScoreModifierParams && UniqueKeys(staticSelect)
    }

    /** Everything a search reads from the object besides the static entries. */
    function CurrentSettings(): Settings
      reads this`knobs, this`filterQuery, this`sorts, this`defaultSort, this`perPages, this`simpleFacets
    {
      Settings(knobs, filterQuery, sorts, defaultSort, perPages, simpleFacets)
    }

    /** initialize: the default settings, no static entries and no crumbs. */
    constructor ()
      ensures Valid()
      ensures knobs == [("qt", Str("dismax")), ("qf", Nil), ("mm", Str("100%")), ("pf", Nil), ("ps", Int(20)),
                        ("qs", Int(100)), ("tie", Str("0.1")), ("bq", Nil), ("bf", Nil)]
      ensures filterQuery == [] && sorts == [("relevancy", Str("score desc"))] && defaultSort == "relevancy"
      ensures perPages == [10, 25, 50] && simpleFacets == List([]) && staticSelect == [] && crumbs == []
    {
      knobs := [("qt", Str("dismax")), ("qf", Nil), ("mm", Str("100%")), ("pf", Nil), ("ps", Int(20)),
                ("qs", Int(100)), ("tie", Str("0.1")), ("bq", Nil), ("bf", Nil)];
      filterQuery := [];
      sorts := [("relevancy", Str("score desc"))];
      defaultSort := "relevancy";
      perPages := [10, 25, 50];
      simpleFacets := List([]);
      staticSelect := [];
      crumbs := [];
      params := [];
      select := [];
    }

    /** self[key]: the static entry under the key's text. */
    function Static(key: Value): Value
      reads this`staticSelect
    {
      Lookup(staticSelect, ToS(key))
    }

    /**
     * self[key] = value: stored under the key's text, so that every key
     * with the same text (a symbol and its string) reads it back, and
     * every other key reads what it did.
     */
    method SetStatic(key: Value, value: Value)
      requires Valid()
      modifies this`staticSelect
      ensures Valid()
      ensures staticSelect == Put(old(staticSelect), ToS(key), value)
      ensures forall k :: Static(k) == if ToS(k) == ToS(key) then value else old(Static(k))
    {
      PutKeepsUnique(staticSelect, ToS(key), value);
      ghost var before := staticSelect;
      staticSelect := Put(staticSelect, ToS(key), value);
      forall k
        ensures Static(k) == if ToS(k) == ToS(key) then value else Lookup(before, ToS(k))
      {
        PutGet(before, ToS(key), value, ToS(k));
      }
    }

    /** apply_scoring_modifiers: every knob that is not blank stored under its parameter. */
    method ApplyScoringModifiers()
      modifies this`select
      ensures select == Merge(old(select), NonBlankEntries(knobs))
    {
      var sel := select;
      for i := 0 to |knobs|
        modifies {}
        invariant sel == Merge(select, NonBlankEntries(knobs[..i]))
      {
        NonBlankEntriesStep(select, knobs, i);
        var (param, value) := knobs[i];
        if !Blank(value) {
          sel := Put(sel, param, value);
        }
      }
      assert knobs[..|knobs|] == knobs;
      select := sel;
    }

    /** apply_search_terms: q copied, and crumbed, when given. */
    method ApplySearchTerms()
      modifies this`select, this`crumbs
      ensures select == Searched(old(select), params)
      ensures crumbs == old(crumbs) + SearchCrumbs(params)
    {
      var q := Lookup(params, "q");
      if Truthy(q) {
        select := Put(select, "q", q);
        crumbs := crumbs + ["q"];
      }
    }

    /**
     * apply_paging_options: start and rows of the page asked for, or
     * the exception to_i or the missing page size raises.
     */
    method ApplyPagingOptions() returns (r: Result<()>)
      modifies this`select
      ensures var paging := Paging(params, perPages);
              && (r.Ok? <==> paging.Ok?)
              && (r.Err? ==> r.error == paging.error && select == old(select))
              && (r.Ok? ==> select == Paged(old(select), paging.value.0, paging.value.1))
    {
      var page := 1;
      var pageParam := Lookup(params, "page");
      if Truthy(pageParam) {
        match ToI(pageParam)
        case Err(e) =>
          return Err(e);
        case Ok(n) =>
          page := if n > 0 then n else 1;
      }
      var perPage: Option<int> := if perPages == [] then None else Some(perPages[0]);
      var perPageParam := Lookup(params, "per_page");
      if Truthy(perPageParam) {
        match ToI(perPageParam)
        case Err(e) =>
          return Err(e);
        case Ok(n) =>
          if n in perPages {
            perPage := Some(n);
          }
      }
      if perPage.None? {
        return Err(TypeError);
      }
      select := Put(Put(select, "start", Int(StartRow(page, perPage.value))), "rows", Int(perPage.value));
      r := Ok(());
    }

    /** apply_sorting_options: the clause of the sort asked for, or of the default sort. */
    method ApplySortingOptions()
      modifies this`select
      ensures select == Sorted(old(select), params, CurrentSettings())
    {
      var sort := Lookup(params, "sort");
      var name := defaultSort;
      if sort.Str? && HasKey(sorts, sort.s) {
        name := sort.s;
      }
      select := Put(select, "sort", Lookup(sorts, name));
    }

    /**
     * parse_param_filters: a field:value filter, and a crumb, for each
     * value of each parameter that names a registered index, or the
     * exception date parsing or to_i raises part-way.
     */
    method ParseParamFilters(indexes: seq<(string, Entries)>, formatDate: string -> Result<string>)
      returns (r: Result<seq<string>>)
      modifies this`crumbs
      ensures r.Ok? <==> ParamFilters(params, indexes, formatDate).Ok?
      ensures r.Ok? ==> r.value == TextsOf(ParamFilters(params, indexes, formatDate).value)
      ensures r.Ok? ==> crumbs == old(crumbs) + FieldsOf(ParamFilters(params, indexes, formatDate).value)
      ensures r.Err? ==> r.error == ParamFilters(params, indexes, formatDate).error && old(crumbs) <= crumbs
    {
      var filters: seq<string> := [];
      ghost var done: seq<Filter> := [];
      var p := params;
      ghost var all := ParamFilters(p, indexes, formatDate);
      assert p[0..] == p;
      ThenEmpty(all);
      for i := 0 to |p|
        invariant all == Then(done, ParamFilters(p[i..], indexes, formatDate))
        invariant filters == TextsOf(done) && crumbs == old(crumbs) + FieldsOf(done)
      {
        ParamFiltersStep(p, i, indexes, formatDate);
        var more := EntryFilterTexts(p[i], indexes, formatDate, done, filters, old(crumbs));
        if more.Err? {
          return Err(more.error);
        }
        ghost var added := EntryFilters(p[i], indexes, formatDate).value;
        ThenThen(done, added, ParamFilters(p[i + 1..], indexes, formatDate));
        done := done + added;
        filters := more.value;
      }
      assert p[|p|..] == [];
      assert done + [] == done;
      r := Ok(filters);
    }

    /**
     * One parameter of parse_param_filters: for a registered index, each
     * of its values (dates formatted for a date index) becomes a filter
     * whose text is appended to filters and whose field to the crumbs.
     */
    method EntryFilterTexts(entry: (string, Value), indexes: seq<(string, Entries)>, formatDate: string -> Result<string>,
                            ghost done: seq<Filter>, filters0: seq<string>, ghost crumbs0: seq<string>)
      returns (r: Result<seq<string>>)
      modifies this`crumbs
      requires filters0 == TextsOf(done) && crumbs == crumbs0 + FieldsOf(done)
      ensures r.Ok? <==> EntryFilters(entry, indexes, formatDate).Ok?
      ensures r.Err? ==> r.error == EntryFilters(entry, indexes, formatDate).error && old(crumbs) <= crumbs
      ensures r.Ok? ==> && r.value == TextsOf(done + EntryFilters(entry, indexes, formatDate).value)
                        && crumbs == crumbs0 + FieldsOf(done + EntryFilters(entry, indexes, formatDate).value)
    {
      var (field, values) := entry;
      if !HasKey(indexes, field) {
        assert done + [] == done;
        return Ok(filters0);
      }
      var vs := ArrayOf(values);
      if IsDateIndex(indexes, field) {
        match Dated(vs, formatDate)
        case Err(e) =>
          return Err(e);
        case Ok(dates) =>
          vs := dates;
      }
      assert EntryFilters(entry, indexes, formatDate) == FieldFilters(field, vs);
      var filters := filters0;
      ghost var added: seq<Filter> := [];
      assert vs[0..] == vs;
      assert done + [] == done;
      ThenEmpty(FieldFilters(field, vs));
      for j := 0 to |vs|
        invariant FieldFilters(field, vs) == Then(added, FieldFilters(field, vs[j..]))
        invariant filters == TextsOf(done + added) && crumbs == crumbs0 + FieldsOf(done + added)
        invariant old(crumbs) <= crumbs
      {
        var f := NextFilter(field, vs, added, j);
        if f.Err? {
          return Err(f.error);
        }
        GatherStep(done, added, f.value, filters, crumbs0, crumbs);
        filters := filters + [f.value.text];
        crumbs := crumbs + [field];
        added := added + [f.value];
      }
      assert vs[|vs|..] == [] && added + [] == added;
      r := Ok(filters);
    }

    /** apply_filters: fq is the fixed filters followed by the parameter filters. */
    method ApplyFilters(texts: seq<string>)
      modifies this`select
      ensures select == Filtered(old(select), filterQuery, texts)
    {
      select := Put(select, "fq", List(filterQuery + Strs(texts)));
    }

    /** apply_simple_facets: faceting switched on for the facet fields, when there are any. */
    method ApplySimpleFacets()
      modifies this`select
      ensures select == Faceted(old(select), simpleFacets)
    {
      if !Blank(simpleFacets) {
        select := Put(select, "facet", Bool(true));
        select := Put(select, "facet.field", simpleFacets);
        select := Put(select, "facet.limit", Int(-1));
        select := Put(select, "facet.mincount", Int(1));
      }
    }

    /** apply_select: the static entries merged over the select hash. */
    method ApplySelect()
      modifies this`select
      ensures select == Merge(old(select), staticSelect)
    {
      select := Merge(select, staticSelect);
    }

    /** The first half of build_select: the parameters filtered and kept, then scoring, search terms and paging. */
    method PrepareSelect(searchParams: Entries) returns (r: Result<()>)
      modifies this`params, this`select, this`crumbs
      ensures params == FilterEmpty(searchParams)
      ensures crumbs == old(crumbs) + SearchCrumbs(params)
      ensures var prepared := Prepared(CurrentSettings(), params);
              && (r.Ok? <==> prepared.Ok?)
              && (r.Err? ==> r.error == prepared.error)
              && (r.Ok? ==> select == prepared.value)
    {
      var p := FilterEmptyParams(searchParams);
      params := p;
      select := [];
      ApplyScoringModifiers();
      ghost var scored := select;
      assert scored == Merge([], NonBlankEntries(knobs));
      ApplySearchTerms();
      ghost var searched := select;
      assert searched == Searched(scored, p);
      r := ApplyPagingOptions();
      assert r.Ok? ==> select == Paged(Searched(Merge([], NonBlankEntries(knobs)), p),
                                       Paging(p, perPages).value.0, Paging(p, perPages).value.1);
    }

    /** The second half of build_select: sort, parameter filters, fq, facets and the static entries. */
    method FinishSelect(indexes: seq<(string, Entries)>, formatDate: string -> Result<string>)
      returns (r: Result<()>)
      modifies this`select, this`crumbs
      ensures var finished := Finished(CurrentSettings(), staticSelect, params, old(select), indexes, formatDate);
              && (r.Ok? <==> finished.Ok?)
              && (r.Err? ==> r.error == finished.error && old(crumbs) <= crumbs)
              && (r.Ok? ==> select == finished.value.0 && crumbs == old(crumbs) + finished.value.1)
    {
      ghost var s := CurrentSettings();
      ApplySortingOptions();
      ghost var sorted := select;
      var filtered := ParseParamFilters(indexes, formatDate);
      if filtered.Err? {
        assert Finished(s, staticSelect, params, old(select), indexes, formatDate) == Err(filtered.error);
        return Err(filtered.error);
      }
      ghost var fs := ParamFilters(params, indexes, formatDate).value;
      ApplyFilters(filtered.value);
      ghost var filteredSel := select;
      assert filteredSel == Filtered(sorted, s.filterQuery, TextsOf(fs));
      ApplySimpleFacets();
      ApplySelect();
      assert Finished(s, staticSelect, params, old(select), indexes, formatDate) ==
             Ok((Merge(Faceted(filteredSel, s.simpleFacets), staticSelect), FieldsOf(fs)));
      r := Ok(());
    }

    /**
     * build_select: the select hash built is the one Build describes,
     * and the crumbs grow by the ones it names; when a step raises, the
     * exception is the one Build names and the crumbs have only grown.
     */
    method BuildSelect(searchParams: Entries, indexes: seq<(string, Entries)>, formatDate: string -> Result<string>)
      returns (r: Result<Entries>)
      modifies this`params, this`select, this`crumbs
      ensures params == FilterEmpty(searchParams)
      ensures r.Ok? <==> Build(CurrentSettings(), staticSelect, searchParams, indexes, formatDate).Ok?
      ensures r.Ok? ==> r.value == select == Build(CurrentSettings(), staticSelect, searchParams, indexes, formatDate).value.0
      ensures r.Ok? ==> crumbs == old(crumbs) + Build(CurrentSettings(), staticSelect, searchParams, indexes, formatDate).value.1
      ensures r.Err? ==> r.error == Build(CurrentSettings(), staticSelect, searchParams, indexes, formatDate).error
      ensures old(crumbs) <= crumbs
    {
      ghost var before := crumbs;
      var prepared := PrepareSelect(searchParams);
      if prepared.Err? {
        return Err(prepared.error);
      }
      ghost var middle := crumbs;
      var finished := FinishSelect(indexes, formatDate);
      if finished.Err? {
        return Err(finished.error);
      }
      AppendAssoc(before, SearchCrumbs(params), crumbs[|middle|..]);
      r := Ok(select);
    }
  }
}

=== FILE: document.dfy ===
/**
 * SolrPowered::Document (lib/solr_powered/document.rb): a read-only
 * wrapper over a document as the search engine returns it, where every
 * stored field is a list.  It reads the record id and class name out of
 * solr_id and gives access to stored fields by name.
 */
module Document {
  import opened Values
  import InstanceMethods

  /** A returned document: field name to stored value (a list for every stored field). */
  datatype Doc = Doc(hash: Entries)

  /** The name [] looks up: the key's text with a trailing '?' (a boolean-style accessor) removed. */
  function FieldName(key: Value): string {
    var s := ToS(key);
    if s != [] && s[|s| - 1] == '?' then s[..|s| - 1] else s
  }

  /**
   * first: a list's first element (nil when empty), a string's first
   * character (ActiveSupport's String#first), a hash's first pair; nil,
   * booleans, numbers, symbols and times lack the method.
   */
  function First(v: Value): (r: Result<Value>)
    ensures r.Ok? <==> v.List? || v.Str? || v.Hash?
    ensures v.List? && v.items != [] ==> r == Ok(v.items[0])
    ensures v.Str? ==> r.value.Str? && r.value.s <= v.s && |r.value.s| == (if v.s == [] then 0 else 1)
  {
    match v
    case List(items) => Ok(if items == [] then Nil else items[0])
    case Str(s) => Ok(Str(if s == [] then "" else s[..1]))
    case Hash(entries) => Ok(if entries == [] then Nil else List([Str(entries[0].0), entries[0].1]))
    case _ => Err(NoMethodError)
  }

  predicate IsDigitAt(s: string, i: nat)
    requires i < |s|
  {
    IsDigit(s[i])
  }

  /** s has the shape YYYY-mm-ddTHH:MM:SSZ. */
  predicate IsoStamp(s: string) {
    && |s| == 20
    && IsDigitAt(s, 0) && IsDigitAt(s, 1) && IsDigitAt(s, 2) && IsDigitAt(s, 3) && s[4] == '-'
    && IsDigitAt(s, 5) && IsDigitAt(s, 6) && s[7] == '-' && IsDigitAt(s, 8) && IsDigitAt(s, 9)
    && s[10] == 'T' && IsDigitAt(s, 11) && IsDigitAt(s, 12) && s[13] == ':'
    && IsDigitAt(s, 14) && IsDigitAt(s, 15) && s[16] == ':' && IsDigitAt(s, 17) && IsDigitAt(s, 18)
    && s[19] == 'Z'
  }

  /** A value as [] hands it back: a date stamp string becomes a time, anything else is itself. */
  function AsTime(v: Value): Value {
    if v.Str? && IsoStamp(v.s) then Time(v.s) else v
  }

  /** The first element of the stored solr_id list. */
  function SolrIdOf(d: Doc): Result<Value> {
    First(Lookup(d.hash, "solr_id"))
  }

  /**
   * doc[key].  solr_id is read directly; any other name must be a
   * registered, stored index.  The shortcut meant for id, klass_name,
   * klass and score compares the name's text with Symbols and so never
   * applies: those names are looked up in the registry like any other.
   */
  function Field(d: Doc, indexes: seq<(string, Entries)>, key: Value): Result<Value> {
    var name := FieldName(key);
    if name == "solr_id" then SolrIdOf(d)
    else
      match Get(indexes, name)
      case None => Err(ArgumentError)
      case Some(cfg) =>
        var multi := Truthy(Lookup(cfg, "multi_valued"));
        if Lookup(cfg, "stored") != Bool(true) then Err(ArgumentError)
        else if !HasKey(d.hash, name) then Ok(if multi then List([]) else Nil)
        else if multi then Ok(AsTime(Lookup(d.hash, name)))
        else
          match First(Lookup(d.hash, name))
          case Err(e) => Err(e)
          case Ok(v) => Ok(AsTime(v))
  }

  /** A solr_id's parts between dashes, trailing empty ones dropped; only a String can be split. */
  function Parts(v: Value): Result<seq<string>> {
    if v.Str? then Ok(Split(v.s, '-')) else Err(NoMethodError)
  }

  /** The parts of the document's solr_id. */
  function IdParts(d: Doc): Result<seq<string>> {
    match SolrIdOf(d)
    case Err(e) => Err(e)
    case Ok(v) => Parts(v)
  }

  /** id: the last dash-separated part of solr_id as an integer (nil.to_i, 0, when there is none). */
  function Id(d: Doc): Result<int> {
    match IdParts(d)
    case Err(e) => Err(e)
    case Ok(parts) => Ok(if parts == [] then 0 else StrToI(parts[|parts| - 1]))
  }

  /** klass_name: the first dash-separated part of solr_id (nil when there is none). */
  function KlassName(d: Doc): Result<Value> {
    match IdParts(d)
    case Err(e) => Err(e)
    case Ok(parts) => Ok(if parts == [] then Nil else Str(parts[0]))
  }

  /** A string key without a trailing '?' names itself. */
  lemma PlainName(name: string)
    requires name == [] || name[|name| - 1] != '?'
    ensures FieldName(Str(name)) == name
  {
  }

  /** The ? of a boolean-style accessor is ignored: both keys read the same field, and solr_id through the shortcut. */
  lemma QuestionMarkIgnored(d: Doc, indexes: seq<(string, Entries)>, name: string)
    requires name == [] || name[|name| - 1] != '?'
    ensures Field(d, indexes, Str(name + "?")) == Field(d, indexes, Str(name))
    ensures Field(d, indexes, Sym("solr_id?")) == SolrIdOf(d)
  {
    assert (name + "?")[..|name|] == name;
    assert "solr_id?"[..7] == "solr_id";
  }

  /**
   * Every name other than solr_id goes to the registry: an unregistered
   * name, id, klass_name, klass and score included, raises
   * ArgumentError, and so does a registered field that is not stored.
   */
  lemma UnknownFieldsRaise(d: Doc, indexes: seq<(string, Entries)>, key: Value)
    requires FieldName(key) != "solr_id"
    requires !HasKey(indexes, FieldName(key)) || Lookup(Get(indexes, FieldName(key)).value, "stored") != Bool(true)
    ensures Field(d, indexes, key) == Err(ArgumentError)
  {
  }

  /** A stored field the document lacks reads as [] when multi-valued and as nil otherwise. */
  lemma MissingFieldDefault(d: Doc, indexes: seq<(string, Entries)>, key: Value)
    requires FieldName(key) != "solr_id" && !HasKey(d.hash, FieldName(key))
    requires HasKey(indexes, FieldName(key))
    requires Lookup(Get(indexes, FieldName(key)).value, "stored") == Bool(true)
    ensures var cfg := Get(indexes, FieldName(key)).value;
            Field(d, indexes, key) == Ok(if Truthy(Lookup(cfg, "multi_valued")) then List([]) else Nil)
  {
  }

  /**
   * A stored field the document has reads as its whole list when
   * multi-valued and as the list's first element otherwise; a list is
   * never mistaken for a date.
   */
  lemma PresentFieldValue(d: Doc, indexes: seq<(string, Entries)>, key: Value)
    requires FieldName(key) != "solr_id" && HasKey(d.hash, FieldName(key))
    requires Lookup(d.hash, FieldName(key)).List?
    requires HasKey(indexes, FieldName(key))
    requires Lookup(Get(indexes, FieldName(key)).value, "stored") == Bool(true)
    ensures var cfg := Get(indexes, FieldName(key)).value;
            var stored := Lookup(d.hash, FieldName(key)).items;
            && (Truthy(Lookup(cfg, "multi_valued")) ==> Field(d, indexes, key) == Ok(List(stored)))
            && (!Truthy(Lookup(cfg, "multi_valued")) && stored != [] ==> Field(d, indexes, key) == Ok(AsTime(stored[0])))
  {
  }

  /**
   * A time indexed by solr_document (as its stamp text) reads back as
   * the same time from a single-valued stored field.
   */
  lemma TimeRoundTrip(d: Doc, indexes: seq<(string, Entries)>, f: string, iso: string)
    requires f != "solr_id" && (f == [] || f[|f| - 1] != '?')
    requires IsoStamp(iso)
    requires HasKey(d.hash, f) && Lookup(d.hash, f) == List(InstanceMethods.IndexValues([Time(iso)]))
    requires HasKey(indexes, f) && Lookup(Get(indexes, f).value, "stored") == Bool(true)
    requires !Truthy(Lookup(Get(indexes, f).value, "multi_valued"))
    ensures Field(d, indexes, Str(f)) == Ok(Time(iso))
  {
    InstanceMethods.IndexValuesOne(Time(iso));
    PlainName(f);
    PresentFieldValue(d, indexes, Str(f));
  }

  /** The digits of a natural number contain no dash. */
  lemma DigitsHaveNoDash(n: nat)
    ensures '-' !in NatToString(n)
  {
    var s := NatToString(n);
    assert forall i :: 0 <= i < |s| ==> s[i] != '-';
  }

  /**
   * id and klass_name undo solr_id: for a record whose class name has no
   * dash and whose primary key is a non-negative integer, the document
   * holding its solr_id gives back that class name and that key.
   */
  lemma SolrIdRoundTrip(w: InstanceMethods.World, o: InstanceMethods.Obj, d: Doc, n: nat)
    requires o.klass != [] && '-' !in o.klass
    requires w.send(o, w.config(o.klass).primaryKey) == Int(n)
    requires Lookup(d.hash, "solr_id") == List([Str(InstanceMethods.SolrId(w, o))])
    ensures Id(d) == Ok(n) && KlassName(d) == Ok(Str(o.klass))
  {
    var digits := NatToString(n);
    assert IntToString(n) == digits;
    assert InstanceMethods.SolrId(w, o) == o.klass + ['-'] + digits;
    DigitsHaveNoDash(n);
    FieldsJoin(o.klass, digits, '-');
    FieldsNoSep(digits, '-');
    assert Fields(InstanceMethods.SolrId(w, o), '-') == [o.klass, digits];
    IntToStringRoundTrip(n);
  }
}

=== FILE: find.dfy ===
/**
 * SolrPowered.find (lib/solr_powered.rb): checks the :format, :page and
 * :per_page options, builds the select request (facets, the compiled
 * query, the offset and page size, the sort and the field list), and
 * shapes the response: solr_ids, Documents, raw hashes, or the records
 * themselves, loaded one class at a time and put back in the order the
 * search engine ranked them.
 *
 * The request itself and the parsing of its reply are a function from
 * the select hash to a Response; loading records of a class by their
 * ids is a function too.
 */
module Find {
  import opened Values
  import Lql
  import Document
  import InstanceMethods

  /** The response formats find accepts. */
  datatype Format = ActiveRecord | Documents | Hashes | Ids

  /** The parsed reply: response.numFound, response.docs and facet_counts. */
  datatype Response = Response(numFound: int, docs: seq<Entries>, facetCounts: Value)

  /** One element of the returned collection, by format. */
  datatype Item =
    | Record(obj: InstanceMethods.Obj)
    | DocItem(doc: Document.Doc)
    | Raw(hash: Entries)
    | SolrIdItem(id: Value)

  /** The collection find returns: its items, the page, the page size, the total and the facet counts. */
  datatype Found = Found(items: seq<Item>, page: int, perPage: int, total: int, facets: Option<Value>)

  /**
   * klass.find(ids, find_opts): the records of the named class with the
   * given ids, or the exception the lookup raises (RecordNotFound).
   */
  type Loader = (string, seq<string>, Value) -> Result<seq<InstanceMethods.Obj>>

  // ---------------------------------------------------------------------
  // Options
  // ---------------------------------------------------------------------

  /** The :format option (its to_s) and the field list each format asks for. */
  function FormatOf(option: Value): (r: Result<(Format, string)>)
    ensures r.Err? <==> ToS(option) !in ["active_record", "", "document", "hash", "ids"]
    ensures r.Err? ==> r.error == ArgumentError
    ensures r.Ok? ==> (r.value.1 == "solr_id,score" <==> r.value.0 == ActiveRecord)
  {
    var f := ToS(option);
    if f == "active_record" || f == "" then Ok((ActiveRecord, "solr_id,score"))
    else if f == "document" then Ok((Documents, "*,score"))
    else if f == "hash" then Ok((Hashes, "*,score"))
    else if f == "ids" then Ok((Ids, "solr_id"))
    else Err(ArgumentError)
  }

  /** :page and :per_page: a blank value means the default, and its to_i must be positive. */
  function PositiveOption(v: Value, default: int): (r: Result<int>)
    requires default > 0
    ensures r.Ok? ==> r.value > 0
    ensures Blank(v) ==> r == Ok(default)
  {
    var n := if Blank(v) then Ok(default) else ToI(v);
    match n
    case Err(e) => Err(e)
    case Ok(k) => if k > 0 then Ok(k) else Err(ArgumentError)
  }

  /**
   * A given integer page is accepted exactly when it is positive, and a
   * given string exactly when its to_i is; text that is not a number
   * reads as 0 and so raises ArgumentError.
   */
  lemma PositiveOptionMeans(v: Value, default: int)
    requires default > 0
    ensures v.Int? ==> PositiveOption(v, default) == if v.i > 0 then Ok(v.i) else Err(ArgumentError)
    ensures v.Str? && !Blank(v) ==>
              PositiveOption(v, default) == if StrToI(v.s) > 0 then Ok(StrToI(v.s)) else Err(ArgumentError)
  {
  }

  /** The facet entries find adds when :facets is given. */
  function FacetSelect(options: Entries): (r: Entries)
    ensures UniqueKeys(r)
    ensures r != [] <==> Truthy(Lookup(options, "facets"))
  {
    if Truthy(Lookup(options, "facets")) then
      var r := [("facet", Bool(true)), ("facet.field", Lookup(options, "facets")), ("facet.limit", Int(-1)),
                ("facet.missing", Bool(false)), ("facet.zeros", Bool(false))];
      assert Keys(r) == ["facet", "facet.field", "facet.limit", "facet.missing", "facet.zeros"];
      r
    else []
  }

  /**
   * With :facets given, the request turns faceting on for exactly the
   * fields given, with no limit, and without missing or zero counts.
   */
  lemma FacetSelectFields(options: Entries)
    requires Truthy(Lookup(options, "facets"))
    ensures var r := FacetSelect(options);
            && Get(r, "facet") == Some(Bool(true))
            && Get(r, "facet.field") == Some(Lookup(options, "facets"))
            && Get(r, "facet.limit") == Some(Int(-1))
            && Get(r, "facet.missing") == Some(Bool(false))
            && Get(r, "facet.zeros") == Some(Bool(false))
  {
    var r := FacetSelect(options);
    GetAt(r, 0);
    GetAt(r, 1);
    GetAt(r, 2);
    GetAt(r, 3);
    GetAt(r, 4);
  }

  /** The entries merged into the select hash after the facets. */
  function SearchParams(q: string, start: int, rows: int, sort: Value, fl: string): (r: Entries)
    ensures UniqueKeys(r)
    ensures Keys(r) == ["q", "start", "rows", "sort", "wt", "fl"]
  {
    var r := [("q", Str(q)), ("start", Int(start)), ("rows", Int(rows)), ("sort", sort), ("wt", Str("ruby")), ("fl", Str(fl))];
    assert Keys(r) == ["q", "start", "rows", "sort", "wt", "fl"];
    r
  }

  /** The select hash: the facet entries, then the query, offset, page size, sort, format and field list. */
  function SelectFor(options: Entries, q: string, page: int, perPage: int, fl: string): Entries {
    Merge(FacetSelect(options), SearchParams(q, (page - 1) * perPage, perPage, Lookup(options, "sort"), fl))
  }

  /** The request asks for page-size rows starting at (page - 1) * page size. */
  lemma SelectForPaging(options: Entries, q: string, page: int, perPage: int, fl: string)
    ensures var s := SelectFor(options, q, page, perPage, fl);
            && Get(s, "start") == Some(Int((page - 1) * perPage))
            && Get(s, "rows") == Some(Int(perPage))
  {
    var b := SearchParams(q, (page - 1) * perPage, perPage, Lookup(options, "sort"), fl);
    GetAt(b, 1);
    GetAt(b, 2);
    MergeGet(FacetSelect(options), b, "start");
    MergeGet(FacetSelect(options), b, "rows");
  }

  /** The request carries the compiled query, the caller's sort and the format's field list. */
  lemma SelectForQuery(options: Entries, q: string, page: int, perPage: int, fl: string)
    ensures var s := SelectFor(options, q, page, perPage, fl);
            && Get(s, "q") == Some(Str(q))
            && Get(s, "sort") == Some(Lookup(options, "sort"))
            && Get(s, "fl") == Some(Str(fl))
  {
    var b := SearchParams(q, (page - 1) * perPage, perPage, Lookup(options, "sort"), fl);
    GetAt(b, 0);
    GetAt(b, 3);
    GetAt(b, 5);
    MergeGet(FacetSelect(options), b, "q");
    MergeGet(FacetSelect(options), b, "sort");
    MergeGet(FacetSelect(options), b, "fl");
  }

  /** The request asks for facets exactly when :facets is given. */
  lemma SelectForFacets(options: Entries, q: string, page: int, perPage: int, fl: string)
    ensures Get(SelectFor(options, q, page, perPage, fl), "facet") ==
              if Truthy(Lookup(options, "facets")) then Some(Bool(true)) else None
  {
    var b := SearchParams(q, (page - 1) * perPage, perPage, Lookup(options, "sort"), fl);
    assert !HasKey(b, "facet");
    MergeGet(FacetSelect(options), b, "facet");
  }

  // ---------------------------------------------------------------------
  // The active_record format
  // ---------------------------------------------------------------------

  /** A document whose first solr_id can be split: its solr_id has a first element, and it is a String. */
  predicate Splittable(doc: Entries) {
    var f := Document.First(Lookup(doc, "solr_id"));
    f.Ok? && f.value.Str?
  }

  /** Every document's solr_id can be split. */
  predicate AllSplittable(docs: seq<Entries>) {
    forall i :: 0 <= i < |docs| ==> Splittable(docs[i])
  }

  /** doc['solr_id'].first, for a document whose solr_id can be split. */
  function FirstId(doc: Entries): string
    requires Splittable(doc)
  {
    Document.First(Lookup(doc, "solr_id")).value.s
  }

  /** The class-name part of a solr_id (nil when there is none). */
  function KlassKey(id: string): Value {
    var p := Split(id, '-');
    if p == [] then Nil else Str(p[0])
  }

  /** The record-id part of a solr_id (nil.to_s, empty, when there is none). */
  function RecordId(id: string): string {
    var p := Split(id, '-');
    if p == [] then "" else p[|p| - 1]
  }

  /** sorted_ids: the documents' solr_ids, in the order the search ranked them. */
  function SortedIds(docs: seq<Entries>): (ids: seq<string>)
    requires AllSplittable(docs)
    ensures |ids| == |docs|
    ensures forall i :: 0 <= i < |docs| ==> ids[i] == FirstId(docs[i])
  {
    if docs == [] then [] else SortedIds(docs[..|docs| - 1]) + [FirstId(docs[|docs| - 1])]
  }

  /** The ids among ids whose class-name part is k, in order. */
  function OfKlass(ids: seq<string>, k: Value): seq<string> {
    if ids == [] then []
    else OfKlass(ids[..|ids| - 1], k) + (if KlassKey(ids[|ids| - 1]) == k then [ids[|ids| - 1]] else [])
  }

  /** ids_by_klass: each class-name part, in order of first appearance, with its ids. */
  function Grouped(ids: seq<string>): seq<(Value, seq<string>)> {
    if ids == [] then []
    else
      var g := Grouped(ids[..|ids| - 1]);
      var id := ids[|ids| - 1];
      var k := KlassKey(id);
      Put(g, k, (match Get(g, k) case Some(xs) => xs case None => []) + [id])
  }

  /** Adding one more id to ids_by_klass. */
  lemma GroupedSnoc(ids: seq<string>, id: string)
    ensures var g := Grouped(ids);
            var k := KlassKey(id);
            Grouped(ids + [id]) == Put(g, k, (match Get(g, k) case Some(xs) => xs case None => []) + [id])
  {
    assert (ids + [id])[..|ids|] == ids;
  }

  /** Each class-name part appears once in ids_by_klass. */
  lemma {:induction false} GroupedUnique(ids: seq<string>)
    ensures UniqueKeys(Grouped(ids))
  {
    if ids != [] {
      var init := ids[..|ids| - 1];
      var id := ids[|ids| - 1];
      var g := Grouped(init);
      var kid := KlassKey(id);
      GroupedUnique(init);
      PutKeepsUnique(g, kid, (match Get(g, kid) case Some(xs) => xs case None => []) + [id]);
    }
  }

  /** Grouping loses and invents nothing: each class-name part holds exactly the ids with that part, in their order. */
  lemma {:induction false} GroupedGet(ids: seq<string>, k: Value)
    ensures Get(Grouped(ids), k) == if OfKlass(ids, k) == [] then None else Some(OfKlass(ids, k))
  {
    if ids != [] {
      var init := ids[..|ids| - 1];
      var id := ids[|ids| - 1];
      var g := Grouped(init);
      var kid := KlassKey(id);
      var xs := match Get(g, kid) case Some(xs) => xs case None => [];
      assert Grouped(ids) == Put(g, kid, xs + [id]);
      GroupedGet(init, k);
      GroupStep(g, kid, id, k, OfKlass(init, k));
      assert OfKlass(ids, k) == OfKlass(init, k) + (if kid == k then [id] else []);
    }
  }

  /** One id appended to its class's group: the group of k grows by it exactly when k is its class. */
  lemma GroupStep(g: seq<(Value, seq<string>)>, kid: Value, id: string, k: Value, ys: seq<string>)
    requires Get(g, k) == if ys == [] then None else Some(ys)
    ensures var xs := match Get(g, kid) case Some(xs) => xs case None => [];
            var zs := ys + (if kid == k then [id] else []);
            Get(Put(g, kid, xs + [id]), k) == if zs == [] then None else Some(zs)
  {
    var xs := match Get(g, kid) case Some(xs) => xs case None => [];
    PutGet(g, kid, xs + [id], k);
    if kid != k {
      assert ys + [] == ys;
    }
  }

  /** The record ids of a group, each the last part of its solr_id. */
  function RecordIds(ids: seq<string>): (r: seq<string>)
    ensures |r| == |ids| && forall i :: 0 <= i < |ids| ==> r[i] == RecordId(ids[i])
  {
    seq(|ids|, i requires 0 <= i < |ids| => RecordId(ids[i]))
  }

  /** Loading the groups in order, one find per class; a nil class name cannot be constantized. */
  function Loaded(groups: seq<(Value, seq<string>)>, load: Loader, findOpts: Value): Result<seq<InstanceMethods.Obj>> {
    if groups == [] then Ok([])
    else if !groups[0].0.Str? then Err(NoMethodError)
    else
      match load(groups[0].0.s, RecordIds(groups[0].1), findOpts)
      case Err(e) => Err(e)
      case Ok(objs) => Then(objs, Loaded(groups[1..], load, findOpts))
  }

  /** Loading fails exactly when some class name is nil or some class's find raises. */
  lemma {:induction false} LoadedFails(groups: seq<(Value, seq<string>)>, load: Loader, findOpts: Value)
    ensures Loaded(groups, load, findOpts).Err? <==>
              exists i :: 0 <= i < |groups| && GroupFails(groups[i], load, findOpts)
  {
    if groups != [] {
      var rest := groups[1..];
      LoadedFails(rest, load, findOpts);
      if !GroupFails(groups[0], load, findOpts) {
        if Loaded(groups, load, findOpts).Err? {
          var i :| 0 <= i < |rest| && GroupFails(rest[i], load, findOpts);
          assert groups[i + 1] == rest[i];
        } else {
          forall i | 0 <= i < |groups|
            ensures !GroupFails(groups[i], load, findOpts)
          {
            if i > 0 {
              assert groups[i] == rest[i - 1];
            }
          }
        }
      }
    }
  }

  /** A group cannot be loaded: its class name is nil, or its find raises. */
  predicate GroupFails(group: (Value, seq<string>), load: Loader, findOpts: Value) {
    !group.0.Str? || load(group.0.s, RecordIds(group.1), findOpts).Err?
  }

  /** Where an id first appears among the sorted ids, if it does. */
  function IndexOf(ids: seq<string>, id: string): (r: Option<nat>)
    ensures r.Some? ==> r.value < |ids| && ids[r.value] == id && id !in ids[..r.value]
    ensures r.None? <==> id !in ids
  {
    if ids == [] then None
    else if ids[0] == id then Some(0)
    else
      match IndexOf(ids[1..], id)
      case None => None
      case Some(i) =>
        assert ids[..i + 1] == [ids[0]] + ids[1..][..i];
        Some(i + 1)
  }

  /** A record's rank: the place of its solr_id among the sorted ids (0 stands in for nil). */
  function Rank(w: InstanceMethods.World, ids: seq<string>, o: InstanceMethods.Obj): nat {
    match IndexOf(ids, InstanceMethods.SolrId(w, o))
    case Some(i) => i
    case None => 0
  }

  /** Records ordered by rank: each successive record ranks no lower. */
  predicate SortedBy(objs: seq<InstanceMethods.Obj>, w: InstanceMethods.World, ids: seq<string>) {
    forall i, j :: 0 <= i < j < |objs| ==> Rank(w, ids, objs[i]) <= Rank(w, ids, objs[j])
  }

  /** Inserting a record into an ordered run, after those ranking no higher. */
  function Insert(s: seq<InstanceMethods.Obj>, x: InstanceMethods.Obj, w: InstanceMethods.World, ids: seq<string>)
    : (r: seq<InstanceMethods.Obj>)
    ensures multiset(r) == multiset(s) + multiset{x}
  {
    if s == [] then [x]
    else if Rank(w, ids, x) < Rank(w, ids, s[0]) then [x] + s
    else
      assert s == [s[0]] + s[1..];
      [s[0]] + Insert(s[1..], x, w, ids)
  }

  /** Every record of s ranks at least b. */
  predicate RanksFrom(s: seq<InstanceMethods.Obj>, w: InstanceMethods.World, ids: seq<string>, b: nat) {
    forall i :: 0 <= i < |s| ==> b <= Rank(w, ids, s[i])
  }

  /** Inserting a record ranking at least b into a run ranking at least b gives such a run. */
  lemma {:induction false} InsertRanksFrom(s: seq<InstanceMethods.Obj>, x: InstanceMethods.Obj, w: InstanceMethods.World,
                                           ids: seq<string>, b: nat)
    requires RanksFrom(s, w, ids, b) && b <= Rank(w, ids, x)
    ensures RanksFrom(Insert(s, x, w, ids), w, ids, b)
  {
    if s != [] && Rank(w, ids, x) >= Rank(w, ids, s[0]) {
      var t := s[1..];
      assert RanksFrom(t, w, ids, b) by {
        forall i | 0 <= i < |t| ensures b <= Rank(w, ids, t[i]) {
          assert t[i] == s[i + 1];
        }
      }
      InsertRanksFrom(t, x, w, ids, b);
    }
  }

  /** Inserting into an ordered run keeps it ordered. */
  lemma {:induction false} InsertSorted(s: seq<InstanceMethods.Obj>, x: InstanceMethods.Obj, w: InstanceMethods.World, ids: seq<string>)
    requires SortedBy(s, w, ids)
    ensures SortedBy(Insert(s, x, w, ids), w, ids)
  {
    if s != [] && Rank(w, ids, x) >= Rank(w, ids, s[0]) {
      var t := s[1..];
      var b := Rank(w, ids, s[0]);
      SortedTail(s, w, ids);
      InsertSorted(t, x, w, ids);
      InsertRanksFrom(t, x, w, ids, b);
      var u := Insert(t, x, w, ids);
      assert Insert(s, x, w, ids) == [s[0]] + u;
      SortedCons(s[0], u, w, ids);
    }
  }

  /** The rest of an ordered run is ordered and ranks no lower than its head. */
  lemma SortedTail(s: seq<InstanceMethods.Obj>, w: InstanceMethods.World, ids: seq<string>)
    requires s != [] && SortedBy(s, w, ids)
    ensures SortedBy(s[1..], w, ids) && RanksFrom(s[1..], w, ids, Rank(w, ids, s[0]))
  {
    var t := s[1..];
    forall i, j | 0 <= i < j < |t|
      ensures Rank(w, ids, t[i]) <= Rank(w, ids, t[j])
    {
      assert t[i] == s[i + 1] && t[j] == s[j + 1];
    }
    forall i | 0 <= i < |t| ensures Rank(w, ids, s[0]) <= Rank(w, ids, t[i]) {
      assert t[i] == s[i + 1];
    }
  }

  /** A record ranking no higher than an ordered run, put in front of it, gives an ordered run. */
  lemma SortedCons(a: InstanceMethods.Obj, u: seq<InstanceMethods.Obj>, w: InstanceMethods.World, ids: seq<string>)
    requires SortedBy(u, w, ids) && RanksFrom(u, w, ids, Rank(w, ids, a))
    ensures SortedBy([a] + u, w, ids)
  {
    var r := [a] + u;
    forall i, j | 0 <= i < j < |r|
      ensures Rank(w, ids, r[i]) <= Rank(w, ids, r[j])
    {
      assert r[j] == u[j - 1];
      if i > 0 {
        assert r[i] == u[i - 1];
      }
    }
  }

  /** objs.sort_by { |obj| sorted_ids.index(obj.solr_id) }, as an insertion sort. */
  function SortByRank(objs: seq<InstanceMethods.Obj>, w: InstanceMethods.World, ids: seq<string>): seq<InstanceMethods.Obj> {
    if objs == [] then [] else Insert(SortByRank(objs[..|objs| - 1], w, ids), objs[|objs| - 1], w, ids)
  }

  /** The reordered records are the loaded records, each as often, in the order the search ranked their solr_ids. */
  lemma SortByRankMeans(objs: seq<InstanceMethods.Obj>, w: InstanceMethods.World, ids: seq<string>)
    ensures SortedBy(SortByRank(objs, w, ids), w, ids)
    ensures multiset(SortByRank(objs, w, ids)) == multiset(objs)
  {
    SortByRankSorted(objs, w, ids);
    SortByRankPermutes(objs, w, ids);
  }

  /** The reordered records are ordered by rank. */
  lemma {:induction false} SortByRankSorted(objs: seq<InstanceMethods.Obj>, w: InstanceMethods.World, ids: seq<string>)
    ensures SortedBy(SortByRank(objs, w, ids), w, ids)
  {
    if objs != [] {
      var init := objs[..|objs| - 1];
      SortByRankSorted(init, w, ids);
      InsertSorted(SortByRank(init, w, ids), objs[|objs| - 1], w, ids);
    }
  }

  /** The reordered records are the loaded records, each as often. */
  lemma {:induction false} SortByRankPermutes(objs: seq<InstanceMethods.Obj>, w: InstanceMethods.World, ids: seq<string>)
    ensures multiset(SortByRank(objs, w, ids)) == multiset(objs)
  {
    if objs != [] {
      var init := objs[..|objs| - 1];
      var x := objs[|objs| - 1];
      var s := SortByRank(init, w, ids);
      SortByRankPermutes(init, w, ids);
      assert SortByRank(objs, w, ids) == Insert(s, x, w, ids);
      assert objs == init + [x];
      calc {
        multiset(Insert(s, x, w, ids));
        multiset(s) + multiset{x};
        multiset(init) + multiset([x]);
        multiset(init + [x]);
      }
    }
  }

  /** Some loaded record was among the search results, by solr_id. */
  predicate SomeRanked(objs: seq<InstanceMethods.Obj>, w: InstanceMethods.World, ids: seq<string>) {
    exists i :: 0 <= i < |objs| && InstanceMethods.SolrId(w, objs[i]) in ids
  }

  /** Every loaded record was among the search results, by solr_id. */
  predicate AllRanked(objs: seq<InstanceMethods.Obj>, w: InstanceMethods.World, ids: seq<string>) {
    forall i :: 0 <= i < |objs| ==> InstanceMethods.SolrId(w, objs[i]) in ids
  }

  /**
   * The reorder step.  A record the search did not return gets a nil
   * rank; comparing nil with an index raises, while two nils compare
   * equal, so the sort fails exactly when ranked and unranked records
   * are mixed.
   */
  function Reordered(objs: seq<InstanceMethods.Obj>, w: InstanceMethods.World, ids: seq<string>)
    : (r: Result<seq<InstanceMethods.Obj>>)
    ensures r.Err? <==> SomeRanked(objs, w, ids) && !AllRanked(objs, w, ids)
    ensures r.Err? ==> r.error == ArgumentError
    ensures r.Ok? ==> SortedBy(r.value, w, ids) && multiset(r.value) == multiset(objs)
  {
    if SomeRanked(objs, w, ids) && !AllRanked(objs, w, ids) then Err(ArgumentError)
    else
      SortByRankMeans(objs, w, ids);
      Ok(SortByRank(objs, w, ids))
  }

  /** The records as collection items. */
  function AsRecords(objs: seq<InstanceMethods.Obj>): (r: seq<Item>)
    ensures |r| == |objs| && forall i :: 0 <= i < |objs| ==> r[i] == Record(objs[i])
  {
    seq(|objs|, i requires 0 <= i < |objs| => Record(objs[i]))
  }

  /** :find, or an empty hash. */
  function FindOptions(options: Entries): Value {
    var f := Lookup(options, "find");
    if Truthy(f) then f else Hash([])
  }

  /** The active_record format: group the ids by class, load each class, reorder. */
  function Records(docs: seq<Entries>, w: InstanceMethods.World, load: Loader, findOpts: Value): Result<seq<Item>> {
    if !AllSplittable(docs) then Err(NoMethodError)
    else
      var ids := SortedIds(docs);
      match Loaded(Grouped(ids), load, findOpts)
      case Err(e) => Err(e)
      case Ok(objs) =>
        match Reordered(objs, w, ids)
        case Err(e) => Err(e)
        case Ok(sorted) => Ok(AsRecords(sorted))
  }

  /** The solr_id of every document: the first element of its solr_id. */
  function IdItems(docs: seq<Entries>): (r: Result<seq<Item>>)
    ensures r.Ok? <==> forall i :: 0 <= i < |docs| ==> Document.First(Lookup(docs[i], "solr_id")).Ok?
    ensures r.Ok? ==> |r.value| == |docs|
    ensures r.Ok? ==>
              forall i :: 0 <= i < |docs| ==> r.value[i] == SolrIdItem(Document.First(Lookup(docs[i], "solr_id")).value)
  {
    if forall i :: 0 <= i < |docs| ==> Document.First(Lookup(docs[i], "solr_id")).Ok? then
      Ok(seq(|docs|, i requires 0 <= i < |docs| => SolrIdItem(Document.First(Lookup(docs[i], "solr_id")).value)))
    else Err(NoMethodError)
  }

  /**
   * The solr_id a record is indexed under reads back through find's
   * grouping: its class-name part is the record's class and its record-id
   * part is the record's key, for a class name without a dash and a
   * non-negative integer key.
   */
  lemma SolrIdParts(w: InstanceMethods.World, o: InstanceMethods.Obj, n: nat)
    requires o.klass != [] && '-' !in o.klass
    requires w.send(o, w.config(o.klass).primaryKey) == Int(n)
    ensures KlassKey(InstanceMethods.SolrId(w, o)) == Str(o.klass)
    ensures RecordIds([InstanceMethods.SolrId(w, o)]) == [NatToString(n)]
  {
    var digits := NatToString(n);
    var id := InstanceMethods.SolrId(w, o);
    assert IntToString(n) == digits;
    assert id == o.klass + ['-'] + digits;
    Document.DigitsHaveNoDash(n);
    FieldsJoin(o.klass, digits, '-');
    FieldsNoSep(digits, '-');
    assert Fields(id, '-') == [o.klass, digits];
    assert Split(id, '-') == [o.klass, digits];
  }

  /** The ids format hands back, in order, the solr_id each document was indexed under. */
  lemma IdItemsIndexed(docs: seq<Entries>, w: InstanceMethods.World, objs: seq<InstanceMethods.Obj>)
    requires |docs| == |objs|
    requires forall i :: 0 <= i < |docs| ==> Lookup(docs[i], "solr_id") == List([Str(InstanceMethods.SolrId(w, objs[i]))])
    ensures IdItems(docs).Ok?
    ensures IdItems(docs).value == seq(|objs|, i requires 0 <= i < |objs| => SolrIdItem(Str(InstanceMethods.SolrId(w, objs[i]))))
  {
  }

  /** The items of each format. */
  function Items(format: Format, docs: seq<Entries>, w: InstanceMethods.World, load: Loader, findOpts: Value)
    : Result<seq<Item>>
  {
    match format
    case Ids => IdItems(docs)
    case ActiveRecord => Records(docs, w, load, findOpts)
    case Documents => Ok(seq(|docs|, i requires 0 <= i < |docs| => DocItem(Document.Doc(docs[i]))))
    case Hashes => Ok(seq(|docs|, i requires 0 <= i < |docs| => Raw(docs[i])))
  }

  /** SolrPowered.find */
  function Search(query: Value, options: Entries, w: InstanceMethods.World, load: Loader,
                  solr: Entries -> Result<Response>): Result<Found>
  {
    match FormatOf(Lookup(options, "format"))
    case Err(e) => Err(e)
    case Ok((format, fl)) =>
      match PositiveOption(Lookup(options, "page"), 1)
      case Err(e) => Err(e)
      case Ok(page) =>
        match PositiveOption(Lookup(options, "per_page"), 10)
        case Err(e) => Err(e)
        case Ok(perPage) => SearchPage(query, options, format, fl, page, perPage, w, load, solr)
  }

  /** find once the format and paging options are accepted: compile, select, convert. */
  function SearchPage(query: Value, options: Entries, format: Format, fl: string, page: int, perPage: int,
                      w: InstanceMethods.World, load: Loader, solr: Entries -> Result<Response>): (r: Result<Found>)
    ensures r.Ok? ==> r.value.page == page && r.value.perPage == perPage
    ensures r.Ok? ==> (r.value.facets.Some? <==> Truthy(Lookup(options, "facets")))
  {
    match Lql.Compile(query)
    case Err(e) => Err(e)
    case Ok(q) =>
      match solr(SelectFor(options, q, page, perPage, fl))
      case Err(e) => Err(e)
      case Ok(resp) =>
        match Items(format, resp.docs, w, load, FindOptions(options))
        case Err(e) => Err(e)
        case Ok(items) =>
          var facets := if Truthy(Lookup(options, "facets")) then Some(resp.facetCounts) else None;
          Ok(Found(items, page, perPage, resp.numFound, facets))
  }

  // ---------------------------------------------------------------------
  // Properties
  // ---------------------------------------------------------------------

  /**
   * An unknown format, or a page or page size that is given but not a
   * positive integer, raises ArgumentError before anything is sent.
   */
  lemma SearchRejects(query: Value, options: Entries, w: InstanceMethods.World, load: Loader,
                      solr: Entries -> Result<Response>)
    requires || ToS(Lookup(options, "format")) !in ["active_record", "", "document", "hash", "ids"]
             || (Lookup(options, "page").Int? && Lookup(options, "page").i <= 0)
             || (&& PositiveOption(Lookup(options, "page"), 1).Ok?
                 && Lookup(options, "per_page").Int? && Lookup(options, "per_page").i <= 0)
    ensures Search(query, options, w, load, solr) == Err(ArgumentError)
  {
    PositiveOptionMeans(Lookup(options, "page"), 1);
    PositiveOptionMeans(Lookup(options, "per_page"), 10);
  }

  /**
   * A successful search reports a positive page and page size, 1 and 10
   * when not given, and the facet counts exactly when facets were asked
   * for.
   */
  lemma SearchFound(query: Value, options: Entries, w: InstanceMethods.World, load: Loader,
                    solr: Entries -> Result<Response>)
    requires Search(query, options, w, load, solr).Ok?
    ensures var f := Search(query, options, w, load, solr).value;
            && f.page > 0 && f.perPage > 0
            && (Blank(Lookup(options, "page")) ==> f.page == 1)
            && (Blank(Lookup(options, "per_page")) ==> f.perPage == 10)
            && (f.facets.Some? <==> Truthy(Lookup(options, "facets")))
  {
    SearchParts(query, options, w, load, solr);
  }

  /** The page and page size reported are those the options give. */
  lemma SearchPaging(query: Value, options: Entries, w: InstanceMethods.World, load: Loader,
                     solr: Entries -> Result<Response>)
    requires Search(query, options, w, load, solr).Ok?
    ensures var f := Search(query, options, w, load, solr).value;
            && Ok(f.page) == PositiveOption(Lookup(options, "page"), 1)
            && Ok(f.perPage) == PositiveOption(Lookup(options, "per_page"), 10)
  {
    SearchParts(query, options, w, load, solr);
  }

  /** What a successful search reports, read off the steps it passed. */
  lemma SearchParts(query: Value, options: Entries, w: InstanceMethods.World, load: Loader,
                    solr: Entries -> Result<Response>)
    requires Search(query, options, w, load, solr).Ok?
    ensures var f := Search(query, options, w, load, solr).value;
            var page := PositiveOption(Lookup(options, "page"), 1);
            var perPage := PositiveOption(Lookup(options, "per_page"), 10);
            && page.Ok? && perPage.Ok? && f.page == page.value && f.perPage == perPage.value
            && f.facets == if Truthy(Lookup(options, "facets")) then Some(f.facets.value) else None
  {
  }

  /**
   * In the active_record format the records come back in the order the
   * search ranked their solr_ids, and they are exactly the records the
   * finds loaded.
   */
  lemma RecordsRanked(docs: seq<Entries>, w: InstanceMethods.World, load: Loader, findOpts: Value)
    requires Records(docs, w, load, findOpts).Ok?
    ensures var items := Records(docs, w, load, findOpts).value;
            var ids := SortedIds(docs);
            var objs := Loaded(Grouped(ids), load, findOpts).value;
            && (forall i :: 0 <= i < |items| ==> items[i].Record?)
            && (forall i, j :: 0 <= i < j < |items| ==> Rank(w, ids, items[i].obj) <= Rank(w, ids, items[j].obj))
            && multiset(seq(|items|, i requires 0 <= i < |items| => items[i].obj)) == multiset(objs)
  {
    RecordsAre(docs, w, load, findOpts);
    var ids := SortedIds(docs);
    var objs := Loaded(Grouped(ids), load, findOpts).value;
    SortByRankMeans(objs, w, ids);
    AsRecordsRanked(SortByRank(objs, w, ids), objs, w, ids);
  }

  /** Records made from an ordered permutation of the loaded records. */
  lemma AsRecordsRanked(sorted: seq<InstanceMethods.Obj>, objs: seq<InstanceMethods.Obj>, w: InstanceMethods.World, ids: seq<string>)
    requires SortedBy(sorted, w, ids) && multiset(sorted) == multiset(objs)
    ensures var items := AsRecords(sorted);
            && (forall i :: 0 <= i < |items| ==> items[i].Record?)
            && (forall i, j :: 0 <= i < j < |items| ==> Rank(w, ids, items[i].obj) <= Rank(w, ids, items[j].obj))
            && multiset(seq(|items|, i requires 0 <= i < |items| => items[i].obj)) == multiset(objs)
  {
    var items := AsRecords(sorted);
    assert seq(|items|, i requires 0 <= i < |items| => items[i].obj) == sorted;
  }

  /** A successful active_record load is the loaded records, reordered by rank. */
  lemma RecordsAre(docs: seq<Entries>, w: InstanceMethods.World, load: Loader, findOpts: Value)
    requires Records(docs, w, load, findOpts).Ok?
    ensures AllSplittable(docs) && Loaded(Grouped(SortedIds(docs)), load, findOpts).Ok?
    ensures Records(docs, w, load, findOpts).value ==
              AsRecords(SortByRank(Loaded(Grouped(SortedIds(docs)), load, findOpts).value, w, SortedIds(docs)))
  {
  }

  // ---------------------------------------------------------------------
  // The loops of find
  // ---------------------------------------------------------------------

  /** One more splittable document adds its solr_id to sorted_ids. */
  lemma SortedIdsSnoc(docs: seq<Entries>, i: nat)
    requires i < |docs| && AllSplittable(docs[..i]) && Splittable(docs[i])
    ensures AllSplittable(docs[..i + 1])
    ensures SortedIds(docs[..i + 1]) == SortedIds(docs[..i]) + [FirstId(docs[i])]
  {
    assert docs[..i + 1][..i] == docs[..i];
  }

  /** The docs.each loop: sorted_ids and ids_by_klass, or the exception a bad solr_id raises. */
  method GroupIds(docs: seq<Entries>) returns (r: Result<(seq<string>, seq<(Value, seq<string>)>)>)
    ensures r == if AllSplittable(docs) then Ok((SortedIds(docs), Grouped(SortedIds(docs)))) else Err(NoMethodError)
  {
    var sortedIds: seq<string> := [];
    var groups: seq<(Value, seq<string>)> := [];
    for i := 0 to |docs|
      invariant AllSplittable(docs[..i])
      invariant sortedIds == SortedIds(docs[..i])
      invariant groups == Grouped(sortedIds)
    {
      if !Splittable(docs[i]) {
        return Err(NoMethodError);
      }
      var id := FirstId(docs[i]);
      groups := AddId(groups, sortedIds, id);
      SortedIdsSnoc(docs, i);
      sortedIds := sortedIds + [id];
    }
    assert docs[..|docs|] == docs;
    r := Ok((sortedIds, groups));
  }

  /** ids_by_klass[klass] << id: the groups of ids, grown by one id. */
  method AddId(groups: seq<(Value, seq<string>)>, ghost ids: seq<string>, id: string)
    returns (g: seq<(Value, seq<string>)>)
    requires groups == Grouped(ids)
    ensures g == Grouped(ids + [id])
  {
    var k := KlassKey(id);
    var xs := match Get(groups, k) case Some(xs) => xs case None => [];
    GroupedSnoc(ids, id);
    g := Put(groups, k, xs + [id]);
  }

  /** The ids_by_klass.each_pair loop: one find per class, the records gathered in order. */
  method LoadGroups(groups: seq<(Value, seq<string>)>, load: Loader, findOpts: Value)
    returns (r: Result<seq<InstanceMethods.Obj>>)
    ensures r == Loaded(groups, load, findOpts)
  {
    var objs := [];
    var i := 0;
    assert groups[0..] == groups;
    ThenEmpty(Loaded(groups, load, findOpts));
    while i < |groups|
      invariant 0 <= i <= |groups|
      invariant Loaded(groups, load, findOpts) == Then(objs, Loaded(groups[i..], load, findOpts))
    {
      DropOne(groups, i);
      var (k, ids) := groups[i];
      if !k.Str? {
        return Err(NoMethodError);
      }
      var found := load(k.s, RecordIds(ids), findOpts);
      if found.Err? {
        return Err(found.error);
      }
      ThenThen(objs, found.value, Loaded(groups[i + 1..], load, findOpts));
      objs := objs + found.value;
      i := i + 1;
    }
    assert objs + [] == objs;
    r := Ok(objs);
  }

  /** SolrPowered.find, with its loops. */
  method Find(query: Value, options: Entries, w: InstanceMethods.World, load: Loader,
              solr: Entries -> Result<Response>) returns (r: Result<Found>)
    ensures r == Search(query, options, w, load, solr)
  {
    var fmt := FormatOf(Lookup(options, "format"));
    if fmt.Err? {
      return Err(fmt.error);
    }
    var (format, fl) := fmt.value;
    var page := PositiveOption(Lookup(options, "page"), 1);
    if page.Err? {
      return Err(page.error);
    }
    var perPage := PositiveOption(Lookup(options, "per_page"), 10);
    if perPage.Err? {
      return Err(perPage.error);
    }
    var q := Lql.Compile(query);
    if q.Err? {
      return Err(q.error);
    }
    var resp := solr(SelectFor(options, q.value, page.value, perPage.value, fl));
    if resp.Err? {
      return Err(resp.error);
    }
    var docs := resp.value.docs;
    var items;
    if format == ActiveRecord {
      items := RecordItems(docs, w, load, FindOptions(options));
    } else {
      items := Items(format, docs, w, load, FindOptions(options));
    }
    if items.Err? {
      return Err(items.error);
    }
    var facets := if Truthy(Lookup(options, "facets")) then Some(resp.value.facetCounts) else None;
    r := Ok(Found(items.value, page.value, perPage.value, resp.value.numFound, facets));
  }

  /** The active_record branch of find: group, load, reorder. */
  method RecordItems(docs: seq<Entries>, w: InstanceMethods.World, load: Loader, findOpts: Value)
    returns (r: Result<seq<Item>>)
    ensures r == Records(docs, w, load, findOpts)
  {
    var grouped := GroupIds(docs);
    if grouped.Err? {
      return Err(grouped.error);
    }
    var (ids, groups) := grouped.value;
    var objs := LoadGroups(groups, load, findOpts);
    if objs.Err? {
      return Err(objs.error);
    }
    var sorted := Reordered(objs.value, w, ids);
    if sorted.Err? {
      return Err(sorted.error);
    }
    r := Ok(AsRecords(sorted.value));
  }
}

=== FILE: instance_methods.dfy ===
/**
 * SolrPowered::InstanceMethods (lib/solr_powered/instance_methods.rb):
 * the solr_id of a record, whether it is saveable, the document built
 * from its class's configured fields, and what solr_save and the
 * after_create, after_update and after_destroy callbacks hand to
 * SolrPowered.add and SolrPowered.delete.
 *
 * Records, their attributes and associations are abstract: a World says
 * what sending a name to a record returns or raises, what a save-condition block
 * returns and how each class is configured.  What a callback hands on is
 * a Batch.Op: an Indexing step (one add of all collected documents, then
 * possibly the delete of the record's own id) or a Failed step carrying
 * the exception raised; the indexer runs either only while auto_index is
 * on.  solr_save is called explicitly, so its exception is a plain Raise.
 */
module InstanceMethods {
  import opened Values
  import opened Registry
  import opened ClassMethods
  import Batch

  /** A record: its class name and which row it is. */
  datatype Obj = Obj(klass: string, ref: nat)

  /** What sending an association name to a record returns: nil, one record or an Array of them. */
  datatype Assoc = NoneAssoc | OneAssoc(obj: Obj) | ManyAssoc(objs: seq<Obj>)

  /** The records and classes the callbacks see. */
  datatype World = World(
    send: (Obj, string) -> Value,      // record.send(name) for attributes and methods
    assoc: (Obj, string) -> Assoc,     // record.send(name) for associations
    raises: (Obj, string) -> Option<Error>,  // the exception record.send(name) raises, if any
    call: (string, Obj) -> Value,      // a save-condition block called with the record
    config: string -> TypeConfig)      // each class's SolrPowered settings

  // ---------------------------------------------------------------------
  // solr_id / solr_saveable?
  // ---------------------------------------------------------------------

  /** solr_id: the class name and the primary key, joined by a dash. */
  function SolrId(w: World, o: Obj): (id: string)
    ensures |id| > |o.klass| && id[..|o.klass| + 1] == o.klass + "-"
  {
    o.klass + "-" + ToS(w.send(o, w.config(o.klass).primaryKey))
  }

  /**
   * A save condition's answer for a record: a Symbol names a method to
   * send, a block is called; anything else (nil when unset) imposes
   * nothing.
   */
  function Verdict(w: World, cond: Condition, o: Obj): Option<bool> {
    match cond
    case Block(id) => Some(Truthy(w.call(id, o)))
    case Stored(v) => if v.Sym? then Some(Truthy(w.send(o, v.name))) else None
  }

  /** solr_saveable? */
  function Saveable(w: World, o: Obj): bool {
    var c := w.config(o.klass);
    if !c.powered then false
    else if Verdict(w, c.saveIf, o) == Some(false) then false
    else if Verdict(w, c.saveUnless, o) == Some(true) then false
    else true
  }

  /** A condition holds for a record: a Symbol's method or a block returns a truthy value. */
  predicate Holds(w: World, cond: Condition, o: Obj) {
    || (cond.Block? && Truthy(w.call(cond.id, o)))
    || (cond.Stored? && cond.v.Sym? && Truthy(w.send(o, cond.v.name)))
  }

  /** A condition is in force when it is a block or a Symbol. */
  predicate InForce(cond: Condition) {
    cond.Block? || (cond.Stored? && cond.v.Sym?)
  }

  /**
   * A record is saveable exactly when its class is powered, its
   * solr_save_if condition (when in force) holds and its
   * solr_save_unless condition (when in force) does not.
   */
  lemma SaveableMeans(w: World, o: Obj)
    ensures var c := w.config(o.klass);
            Saveable(w, o) <==>
              && c.powered
              && (InForce(c.saveIf) ==> Holds(w, c.saveIf, o))
              && !(InForce(c.saveUnless) && Holds(w, c.saveUnless, o))
  {
    var c := w.config(o.klass);
    assert Verdict(w, c.saveIf, o) == Some(false) <==> InForce(c.saveIf) && !Holds(w, c.saveIf, o);
    assert Verdict(w, c.saveUnless, o) == Some(true) <==> InForce(c.saveUnless) && Holds(w, c.saveUnless, o);
  }

  // ---------------------------------------------------------------------
  // solr_document
  // ---------------------------------------------------------------------

  /** The members of what an association returned: nil is none, one record is one. */
  function Members(a: Assoc): seq<Obj> {
    match a
    case NoneAssoc => []
    case OneAssoc(x) => [x]
    case ManyAssoc(xs) => xs
  }

  /**
   * The values a field method gives: an attribute's value (its members
   * when it is an Array), or the last name sent to each member of the
   * association named first.  An empty Array sends nil, a TypeError; a
   * send that raises (a misspelt name, a failing method) raises from here.
   */
  function FieldValues(w: World, o: Obj, m: FieldMethod): Result<seq<Value>> {
    match m
    case Attribute(n) =>
      if w.raises(o, n).Some? then Err(w.raises(o, n).value)
      else
        var v := w.send(o, n);
        Ok(if v.List? then v.items else [v])
    case Chain(ns) =>
      if ns == [] then Err(TypeError)
      else if w.raises(o, ns[0]).Some? then Err(w.raises(o, ns[0]).value)
      else SendEach(w, Members(w.assoc(o, ns[0])), ns[|ns| - 1])
  }

  /** collect{|obj| obj.send(name)}: the members' values in order, or the first exception raised. */
  function SendEach(w: World, objs: seq<Obj>, name: string): Result<seq<Value>>
    decreases |objs|
  {
    if objs == [] then Ok([])
    else if w.raises(objs[0], name).Some? then Err(w.raises(objs[0], name).value)
    else Then([w.send(objs[0], name)], SendEach(w, objs[1..], name))
  }

  /**
   * Sending a name to each member succeeds exactly when no member raises,
   * and then gives one value per member, in order; otherwise it raises
   * the exception of the first member that does.
   */
  lemma {:induction false} SendEachMeans(w: World, objs: seq<Obj>, name: string)
    ensures SendEach(w, objs, name).Ok? <==> forall i :: 0 <= i < |objs| ==> w.raises(objs[i], name).None?
    ensures SendEach(w, objs, name).Ok? ==>
              var vs := SendEach(w, objs, name).value;
              |vs| == |objs| && forall i :: 0 <= i < |objs| ==> vs[i] == w.send(objs[i], name)
    ensures SendEach(w, objs, name).Err? ==>
              exists i :: 0 <= i < |objs| && w.raises(objs[i], name) == Some(SendEach(w, objs, name).error)
                          && forall j :: 0 <= j < i ==> w.raises(objs[j], name).None?
    decreases |objs|
  {
    if objs != [] {
      var rest := objs[1..];
      SendEachMeans(w, rest, name);
      assert forall i :: 0 <= i < |rest| ==> rest[i] == objs[i + 1];
      if w.raises(objs[0], name).None? {
        var r := SendEach(w, rest, name);
        if r.Ok? {
          var vs := SendEach(w, objs, name).value;
          assert vs == [w.send(objs[0], name)] + r.value;
          forall i | 0 <= i < |objs|
            ensures vs[i] == w.send(objs[i], name)
          {
            if i > 0 {
              assert vs[i] == r.value[i - 1];
            }
          }
        } else {
          var k :| 0 <= k < |rest| && w.raises(rest[k], name) == Some(r.error)
                   && forall j :: 0 <= j < k ==> w.raises(rest[j], name).None?;
          assert w.raises(objs[k + 1], name) == Some(r.error);
          forall j | 0 <= j < k + 1
            ensures w.raises(objs[j], name).None?
          {
            if j > 0 {
              assert objs[j] == rest[j - 1];
            }
          }
        }
      }
    }
  }

  /**
   * When a field's values are had: an attribute's send raises or gives
   * its value; an empty Array is a TypeError; an association field
   * raises with the association's send or the first member's send that
   * raises, and otherwise gives each member's value in order.
   */
  lemma FieldValuesMeans(w: World, o: Obj, m: FieldMethod)
    ensures m.Attribute? ==>
              && (FieldValues(w, o, m).Err? <==> w.raises(o, m.name).Some?)
              && (FieldValues(w, o, m).Err? ==> FieldValues(w, o, m).error == w.raises(o, m.name).value)
              && (FieldValues(w, o, m).Ok? && !w.send(o, m.name).List? ==> FieldValues(w, o, m).value == [w.send(o, m.name)])
              && (FieldValues(w, o, m).Ok? && w.send(o, m.name).List? ==> FieldValues(w, o, m).value == w.send(o, m.name).items)
    ensures m == Chain([]) ==> FieldValues(w, o, m) == Err(TypeError)
    ensures m.Chain? && m.names != [] && w.raises(o, m.names[0]).Some? ==>
              FieldValues(w, o, m) == Err(w.raises(o, m.names[0]).value)
    ensures m.Chain? && m.names != [] && w.raises(o, m.names[0]).None? ==>
              var objs := Members(w.assoc(o, m.names[0]));
              var last := m.names[|m.names| - 1];
              && (FieldValues(w, o, m).Ok? <==> forall i :: 0 <= i < |objs| ==> w.raises(objs[i], last).None?)
              && (FieldValues(w, o, m).Ok? ==>
                    |FieldValues(w, o, m).value| == |objs|
                    && forall i :: 0 <= i < |objs| ==> FieldValues(w, o, m).value[i] == w.send(objs[i], last))
  {
    if m.Chain? && m.names != [] {
      SendEachMeans(w, Members(w.assoc(o, m.names[0])), m.names[|m.names| - 1]);
    }
  }

  /** One value as indexed: nil, '' and [] are dropped, a time becomes its text, all else (false too) stays. */
  function IndexValue(v: Value): seq<Value> {
    if v == Nil || v == Str("") || v == List([]) then []
    else if v.Time? then [Str(v.iso)]
    else [v]
  }

  /** A field's values as indexed, in order. */
  function IndexValues(vs: seq<Value>): seq<Value>
    decreases |vs|
  {
    if vs == [] then [] else IndexValues(vs[..|vs| - 1]) + IndexValue(vs[|vs| - 1])
  }

  /** One value alone is indexed as IndexValue says. */
  lemma IndexValuesOne(v: Value)
    ensures IndexValues([v]) == IndexValue(v)
  {
    assert [v][..0] == [];
  }

  /** A blank value solr_document skips. */
  predicate Skipped(v: Value) {
    v == Nil || v == Str("") || v == List([])
  }

  /**
   * An indexed value comes from one of the field's values; none is nil,
   * [] or a time; every value that is neither skipped nor a time is
   * indexed as it is, false included.
   */
  lemma IndexValuesMeans(vs: seq<Value>)
    ensures forall x :: x in IndexValues(vs) <==> exists i :: 0 <= i < |vs| && x in IndexValue(vs[i])
    ensures forall x :: x in IndexValues(vs) ==> x != Nil && x != List([]) && !x.Time?
    ensures forall i :: 0 <= i < |vs| && !Skipped(vs[i]) && !vs[i].Time? ==> vs[i] in IndexValues(vs)
    ensures Bool(false) in vs ==> Bool(false) in IndexValues(vs)
  {
    IndexValuesFrom(vs);
    forall x | x in IndexValues(vs)
      ensures x != Nil && x != List([]) && !x.Time?
    {
      var i :| 0 <= i < |vs| && x in IndexValue(vs[i]);
      IndexValueKept(vs[i]);
    }
    forall i | 0 <= i < |vs| && !Skipped(vs[i]) && !vs[i].Time?
      ensures vs[i] in IndexValues(vs)
    {
      IndexValueKept(vs[i]);
    }
    if Bool(false) in vs {
      var i :| 0 <= i < |vs| && vs[i] == Bool(false);
      IndexValueKept(vs[i]);
    }
  }

  /** One value's indexed form: never nil, [] or a time, and the value itself when it is neither skipped nor a time. */
  lemma IndexValueKept(v: Value)
    ensures forall x :: x in IndexValue(v) ==> x != Nil && x != List([]) && !x.Time?
    ensures !Skipped(v) && !v.Time? ==> v in IndexValue(v)
    ensures v == Bool(false) ==> Bool(false) in IndexValue(v)
  {
  }

  /** Each indexed value comes from some value of the field, and each value's indexed form is kept. */
  lemma {:induction false} IndexValuesFrom(vs: seq<Value>)
    ensures forall x :: x in IndexValues(vs) <==> exists i :: 0 <= i < |vs| && x in IndexValue(vs[i])
    decreases |vs|
  {
    if vs != [] {
      var init := vs[..|vs| - 1];
      var last := vs[|vs| - 1];
      IndexValuesFrom(init);
      assert IndexValues(vs) == IndexValues(init) + IndexValue(last);
      forall x
        ensures x in IndexValues(vs) <==> exists i :: 0 <= i < |vs| && x in IndexValue(vs[i])
      {
        assert x in IndexValues(vs) <==> x in IndexValues(init) || x in IndexValue(last);
        if x in IndexValues(init) {
          var i :| 0 <= i < |init| && x in IndexValue(init[i]);
          assert vs[i] == init[i];
        }
        if exists i :: 0 <= i < |vs| && x in IndexValue(vs[i]) {
          var i :| 0 <= i < |vs| && x in IndexValue(vs[i]);
          if i < |init| {
            assert init[i] == vs[i];
          }
        }
      }
    }
  }

  /** The document every record starts from: its solr_id and its solr_type. */
  function BaseDocument(w: World, o: Obj): Entries {
    [("solr_id", Str(SolrId(w, o))), ("solr_type", Str(o.klass))]
  }

  /** The list a configured field holds: its indexed values (nil stands for a method that raised). */
  function FieldEntry(w: World, o: Obj, m: FieldMethod): Value {
    match FieldValues(w, o, m)
    case Ok(vs) => List(IndexValues(vs))
    case Err(_) => Nil
  }

  /** The loop of solr_document over the configured fields, each set to its indexed values. */
  function Fill(w: World, o: Obj, doc: Entries, fields: seq<(string, FieldMethod)>): Result<Entries>
    decreases |fields|
  {
    if fields == [] then Ok(doc)
    else
      match FieldValues(w, o, fields[0].1)
      case Err(e) => Err(e)
      case Ok(vs) => Fill(w, o, Put(doc, fields[0].0, List(IndexValues(vs))), fields[1..])
  }

  /** solr_document */
  function Document(w: World, o: Obj): Result<Entries> {
    Fill(w, o, BaseDocument(w, o), w.config(o.klass).fields)
  }

  /** The field's entry after the loop: its indexed values when configured, else what it was. */
  lemma {:induction false} FillGet(w: World, o: Obj, doc: Entries, fields: seq<(string, FieldMethod)>, k: string)
    requires UniqueKeys(fields)
    requires Fill(w, o, doc, fields).Ok?
    ensures Get(Fill(w, o, doc, fields).value, k) ==
              if HasKey(fields, k) then Some(FieldEntry(w, o, Get(fields, k).value))
              else Get(doc, k)
    decreases |fields|
  {
    if fields != [] {
      UniqueTail(fields);
      KeysCons(fields);
      var vs := FieldValues(w, o, fields[0].1).value;
      var doc' := Put(doc, fields[0].0, List(IndexValues(vs)));
      FillGet(w, o, doc', fields[1..], k);
      PutGet(doc, fields[0].0, List(IndexValues(vs)), k);
    }
  }

  /**
   * The loop fails exactly when some field's values raise (FieldValuesMeans
   * says when), and then with the exception of the first such field.
   */
  lemma {:induction false} FillFails(w: World, o: Obj, doc: Entries, fields: seq<(string, FieldMethod)>)
    ensures Fill(w, o, doc, fields).Err? <==> exists i :: 0 <= i < |fields| && FieldValues(w, o, fields[i].1).Err?
    ensures Fill(w, o, doc, fields).Err? ==>
              exists i :: 0 <= i < |fields| && FieldValues(w, o, fields[i].1) == Err(Fill(w, o, doc, fields).error)
                          && forall j :: 0 <= j < i ==> FieldValues(w, o, fields[j].1).Ok?
    decreases |fields|
  {
    if fields != [] {
      var fv := FieldValues(w, o, fields[0].1);
      if fv.Ok? {
        var doc' := Put(doc, fields[0].0, List(IndexValues(fv.value)));
        FillFails(w, o, doc', fields[1..]);
        assert Fill(w, o, doc, fields) == Fill(w, o, doc', fields[1..]);
        FirstErrCons((p: (string, FieldMethod)) => FieldValues(w, o, p.1), fields);
      }
    }
  }

  /**
   * When the first element maps to Ok, some element maps to an error
   * exactly when some later one does, and the first error among the
   * later ones is the first error of all.
   */
  lemma FirstErrCons<A, T>(f: A -> Result<T>, xs: seq<A>)
    requires xs != [] && f(xs[0]).Ok?
    ensures (exists i :: 0 <= i < |xs| && f(xs[i]).Err?) <==> exists i :: 0 <= i < |xs| - 1 && f(xs[1..][i]).Err?
    ensures forall e ::
              (exists i :: 0 <= i < |xs| - 1 && f(xs[1..][i]) == Err(e) && forall j :: 0 <= j < i ==> f(xs[1..][j]).Ok?) ==>
              (exists i :: 0 <= i < |xs| && f(xs[i]) == Err(e) && forall j :: 0 <= j < i ==> f(xs[j]).Ok?)
  {
    var rest := xs[1..];
    assert forall i :: 0 <= i < |rest| ==> rest[i] == xs[i + 1];
    if exists i :: 0 <= i < |xs| && f(xs[i]).Err? {
      var i :| 0 <= i < |xs| && f(xs[i]).Err?;
      assert rest[i - 1] == xs[i];
    }
    forall e | exists i :: 0 <= i < |rest| && f(rest[i]) == Err(e) && forall j :: 0 <= j < i ==> f(rest[j]).Ok?
      ensures exists i :: 0 <= i < |xs| && f(xs[i]) == Err(e) && forall j :: 0 <= j < i ==> f(xs[j]).Ok?
    {
      var k :| 0 <= k < |rest| && f(rest[k]) == Err(e) && forall j :: 0 <= j < k ==> f(rest[j]).Ok?;
      assert f(xs[k + 1]) == Err(e);
      forall j | 0 <= j < k + 1
        ensures f(xs[j]).Ok?
      {
        if j > 0 {
          assert xs[j] == rest[j - 1];
        }
      }
    }
  }

  /**
   * A built document holds solr_id and solr_type and one list per
   * configured field, even an empty one: a configured field holds its
   * indexed values, and no other key is present.  solr_id and solr_type
   * are as computed unless a field of that name overwrote them.
   */
  lemma DocumentShape(w: World, o: Obj, k: string)
    requires UniqueKeys(w.config(o.klass).fields)
    requires Document(w, o).Ok?
    ensures var fields := w.config(o.klass).fields;
            Get(Document(w, o).value, k) ==
              if HasKey(fields, k) then Some(FieldEntry(w, o, Get(fields, k).value))
              else if k == "solr_id" then Some(Str(SolrId(w, o)))
              else if k == "solr_type" then Some(Str(o.klass))
              else None
  {
    FillGet(w, o, BaseDocument(w, o), w.config(o.klass).fields, k);
  }

  /**
   * An association field whose association is nil is an empty list;
   * one record gives its one value, or the exception its send raises.
   */
  lemma AssociationValues(w: World, o: Obj, a: string, m: string)
    ensures w.raises(o, a).None? && w.assoc(o, a) == NoneAssoc ==> FieldValues(w, o, Chain([a, m])) == Ok([])
    ensures w.raises(o, a).None? && w.assoc(o, a).OneAssoc? ==>
              var x := w.assoc(o, a).obj;
              FieldValues(w, o, Chain([a, m])) == if w.raises(x, m).Some? then Err(w.raises(x, m).value) else Ok([w.send(x, m)])
  {
    var ns := [a, m];
    assert ns[0] == a && ns[|ns| - 1] == m;
    if w.raises(o, a).None? && w.assoc(o, a).OneAssoc? {
      var x := w.assoc(o, a).obj;
      assert FieldValues(w, o, Chain(ns)) == SendEach(w, [x], m);
      assert [x][1..] == [];
      assert SendEach(w, [x][1..], m) == Ok([]);
      assert [w.send(x, m)] + [] == [w.send(x, m)];
    }
  }

  /** solr_document, one field and one value at a time. */
  method BuildDocument(w: World, o: Obj) returns (r: Result<Entries>)
    ensures r == Document(w, o)
  {
    var fields := w.config(o.klass).fields;
    var doc := BaseDocument(w, o);
    assert fields[0..] == fields;
    var i := 0;
    while i < |fields|
      invariant 0 <= i <= |fields|
      invariant Document(w, o) == Fill(w, o, doc, fields[i..])
    {
      DropOne(fields, i);
      var values := FieldValues(w, o, fields[i].1);
      if values.Err? {
        return Err(values.error);
      }
      var kept := CollectIndexValues(values.value);
      doc := Put(doc, fields[i].0, List(kept));
      i := i + 1;
    }
    r := Ok(doc);
  }

  /** The inner loop of solr_document: a field's values, blanks dropped and times as text. */
  method CollectIndexValues(vs: seq<Value>) returns (kept: seq<Value>)
    ensures kept == IndexValues(vs)
  {
    kept := [];
    var j := 0;
    while j < |vs|
      invariant 0 <= j <= |vs|
      invariant kept == IndexValues(vs[..j])
    {
      var v := vs[j];
      if !(v == Nil || v == Str("") || v == List([])) {
        if v.Time? {
          kept := kept + [Str(v.iso)];
        } else {
          kept := kept + [v];
        }
      }
      assert vs[..j + 1][..j] == vs[..j];
      j := j + 1;
    }
    TakeAll(vs);
  }

  // ---------------------------------------------------------------------
  // Documents of the records observing a record
  // ---------------------------------------------------------------------

  /**
   * The records an observer's return association gives: a name that is
   * neither a Symbol nor a String cannot be sent (TypeError), a send that
   * raises raises here, and nil is wrapped as [nil], on which
   * solr_saveable? raises NoMethodError.
   */
  function Referrers(w: World, o: Obj, ob: Observer): Result<seq<Obj>> {
    var ret := ob.returnAssociation;
    if !(ret.Sym? || ret.Str?) then Err(TypeError)
    else if w.raises(o, ToS(ret)).Some? then Err(w.raises(o, ToS(ret)).value)
    else
      match w.assoc(o, ToS(ret))
      case NoneAssoc => Err(NoMethodError)
      case OneAssoc(x) => Ok([x])
      case ManyAssoc(xs) => Ok(xs)
  }

  /** The documents of the saveable records among objs, in order; the first failing document raises. */
  function SavedDocs(w: World, objs: seq<Obj>): Result<seq<Entries>>
    decreases |objs|
  {
    if objs == [] then Ok([])
    else if !Saveable(w, objs[0]) then SavedDocs(w, objs[1..])
    else
      match Document(w, objs[0])
      case Err(e) => Err(e)
      case Ok(d) => Then([d], SavedDocs(w, objs[1..]))
  }

  /** The documents of the saveable referrers of each observer, observer by observer. */
  function ObserverDocs(w: World, o: Obj, obs: seq<Observer>): Result<seq<Entries>>
    decreases |obs|
  {
    if obs == [] then Ok([])
    else
      match Referrers(w, o, obs[0])
      case Err(e) => Err(e)
      case Ok(objs) =>
        match SavedDocs(w, objs)
        case Err(e) => Err(e)
        case Ok(more) => Then(more, ObserverDocs(w, o, obs[1..]))
  }

  /** A saveable record whose document cannot be built. */
  predicate Broken(w: World, x: Obj) {
    Saveable(w, x) && Document(w, x).Err?
  }

  /** A saveable record whose document is d. */
  predicate Yields(w: World, x: Obj, d: Entries) {
    Saveable(w, x) && Document(w, x) == Ok(d)
  }

  /** Collecting fails exactly when some saveable record's document cannot be built. */
  lemma {:induction false} SavedDocsFails(w: World, objs: seq<Obj>)
    ensures SavedDocs(w, objs).Err? <==> exists j :: 0 <= j < |objs| && Broken(w, objs[j])
    decreases |objs|
  {
    if objs != [] {
      var rest := objs[1..];
      SavedDocsFails(w, rest);
      if exists j :: 0 <= j < |rest| && Broken(w, rest[j]) {
        var j :| 0 <= j < |rest| && Broken(w, rest[j]);
        assert objs[j + 1] == rest[j];
      }
      if exists j :: 0 <= j < |objs| && Broken(w, objs[j]) {
        var j :| 0 <= j < |objs| && Broken(w, objs[j]);
        if j > 0 {
          assert rest[j - 1] == objs[j];
        }
      }
    }
  }

  /** The documents collected are exactly those of the saveable records. */
  lemma {:induction false} SavedDocsMembers(w: World, objs: seq<Obj>, d: Entries)
    requires SavedDocs(w, objs).Ok?
    ensures d in SavedDocs(w, objs).value <==> exists j :: 0 <= j < |objs| && Yields(w, objs[j], d)
    decreases |objs|
  {
    if objs != [] {
      var rest := objs[1..];
      SavedDocsMembers(w, rest, d);
      if exists j :: 0 <= j < |rest| && Yields(w, rest[j], d) {
        var j :| 0 <= j < |rest| && Yields(w, rest[j], d);
        assert objs[j + 1] == rest[j];
      }
      if exists j :: 0 <= j < |objs| && Yields(w, objs[j], d) {
        var j :| 0 <= j < |objs| && Yields(w, objs[j], d);
        if j > 0 {
          assert rest[j - 1] == objs[j];
        }
      }
    }
  }

  /** The saveable records among objs, in order. */
  function SaveableAmong(w: World, objs: seq<Obj>): (kept: seq<Obj>)
    ensures forall x :: x in kept <==> x in objs && Saveable(w, x)
    decreases |objs|
  {
    if objs == [] then []
    else (if Saveable(w, objs[0]) then [objs[0]] else []) + SaveableAmong(w, objs[1..])
  }

  /**
   * The documents collected are, in order and one each, the documents of
   * the saveable records among objs.
   */
  lemma {:induction false} SavedDocsInOrder(w: World, objs: seq<Obj>)
    requires SavedDocs(w, objs).Ok?
    ensures var kept := SaveableAmong(w, objs);
            && |SavedDocs(w, objs).value| == |kept|
            && forall i :: 0 <= i < |kept| ==> Document(w, kept[i]) == Ok(SavedDocs(w, objs).value[i])
    decreases |objs|
  {
    if objs != [] {
      SavedDocsStep(w, objs);
      SavedDocsInOrder(w, objs[1..]);
      if Saveable(w, objs[0]) {
        PairwiseCons(o => Document(w, o), objs[0], Document(w, objs[0]).value,
                     SaveableAmong(w, objs[1..]), SavedDocs(w, objs[1..]).value);
      }
    }
  }

  /** The first record's contribution to the documents and to the saveable records. */
  lemma SavedDocsStep(w: World, objs: seq<Obj>)
    requires objs != [] && SavedDocs(w, objs).Ok?
    ensures SavedDocs(w, objs[1..]).Ok?
    ensures Saveable(w, objs[0]) ==>
              && Document(w, objs[0]).Ok?
              && SaveableAmong(w, objs) == [objs[0]] + SaveableAmong(w, objs[1..])
              && SavedDocs(w, objs).value == [Document(w, objs[0]).value] + SavedDocs(w, objs[1..]).value
    ensures !Saveable(w, objs[0]) ==>
              SaveableAmong(w, objs) == SaveableAmong(w, objs[1..]) && SavedDocs(w, objs) == SavedDocs(w, objs[1..])
  {
    if !Saveable(w, objs[0]) {
      assert SaveableAmong(w, objs) == [] + SaveableAmong(w, objs[1..]);
    }
  }

  /** f maps xs to ys pointwise, and one more pair in front keeps it so. */
  lemma PairwiseCons<A, B>(f: A -> Result<B>, x: A, y: B, xs: seq<A>, ys: seq<B>)
    requires f(x) == Ok(y)
    requires |xs| == |ys| && forall i :: 0 <= i < |xs| ==> f(xs[i]) == Ok(ys[i])
    ensures |[x] + xs| == |[y] + ys|
    ensures forall i :: 0 <= i < |[x] + xs| ==> f(([x] + xs)[i]) == Ok(([y] + ys)[i])
  {
    forall i | 0 <= i < |[x] + xs|
      ensures f(([x] + xs)[i]) == Ok(([y] + ys)[i])
    {
      if i > 0 {
        assert ([x] + xs)[i] == xs[i - 1] && ([y] + ys)[i] == ys[i - 1];
      }
    }
  }

  /** Collecting for two runs of observers is collecting for the first, then the second. */
  lemma {:induction false} ObserverDocsAppend(w: World, o: Obj, a: seq<Observer>, b: seq<Observer>)
    ensures ObserverDocs(w, o, a + b) ==
              match ObserverDocs(w, o, a)
              case Err(e) => Err(e)
              case Ok(x) => Then(x, ObserverDocs(w, o, b))
    decreases |a|
  {
    if a == [] {
      assert a + b == b;
      if ObserverDocs(w, o, b).Ok? {
        assert [] + ObserverDocs(w, o, b).value == ObserverDocs(w, o, b).value;
      }
    } else {
      assert (a + b)[0] == a[0];
      assert (a + b)[1..] == a[1..] + b;
      ObserverDocsAppend(w, o, a[1..], b);
      var r := Referrers(w, o, a[0]);
      if r.Ok? && SavedDocs(w, r.value).Ok? && ObserverDocs(w, o, a[1..]).Ok? {
        ThenThen(SavedDocs(w, r.value).value, ObserverDocs(w, o, a[1..]).value, ObserverDocs(w, o, b));
      }
    }
  }

  /** An observer reacts to an update when one of its observed attributes is a dirty attribute's name. */
  predicate Fires(ob: Observer, dirty: seq<string>) {
    exists i :: 0 <= i < |ob.observedAttributes| && ob.observedAttributes[i].Str? && ob.observedAttributes[i].s in dirty
  }

  /** The observers that react to an update, in order. */
  function Firing(obs: seq<Observer>, dirty: seq<string>): seq<Observer>
    decreases |obs|
  {
    if obs == [] then []
    else (if Fires(obs[0], dirty) then [obs[0]] else []) + Firing(obs[1..], dirty)
  }

  /** The observers a callback visits: all of them, or after an update those that fire. */
  function Visited(obs: seq<Observer>, dirty: Option<seq<string>>): seq<Observer> {
    if dirty.Some? then Firing(obs, dirty.value) else obs
  }

  /** The reacting observers are those of the list that fire; when none fires, nothing is collected. */
  lemma {:induction false} FiringMeans(w: World, o: Obj, obs: seq<Observer>, dirty: seq<string>)
    ensures forall ob :: ob in Firing(obs, dirty) <==> ob in obs && Fires(ob, dirty)
    ensures (forall i :: 0 <= i < |obs| ==> !Fires(obs[i], dirty)) ==> ObserverDocs(w, o, Visited(obs, Some(dirty))) == Ok([])
    decreases |obs|
  {
    if obs != [] {
      var rest := obs[1..];
      FiringMeans(w, o, rest, dirty);
      assert obs == [obs[0]] + rest;
      if forall i :: 0 <= i < |obs| ==> !Fires(obs[i], dirty) {
        assert forall i :: 0 <= i < |rest| ==> rest[i] == obs[i + 1];
        assert Firing(obs, dirty) == Firing(rest, dirty);
      }
    }
  }

  /**
   * Observed attributes given as Symbols never match the dirty names,
   * which are Strings: such an observer never reacts to an update.
   */
  lemma SymbolsNeverFire(ob: Observer, dirty: seq<string>)
    requires forall i :: 0 <= i < |ob.observedAttributes| ==> ob.observedAttributes[i].Sym?
    ensures !Fires(ob, dirty)
  {
  }

  /** The saveable records' documents among objs, one record at a time. */
  method CollectSaved(w: World, objs: seq<Obj>) returns (r: Result<seq<Entries>>)
    ensures r == SavedDocs(w, objs)
  {
    var docs := [];
    var j := 0;
    assert objs[0..] == objs;
    ThenEmpty(SavedDocs(w, objs));
    while j < |objs|
      invariant 0 <= j <= |objs|
      invariant SavedDocs(w, objs) == Then(docs, SavedDocs(w, objs[j..]))
    {
      DropOne(objs, j);
      if Saveable(w, objs[j]) {
        var d := BuildDocument(w, objs[j]);
        if d.Err? {
          return Err(d.error);
        }
        ThenThen(docs, [d.value], SavedDocs(w, objs[j + 1..]));
        docs := docs + [d.value];
      }
      j := j + 1;
    }
    assert docs + [] == docs;
    r := Ok(docs);
  }

  /**
   * The observer loop of the callbacks: dirty is None after create and
   * destroy, where every observer is visited, and the dirty attribute
   * names after update, where only firing observers are.
   */
  method CollectObserverDocs(w: World, o: Obj, obs: seq<Observer>, dirty: Option<seq<string>>)
    returns (r: Result<seq<Entries>>)
    ensures r == ObserverDocs(w, o, Visited(obs, dirty))
  {
    var docs := [];
    var i := 0;
    assert obs[0..] == obs;
    ThenEmpty(ObserverDocs(w, o, Visited(obs, dirty)));
    while i < |obs|
      invariant 0 <= i <= |obs|
      invariant ObserverDocs(w, o, Visited(obs, dirty)) == Then(docs, ObserverDocs(w, o, Visited(obs[i..], dirty)))
    {
      DropOne(obs, i);
      var ob := obs[i];
      if dirty.None? || Fires(ob, dirty.value) {
        ghost var rest := Visited(obs[i + 1..], dirty);
        assert Visited(obs[i..], dirty) == [ob] + rest;
        assert ([ob] + rest)[0] == ob && ([ob] + rest)[1..] == rest;
        var objs := Referrers(w, o, ob);
        if objs.Err? {
          return Err(objs.error);
        }
        var more := CollectSaved(w, objs.value);
        if more.Err? {
          return Err(more.error);
        }
        ThenThen(docs, more.value, ObserverDocs(w, o, rest));
        docs := docs + more.value;
      } else {
        assert Visited(obs[i..], dirty) == Visited(obs[i + 1..], dirty);
      }
      i := i + 1;
    }
    assert docs + [] == docs;
    r := Ok(docs);
  }

  // ---------------------------------------------------------------------
  // solr_save and the callbacks
  // ---------------------------------------------------------------------

  /** A document as the one-element list of documents it adds. */
  function Single(r: Result<Entries>): Result<seq<Entries>> {
    match r
    case Ok(d) => Ok([d])
    case Err(e) => Err(e)
  }

  /** A callback's step: the first exception raised, else one add of all documents and the optional self-delete. */
  function Effect(own: Result<seq<Entries>>, others: Result<seq<Entries>>, self: Option<Value>): Batch.Op {
    match own
    case Err(e) => Batch.Failed(e)
    case Ok(a) =>
      match others
      case Err(e) => Batch.Failed(e)
      case Ok(b) => Batch.Indexing(a + b, self)
  }

  /** solr_save */
  function SaveOp(w: World, o: Obj): Batch.Op {
    if !w.config(o.klass).powered then Batch.Raise(RuntimeError)
    else if Saveable(w, o) then
      match Document(w, o)
      case Ok(d) => Batch.AddOp([d])
      case Err(e) => Batch.Raise(e)
    else Batch.DeleteOp([Str(SolrId(w, o))])
  }

  /** auto_solr_create */
  function CreateOp(w: World, o: Obj, obs: seq<Observer>): Batch.Op {
    var own := if w.config(o.klass).powered && Saveable(w, o) then Single(Document(w, o)) else Ok([]);
    Effect(own, ObserverDocs(w, o, obs), None)
  }

  /** Some dirty attribute is one the class watches. */
  predicate Touched(dirty: seq<string>, watched: seq<string>) {
    exists i :: 0 <= i < |dirty| && dirty[i] in watched
  }

  /** auto_solr_update */
  function UpdateOp(w: World, o: Obj, obs: seq<Observer>, dirty: seq<string>): Batch.Op {
    var c := w.config(o.klass);
    var own := if c.powered && Saveable(w, o) && Touched(dirty, c.watched) then Single(Document(w, o)) else Ok([]);
    var removeSelf := c.powered && !Saveable(w, o);
    Effect(own, ObserverDocs(w, o, Visited(obs, Some(dirty))), if removeSelf then Some(Str(SolrId(w, o))) else None)
  }

  /** auto_solr_destroy */
  function DestroyOp(w: World, o: Obj, obs: seq<Observer>): Batch.Op {
    var self := if w.config(o.klass).powered then Some(Str(SolrId(w, o))) else None;
    Effect(Ok([]), ObserverDocs(w, o, obs), self)
  }

  /**
   * solr_save raises exactly when the class is not powered (RuntimeError)
   * or the record is saveable and its document cannot be built (that
   * exception); a saveable record's document is added, any other
   * record's id is deleted.
   */
  lemma SaveOutcome(w: World, o: Obj)
    ensures SaveOp(w, o).Raise? <==> !w.config(o.klass).powered || (Saveable(w, o) && Document(w, o).Err?)
    ensures SaveOp(w, o).Raise? ==>
              SaveOp(w, o).error == if !w.config(o.klass).powered then RuntimeError else Document(w, o).error
    ensures SaveOp(w, o).AddOp? <==> Saveable(w, o) && Document(w, o).Ok?
    ensures SaveOp(w, o).AddOp? ==> SaveOp(w, o).docs == [Document(w, o).value]
    ensures SaveOp(w, o).DeleteOp? <==> w.config(o.klass).powered && !Saveable(w, o)
    ensures SaveOp(w, o).DeleteOp? ==> SaveOp(w, o).ids == [Str(SolrId(w, o))]
  {
  }

  /**
   * After an update, a powered record that is not saveable is always
   * deleted, whatever changed, and its document is not re-added; a
   * saveable one is never deleted, and its own document comes first
   * exactly when a watched attribute is dirty; the rest are the
   * documents of the firing observers' referrers.
   */
  lemma UpdateOutcome(w: World, o: Obj, obs: seq<Observer>, dirty: seq<string>)
    requires UpdateOp(w, o, obs, dirty).Indexing?
    ensures var op := UpdateOp(w, o, obs, dirty);
            var c := w.config(o.klass);
            var others := ObserverDocs(w, o, Visited(obs, Some(dirty))).value;
            && (op.own.Some? <==> c.powered && !Saveable(w, o))
            && (op.own.Some? ==> op.own.value == Str(SolrId(w, o)) && op.docs == others)
            && (Saveable(w, o) && Touched(dirty, c.watched) ==> op.docs == [Document(w, o).value] + others)
            && (!(Saveable(w, o) && Touched(dirty, c.watched)) ==> op.docs == others)
  {
    var c := w.config(o.klass);
    assert Saveable(w, o) ==> c.powered;
  }

  /**
   * auto_solr_create raises exactly when the record is saveable and its
   * document cannot be built, or an observer's documents cannot be
   * collected, and then with the first of those exceptions. Otherwise it
   * deletes nothing and adds the record's own document first, when the
   * record is saveable, then the observers' documents.
   */
  lemma CreateOutcome(w: World, o: Obj, obs: seq<Observer>)
    ensures CreateOp(w, o, obs).Indexing? <==> (Saveable(w, o) ==> Document(w, o).Ok?) && ObserverDocs(w, o, obs).Ok?
    ensures CreateOp(w, o, obs).Failed? ==>
              CreateOp(w, o, obs).error == if Saveable(w, o) && Document(w, o).Err? then Document(w, o).error
                                           else ObserverDocs(w, o, obs).error
    ensures CreateOp(w, o, obs).Indexing? ==>
              && CreateOp(w, o, obs).own == None
              && CreateOp(w, o, obs).docs == (if Saveable(w, o) then [Document(w, o).value] else []) + ObserverDocs(w, o, obs).value
  {
  }

  /** auto_solr_destroy re-adds the observers' documents and deletes the record's id exactly when its class is powered. */
  lemma DestroyOutcome(w: World, o: Obj, obs: seq<Observer>)
    ensures DestroyOp(w, o, obs).Indexing? <==> ObserverDocs(w, o, obs).Ok?
    ensures DestroyOp(w, o, obs).Failed? ==> DestroyOp(w, o, obs).error == ObserverDocs(w, o, obs).error
    ensures DestroyOp(w, o, obs).Indexing? ==>
              && DestroyOp(w, o, obs).docs == ObserverDocs(w, o, obs).value
              && (DestroyOp(w, o, obs).own.Some? <==> w.config(o.klass).powered)
              && (DestroyOp(w, o, obs).own.Some? ==> DestroyOp(w, o, obs).own.value == Str(SolrId(w, o)))
  {
  }

  /**
   * An observer whose return association is nil makes the callback
   * raise NoMethodError, while the same nil association read as a
   * document field gives no values.
   */
  lemma NilReferrerRaises(w: World, o: Obj, ob: Observer)
    requires ob.returnAssociation.Sym? && w.raises(o, ob.returnAssociation.name).None?
    requires w.assoc(o, ob.returnAssociation.name) == NoneAssoc
    ensures ObserverDocs(w, o, [ob]) == Err(NoMethodError)
    ensures CreateOp(w, o, [ob]).Failed? && DestroyOp(w, o, [ob]) == Batch.Failed(NoMethodError)
    ensures FieldValues(w, o, Chain([ob.returnAssociation.name, "id"])) == Ok([])
  {
    AssociationValues(w, o, ob.returnAssociation.name, "id");
  }

  /** solr_save */
  method SolrSave(w: World, o: Obj) returns (op: Batch.Op)
    ensures op == SaveOp(w, o)
  {
    if !w.config(o.klass).powered {
      return Batch.Raise(RuntimeError);
    }
    if Saveable(w, o) {
      var d := BuildDocument(w, o);
      if d.Err? {
        return Batch.Raise(d.error);
      }
      return Batch.AddOp([d.value]);
    }
    return Batch.DeleteOp([Str(SolrId(w, o))]);
  }

  /** auto_solr_create */
  method AutoSolrCreate(w: World, o: Obj, obs: seq<Observer>) returns (op: Batch.Op)
    ensures op == CreateOp(w, o, obs)
  {
    var documents := OwnDocuments(w, o, w.config(o.klass).powered && Saveable(w, o));
    if documents.Err? {
      return Batch.Failed(documents.error);
    }
    var more := CollectObserverDocs(w, o, obs, None);
    assert Visited(obs, None) == obs;
    if more.Err? {
      return Batch.Failed(more.error);
    }
    return Batch.Indexing(documents.value + more.value, None);
  }

  /** documents << solr_document when the record's own document is wanted: the list, or the exception building raised. */
  method OwnDocuments(w: World, o: Obj, wanted: bool) returns (r: Result<seq<Entries>>)
    ensures r == if wanted then Single(Document(w, o)) else Ok([])
  {
    var documents := [];
    if wanted {
      var d := BuildDocument(w, o);
      if d.Err? {
        return Err(d.error);
      }
      documents := documents + [d.value];
      assert Single(d) == Ok([d.value]);
      assert documents == [d.value];
    }
    return Ok(documents);
  }

  /** auto_solr_update; dirty is the names of the changed attributes. */
  method AutoSolrUpdate(w: World, o: Obj, obs: seq<Observer>, dirty: seq<string>) returns (op: Batch.Op)
    ensures op == UpdateOp(w, o, obs, dirty)
  {
    var c := w.config(o.klass);
    var documents := OwnDocuments(w, o, c.powered && Saveable(w, o) && Touched(dirty, c.watched));
    if documents.Err? {
      return Batch.Failed(documents.error);
    }
    var removeSelf := c.powered && !Saveable(w, o);
    var more := CollectObserverDocs(w, o, obs, Some(dirty));
    if more.Err? {
      return Batch.Failed(more.error);
    }
    var self := if removeSelf then Some(Str(SolrId(w, o))) else None;
    return Batch.Indexing(documents.value + more.value, self);
  }

  /** auto_solr_destroy */
  method AutoSolrDestroy(w: World, o: Obj, obs: seq<Observer>) returns (op: Batch.Op)
    ensures op == DestroyOp(w, o, obs)
  {
    var observers := CollectObserverDocs(w, o, obs, None);
    if observers.Err? {
      return Batch.Failed(observers.error);
    }
    var self := None;
    if w.config(o.klass).powered {
      self := Some(Str(SolrId(w, o)));
    }
    return Batch.Indexing(observers.value, self);
  }
}

=== FILE: lql.dfy ===
/**
 * The query compiler of lib/solr_powered.rb: SolrPowered.escape_lucene and
 * SolrPowered.lql, which turns a String, a template-plus-arguments Array or
 * a field => value Hash into a Lucene query string.
 */
module Lql {
  import opened Values

  // ---------------------------------------------------------------------
  // escape_lucene
  // ---------------------------------------------------------------------

  /** A character of Lucene's query syntax that is escaped on its own. */
  predicate IsSpecial(c: char) {
    || c == '+' || c == '-' || c == '!' || c == '(' || c == ')' || c == '{' || c == '}'
    || c == '[' || c == ']' || c == '^' || c == '"' || c == '~' || c == '*' || c == '?'
    || c == ':' || c == '\\'
  }

  /** s starts with one of the two-character operators && and ||. */
  predicate StartsWithOperator(s: string) {
    |s| >= 2 && ((s[0] == '&' && s[1] == '&') || (s[0] == '|' && s[1] == '|'))
  }

  /**
   * escape_lucene: scanning left to right, every special character and every
   * && or || (matched as one unit) gets one backslash in front of it.
   */
  function EscapeLucene(t: string): (r: string)
    ensures |r| >= |t|
  {
    if t == [] then []
    else if IsSpecial(t[0]) then ['\\', t[0]] + EscapeLucene(t[1..])
    else if StartsWithOperator(t) then ['\\', t[0], t[1]] + EscapeLucene(t[2..])
    else [t[0]] + EscapeLucene(t[1..])
  }

  /** Drops each escaping backslash and keeps the character after it. */
  function Unescape(r: string): string {
    if r == [] then []
    else if r[0] == '\\' && |r| >= 2 then [r[1]] + Unescape(r[2..])
    else [r[0]] + Unescape(r[1..])
  }

  /** Escaping loses nothing: the escaped term reads back as the term. */
  lemma {:induction false} EscapeLuceneRoundTrip(t: string)
    ensures Unescape(EscapeLucene(t)) == t
  {
    if t == [] {
    } else if IsSpecial(t[0]) {
      var r := EscapeLucene(t);
      assert r[2..] == EscapeLucene(t[1..]);
      EscapeLuceneRoundTrip(t[1..]);
      assert [t[0]] + t[1..] == t;
    } else if StartsWithOperator(t) {
      var r := EscapeLucene(t);
      var rest := EscapeLucene(t[2..]);
      assert r[2..] == [t[1]] + rest;
      assert Unescape(r[2..]) == [t[1]] + Unescape(rest);
      EscapeLuceneRoundTrip(t[2..]);
      assert [t[0], t[1]] + t[2..] == t;
    } else {
      var r := EscapeLucene(t);
      assert r[1..] == EscapeLucene(t[1..]);
      EscapeLuceneRoundTrip(t[1..]);
      assert [t[0]] + t[1..] == t;
    }
  }

  /** Nothing in t is a special character or starts a && or ||. */
  predicate Plain(t: string) {
    forall i :: 0 <= i < |t| ==> !IsSpecial(t[i]) && !StartsWithOperator(t[i..])
  }

  lemma {:induction false} EscapePlain(t: string)
    requires Plain(t)
    ensures EscapeLucene(t) == t
  {
    if t != [] {
      assert t[0..] == t;
      assert forall i :: 0 <= i < |t| - 1 ==> t[1..][i..] == t[i + 1..];
      EscapePlain(t[1..]);
      assert [t[0]] + t[1..] == t;
    }
  }

  lemma {:induction false} EscapeGrows(t: string)
    requires !Plain(t)
    ensures |EscapeLucene(t)| > |t|
  {
    var i :| 0 <= i < |t| && (IsSpecial(t[i]) || StartsWithOperator(t[i..]));
    if IsSpecial(t[0]) || StartsWithOperator(t) {
    } else {
      assert t[0..] == t;
      assert i > 0;
      assert t[1..][i - 1..] == t[i..];
      EscapeGrows(t[1..]);
    }
  }

  /** escape_lucene leaves a term unchanged exactly when it has nothing to escape. */
  lemma EscapeLuceneIdentity(t: string)
    ensures EscapeLucene(t) == t <==> Plain(t)
  {
    if Plain(t) {
      EscapePlain(t);
    } else {
      EscapeGrows(t);
    }
  }

  /**
   * && and || take one backslash as a unit, a lone & or | is left alone,
   * and a special character takes one backslash.
   */
  lemma EscapeLuceneOperators(x: char, y: char)
    requires !IsSpecial(x) && !IsSpecial(y) && x !in "&|" && y !in "&|"
    ensures EscapeLucene([x, '&', '&', y]) == [x, '\\', '&', '&', y]
    ensures EscapeLucene([x, '|', '|', y]) == [x, '\\', '|', '|', y]
    ensures EscapeLucene([x, '&', y]) == [x, '&', y]
    ensures EscapeLucene([x, '|', y]) == [x, '|', y]
    ensures EscapeLucene([x, '?', y]) == [x, '\\', '?', y]
  {
    assert [y][1..] == [];
    assert EscapeLucene([y]) == [y];
    assert ['&', '&', y][2..] == [y];
    assert ['|', '|', y][2..] == [y];
    assert ['&', y][1..] == [y] && ['|', y][1..] == [y] && ['?', y][1..] == [y];
    assert EscapeLucene(['&', y]) == ['&', y];
    assert EscapeLucene(['|', y]) == ['|', y];
    assert [x, '&', '&', y][1..] == ['&', '&', y];
    assert [x, '|', '|', y][1..] == ['|', '|', y];
    assert [x, '&', y][1..] == ['&', y];
    assert [x, '|', y][1..] == ['|', y];
    assert [x, '?', y][1..] == ['?', y];
  }

  /**
   * The units of escape_lucene: a special character and the operators &&
   * and || each take one backslash, any other character is kept.
   */
  lemma EscapeLuceneUnits(c: char)
    ensures IsSpecial(c) ==> EscapeLucene([c]) == ['\\', c]
    ensures !IsSpecial(c) ==> EscapeLucene([c]) == [c]
    ensures EscapeLucene("&&") == "\\&&" && EscapeLucene("||") == "\\||"
  {
    assert "&&"[2..] == [] && "||"[2..] == [];
  }

  /**
   * Escaping goes unit by unit: a term that does not end in & or | cannot
   * form an operator with what follows it, so the two halves escape apart.
   */
  lemma {:induction false} EscapeLuceneAppend(a: string, b: string)
    requires a == [] || a[|a| - 1] !in "&|"
    ensures EscapeLucene(a + b) == EscapeLucene(a) + EscapeLucene(b)
    decreases |a|
  {
    if a == [] {
      assert a + b == b;
    } else {
      var h, rest;
      if IsSpecial(a[0]) {
        EscapeSpecialHead(a, b);
        h, rest := ['\\', a[0]], a[1..];
      } else if StartsWithOperator(a) {
        EscapeOperatorHead(a, b);
        h, rest := ['\\', a[0], a[1]], a[2..];
      } else {
        EscapePlainHead(a, b);
        h, rest := [a[0]], a[1..];
      }
      assert rest == [] || rest[|rest| - 1] == a[|a| - 1];
      EscapeLuceneAppend(rest, b);
      AppendAssoc(h, EscapeLucene(rest), EscapeLucene(b));
    }
  }

  /** A special character in front takes one backslash, whatever follows. */
  lemma EscapeSpecialHead(a: string, b: string)
    requires a != [] && IsSpecial(a[0])
    ensures EscapeLucene(a) == ['\\', a[0]] + EscapeLucene(a[1..])
    ensures EscapeLucene(a + b) == ['\\', a[0]] + EscapeLucene(a[1..] + b)
  {
    assert (a + b)[0] == a[0];
    assert (a + b)[1..] == a[1..] + b;
  }

  /** An operator in front takes one backslash, whatever follows. */
  lemma EscapeOperatorHead(a: string, b: string)
    requires a != [] && !IsSpecial(a[0]) && StartsWithOperator(a)
    ensures EscapeLucene(a) == ['\\', a[0], a[1]] + EscapeLucene(a[2..])
    ensures EscapeLucene(a + b) == ['\\', a[0], a[1]] + EscapeLucene(a[2..] + b)
  {
    assert (a + b)[0] == a[0] && (a + b)[1] == a[1];
    assert (a + b)[2..] == a[2..] + b;
  }

  /** Any other character in front is kept, when a does not end in & or a bar. */
  lemma EscapePlainHead(a: string, b: string)
    requires a != [] && !IsSpecial(a[0]) && !StartsWithOperator(a)
    requires a[|a| - 1] !in "&|"
    ensures EscapeLucene(a) == [a[0]] + EscapeLucene(a[1..])
    ensures EscapeLucene(a + b) == [a[0]] + EscapeLucene(a[1..] + b)
  {
    assert (a + b)[0] == a[0];
    assert |a| == 1 ==> a[0] !in "&|";
    assert !StartsWithOperator(a + b);
    assert (a + b)[1..] == a[1..] + b;
  }

  /**
   * A term starting with & or | also escapes unit by unit: a leading &&
   * or || takes one backslash, and a lone & or | is kept, whatever follows.
   */
  lemma EscapeLuceneLeadingOperator(b: string)
    ensures EscapeLucene("&&" + b) == "\\&&" + EscapeLucene(b)
    ensures EscapeLucene("||" + b) == "\\||" + EscapeLucene(b)
    ensures b == [] || b[0] != '&' ==> EscapeLucene("&" + b) == "&" + EscapeLucene(b)
    ensures b == [] || b[0] != '|' ==> EscapeLucene("|" + b) == "|" + EscapeLucene(b)
  {
    EscapeOperatorHead("&&", b);
    EscapeOperatorHead("||", b);
    if b == [] || b[0] != '&' {
      LoneHead('&', b);
    }
    if b == [] || b[0] != '|' {
      LoneHead('|', b);
    }
  }

  /** A lone & or bar in front, not followed by a second one, is kept. */
  lemma LoneHead(c: char, b: string)
    requires (c == '&' || c == '|') && (b == [] || b[0] != c)
    ensures EscapeLucene([c] + b) == [c] + EscapeLucene(b)
  {
    var t := [c] + b;
    assert t[0] == c && t[1..] == b;
    assert |t| >= 2 ==> t[1] == b[0];
  }

  /** The documented example: (1+1):2 is escaped as \(1\+1\)\:2. */
  lemma EscapeLuceneExample()
    ensures EscapeLucene("(1+1):2") == "\\(1\\+1\\)\\:2"
  {
    assert "(1+1):2" == "(1+1" + "):2";
    EscapeLuceneAppend("(1+1", "):2");
    EscapeExampleFront();
    EscapeExampleBack();
    assert "\\(1\\+1" + "\\)\\:2" == "\\(1\\+1\\)\\:2";
  }

  lemma EscapeExampleFront()
    ensures EscapeLucene("(1+1") == "\\(1\\+1"
  {
  }

  lemma EscapeExampleBack()
    ensures EscapeLucene("):2") == "\\)\\:2"
  {
  }

  // ---------------------------------------------------------------------
  // Template substitution: lql.gsub(/\?/, '%s') % args
  // ---------------------------------------------------------------------

  /** gsub(/\?/, '%s'). */
  function Expand(t: string): (r: string) {
    if t == [] then []
    else if t[0] == '?' then "%s" + Expand(t[1..])
    else [t[0]] + Expand(t[1..])
  }

  function Prepend(p: string, r: Result<string>): Result<string> {
    match r
    case Ok(s) => Ok(p + s)
    case Err(e) => Err(e)
  }

  /**
   * String#% with string arguments: %s takes the next argument (too few is
   * an ArgumentError), %% is a percent sign, extra arguments are ignored;
   * any other directive is reported as an ArgumentError.
   */
  function Format(f: string, args: seq<string>): Result<string>
    decreases |f|
  {
    if f == [] then Ok("")
    else if f[0] != '%' then Prepend([f[0]], Format(f[1..], args))
    else if |f| >= 2 && f[1] == 's' then
      if args == [] then Err(ArgumentError) else Prepend(args[0], Format(f[2..], args[1..]))
    else if |f| >= 2 && f[1] == '%' then Prepend("%", Format(f[2..], args))
    else Err(ArgumentError)
  }

  /**
   * The reference meaning of a template: the pieces between its '?'s with
   * the arguments woven in, in order, each used once.
   */
  function Weave(pieces: seq<string>, args: seq<string>): string
    requires |pieces| >= 1 && |args| >= |pieces| - 1
  {
    if |pieces| == 1 then pieces[0]
    else pieces[0] + args[0] + Weave(pieces[1..], args[1..])
  }

  lemma WeaveCons(c: char, pieces: seq<string>, args: seq<string>)
    requires |pieces| >= 1 && |args| >= |pieces| - 1
    ensures Weave([[c] + pieces[0]] + pieces[1..], args) == [c] + Weave(pieces, args)
  {
    var ps := [[c] + pieces[0]] + pieces[1..];
    assert ps[1..] == pieces[1..];
  }

  /** Number of '?' placeholders in a template. */
  function Placeholders(t: string): nat {
    |Fields(t, '?')| - 1
  }

  /**
   * For a template without '%', each '?' is replaced in order by the next
   * argument and substituted text is never rescanned; with fewer arguments
   * than placeholders the substitution fails.
   */
  lemma {:induction false} SubstituteTemplate(t: string, args: seq<string>)
    requires '%' !in t
    ensures |args| >= Placeholders(t) ==> Format(Expand(t), args) == Ok(Weave(Fields(t, '?'), args))
    ensures |args| < Placeholders(t) ==> Format(Expand(t), args) == Err(ArgumentError)
  {
    if t == [] {
    } else if t[0] == '?' {
      var e := Expand(t[1..]);
      assert Expand(t) == "%s" + e;
      assert ("%s" + e)[2..] == e;
      var ps := Fields(t, '?');
      assert ps == [""] + Fields(t[1..], '?');
      if args == [] {
      } else {
        SubstituteTemplate(t[1..], args[1..]);
        assert Format(Expand(t), args) == Prepend(args[0], Format(e, args[1..]));
        if |args| >= Placeholders(t) {
          assert ps[1..] == Fields(t[1..], '?');
          assert Weave(ps, args) == "" + args[0] + Weave(ps[1..], args[1..]);
          assert "" + args[0] == args[0];
        }
      }
    } else {
      assert Expand(t) == [t[0]] + Expand(t[1..]);
      assert ([t[0]] + Expand(t[1..]))[1..] == Expand(t[1..]);
      SubstituteTemplate(t[1..], args);
      var rest := Fields(t[1..], '?');
      assert Fields(t, '?') == [[t[0]] + rest[0]] + rest[1..];
      if |args| >= Placeholders(t) {
        WeaveCons(t[0], rest, args);
      }
    }
  }

  // ---------------------------------------------------------------------
  // lql
  // ---------------------------------------------------------------------

  /** The text one argument of an Array query contributes. */
  function Arg(part: Value): string {
    if part.Nil? || ToS(part) == "" then "*:*"
    else if part.List? then
      "(" + Join(" OR ", seq(|part.items|, k requires 0 <= k < |part.items| => EscapeLucene(ToS(part.items[k])))) + ")"
    else EscapeLucene(ToS(part))
  }

  function Args(parts: seq<Value>): (r: seq<string>)
    ensures |r| == |parts|
    ensures forall k :: 0 <= k < |parts| ==> r[k] == Arg(parts[k])
  {
    seq(|parts|, k requires 0 <= k < |parts| => Arg(parts[k]))
  }

  /** The template a Hash query becomes: "field:?" clauses joined by AND. */
  function HashTemplate(entries: Entries): string {
    Join(" AND ", seq(|entries|, k requires 0 <= k < |entries| => entries[k].0 + ":?"))
  }

  function HashValues(entries: Entries): (vs: seq<Value>)
    ensures |vs| == |entries|
  {
    seq(|entries|, k requires 0 <= k < |entries| => entries[k].1)
  }

  /** SolrPowered.lql. */
  function Compile(query: Value): Result<string> {
    match query
    case Str(s) => Ok(s)
    case List(parts) =>
      if parts == [] || !parts[0].Str? then Err(NoMethodError)
      else Format(Expand(parts[0].s), Args(parts[1..]))
    case Hash(entries) =>
      Format(Expand(HashTemplate(entries)), Args(HashValues(entries)))
    case _ => Err(RuntimeError)
  }

  /** A Hash query is the Array query [template, *values]. */
  lemma CompileHashIsArray(entries: Entries)
    ensures Compile(Hash(entries)) == Compile(List([Str(HashTemplate(entries))] + HashValues(entries)))
  {
    var parts := [Str(HashTemplate(entries))] + HashValues(entries);
    assert parts[1..] == HashValues(entries);
  }

  /** A String query is returned verbatim; types other than String, Array and Hash raise. */
  lemma CompileShapes(query: Value)
    ensures query.Str? ==> Compile(query) == Ok(query.s)
    ensures !query.Str? && !query.List? && !query.Hash? ==> Compile(query) == Err(RuntimeError)
    ensures query == List([]) ==> Compile(query) == Err(NoMethodError)
  {
  }

  /** A nil or empty argument matches everything; a list becomes an OR group. */
  lemma ArgCases(part: Value)
    ensures part.Nil? || part == Str("") ==> Arg(part) == "*:*"
    ensures part.List? ==> Arg(part)[0] == '(' && Arg(part)[|Arg(part)| - 1] == ')'
    ensures part.Str? && part.s != "" ==> Arg(part) == EscapeLucene(part.s)
  {
  }

  lemma PrependPrepend(a: string, b: string, r: Result<string>)
    ensures Prepend(a, Prepend(b, r)) == Prepend(a + b, r)
  {
    if r.Ok? {
      assert a + (b + r.value) == (a + b) + r.value;
    }
  }

  lemma FormatPlainPrefix(p: string, x: string, args: seq<string>)
    requires '%' !in p
    ensures Format(p + x, args) == Prepend(p, Format(x, args))
    decreases |p|
  {
    if p != [] {
      assert (p + x)[0] == p[0] && (p + x)[1..] == p[1..] + x;
      FormatPlainPrefix(p[1..], x, args);
      PrependPrepend([p[0]], p[1..], Format(x, args));
      assert [p[0]] + p[1..] == p;
    } else {
      assert p + x == x;
      if Format(x, args).Ok? {
        assert p + Format(x, args).value == Format(x, args).value;
      }
    }
  }

  lemma ExpandAppend(a: string, b: string)
    ensures Expand(a + b) == Expand(a) + Expand(b)
    decreases |a|
  {
    if a != [] {
      assert (a + b)[0] == a[0] && (a + b)[1..] == a[1..] + b;
      ExpandAppend(a[1..], b);
      var head := if a[0] == '?' then "%s" else [a[0]];
      assert Expand(a + b) == head + Expand(a[1..] + b);
      assert Expand(a) == head + Expand(a[1..]);
    } else {
      assert a + b == b;
    }
  }

  lemma ExpandPlain(a: string)
    requires '?' !in a
    ensures Expand(a) == a
    decreases |a|
  {
    if a != [] {
      ExpandPlain(a[1..]);
      assert [a[0]] + a[1..] == a;
    }
  }

  function Clauses(entries: Entries, args: seq<string>): seq<string>
    requires |args| == |entries|
  {
    seq(|entries|, k requires 0 <= k < |entries| => entries[k].0 + ":" + args[k])
  }

  predicate PlainKeys(entries: Entries) {
    forall k :: 0 <= k < |entries| ==> '?' !in entries[k].0 && '%' !in entries[k].0
  }

  /** The template of a non-empty Hash: its first clause, then AND and the rest. */
  lemma HashTemplateCons(entries: Entries)
    requires entries != []
    ensures |entries| == 1 ==> HashTemplate(entries) == entries[0].0 + ":?"
    ensures |entries| > 1 ==> HashTemplate(entries) == entries[0].0 + ":?" + (" AND " + HashTemplate(entries[1..]))
  {
    var rest := entries[1..];
    var tmpl := seq(|entries|, i requires 0 <= i < |entries| => entries[i].0 + ":?");
    var tmplRest := seq(|rest|, i requires 0 <= i < |rest| => rest[i].0 + ":?");
    assert tmpl[1..] == tmplRest;
    if |entries| > 1 {
      var c := entries[0].0 + ":?";
      assert HashTemplate(entries) == c + " AND " + HashTemplate(rest);
      assert c + " AND " + HashTemplate(rest) == c + (" AND " + HashTemplate(rest));
    }
  }

  /** One "field:?" clause consumes one argument and leaves the rest of the template. */
  lemma ClauseFormat(k: string, tail: string, a: string, args: seq<string>)
    requires '?' !in k && '%' !in k
    ensures Format(Expand(k + ":?" + tail), [a] + args) == Prepend(k + ":" + a, Format(Expand(tail), args))
  {
    ExpandAppend(k + ":", "?" + tail);
    ExpandAppend("?", tail);
    ExpandPlain(k + ":");
    assert k + ":?" + tail == (k + ":") + ("?" + tail);
    assert Expand("?") == "%s";
    var x := "%s" + Expand(tail);
    assert Expand(k + ":?" + tail) == (k + ":") + x;
    FormatPlainPrefix(k + ":", x, [a] + args);
    assert x[2..] == Expand(tail);
    assert ([a] + args)[1..] == args;
    assert Format(x, [a] + args) == Prepend(a, Format(Expand(tail), args));
    PrependPrepend(k + ":", a, Format(Expand(tail), args));
  }

  lemma {:induction false} HashTemplateFormat(entries: Entries, args: seq<string>)
    requires |args| == |entries| && PlainKeys(entries)
    ensures Format(Expand(HashTemplate(entries)), args) == Ok(Join(" AND ", Clauses(entries, args)))
  {
    if entries != [] {
      var k := entries[0].0;
      var rest := entries[1..];
      HashTemplateCons(entries);
      assert args == [args[0]] + args[1..];
      var cl := Clauses(entries, args);
      assert cl[1..] == Clauses(rest, args[1..]);
      if |entries| == 1 {
        ClauseFormat(k, "", args[0], args[1..]);
        assert k + ":?" + "" == k + ":?";
        assert k + ":" + args[0] + "" == cl[0];
      } else {
        var h := HashTemplate(rest);
        ClauseFormat(k, " AND " + h, args[0], args[1..]);
        ExpandAppend(" AND ", h);
        ExpandPlain(" AND ");
        FormatPlainPrefix(" AND ", Expand(h), args[1..]);
        HashTemplateFormat(rest, args[1..]);
        PrependPrepend(cl[0], " AND ", Format(Expand(h), args[1..]));
      }
    }
  }

  /**
   * A Hash query compiles to its "field:value" clauses, in key order,
   * joined by AND, each value compiled as an Array argument.
   */
  lemma CompileHash(entries: Entries)
    requires PlainKeys(entries)
    ensures Compile(Hash(entries)) == Ok(Join(" AND ", Clauses(entries, Args(HashValues(entries)))))
  {
    HashTemplateFormat(entries, Args(HashValues(entries)));
  }

  /** A nil argument in a one-clause template matches every value of the field. */
  lemma CompileNilArgument(k: string)
    requires '?' !in k && '%' !in k
    ensures Compile(List([Str(k + ":?"), Nil])) == Ok(k + ":*:*")
  {
    var parts := [Str(k + ":?"), Nil];
    assert parts[1..] == [Nil];
    assert Args([Nil]) == ["*:*"] + [];
    ClauseFormat(k, "", "*:*", []);
    assert k + ":?" + "" == k + ":?";
    assert k + ":" + "*:*" + "" == k + ":*:*";
  }
}

=== FILE: registry.dfy ===
/**
 * The plugin-wide registries that SolrPowered keeps in class variables:
 * the Solr field definitions (@@indexes), the association observers
 * keyed by observed class name (@@observers) and the names of the
 * indexed models (@@indexed_models).
 */
module Registry {
  import opened Values

  /**
   * One association observer, as solr_assoc and solr_method register it:
   * when a record of observedClass changes, the records reached through
   * returnAssociation (which index it via association) are re-indexed.
   */
  datatype Observer = Observer(
    observingClass: string,
    association: string,
    observedClass: string,
    observedAttributes: seq<Value>,
    returnAssociation: Value)

  /** The three registries at one moment. */
  datatype Tables = Tables(
    indexes: seq<(string, Entries)>,
    observers: seq<(string, seq<Observer>)>,
    models: seq<string>)

  /** Every registry is a Ruby hash or a uniq'd array, and every field definition a hash. */
  ghost predicate Valid(t: Tables) {
    && UniqueKeys(t.indexes)
    && UniqueKeys(t.observers)
    && NoDup(t.models)
    && forall i :: 0 <= i < |t.indexes| ==> UniqueKeys(t.indexes[i].1)
  }

  // ---------------------------------------------------------------------
  // add_index
  // ---------------------------------------------------------------------

  /** The definition add_index starts from before merging the caller's options. */
  function IndexDefaults(name: string): (d: Entries)
    ensures UniqueKeys(d)
  {
    var d := [("name", Str(name)), ("type", Str("string")), ("indexed", Bool(true)),
              ("stored", Bool(false)), ("multi_valued", Bool(false)), ("required", Bool(false)),
              ("copy_to_default", Bool(false)), ("copy_to", Nil)];
    assert Keys(d) == ["name", "type", "indexed", "stored", "multi_valued", "required",
                       "copy_to_default", "copy_to"];
    d
  }

  /** The definition stored for a field: the defaults merged with the caller's options. */
  function IndexConfig(name: string, options: Entries): Entries {
    Merge(IndexDefaults(name), options)
  }

  /** A given option wins; every other option keeps its default. */
  lemma IndexConfigGet(name: string, options: Entries, k: string)
    requires UniqueKeys(options)
    ensures Get(IndexConfig(name, options), k) ==
              if HasKey(options, k) then Get(options, k) else Get(IndexDefaults(name), k)
    ensures UniqueKeys(IndexConfig(name, options))
  {
    MergeGet(IndexDefaults(name), options, k);
    MergeKeepsUnique(IndexDefaults(name), options);
  }

  /** Ruby's Hash#==: the same number of entries, each found with an equal value. */
  predicate SameOptions(a: Entries, b: Entries) {
    |a| == |b| && forall i :: 0 <= i < |a| ==> Get(b, a[i].0) == Some(a[i].1)
  }

  /** Two hashes that map every key alike. */
  ghost predicate Agree(a: Entries, b: Entries) {
    forall k :: Get(a, k) == Get(b, k)
  }

  /** Hash#== on hashes ignores insertion order: it holds exactly when every key maps alike. */
  lemma SameOptionsMeans(a: Entries, b: Entries)
    requires UniqueKeys(a) && UniqueKeys(b)
    ensures SameOptions(a, b) <==> Agree(a, b)
  {
    if SameOptions(a, b) {
      SameOptionsAgree(a, b);
    }
    if Agree(a, b) {
      AgreeSameOptions(a, b);
    }
  }

  lemma SameOptionsAgree(a: Entries, b: Entries)
    requires UniqueKeys(a) && UniqueKeys(b) && SameOptions(a, b)
    ensures Agree(a, b)
  {
    var ka := set x | x in Keys(a);
    var kb := set x | x in Keys(b);
    NoDupCard(Keys(a));
    NoDupCard(Keys(b));
    assert ka <= kb by {
      forall x | x in ka ensures x in kb {
        var i :| 0 <= i < |a| && Keys(a)[i] == x;
        assert Get(b, a[i].0).Some?;
      }
    }
    assert kb - ka == {} by {
      assert |kb - ka| + |ka| == |kb|;
    }
    forall k
      ensures Get(a, k) == Get(b, k)
    {
      if HasKey(a, k) {
        var i :| 0 <= i < |a| && Keys(a)[i] == k;
        GetAt(a, i);
      } else {
        assert k !in ka;
        assert k !in kb - ka;
      }
    }
  }

  lemma AgreeSameOptions(a: Entries, b: Entries)
    requires UniqueKeys(a) && UniqueKeys(b)
    requires Agree(a, b)
    ensures SameOptions(a, b)
  {
    var ka := set x | x in Keys(a);
    var kb := set x | x in Keys(b);
    NoDupCard(Keys(a));
    NoDupCard(Keys(b));
    assert ka == kb by {
      forall x ensures x in ka <==> x in kb {
        assert Get(a, x).None? <==> Get(b, x).None?;
      }
    }
    forall i | 0 <= i < |a|
      ensures Get(b, a[i].0) == Some(a[i].1)
    {
      GetAt(a, i);
    }
  }

  /**
   * add_index: fill in the defaults; a name already defined with a
   * different option set raises, otherwise the definition is stored.
   */
  function WithIndex(t: Tables, name: Value, options: Entries): Result<Tables> {
    var n := ToS(name);
    var cfg := IndexConfig(n, options);
    match Get(t.indexes, n)
    case Some(existing) =>
      if SameOptions(existing, cfg) then Ok(t.(indexes := Put(t.indexes, n, cfg))) else Err(RuntimeError)
    case None => Ok(t.(indexes := Put(t.indexes, n, cfg)))
  }

  /**
   * add_index raises, with a RuntimeError, exactly when the name is
   * taken by a definition that maps some option differently.
   */
  lemma WithIndexRaises(t: Tables, name: Value, options: Entries)
    requires Valid(t) && UniqueKeys(options)
    ensures var n := ToS(name);
            WithIndex(t, name, options).Err? <==>
              HasKey(t.indexes, n) && !Agree(Get(t.indexes, n).value, IndexConfig(n, options))
    ensures WithIndex(t, name, options).Err? ==> WithIndex(t, name, options).error == RuntimeError
  {
    var n := ToS(name);
    var cfg := IndexConfig(n, options);
    IndexConfigGet(n, options, "name");
    if HasKey(t.indexes, n) {
      var i :| 0 <= i < |t.indexes| && Keys(t.indexes)[i] == n;
      GetAt(t.indexes, i);
      SameOptionsMeans(Get(t.indexes, n).value, cfg);
    }
  }

  /**
   * When add_index does not raise, the name maps to the merged
   * definition and nothing else in the registries changes.
   */
  lemma WithIndexStores(t: Tables, name: Value, options: Entries)
    requires Valid(t) && UniqueKeys(options)
    requires WithIndex(t, name, options).Ok?
    ensures var n := ToS(name);
            var t' := WithIndex(t, name, options).value;
            && Get(t'.indexes, n) == Some(IndexConfig(n, options))
            && (forall m :: m != n ==> Get(t'.indexes, m) == Get(t.indexes, m))
            && t'.observers == t.observers && t'.models == t.models
            && Valid(t')
  {
    var n := ToS(name);
    var cfg := IndexConfig(n, options);
    IndexConfigGet(n, options, "name");
    var t' := WithIndex(t, name, options).value;
    assert t'.indexes == Put(t.indexes, n, cfg);
    forall m
      ensures Get(t'.indexes, m) == if m == n then Some(cfg) else Get(t.indexes, m)
    {
      PutGet(t.indexes, n, cfg, m);
    }
    PutKeepsUnique(t.indexes, n, cfg);
    PutConfigsUnique(t.indexes, n, cfg);
  }

  /** Storing a hash with unique keys keeps every stored hash's keys unique. */
  lemma {:induction false} PutConfigsUnique(h: seq<(string, Entries)>, k: string, v: Entries)
    requires forall i :: 0 <= i < |h| ==> UniqueKeys(h[i].1)
    requires UniqueKeys(v)
    ensures forall i :: 0 <= i < |Put(h, k, v)| ==> UniqueKeys(Put(h, k, v)[i].1)
  {
    if h != [] && h[0].0 != k {
      PutConfigsUnique(h[1..], k, v);
      var r := Put(h, k, v);
      assert r[1..] == Put(h[1..], k, v);
      forall i | 0 <= i < |r|
        ensures UniqueKeys(r[i].1)
      {
        if i > 0 {
          assert r[i] == Put(h[1..], k, v)[i - 1];
        }
      }
    }
  }

  /** Registering the same field twice is a no-op the second time. */
  lemma WithIndexIdempotent(t: Tables, name: Value, options: Entries)
    requires Valid(t) && UniqueKeys(options)
    requires WithIndex(t, name, options).Ok?
    ensures WithIndex(WithIndex(t, name, options).value, name, options) == WithIndex(t, name, options)
  {
    var n := ToS(name);
    var cfg := IndexConfig(n, options);
    var t' := WithIndex(t, name, options).value;
    WithIndexStores(t, name, options);
    IndexConfigGet(n, options, "name");
    SameOptionsMeans(cfg, cfg);
    PutSame(t'.indexes, n, cfg);
  }

  // ---------------------------------------------------------------------
  // add_observer / observers_for
  // ---------------------------------------------------------------------

  /** @@observers[name]: the default block gives an empty list to a class never observed. */
  function ObserversOf(obs: seq<(string, seq<Observer>)>, klass: string): seq<Observer> {
    match Get(obs, klass)
    case Some(l) => l
    case None => []
  }

  /** add_observer: append under the observed class name. */
  function WithObserver(t: Tables, ob: Observer): Tables {
    t.(observers := Put(t.observers, ob.observedClass, ObserversOf(t.observers, ob.observedClass) + [ob]))
  }

  /** The observer goes last in its class's list; every other class's list is unchanged. */
  lemma WithObserverOutcome(t: Tables, ob: Observer, klass: string)
    requires Valid(t)
    ensures ObserversOf(WithObserver(t, ob).observers, klass) ==
              if klass == ob.observedClass then ObserversOf(t.observers, klass) + [ob]
              else ObserversOf(t.observers, klass)
    ensures WithObserver(t, ob).indexes == t.indexes && WithObserver(t, ob).models == t.models
    ensures Valid(WithObserver(t, ob))
  {
    PutGet(t.observers, ob.observedClass, ObserversOf(t.observers, ob.observedClass) + [ob], klass);
    PutKeepsUnique(t.observers, ob.observedClass, ObserversOf(t.observers, ob.observedClass) + [ob]);
  }

  /**
   * observers_for: the lists registered under each name of the class
   * chain (the class, then each superclass below ActiveRecord::Base),
   * concatenated in that order.
   */
  function Gathered(obs: seq<(string, seq<Observer>)>, chain: seq<string>): seq<Observer> {
    if chain == [] then [] else Gathered(obs, chain[..|chain| - 1]) + ObserversOf(obs, chain[|chain| - 1])
  }

  /** The class's own observers come before those of its ancestors. */
  lemma {:induction false} GatheredAppend(obs: seq<(string, seq<Observer>)>, c1: seq<string>, c2: seq<string>)
    ensures Gathered(obs, c1 + c2) == Gathered(obs, c1) + Gathered(obs, c2)
    decreases |c2|
  {
    if c2 == [] {
      assert c1 + c2 == c1;
    } else {
      var init := c2[..|c2| - 1];
      var last := c2[|c2| - 1];
      assert (c1 + c2)[..|c1 + c2| - 1] == c1 + init;
      assert (c1 + c2)[|c1 + c2| - 1] == last;
      GatheredAppend(obs, c1, init);
      var a, b, l := Gathered(obs, c1), Gathered(obs, init), ObserversOf(obs, last);
      assert Gathered(obs, c2) == b + l;
      calc {
        Gathered(obs, c1 + c2);
        Gathered(obs, c1 + init) + l;
        a + b + l;
        { AppendAssoc(a, b, l); }
        a + (b + l);
      }
    }
  }

  /** An observer is found exactly when it is registered under some name of the chain. */
  lemma {:induction false} GatheredHas(obs: seq<(string, seq<Observer>)>, chain: seq<string>, ob: Observer)
    ensures ob in Gathered(obs, chain) <==> exists i :: 0 <= i < |chain| && ob in ObserversOf(obs, chain[i])
  {
    if chain != [] {
      var init := chain[..|chain| - 1];
      var last := chain[|chain| - 1];
      GatheredHas(obs, init, ob);
      assert Gathered(obs, chain) == Gathered(obs, init) + ObserversOf(obs, last);
      assert forall i :: 0 <= i < |init| ==> init[i] == chain[i];
      if ob in Gathered(obs, chain) && ob !in Gathered(obs, init) {
        assert ob in ObserversOf(obs, chain[|chain| - 1]);
      }
    }
  }

  /** Once registered, an observer is found for every class whose chain names its observed class. */
  lemma RegisteredObserverFound(t: Tables, ob: Observer, chain: seq<string>)
    requires Valid(t) && ob.observedClass in chain
    ensures ob in Gathered(WithObserver(t, ob).observers, chain)
  {
    var i :| 0 <= i < |chain| && chain[i] == ob.observedClass;
    WithObserverOutcome(t, ob, chain[i]);
    GatheredHas(WithObserver(t, ob).observers, chain, ob);
  }

  // ---------------------------------------------------------------------
  // add_indexed_model
  // ---------------------------------------------------------------------

  /** (@@indexed_models + [name]).uniq */
  function WithModel(t: Tables, name: string): Tables {
    t.(models := Dedup(t.models + [name]))
  }

  /** The model list grows by the name unless it is present, and stays duplicate-free. */
  lemma WithModelOutcome(t: Tables, name: string)
    requires Valid(t)
    ensures WithModel(t, name).models == if name in t.models then t.models else t.models + [name]
    ensures WithModel(WithModel(t, name), name) == WithModel(t, name)
    ensures Valid(WithModel(t, name))
  {
    var ms := t.models + [name];
    DedupOfNoDup(t.models);
    assert ms[..|ms| - 1] == t.models;
    var d := Dedup(ms);
    DedupAppend(ms, [name]);
    assert d + [name] == Dedup(ms) + [name];
    DedupOfNoDup(d);
    assert Dedup(d + [name])[..] == Dedup(d + [name]);
    assert (d + [name])[..|d + [name]| - 1] == d;
  }

  // ---------------------------------------------------------------------
  // The class variables
  // ---------------------------------------------------------------------

  class Registry {
    var indexes: seq<(string, Entries)>
    var observers: seq<(string, seq<Observer>)>
    var models: seq<string>

    function Snapshot(): Tables
      reads this
    {
      Tables(indexes, observers, models)
    }

    /** All three registries start empty. */
    constructor ()
      ensures Snapshot() == Tables([], [], [])
    {
      indexes := [];
      observers := [];
      models := [];
    }

    /** SolrPowered.add_index */
    method AddIndex(name: Value, options: Entries) returns (err: Option<Error>)
      modifies this
      ensures match WithIndex(old(Snapshot()), name, options)
              case Ok(t) => Snapshot() == t && err == None
              case Err(e) => Snapshot() == old(Snapshot()) && err == Some(e)
    {
      var n := ToS(name);
      var cfg := Merge(IndexDefaults(n), options);
      var existing := Get(indexes, n);
      if existing.Some? && !SameOptions(existing.value, cfg) {
        return Some(RuntimeError);
      }
      indexes := Put(indexes, n, cfg);
      return None;
    }

    /** SolrPowered.add_observer */
    method AddObserver(ob: Observer)
      modifies this
      ensures Snapshot() == WithObserver(old(Snapshot()), ob)
    {
      var current := ObserversOf(observers, ob.observedClass);
      observers := Put(observers, ob.observedClass, current + [ob]);
    }

    /** SolrPowered.observers_for, walking the class and its superclasses in order. */
    method ObserversFor(chain: seq<string>) returns (found: seq<Observer>)
      ensures found == Gathered(observers, chain)
    {
      found := [];
      var i := 0;
      while i < |chain|
        invariant 0 <= i <= |chain|
        invariant found == Gathered(observers, chain[..i])
      {
        assert chain[..i + 1][..i] == chain[..i];
        found := found + ObserversOf(observers, chain[i]);
        i := i + 1;
      }
      TakeAll(chain);
    }

    /** SolrPowered.add_indexed_model */
    method AddIndexedModel(name: string)
      modifies this
      ensures Snapshot() == WithModel(old(Snapshot()), name)
    {
      models := Dedup(models + [name]);
    }
  }
}

=== FILE: values.dfy ===
/**
 * Ruby values as the plugin handles them, and the few pieces of Ruby's
 * core library (to_s, to_i, split, uniq, blank?, Array()) that its logic
 * depends on.  Hashes are insertion-ordered association lists.
 */
module Values {

  datatype Option<T> = None | Some(value: T)

  /** The exceptions the core raises, by kind. */
  datatype Error =
    | ArgumentError           // raise ArgumentError, ...
    | RuntimeError            // raise "message"
    | NoMethodError           // a method sent to nil or to an object lacking it
    | TypeError               // arithmetic on nil
    | RecordNotFound          // ActiveRecord find given an id it cannot load
    | SolrResponseError(status: string)

  datatype Result<T> = Ok(value: T) | Err(error: Error)

  /**
   * A Ruby value.  A Date/Time is carried as its strftime('%Y-%m-%dT%TZ')
   * rendering; a Float as the text of its to_s.
   */
  datatype Value =
    | Nil
    | Bool(b: bool)
    | Int(i: int)
    | Str(s: string)
    | Sym(name: string)
    | Time(iso: string)
    | List(items: seq<Value>)
    | Hash(entries: seq<(string, Value)>)

  /** An insertion-ordered Ruby hash with string keys. */
  type Entries = seq<(string, Value)>

  /** Ruby truthiness: everything except nil and false. */
  predicate Truthy(v: Value) {
    !(v.Nil? || v == Bool(false))
  }

  // ---------------------------------------------------------------------
  // Ordered hashes
  // ---------------------------------------------------------------------

  function Keys<K(==,!new), V>(h: seq<(K, V)>): (ks: seq<K>)
    ensures |ks| == |h|
  {
    seq(|h|, i requires 0 <= i < |h| => h[i].0)
  }

  lemma KeysCons<K(!new), V>(h: seq<(K, V)>)
    requires h != []
    ensures Keys(h) == [h[0].0] + Keys(h[1..])
  {
  }

  lemma KeysAppend<K(!new), V>(a: seq<(K, V)>, b: seq<(K, V)>)
    ensures Keys(a + b) == Keys(a) + Keys(b)
  {
  }

  predicate HasKey<K(==,!new), V>(h: seq<(K, V)>, k: K) {
    k in Keys(h)
  }

  predicate UniqueKeys<K(==,!new), V>(h: seq<(K, V)>) {
    NoDup(Keys(h))
  }

  /** h[k]: the value under k, or nil when k is absent. */
  function Lookup(h: Entries, k: string): (v: Value)
    ensures v == match Get(h, k) case Some(x) => x case None => Nil
  {
    if h == [] then Nil
    else
      KeysCons(h);
      if h[0].0 == k then h[0].1 else Lookup(h[1..], k)
  }

  /** The value stored under k, if any. */
  function Get<K(==,!new), V>(h: seq<(K, V)>, k: K): (r: Option<V>)
    ensures r.None? <==> !HasKey(h, k)
    ensures r.Some? ==> (k, r.value) in h
  {
    if h == [] then None
    else
      KeysCons(h);
      if h[0].0 == k then Some(h[0].1) else Get(h[1..], k)
  }

  /** h[k] = v: replaces the value in place when k is present, else appends. */
  function Put<K(==,!new), V>(h: seq<(K, V)>, k: K, v: V): (r: seq<(K, V)>)
    ensures Keys(r) == if HasKey(h, k) then Keys(h) else Keys(h) + [k]
    ensures Get(r, k) == Some(v)
  {
    if h == [] then [(k, v)]
    else if h[0].0 == k then
      PutFront(h, k, v);
      [(k, v)] + h[1..]
    else
      var t := Put(h[1..], k, v);
      PutBehind(h, k, v, t);
      [h[0]] + t
  }

  /** Replacing the first pair keeps the keys and stores the value. */
  lemma PutFront<K(!new), V>(h: seq<(K, V)>, k: K, v: V)
    requires h != [] && h[0].0 == k
    ensures HasKey(h, k)
    ensures Keys([(k, v)] + h[1..]) == Keys(h)
    ensures Get([(k, v)] + h[1..], k) == Some(v)
  {
    KeysCons(h);
    var r := [(k, v)] + h[1..];
    KeysCons(r);
    assert r[1..] == h[1..];
  }

  /** Putting behind a first pair with another key keeps that pair in front. */
  lemma PutBehind<K(!new), V>(h: seq<(K, V)>, k: K, v: V, t: seq<(K, V)>)
    requires h != [] && h[0].0 != k
    requires Keys(t) == if HasKey(h[1..], k) then Keys(h[1..]) else Keys(h[1..]) + [k]
    requires Get(t, k) == Some(v)
    ensures Keys([h[0]] + t) == if HasKey(h, k) then Keys(h) else Keys(h) + [k]
    ensures Get([h[0]] + t, k) == Some(v)
  {
    KeysCons(h);
    var r := [h[0]] + t;
    KeysCons(r);
    assert r[1..] == t;
  }

  /** Put leaves every other key's value alone. */
  lemma {:induction false} PutGet<K(!new), V>(h: seq<(K, V)>, k: K, v: V, k': K)
    ensures Get(Put(h, k, v), k') == if k' == k then Some(v) else Get(h, k')
  {
    if h != [] && h[0].0 != k && k' != k {
      PutGet(h[1..], k, v, k');
      var r := Put(h, k, v);
      assert r[1..] == Put(h[1..], k, v);
    }
  }

  /** hash.delete(k). */
  function Remove<K(==,!new), V>(h: seq<(K, V)>, k: K): (r: seq<(K, V)>)
    ensures !HasKey(r, k)
    ensures forall k' :: k' != k ==> Get(r, k') == Get(h, k')
    ensures forall k' :: k' in Keys(r) ==> k' in Keys(h)
  {
    if h == [] then []
    else
      KeysCons(h);
      if h[0].0 == k then Remove(h[1..], k)
      else
        var t := Remove(h[1..], k);
        var r := [h[0]] + t;
        KeysCons(r);
        assert r[1..] == t;
        r
  }

  lemma {:induction false} RemoveKeepsUnique<K(!new), V>(h: seq<(K, V)>, k: K)
    requires UniqueKeys(h)
    ensures UniqueKeys(Remove(h, k))
  {
    if h != [] {
      KeysCons(h);
      assert forall i :: 0 <= i < |h| - 1 ==> Keys(h[1..])[i] == Keys(h)[i + 1];
      RemoveKeepsUnique(h[1..], k);
      var t := Remove(h[1..], k);
      if h[0].0 != k {
        var r := [h[0]] + t;
        KeysCons(r);
        assert r[1..] == t;
        forall j | 0 <= j < |h| - 1
          ensures Keys(h[1..])[j] != h[0].0
        {
          assert Keys(h)[0] != Keys(h)[j + 1];
        }
        assert h[0].0 !in Keys(t);
        NoDupCons(h[0].0, Keys(t));
      }
    }
  }

  lemma PutKeepsUnique<K(!new), V>(h: seq<(K, V)>, k: K, v: V)
    requires UniqueKeys(h)
    ensures UniqueKeys(Put(h, k, v))
  {
    if !HasKey(h, k) {
      var ks := Keys(h) + [k];
      forall i, j | 0 <= i < j < |ks|
        ensures ks[i] != ks[j]
      {
        if j == |ks| - 1 {
          assert ks[i] == Keys(h)[i];
        }
      }
    }
  }

  /** hash.values, in insertion order. */
  function Vals<K, V>(h: seq<(K, V)>): (vs: seq<V>)
    ensures |vs| == |h|
  {
    seq(|h|, i requires 0 <= i < |h| => h[i].1)
  }

  lemma NoDupCons<T>(x: T, s: seq<T>)
    requires x !in s && NoDup(s)
    ensures NoDup([x] + s)
  {
    var c := [x] + s;
    forall i, j | 0 <= i < j < |c|
      ensures c[i] != c[j]
    {
      if i > 0 {
        assert c[i] == s[i - 1] && c[j] == s[j - 1];
      } else {
        assert c[j] == s[j - 1];
      }
    }
  }

  /** A hash with unique keys, less its first entry: still unique, and without the first key. */
  lemma UniqueTail<K(!new), V>(h: seq<(K, V)>)
    requires h != [] && UniqueKeys(h)
    ensures UniqueKeys(h[1..]) && !HasKey(h[1..], h[0].0)
  {
    KeysCons(h);
    var t := Keys(h[1..]);
    forall i, j | 0 <= i < j < |t|
      ensures t[i] != t[j]
    {
      assert t[i] == Keys(h)[i + 1] && t[j] == Keys(h)[j + 1];
    }
    forall j | 0 <= j < |t|
      ensures t[j] != h[0].0
    {
      assert t[j] == Keys(h)[j + 1] && Keys(h)[0] == h[0].0;
    }
  }

  /** a.merge(b): b's entries override a's in a's order, new keys appended. */
  function Merge<K(==,!new), V>(a: seq<(K, V)>, b: seq<(K, V)>): seq<(K, V)>
    decreases |b|
  {
    if b == [] then a else Put(Merge(a, b[..|b| - 1]), b[|b| - 1].0, b[|b| - 1].1)
  }

  /** A hash with unique keys, less its last entry: still unique, and without the last key. */
  lemma UniqueInit<K(!new), V>(h: seq<(K, V)>)
    requires h != [] && UniqueKeys(h)
    ensures UniqueKeys(h[..|h| - 1]) && !HasKey(h[..|h| - 1], h[|h| - 1].0)
  {
    var init := h[..|h| - 1];
    var x := h[|h| - 1];
    assert h == init + [x];
    KeysAppend(init, [x]);
    assert Keys(h)[|h| - 1] == x.0;
    assert forall i :: 0 <= i < |init| ==> Keys(init)[i] == Keys(h)[i];
  }

  /** In a merge, a key of b takes b's value; any other key keeps a's. */
  lemma {:induction false} MergeGet<K(!new), V>(a: seq<(K, V)>, b: seq<(K, V)>, k: K)
    requires UniqueKeys(b)
    ensures Get(Merge(a, b), k) == if HasKey(b, k) then Get(b, k) else Get(a, k)
    decreases |b|
  {
    if b != [] {
      var b' := b[..|b| - 1];
      var x := b[|b| - 1];
      UniqueInit(b);
      assert b == b' + [x];
      MergeGet(a, b', k);
      PutGet(Merge(a, b'), x.0, x.1, k);
      GetAppend(b', x, k);
    }
  }

  lemma {:induction false} MergeKeepsUnique<K(!new), V>(a: seq<(K, V)>, b: seq<(K, V)>)
    requires UniqueKeys(a)
    ensures UniqueKeys(Merge(a, b))
    decreases |b|
  {
    if b != [] {
      MergeKeepsUnique(a, b[..|b| - 1]);
      PutKeepsUnique(Merge(a, b[..|b| - 1]), b[|b| - 1].0, b[|b| - 1].1);
    }
  }

  /** Storing under a new key appends the entry. */
  lemma {:induction false} PutAbsent<K(!new), V>(h: seq<(K, V)>, k: K, v: V)
    requires !HasKey(h, k)
    ensures Put(h, k, v) == h + [(k, v)]
  {
    if h != [] {
      var t := h[1..];
      KeysCons(h);
      assert h[0].0 != k && !HasKey(t, k);
      PutAbsent(t, k, v);
      calc {
        Put(h, k, v);
        [h[0]] + Put(t, k, v);
        [h[0]] + (t + [(k, v)]);
        { AppendAssoc([h[0]], t, [(k, v)]); }
        [h[0]] + t + [(k, v)];
        { assert [h[0]] + t == h; }
        h + [(k, v)];
      }
    }
  }

  /** Storing the value a key already has changes nothing. */
  lemma {:induction false} PutSame<K(!new), V>(h: seq<(K, V)>, k: K, v: V)
    requires Get(h, k) == Some(v)
    ensures Put(h, k, v) == h
  {
    if h[0].0 != k {
      PutSame(h[1..], k, v);
    }
  }

  /** With unique keys, every entry is what Get finds under its key. */
  lemma {:induction false} GetAt<K(!new), V>(h: seq<(K, V)>, i: nat)
    requires UniqueKeys(h) && i < |h|
    ensures Get(h, h[i].0) == Some(h[i].1)
  {
    KeysCons(h);
    if i > 0 {
      assert Keys(h)[0] != Keys(h)[i];
      assert forall j :: 0 <= j < |h| - 1 ==> Keys(h[1..])[j] == Keys(h)[j + 1];
      GetAt(h[1..], i - 1);
    }
  }

  /** A duplicate-free sequence has as many distinct members as elements. */
  lemma {:induction false} NoDupCard<T>(s: seq<T>)
    requires NoDup(s)
    ensures |set x | x in s| == |s|
  {
    if s != [] {
      var t := s[1..];
      assert NoDup(t) by {
        forall i, j | 0 <= i < j < |t| ensures t[i] != t[j] {
          assert t[i] == s[i + 1] && t[j] == s[j + 1];
        }
      }
      NoDupCard(t);
      assert s[0] !in t by {
        forall j | 0 <= j < |t| ensures t[j] != s[0] {
          assert t[j] == s[j + 1];
        }
      }
      assert (set x | x in s) == (set x | x in t) + {s[0]} by {
        assert s == [s[0]] + t;
      }
    }
  }

  lemma {:induction false} GetAppend<K(!new), V>(h: seq<(K, V)>, x: (K, V), k: K)
    ensures Get(h + [x], k) == if HasKey(h, k) then Get(h, k) else if k == x.0 then Some(x.1) else None
  {
    if h != [] {
      KeysCons(h);
      assert (h + [x])[1..] == h[1..] + [x];
      GetAppend(h[1..], x, k);
    }
  }

  // ---------------------------------------------------------------------
  // Sequences
  // ---------------------------------------------------------------------

  predicate NoDup<T(==)>(s: seq<T>) {
    forall i, j :: 0 <= i < j < |s| ==> s[i] != s[j]
  }

  /** Array#uniq: the first occurrence of every element, in order. */
  function Dedup(s: seq<string>): (r: seq<string>)
    ensures NoDup(r)
    ensures forall x :: x in r <==> x in s
    ensures |r| <= |s|
  {
    if s == [] then []
    else
      var d := Dedup(s[..|s| - 1]);
      assert forall x :: x in s <==> x in s[..|s| - 1] || x == s[|s| - 1];
      if s[|s| - 1] in d then d else d + [s[|s| - 1]]
  }

  lemma {:induction false} DedupOfNoDup(s: seq<string>)
    requires NoDup(s)
    ensures Dedup(s) == s
  {
    if s != [] {
      DedupOfNoDup(s[..|s| - 1]);
    }
  }

  lemma {:induction false} DedupAppend(s: seq<string>, t: seq<string>)
    ensures Dedup(s + t) == Dedup(Dedup(s) + t)
    decreases |t|
  {
    if t == [] {
      assert s + t == s;
      assert Dedup(s) + t == Dedup(s);
      DedupOfNoDup(Dedup(s));
    } else {
      var t' := t[..|t| - 1];
      assert (s + t)[..|s + t| - 1] == s + t';
      assert (Dedup(s) + t)[..|Dedup(s) + t| - 1] == Dedup(s) + t';
      DedupAppend(s, t');
    }
  }

  function Join(sep: string, parts: seq<string>): (r: string)
    ensures parts == [] ==> r == ""
    ensures |parts| == 1 ==> r == parts[0]
  {
    if parts == [] then ""
    else if |parts| == 1 then parts[0]
    else parts[0] + sep + Join(sep, parts[1..])
  }

  /** The texts f gives for the members of xs, concatenated in order. */
  function ConcatMap<T>(f: T -> string, xs: seq<T>): string {
    if xs == [] then "" else ConcatMap(f, xs[..|xs| - 1]) + f(xs[|xs| - 1])
  }

  lemma ConcatMapSnoc<T>(f: T -> string, xs: seq<T>, x: T)
    ensures ConcatMap(f, xs + [x]) == ConcatMap(f, xs) + f(x)
  {
    assert (xs + [x])[..|xs|] == xs;
  }

  /** One more member of a prefix adds its text at the end. */
  lemma ConcatMapPrefix<T>(f: T -> string, xs: seq<T>, i: nat)
    requires i < |xs|
    ensures ConcatMap(f, xs[..i + 1]) == ConcatMap(f, xs[..i]) + f(xs[i])
  {
    assert xs[..i + 1] == xs[..i] + [xs[i]];
    ConcatMapSnoc(f, xs[..i], xs[i]);
  }

  lemma TakeAll<T>(s: seq<T>)
    ensures s[..|s|] == s
  {
  }

  /** The suffix from i, seen as its head and the suffix from i + 1. */
  lemma DropOne<T>(s: seq<T>, i: nat)
    requires i < |s|
    ensures s[i..][0] == s[i] && s[i..][1..] == s[i + 1..]
  {
  }

  lemma {:induction false} ConcatMapAppend<T>(f: T -> string, xs: seq<T>, ys: seq<T>)
    ensures ConcatMap(f, xs + ys) == ConcatMap(f, xs) + ConcatMap(f, ys)
    decreases |ys|
  {
    if ys == [] {
      assert xs + ys == xs;
    } else {
      var init := ys[..|ys| - 1];
      var last := ys[|ys| - 1];
      assert ys == init + [last];
      assert xs + ys == (xs + init) + [last];
      ConcatMapSnoc(f, xs + init, last);
      ConcatMapAppend(f, xs, init);
      ConcatMapSnoc(f, init, last);
    }
  }

  /** Two maps that agree member by member give the same text. */
  lemma {:induction false} ConcatMapPointwise<S, T>(f: S -> string, xs: seq<S>, g: T -> string, ys: seq<T>)
    requires |xs| == |ys|
    requires forall i :: 0 <= i < |xs| ==> f(xs[i]) == g(ys[i])
    ensures ConcatMap(f, xs) == ConcatMap(g, ys)
    decreases |xs|
  {
    if xs != [] {
      ConcatMapPointwise(f, xs[..|xs| - 1], g, ys[..|ys| - 1]);
    }
  }

  /** What a loop has gathered so far, followed by what the rest gathers (or the exception it raises). */
  function Then<T>(done: seq<T>, rest: Result<seq<T>>): Result<seq<T>> {
    match rest
    case Err(e) => Err(e)
    case Ok(more) => Ok(done + more)
  }

  /** Concatenation is associative; stated for the proofs that need it spelt out. */
  lemma AppendAssoc<T>(a: seq<T>, b: seq<T>, c: seq<T>)
    ensures a + b + c == a + (b + c)
  {
  }

  /** Nothing gathered yet changes nothing. */
  lemma ThenEmpty<T>(rest: Result<seq<T>>)
    ensures Then([], rest) == rest
  {
    if rest.Ok? {
      assert [] + rest.value == rest.value;
    }
  }

  /** Gathering in two steps is gathering once. */
  lemma ThenThen<T>(a: seq<T>, b: seq<T>, rest: Result<seq<T>>)
    ensures Then(a, Then(b, rest)) == Then(a + b, rest)
  {
    if rest.Ok? {
      assert a + (b + rest.value) == a + b + rest.value;
    }
  }

  // ---------------------------------------------------------------------
  // Integers and their decimal text
  // ---------------------------------------------------------------------

  predicate IsDigit(c: char) { '0' <= c <= '9' }

  function DigitChar(d: nat): char
    requires d < 10
  {
    "0123456789"[d]
  }

  function NatToString(n: nat): (s: string)
    ensures |s| >= 1
    ensures forall i :: 0 <= i < |s| ==> IsDigit(s[i])
  {
    if n < 10 then [DigitChar(n)] else NatToString(n / 10) + [DigitChar(n % 10)]
  }

  /** Integer#to_s. */
  function IntToString(n: int): string {
    if n < 0 then "-" + NatToString(-n) else NatToString(n)
  }

  /**
   * The digits of the longest prefix of s made of decimal digits, a single
   * underscore between two digits continuing the run (the underscores are
   * dropped).
   */
  function LeadingDigits(s: string): (d: string)
    ensures |d| <= |s|
    ensures forall i :: 0 <= i < |d| ==> IsDigit(d[i])
    ensures d == [] <==> s == [] || !IsDigit(s[0])
  {
    if s == [] || !IsDigit(s[0]) then ""
    else if |s| >= 3 && s[1] == '_' && IsDigit(s[2]) then [s[0]] + LeadingDigits(s[2..])
    else [s[0]] + LeadingDigits(s[1..])
  }

  function DigitValue(c: char): (d: nat)
    requires IsDigit(c)
    ensures d < 10
  {
    (c as int) - ('0' as int)
  }

  function DigitsValue(d: string): nat
    requires forall i :: 0 <= i < |d| ==> IsDigit(d[i])
  {
    if d == [] then 0
    else DigitsValue(d[..|d| - 1]) * 10 + DigitValue(d[|d| - 1])
  }

  predicate IsSpace(c: char) {
    c == ' ' || c == '\t' || c == '\n' || c == '\r' || c == '\U{B}' || c == '\U{C}'
  }

  function DropSpaces(s: string): (t: string)
    ensures |t| <= |s|
  {
    if s != [] && IsSpace(s[0]) then DropSpaces(s[1..]) else s
  }

  /** The optional 0d or 0D prefix String#to_i accepts in base 10. */
  function DropDecimalPrefix(t: string): string {
    if |t| >= 2 && t[0] == '0' && (t[1] == 'd' || t[1] == 'D') then t[2..] else t
  }

  /**
   * String#to_i: leading white space, an optional sign, an optional 0d
   * prefix, then the longest run of digits, where a single underscore
   * may stand between two digits; 0 when there is no digit.
   */
  function StrToI(s: string): int {
    var t := DropSpaces(s);
    if |t| > 0 && t[0] == '-' then -(DigitsValue(LeadingDigits(DropDecimalPrefix(t[1..]))) as int)
    else if |t| > 0 && t[0] == '+' then DigitsValue(LeadingDigits(DropDecimalPrefix(t[1..])))
    else DigitsValue(LeadingDigits(DropDecimalPrefix(t)))
  }

  lemma DigitCharValue(d: nat)
    requires d < 10
    ensures IsDigit(DigitChar(d)) && DigitValue(DigitChar(d)) == d
  {
  }

  lemma {:induction false} NatToStringValue(n: nat)
    ensures DigitsValue(NatToString(n)) == n
  {
    var s := NatToString(n);
    DigitCharValue(n % 10);
    if n >= 10 {
      NatToStringValue(n / 10);
      assert s[..|s| - 1] == NatToString(n / 10) && s[|s| - 1] == DigitChar(n % 10);
      assert DigitsValue(s) == DigitsValue(NatToString(n / 10)) * 10 + n % 10;
    } else {
      assert s == [DigitChar(n)] && s[..0] == [];
    }
  }

  lemma LeadingDigitsAll(s: string)
    requires forall i :: 0 <= i < |s| ==> IsDigit(s[i])
    ensures LeadingDigits(s) == s
  {
  }

  /** to_s and to_i are inverse on integers. */
  lemma {:induction false} IntToStringRoundTrip(n: int)
    ensures StrToI(IntToString(n)) == n
  {
    var m: nat := if n < 0 then -n else n;
    var d := NatToString(m);
    NatToStringValue(m);
    LeadingDigitsAll(d);
    assert !IsSpace(d[0]);
    assert DropDecimalPrefix(d) == d;
    if n < 0 {
      var s := "-" + d;
      assert s[1..] == d;
      assert DropSpaces(s) == s;
    } else {
      assert DropSpaces(d) == d;
      assert d[0] != '-' && d[0] != '+';
    }
  }

  /** An underscore between two runs of digits is skipped and the runs join. */
  lemma {:induction false} LeadingDigitsJoin(a: string, b: string)
    requires a != [] && b != []
    requires forall i :: 0 <= i < |a| ==> IsDigit(a[i])
    requires forall i :: 0 <= i < |b| ==> IsDigit(b[i])
    ensures LeadingDigits(a + "_" + b) == a + b
    decreases |a|
  {
    var s := a + "_" + b;
    if |a| == 1 {
      assert s[1] == '_' && s[2] == b[0] && s[2..] == b;
      LeadingDigitsAll(b);
    } else {
      assert s[1] == a[1] && s[1..] == a[1..] + "_" + b;
      LeadingDigitsJoin(a[1..], b);
      assert a + b == [a[0]] + (a[1..] + b);
    }
  }

  /**
   * to_i reads digits split by single underscores as the digits joined:
   * "1_000".to_i is 1000.
   */
  lemma StrToIUnderscore(a: string, b: string)
    requires a != [] && b != []
    requires forall i :: 0 <= i < |a| ==> IsDigit(a[i])
    requires forall i :: 0 <= i < |b| ==> IsDigit(b[i])
    ensures StrToI(a + "_" + b) == StrToI(a + b) == DigitsValue(a + b)
  {
    var s := a + "_" + b;
    var j := a + b;
    assert s[0] == a[0] && j[0] == a[0];
    assert DropSpaces(s) == s && DropSpaces(j) == j;
    assert |a| >= 2 ==> s[1] == a[1] && j[1] == a[1];
    assert |a| == 1 ==> s[1] == '_' && j[1] == b[0];
    assert DropDecimalPrefix(s) == s && DropDecimalPrefix(j) == j;
    LeadingDigitsJoin(a, b);
    LeadingDigitsAll(j);
  }

  /** "1_0".to_i is 10, "1__0".to_i is 1 and "-0d12".to_i is -12. */
  lemma StrToIExamples()
    ensures StrToI("1_0") == 10
    ensures StrToI("1__0") == 1
    ensures StrToI("-0d12") == -12
  {
    StrToIUnderscore("1", "0");
    assert "1" + "_" + "0" == "1_0" && "1" + "0" == "10";
    DoubleUnderscoreStops();
    DecimalPrefixExample();
  }

  lemma DoubleUnderscoreStops()
    ensures StrToI("1__0") == 1
  {
    assert "1__0"[1..] == "__0";
    assert LeadingDigits("1__0") == "1";
  }

  lemma DecimalPrefixExample()
    ensures StrToI("-0d12") == -12
  {
    assert DropSpaces("-0d12") == "-0d12";
    assert "-0d12"[1..] == "0d12" && "0d12"[2..] == "12";
    assert DropDecimalPrefix("0d12") == "12";
    LeadingDigitsAll("12");
    assert "12"[..1] == "1" && "1"[..0] == "";
    assert DigitsValue("12") == 12;
  }

  // ---------------------------------------------------------------------
  // String#split with a one-character separator
  // ---------------------------------------------------------------------

  /** Every field between separators, empty ones included. */
  function Fields(s: string, sep: char): (r: seq<string>)
    ensures |r| >= 1
    ensures forall i :: 0 <= i < |r| ==> sep !in r[i]
  {
    if s == [] then [""]
    else
      var rest := Fields(s[1..], sep);
      if s[0] == sep then [""] + rest else [[s[0]] + rest[0]] + rest[1..]
  }

  function DropTrailingEmpty(r: seq<string>): (t: seq<string>)
    ensures |t| <= |r| && t == r[..|t|]
    ensures t != [] ==> t[|t| - 1] != ""
  {
    if r == [] then []
    else if r[|r| - 1] == "" then DropTrailingEmpty(r[..|r| - 1])
    else r
  }

  /** String#split(sep): trailing empty fields are dropped. */
  function Split(s: string, sep: char): seq<string> {
    DropTrailingEmpty(Fields(s, sep))
  }

  lemma {:induction false} FieldsJoin(a: string, b: string, sep: char)
    requires sep !in a
    ensures Fields(a + [sep] + b, sep) == [a] + Fields(b, sep)
  {
    if a == [] {
      assert a + [sep] + b == [sep] + b;
    } else {
      assert (a + [sep] + b)[1..] == a[1..] + [sep] + b;
      FieldsJoin(a[1..], b, sep);
      assert [a[0]] + a[1..] == a;
    }
  }

  lemma {:induction false} FieldsNoSep(a: string, sep: char)
    requires sep !in a
    ensures Fields(a, sep) == [a]
  {
    if a != [] {
      FieldsNoSep(a[1..], sep);
      assert [a[0]] + a[1..] == a;
    }
  }

  /** Splitting a join on its one-character separator gives the parts back. */
  lemma {:induction false} FieldsOfJoin(parts: seq<string>, sep: char)
    requires parts != []
    requires forall i :: 0 <= i < |parts| ==> sep !in parts[i]
    ensures Fields(Join([sep], parts), sep) == parts
  {
    if |parts| == 1 {
      FieldsNoSep(parts[0], sep);
    } else {
      FieldsOfJoin(parts[1..], sep);
      FieldsJoin(parts[0], Join([sep], parts[1..]), sep);
      assert [parts[0]] + parts[1..] == parts;
    }
  }

  // ---------------------------------------------------------------------
  // Ruby conversions
  // ---------------------------------------------------------------------

  predicate AllSpace(s: string) {
    forall i :: 0 <= i < |s| ==> IsSpace(s[i])
  }

  /** ActiveSupport's blank?: nil, false, white-space strings, empty collections. */
  predicate Blank(v: Value) {
    match v
    case Nil => true
    case Bool(b) => !b
    case Int(_) => false
    case Str(s) => AllSpace(s)
    case Sym(n) => n == ""
    case Time(_) => false
    case List(items) => items == []
    case Hash(entries) => entries == []
  }

  /** to_s.  Nested lists and hashes render their members with to_s. */
  function ToS(v: Value): string {
    match v
    case Nil => ""
    case Bool(b) => if b then "true" else "false"
    case Int(i) => IntToString(i)
    case Str(s) => s
    case Sym(n) => n
    case Time(iso) => iso
    case List(items) =>
      "[" + Join(", ", seq(|items|, k requires 0 <= k < |items| => ToS(items[k]))) + "]"
    case Hash(entries) =>
      "{" + Join(", ", seq(|entries|, k requires 0 <= k < |entries| => entries[k].0 + "=>" + ToS(entries[k].1))) + "}"
  }

  /** Kernel#Array. */
  function ArrayOf(v: Value): (r: seq<Value>)
    ensures v.List? ==> r == v.items
    ensures v.Nil? ==> r == []
    ensures !v.List? && !v.Nil? && !v.Hash? ==> r == [v]
  {
    match v
    case Nil => []
    case List(items) => items
    case Hash(entries) => seq(|entries|, k requires 0 <= k < |entries| => List([Str(entries[k].0), entries[k].1]))
    case _ => [v]
  }

  /** to_i as sent to a Ruby value; only strings, integers and nil have it here. */
  function ToI(v: Value): (r: Result<int>)
    ensures v.Int? ==> r == Ok(v.i)
    ensures v.Str? ==> r == Ok(StrToI(v.s))
  {
    match v
    case Nil => Ok(0)
    case Int(i) => Ok(i)
    case Str(s) => Ok(StrToI(s))
    case _ => Err(NoMethodError)
  }
}
